=== FILE: README.md ===
# shipwright, modelled in Dafny

shipwright builds the Docker images of one git repository in dependency
order. Each image is named after its directory. Its parent is the image
named by the first `FROM` line of its build file. Its ref is the short hash
of the newest commit touching the files it is built from, plus a `-dirty-`
digest when the working tree has uncommitted changes inside them.

A run does three things:

- it builds every selected image whose ref the daemon does not yet list,
  pinning the parent's `FROM` line to the parent's ref;
- it tags the images with the branch, the extra tags and the current ref;
- it pushes them, either directly or by aliasing manifests a registry
  already holds.

Every step yields JSON-like event records. The command line renders each
one as a line and exits with status 1 when any of them reported an error.

The repository holds two generations of this code: the older modules at
the top of `shipwright/` and the newer ones under `shipwright/_lib/`. Each
source file is one Dafny module:

- an `_lib/x.py` file is the module `LibX`;
- a top-level `x.py` file is the module `X`.

Where the two generations hold the same code, it is modelled once and the
older module imports it (`Zipper` from `LibZipper`, `Container` from
`LibImage`, `Docker` from `LibDocker`, `Lineage` for the parent walk they
share).

The model is organised as follows.

- **Python semantics the code relies on** live in support modules:
  - `Common`: Option, Result and the exceptions raised;
  - `Events`: records, and streams of records ended by an optional
    exception;
  - `Text`: `str` methods;
  - `Ordering`: `sorted` and `set`;
  - `PosixPath`: `os.path`;
  - `Fnmatch`: `fnmatch.fnmatch`.
- **A Python generator** is the finite list of what it yields, together
  with the exception that ended it, if any.
- **Git, the Docker daemon, the registry client, the JSON decoder and the
  digest** are oracles: fields of function type, or parameters.
- **Objects whose methods update their own state** are classes that
  compute the specification functions:
  - the pull memo and manifest cache of the cache strategies;
  - `memo`'s dictionary;
  - the `Shipwright` objects.
- **Loops over targets, tags and events** are methods with invariants, each
  proved equal to a function the lemmas are about.

The code has defects: helpers it calls that do not exist, a guard that
tests the wrong thing, a `None` it passes on (see "## Findings"). The
members on the call chains a defect reaches take a first parameter
`rd: Common.Reading`:

- `AsWritten` follows the code as it stands, crash included;
- `Intended` follows the evidently intended behaviour that the Findings
  table describes.

The classes fix their reading when they are constructed. Each row of the
table says which reading its contract covers: "both readings" means the
contract is proved for every value of `rd`, and "as written" or "as
intended" means it is proved for that reading alone. Members without `rd`
model code no defect reaches, and follow the code.

Where the code and its tests disagree, the model follows the code.
`tests/test_unhandled_record.py` expects the older `switch` to return text
for a push record carrying `aux`. The code returns the record itself, and
`Cli.SwitchEvents` states that.

## Model

| member | source | states |
|---|---|---|
| LibImage.Partition | shipwright/_lib/image.py:114 | `str.partition`: the three parts concatenate back to the input, and the middle part is the separator or, when absent, empty along with the tail |
| LibImage.PartitionAtStart | shipwright/_lib/image.py:114-115 | the partition finds `Dockerfile` with nothing before it exactly when the file name starts with `Dockerfile` |
| LibImage.Name | shipwright/_lib/image.py:91-120 | `name` fails with ValueError exactly when the base name does not start with `Dockerfile`; otherwise the directory's base name followed by the text after `Dockerfile` |
| LibImage.ImageName | shipwright/_lib/image.py:31-56 | a directory (relative to the root) present in the name map gives the mapped name twice; any other path gives `namespace/short` and `short`, failing exactly as `name` does |
| LibImage.BuildFilesComplete | shipwright/_lib/image.py:60-87 | every file of the walk whose name starts with `Dockerfile` is listed, joined to its directory |
| LibImage.BuildFilesSound | shipwright/_lib/image.py:84-87 | when file names hold no separator, every listed path's base name starts with `Dockerfile` |
| LibImage.BuildFilesHaveNames | shipwright/_lib/image.py:84-120 | every listed build file then has a valid `name` |
| LibImage.KeywordArgs | shipwright/_lib/image.py:123-140 | the substitution succeeds exactly when the line starts, after whitespace and ignoring case, with the keyword followed by whitespace; the result is then a proper suffix of the line |
| LibImage.AllButLast | shipwright/_lib/image.py:154 | `result[:-1]`: one element shorter (empty for empty input), agreeing position by position |
| LibImage.DropUrls | shipwright/_lib/image.py:158 | keeps exactly the paths that are not http, https or ftp URLs |
| LibImage.ParseCopyCases | shipwright/_lib/image.py:133-158 | a line that is neither COPY nor ADD has no sources; a COPY line's sources are its arguments but the last; an ADD line's are those minus URLs |
| LibImage.CopyOrAdd | shipwright/_lib/image.py:139-142 | no line is both a COPY and an ADD line |
| LibImage.NormJoinAll | shipwright/_lib/image.py:164-174 | each source joined to the build file's directory and normalised, in order |
| LibImage.SourcePaths | shipwright/_lib/image.py:171-174 | the loop over the lines yields exactly the normalised sources of every line, in order |
| LibImage.CopyPathsGen | shipwright/_lib/image.py:167-174 | `copy_paths_gen` yields the build file, its `.dockerignore`, then every normalised source |
| LibImage.CopyPaths | shipwright/_lib/image.py:161-176 | the frozenset holds exactly the generator's paths, without duplicates, and always the build file and its `.dockerignore` |
| LibImage.CopyPathsAbsolute | shipwright/_lib/image.py:161-176 | for an absolute build file path every dependency path is absolute |
| LibImage.ParentOfFirstFromLine | shipwright/_lib/image.py:179-190 | `parent` is None exactly when no stripped, lowercased line starts with `from`; otherwise the second token of the first such line, or IndexError when it has none |
| LibImage.Parent | shipwright/_lib/image.py:188-190 | the loop over the lines stops at the first `from` line and agrees with that specification |
| LibImage.ImageOfFields | shipwright/_lib/image.py:19-27 | an image is recorded exactly when its names and parent can be read (ValueError or IndexError otherwise), with its path, directory, names, parent and exactly its dependency files |
| LibImage.ReadImage | shipwright/_lib/image.py:19-27 | the loop body for one build file computes that image |
| LibImage.ImagesAt | shipwright/_lib/image.py:17-28 | one image per path, in order, or the error of the first path that fails |
| LibImage.ListImages | shipwright/_lib/image.py:16-28 | `list_images` over the build files of the walk: one image per build file, in walk order, or the first failure |
| Container.ContainerIsImage | shipwright/container.py:12-23 | both generations agree on every build file: they fail alike, and a container is the image without its dependency files |
| Container.ContainerOfFields | shipwright/container.py:86-129 | a container is recorded exactly when its names and parent can be read, with its path, directory, names and parent (also lines 15-22, 26-51) |
| Container.ReadContainer | shipwright/container.py:15-22 | the loop body reads the names, then the parent, and computes that container |
| Container.ContainersAt | shipwright/container.py:13-23 | one container per path, in order, or the error of the first path that fails |
| Container.ListContainers | shipwright/container.py:12-23 | `list_containers`: one container per build file, with `dir_path` the file's directory, or the first failure |
| Lineage.IndexBy | shipwright/_lib/source_control.py:173 | `{c.name: c for c in images}`: every key names its entry, every entry comes from the list, and every element's name is a key |
| Lineage.ChainLinks | shipwright/_lib/source_control.py:69-72 | the chain from a parent name is empty exactly when the name is missing from the index; otherwise each element is the index entry of its name, each one's parent names the next, and the last one's parent is missing from the index |
| Lineage.AncestryLinks | shipwright/_lib/source_control.py:69-72 | `_image_parents` yields the image first, then index entries, each the parent of the one before, stopping at the first parent name that is not indexed |
| Lineage.ParentAncestry | shipwright/_lib/source_control.py:69-72 | the chain of an image is the image followed by the chain of its parent |
| Lineage.ChainSeenMonotone | shipwright/_lib/source_control.py:69-72 | a chain that ends (acyclic) is the same whatever names were already seen |
| Lineage.Parents | shipwright/_lib/source_control.py:69-72 | the walking loop computes exactly that chain, or reports the cycle on which the source would not terminate |
| LibSourceControl.Hexsha | shipwright/_lib/source_control.py:75-79 | `_hexsha`: the first 12 characters of the commit sha (all of a shorter one), or twelve `g`s when there is no commit |
| LibSourceControl.CopyPathsOfElements | shipwright/_lib/source_control.py:178-180 | a path is in the union exactly when some image of the chain reads it |
| LibSourceControl.ScopeMeaning | shipwright/_lib/source_control.py:178-180 | `sorted(frozenset.union(...))`: sorted, without repeats, holding exactly the files the chain's images read |
| LibSourceControl.ParentScopeWithinChild | shipwright/_lib/source_control.py:178-180 | an image's scope contains its parent's scope and its own files |
| LibSourceControl.AsWrittenNeverGlobs | shipwright/_lib/source_control.py:97-111 | as written, a path is in the base paths exactly when it equals one or lies under one: the glob branch never runs |
| LibSourceControl.ReadingsAgreeOnPlainPaths | shipwright/_lib/source_control.py:97-111 | when no base path holds a wildcard, the code as written and the intended test agree on every path: the readings differ only on glob base paths |
| LibSourceControl.GlobBaseMissed | shipwright/_lib/source_control.py:103 | `/r/a.py` is not in the base `/r/*.py` as written, and is once the wildcard is looked for anywhere |
| LibSourceControl.PlainBaseIsPrefix | shipwright/_lib/source_control.py:103-109 | a base path without wildcards holds itself and exactly the paths under it |
| LibSourceControl.GlobBaseMatches | shipwright/_lib/source_control.py:109-110 | a base path with a wildcard holds exactly the paths that match it |
| LibSourceControl.Present | shipwright/_lib/source_control.py:89 | `if b` keeps at most every side, and all of them, in order, when every side is present |
| LibSourceControl.PresentMembers | shipwright/_lib/source_control.py:89 | a blob is kept exactly when it is one of the present sides |
| LibSourceControl.PresentAppend | shipwright/_lib/source_control.py:89 | filtering a concatenation filters each part, which with the one-side cases fixes the order |
| LibSourceControl.HashBlobs | shipwright/_lib/source_control.py:82-90 | `_hash_blobs` gives `(path, _hash_blob(b))` for each present side, in order, nothing for a missing side |
| LibSourceControl.ASides | shipwright/_lib/source_control.py:117 | the `a` side of every change, in order |
| LibSourceControl.BSides | shipwright/_lib/source_control.py:118 | the `b` side of every change, in order |
| LibSourceControl.UntrackedHashes | shipwright/_lib/source_control.py:120-121 | one pair per untracked file, in listing order: the path and `git hash-object` of that path |
| LibSourceControl.InScopeMembers | shipwright/_lib/source_control.py:124-126 | both readings: a pair is kept exactly when it is among the hashes and its path is in the base paths |
| LibSourceControl.InScope | shipwright/_lib/source_control.py:124-126 | both readings: keeps at most the pairs given, and none when there are no base paths (its order: InScopeAppend, InScopeOne) |
| LibSourceControl.InScopeAppend | shipwright/_lib/source_control.py:124-126 | both readings: filtering a concatenation filters each part, so the kept pairs keep the order and repeats of `hashes` that the digest is fed in |
| LibSourceControl.InScopeOne | shipwright/_lib/source_control.py:124-126 | both readings: a single pair is kept exactly when `_in_paths` accepts its path |
| LibSourceControl.Feed | shipwright/_lib/source_control.py:131-133 | the digest loop feeds every kept pair, path then NUL then hash, in order |
| LibSourceControl.DirtySuffixOf | shipwright/_lib/source_control.py:114-134 | both readings: the suffix is empty or `-dirty-` followed by 12 characters, and empty when there are no base paths |
| LibSourceControl.DirtySuffix | shipwright/_lib/source_control.py:114-134 | both readings: the method computes the dirty suffix of its specification |
| LibSourceControl.DirtySuffixShape | shipwright/_lib/source_control.py:128-134 | both readings: the suffix is empty exactly when no changed or untracked file lies in the base paths, and otherwise `-dirty-` followed by 12 hex digits |
| LibSourceControl.DirtySuffixIgnoresListingOrder | shipwright/_lib/source_control.py:123 | both readings: the suffix does not depend on the order git lists changes and untracked files in, since both runs are sorted |
| LibSourceControl.SuffixOnlyWhenDirty | shipwright/_lib/source_control.py:128-152 | both readings: a non-empty suffix implies `is_dirty` |
| LibSourceControl.DefaultTags | shipwright/_lib/source_control.py:154-160 | no tags on a detached HEAD, and the active branch otherwise |
| LibSourceControl.ThisRefStr | shipwright/_lib/source_control.py:162-163 | both readings: the HEAD sha's first 12 characters followed by the dirty suffix of the whole repository |
| LibSourceControl.GetMode | shipwright/_lib/source_control.py:188-192 | git mode exactly when the path holds a `.git` directory, else SourceControlNotFound |
| LibSourceControl.ScopesOfSome | shipwright/_lib/source_control.py:177-180 | every image has a scope exactly when every image's chain ends |
| LibSourceControl.ScopesOfAt | shipwright/_lib/source_control.py:177-180 | the scopes are the images' own scopes, position by position |
| LibSourceControl.NoScopesAfterCycle | shipwright/_lib/source_control.py:177-180 | once an image's chain loops, the whole computation never ends |
| LibSourceControl.RefShape | shipwright/_lib/source_control.py:181-182 | both readings: a ref starts with the hexsha of the last commit touching the scope, and is exactly that when no change lies in the scope |
| LibSourceControl.RefOf | shipwright/_lib/source_control.py:181-182 | both readings: the ref is the hexsha, alone or followed by a 19-character dirty suffix |
| LibSourceControl.TargetFor | shipwright/_lib/source_control.py:178-183 | both readings: one loop pass: the image's target with the ref of its scope, or no target when its chain loops |
| LibSourceControl.TargetsIn | shipwright/_lib/source_control.py:175-185 | both readings: the loop yields one target per image, in image order, with the ref of that image's scope |
| LibSourceControl.Targets | shipwright/_lib/source_control.py:165-185 | both readings: `targets`: defined exactly when every chain ends; one target per image, in order, each with its image and its scope's ref |
| SourceControl.Hexsha | shipwright/source_control.py:50-52 | `_hexsha`: None for no commit, else a prefix of the sha of at most 12 characters, exactly 12 for a long sha |
| SourceControl.HexshaGenerations | shipwright/source_control.py:50-52 | agrees with the newer `_hexsha` on a commit; with none the older gives None where the newer gives twelve `g`s |
| SourceControl.DefaultTags | shipwright/source_control.py:62-64 | always `[active branch]`; on a detached HEAD reading the branch raises TypeError |
| SourceControl.ThisRefStr | shipwright/source_control.py:66-67 | the HEAD sha's first 12 characters, with no dirty suffix |
| SourceControl.DirsOf | shipwright/source_control.py:82 | the directory of every container of the chain, in order |
| SourceControl.ParentDirsFollow | shipwright/source_control.py:44-82 | a container's scope is its own directory followed by its parent's scope |
| SourceControl.Targets | shipwright/source_control.py:69-86 | `targets`: defined exactly when every chain ends; one target per container, in order, with the ref of its directory chain |
| LibDocker.AfterFirst | shipwright/_lib/docker.py:11 | `split(':', 1)[1]`: defined exactly when the separator occurs, and then the text after its first occurrence |
| LibDocker.KeyFromImageName | shipwright/_lib/docker.py:6-11 | the text after the first `:`, or IndexError when the name has none |
| LibDocker.NamedTagKey | shipwright/_lib/docker.py:6-11 | the key of `name:tag` is the tag (doctest `shipwright/blah:1234` gives `1234`) |
| LibDocker.KeyAfterFirstColon | shipwright/_lib/docker.py:11 | whatever follows the first colon is returned, later colons included |
| LibDocker.PortNameKey | shipwright/_lib/docker.py:6-11 | for a `host:port/...` name the key starts with the port |
| LibDocker.KeysOf | shipwright/_lib/docker.py:23 | the list comprehension succeeds exactly when every tag has a colon, and then gives each tag's key, in order |
| LibDocker.KeyFromImageInfo | shipwright/_lib/docker.py:14-23 | the keys of the listed `RepoTags`; a missing `RepoTags` raises TypeError |
| LibDocker.BuiltTagsFails | shipwright/_lib/docker.py:26-34 | the scan fails, with IndexError, exactly when some listed tag has no colon |
| LibDocker.ImageKeys | shipwright/_lib/docker.py:14-23 | an image's keys are exactly the keys of its tags |
| LibDocker.BuiltTagsKeys | shipwright/_lib/docker.py:26-34 | `last_built_from_docker` is the set of keys over all listed images, skipping images whose `RepoTags` is None |
| LibDocker.BuiltTagsErrSticks | shipwright/_lib/docker.py:29-33 | once an image fails, the whole scan fails the same way |
| LibDocker.AddKeys | shipwright/_lib/docker.py:32-33 | the inner loop adds every key of the image to the set |
| LibDocker.LastBuiltFromDocker | shipwright/_lib/docker.py:26-34 | the loop over the daemon's listing computes that set |
| LibDocker.EncodeTag | shipwright/_lib/docker.py:37-38 | every `/` replaced with `-`, every other character kept, so no `/` is left |
| LibDocker.EncodeTagIdempotent | shipwright/_lib/docker.py:37-38 | encoding an encoded tag changes nothing |
| LibDocker.EncodeTagKeepsPlain | shipwright/_lib/docker.py:37-38 | a tag without `/` is its own encoding |
| LibDocker.TagEvent | shipwright/_lib/docker.py:41-65 | the tag record names the old image `name:ref`, the repository and the encoded tag; `error` and `errorDetail.message` are added exactly when the daemon reports NotFound |
| LibDocker.TagImage | shipwright/_lib/docker.py:41-65 | `tag_image` returns that record |
| Docker.FlatKeysFails | shipwright/docker.py:24-26 | the flattened listing succeeds exactly when every image has `RepoTags` and every tag a colon; with colons everywhere, a missing `RepoTags` raises TypeError |
| Docker.FlatKeysSnoc | shipwright/docker.py:26 | one more image appends its keys, in order |
| Docker.FlatKeysAppend | shipwright/docker.py:26 | the keys of two listings are the keys of the first followed by those of the second |
| Docker.FlatKeysAgreeWithBuiltTags | shipwright/docker.py:24-26 | where the older list is defined, it holds exactly the keys of the newer set, duplicates aside |
| Docker.LastBuiltFromDocker | shipwright/docker.py:24-26 | the older `last_built_from_docker`: a flat list of keys, duplicates kept, with no check for a missing `RepoTags` |
| Docker.TagsFromContainers | shipwright/docker.py:29-30 | one key list per container, in container order, or the first container's failure |
| Docker.TagRecord | shipwright/docker.py:39-47 | the tag event names the container, the image `name:last_built_ref` and the encoded new ref |
| Docker.TagContainers | shipwright/docker.py:37-47 | one tag event per container, in order, until the daemon's `tag` raises, which ends the generator with that error |
| Tar.ImageRefShape | shipwright/tar.py:165 | an image the pattern accepts is non-empty, made of name characters, colons and separators, contains a `/`, and has no colon after its first separator |
| Tar.NoSlashNoImageRef | shipwright/tar.py:165 | an image without `/` (an official image such as `ubuntu`) is never matched |
| Tar.TaggedNoImageRef | shipwright/tar.py:165 | an image already carrying a tag or digest after its repository is never matched |
| Tar.ParseFrom | shipwright/tar.py:164-169 | a matched line splits into the `from` prefix, an image the pattern accepts, and trailing whitespace only |
| Tar.ImageRefNoSpace | shipwright/tar.py:165 | a matched image holds no whitespace |
| Tar.ParseFromAt | shipwright/tar.py:165 | a line of the shape whitespace, `from` in any case, whitespace, image, whitespace is matched with exactly those parts |
| Tar.ParseFromMatches | shipwright/tar.py:165-168 | the line parser accepts exactly the lines the multiline, case-insensitive pattern matches |
| Tar.RewriteLine | shipwright/tar.py:164-169 | an unmatched line is kept; a matched line gets `:tag` inserted right after the image, keeping the keyword's case and the spacing; the tag is inserted verbatim (see Left out) |
| Tar.RewriteLineIdempotent | shipwright/tar.py:164-169 | rewriting a rewritten line changes nothing |
| Tar.PinnedParts | shipwright/tar.py:164-169 | the rewritten line keeps the `from` prefix and the image and puts `:` right after it |
| Tar.PinnedLineNoMatch | shipwright/tar.py:165 | a pinned line no longer matches the pattern |
| Tar.TagParent | shipwright/tar.py:109-171 | `tag_parent` raises TypeError exactly when the tag is None, because it is concatenated into the replacement; otherwise every line is rewritten with the tag inserted verbatim (see Left out) |
| Tar.TagParentOrKeep | shipwright/tar.py:109-171 | the intended rewrite: a missing tag leaves the build file unchanged, a present one is `tag_parent` |
| Tar.MkContext | shipwright/tar.py:175-188 | `mkcontext` fails exactly when the tag is None, and otherwise carries the build file rewritten with the tag, inserted verbatim (see Left out) |
| Tar.NothingToPin | shipwright/tar.py:164-169 | a build file with no matching line is returned unchanged |
| Tar.PinsEveryLine | shipwright/tar.py:164-169 | the substitution works line by line: the same number of lines, each rewritten on its own |
| Tar.TagParentIdempotent | shipwright/tar.py:109-171 | pinning an already pinned build file changes nothing |
| Tar.RepoOf | shipwright/tar.py:165 | `namespace/name` of two name runs is a repository the pattern accepts |
| Tar.HostOf | shipwright/tar.py:165 | `host:port` with a decimal port is a registry host the pattern accepts |
| Tar.RegistryRefOf | shipwright/tar.py:165 | a host followed by `/` and a repository is an image the pattern accepts |
| Tar.PinsPlainLine | shipwright/tar.py:164-169 | `from image` with one space gets `:tag` appended at the end |
| Tar.MixedCaseKeyword | shipwright/tar.py:168 | `FroM` is the keyword under case-insensitive matching |
| Tar.PinsNamespacedImage | shipwright/tar.py:120-133 | doctest: `FroM somerepo/image` becomes `FroM somerepo/image:blah` |
| Tar.PinsRegistryImage | shipwright/tar.py:135-147 | doctest: `FroM localhost:5000/somerepo/image` gets the tag appended |
| Tar.PinsDottedRegistryImage | shipwright/tar.py:149-161 | doctest: `FroM docker.example.com:5000/somerepo/image` gets the tag appended |
| Tar.ParsedHasSlash | shipwright/tar.py:165 | every matched line contains a `/` |
| Tar.KeepsOfficialImage | shipwright/tar.py:164-169 | a line without `/`, such as `FROM ubuntu`, is left alone |
| LibZipper.Zipper | shipwright/_lib/zipper.py:8-9 | `zipper(root)` focuses the root with no path |
| LibZipper.Children | shipwright/_lib/zipper.py:23-25 | `children` is defined exactly on a branch |
| LibZipper.Down | shipwright/_lib/zipper.py:33-46 | defined exactly on a branch with children; focuses the first child with `l=()`, the remaining children as `r`, the node as parent, the old path as `ppath`, and `changed` false |
| LibZipper.Up | shipwright/_lib/zipper.py:48-59 | defined exactly below the top; one level shallower; an edited path rebuilds the parent from `l + (current,) + r`, an unedited one restores the stored parent and its path |
| LibZipper.UpDown | shipwright/_lib/zipper.py:33-59 | going down and then up returns the original location |
| LibZipper.UpAfterReplace | shipwright/_lib/zipper.py:48-59 | after a replacement, `up` rebuilds the parent with the new node among its siblings and marks the path above changed (also lines 154-161) |
| LibZipper.TopOf | shipwright/_lib/zipper.py:61-65 | `top` always ends with no path |
| LibZipper.Top | shipwright/_lib/zipper.py:61-65 | the loop of `top` computes that location |
| LibZipper.TopOfUnedited | shipwright/_lib/zipper.py:61-65 | on an unedited zipper `top` gives back the original root |
| LibZipper.Right | shipwright/_lib/zipper.py:67-74 | defined exactly when there is a right sibling; moves one place right keeping `l + (current,) + r`, the parent and the changed flag |
| LibZipper.RightFrame | shipwright/_lib/zipper.py:67-74 | the right sibling is `r[0]`, with the old node appended to `l` |
| LibZipper.Rightmost | shipwright/_lib/zipper.py:87-101 | at the top, the location itself; below it, the last sibling with `r=()` and the same siblings |
| LibZipper.LeftmostDescendantOf | shipwright/_lib/zipper.py:76-85 | ends at a node without children |
| LibZipper.LeftmostDescendant | shipwright/_lib/zipper.py:76-85 | the loop computes that location |
| LibZipper.RightmostDescendantOf | shipwright/_lib/zipper.py:103-111 | ends at a node without children |
| LibZipper.RightmostDescendant | shipwright/_lib/zipper.py:103-111 | the loop computes that location |
| LibZipper.RightmostDescendantIsLastLeaf | shipwright/_lib/zipper.py:103-111 | the rightmost descendant holds the last leaf of the node |
| LibZipper.TopOfRightmostDescendant | shipwright/_lib/zipper.py:103-111 | descending leaves the tree seen from the top unchanged |
| LibZipper.PostorderNext | shipwright/_lib/zipper.py:113-139 | defined exactly below the top, and each step leaves fewer nodes to visit |
| LibZipper.LeftmostDescendantAfter | shipwright/_lib/zipper.py:113-139 | the leftmost descendant, followed by what comes after it, is the node's postorder followed by what comes after the node (also lines 76-85) |
| LibZipper.PostorderNextAfter | shipwright/_lib/zipper.py:113-139 | one step of `postorder_next` yields the next node of the postorder walk of the unedited tree |
| LibZipper.PostorderFromVisits | shipwright/_lib/zipper.py:163-171 | stepping until the top yields the location's node, then every node after it in postorder |
| LibZipper.PostorderWalkFromRoot | shipwright/_lib/zipper.py:113-139 | from the leftmost descendant of the root the walk is the whole postorder (c, d, b, f, g, e, a in the docstring's tree), ending at the root (also lines 163-171) |
| LibZipper.FirstMatch | shipwright/_lib/zipper.py:163-171 | the first location of the walk that passes the test, or None when none does |
| LibZipper.Find | shipwright/_lib/zipper.py:163-171 | `find` tests locations in postorder from the leftmost descendant and returns the first match |
| LibZipper.Replace | shipwright/_lib/zipper.py:154-161 | the focus becomes the value; below the top the path is marked changed, at the top it is kept |
| LibZipper.Edit | shipwright/_lib/zipper.py:141-143 | the focus becomes `f(node)` |
| LibZipper.Insert | shipwright/_lib/zipper.py:145-152 | defined exactly on a branch; the item becomes the first child and focus stays |
| LibZipper.InsertThenDown | shipwright/_lib/zipper.py:145-152 | after an insert, `down` reaches the item, with the old children to its right |
| LibZipper.Remove | shipwright/_lib/zipper.py:173-208 | raises IndexError exactly at the top |
| LibZipper.RemoveReturnsPredecessor | shipwright/_lib/zipper.py:173-208 | with no left sibling, the focus is the parent rebuilt from the right siblings; otherwise it is the last leaf of the previous sibling (removing c gives b, removing d gives c2) |
| LibZipper.RemoveDeletesFocus | shipwright/_lib/zipper.py:173-208 | the tree seen from the top is the old one with the focused subtree removed |
| LibZipper.NavigationKeepsTree | shipwright/_lib/zipper.py:33-74 | `down`, `right` and `up` on an unedited zipper keep it unedited and over the same tree |
| LibZipper.UneditedZipper | shipwright/_lib/zipper.py:8-9 | a fresh zipper is unedited and holds its root |
| Zipper.FromToTree | shipwright/zipper.py:18-25 | `zipper.list(root)` walks the nested value losslessly: reading its tree back gives the value |
| Zipper.ToTreeFromTree | shipwright/zipper.py:18-25 | every tree that reads back as a nested value is that value's tree |
| Zipper.Root | shipwright/zipper.py:60-61 | `root` of an unedited zipper is the original tree |
| Zipper.TopOfUnedited | shipwright/zipper.py:93-97 | `top` of an unedited zipper holds the original tree |
| Zipper.Left | shipwright/zipper.py:118-125 | defined exactly when there is a left sibling; moves one place left keeping `l + (current,) + r`, the parent and the changed flag |
| Zipper.LeftRight | shipwright/zipper.py:118-125 | `right` then `left`, and `left` then `right`, return the original location (also lines 162-169) |
| Zipper.Leftmost | shipwright/zipper.py:127-142 | at the top, the location itself; below it, the first sibling with `l=()` and the same siblings |
| Zipper.Ancestors | shipwright/zipper.py:111-116 | the locations `up` passes through, one per level |
| Zipper.AncestorsOfUnedited | shipwright/zipper.py:111-116 | on an unedited zipper every ancestor is over the same tree, and the last one is the root |
| Zipper.Ancestor | shipwright/zipper.py:99-116 | `ancestor(filter)` is the nearest proper ancestor passing the filter, or None when none does |
| Zipper.MovesToFrame | shipwright/zipper.py:197-205 | the moves to a location are the moves to its parent, a `d`, then one `r` per left sibling |
| Zipper.ReplayConcat | shipwright/zipper.py:207-212 | replaying two runs of moves is replaying the first, then the second from where it ends |
| Zipper.ReplayRights | shipwright/zipper.py:207-212 | `k` right moves reach the sibling `k` places to the right with the siblings split around it |
| Zipper.DownThenRights | shipwright/zipper.py:207-212 | from the parent, `d` and one `r` per left sibling reach the location |
| Zipper.ReplayReachesDest | shipwright/zipper.py:193-214 | from the root, replaying a location's moves reaches that location |
| Zipper.MoveTo | shipwright/zipper.py:193-214 | `move_to` replays the destination's moves from `top` |
| Zipper.MoveToSameTree | shipwright/zipper.py:193-214 | on the same unedited tree `move_to(dest)` returns `dest` |
| Zipper.PreorderNextOf | shipwright/zipper.py:230-265 | each step of `preorder_next` leaves fewer steps to take, so the walk ends |
| Zipper.PreorderNext | shipwright/zipper.py:230-265 | the method, with its climbing loop, computes that step |
| Zipper.ClimbOwes | shipwright/zipper.py:256-265 | climbing reaches the next right sibling still owed, or the root marked ended once nothing is owed |
| Zipper.PreorderNextOwes | shipwright/zipper.py:230-265 | one step yields the next node still owed by the preorder walk |
| Zipper.PreorderFromOwed | shipwright/zipper.py:223-228 | `preorder_iter` yields exactly the nodes still owed |
| Zipper.PreorderIterFromRoot | shipwright/zipper.py:223-265 | from the root the walk is b, c, d, e, f, g (every node after the root in preorder), then the root with `path=()`; a tree without children yields nothing |
| Zipper.PreorderIter | shipwright/zipper.py:223-228 | the generator's loop yields that walk |
| Zipper.PostorderIter | shipwright/zipper.py:296-301 | `postorder_iter` starts at the leftmost descendant and steps with `postorder_next` until the root |
| Zipper.Append | shipwright/zipper.py:305-312 | defined exactly on a branch; the item becomes the last child and focus stays |
| Zipper.InsertLeft | shipwright/zipper.py:328-335 | IndexError exactly at the top; otherwise the item is appended to `l`, the path marked changed, focus kept |
| Zipper.InsertRight | shipwright/zipper.py:338-345 | IndexError exactly at the top; otherwise the item is put at the front of `r`, the path marked changed, focus kept |
| Zipper.InsertRightThenRight | shipwright/zipper.py:338-345 | after `insert_right`, `right` reaches the item and `left` comes back (also lines 162-169) |
| Dependencies.NameIndexLastWins | shipwright/dependencies.py:88 | `container_map` holds exactly the names of the targets, each mapped to the last target of that name |
| Dependencies.FiledMembers | shipwright/dependencies.py:92-93 | a target is filed under a key exactly when it is a target whose parent lookup gives that key |
| Dependencies.FiledSnoc | shipwright/dependencies.py:92-93 | one more target is appended under its own parent key and changes no other list |
| Dependencies.ParentKeysSnoc | shipwright/dependencies.py:92-93 | one more target adds its parent key to the graph's keys |
| Dependencies.FileOne | shipwright/dependencies.py:93 | one pass of the filing loop keeps the graph equal to the filing of the targets seen so far |
| Dependencies.FileTargets | shipwright/dependencies.py:92-93 | the filing loop yields one entry per parent key, holding the targets filed under it, in list order |
| Dependencies.NameLeIsTotalPreorder | shipwright/dependencies.py:97 | comparing siblings by name is a total preorder, so sorting is well defined |
| Dependencies.SortEntries | shipwright/dependencies.py:96-97 | the sorting loop keeps the keys and sorts every entry |
| Dependencies.FiledUnderParent | shipwright/dependencies.py:92-97 | a node's children are exactly the targets whose parent names it (the root `None` for unknown parents), sorting being a permutation |
| Dependencies.ChildrenSorted | shipwright/dependencies.py:96-97 | siblings come out in name order |
| Dependencies.GraphOfExt | shipwright/dependencies.py:89-97 | a graph with those keys and entries is the graph of the targets |
| Dependencies.MakeGraph | shipwright/dependencies.py:88-97 | both loops of `make_tree` build exactly that graph |
| Dependencies.KidsInGraph | shipwright/dependencies.py:99-103 | reading the `defaultdict` gives a node's filed, sorted children, and no children for a node without an entry |
| Dependencies.UnfoldNodesIn | shipwright/dependencies.py:99-106 | an unfolded node holds its item, and its children hold the item's entries in order |
| Dependencies.UnfoldNodes | shipwright/dependencies.py:51-110 | below the root every node is a target, and its children are its filed targets in name order |
| Dependencies.RootChainNoDuplicates | shipwright/dependencies.py:91-93 | each target is filed under exactly the node its parent names, so a path down from the `None` root never meets a target twice and is no longer than the target list |
| Dependencies.UnfoldFuelSuffices | shipwright/dependencies.py:99-110 | below a path from the root, any fuel above the number of targets left unfolds the same tree |
| Dependencies.TreeOfEnoughFuel | shipwright/dependencies.py:99-110 | unfolding `make_tree`'s lazy children to depth `len(containers) + 1` already reaches every node; more depth changes nothing |
| Dependencies.MakeTree | shipwright/dependencies.py:51-110 | `make_tree` returns the zipper at the `None` root of that tree |
| Dependencies.EnqueueChildren | shipwright/dependencies.py:137-140 | the inner loop appends the node's children, in order, to the queue |
| Dependencies.BreadthFirstUnfold | shipwright/dependencies.py:131-140 | one round yields the head and queues its children unless the consumer answers to skip them; the queue shrinks |
| Dependencies.IterStep | shipwright/dependencies.py:132-140 | one round keeps what is yielded followed by what is left equal to the whole walk |
| Dependencies.BreadthFirstIter | shipwright/dependencies.py:113-140 | the generator yields exactly the breadth-first walk of its specification |
| Dependencies.BreadthFirstStart | shipwright/dependencies.py:113-140 | the walk yields its start first and then, unless skipped, the start's children in order (the doctest's `None`, then 1 and independent) |
| Dependencies.BreadthFirstPrefix | shipwright/dependencies.py:131-140 | a queue is yielded in order before anything it queues, which makes the walk level by level |
| Dependencies.BreadthFirstReaches | shipwright/dependencies.py:131-140 | the walk yields exactly the subtrees reachable without passing below a skipped one |
| Dependencies.BreadthFirstCount | shipwright/dependencies.py:131-140 | without skips the walk yields every node once: as many locations as nodes |
| Dependencies.CommittedMembers | shipwright/dependencies.py:30-34 | the inner walk keeps exactly the targets with a `current_rel` |
| Dependencies.AppendCommitted | shipwright/dependencies.py:30-34 | the inner loop appends those targets, in walk order |
| Dependencies.Plan | shipwright/dependencies.py:22-42 | the main loop computes the skip and needs lists of the walk it drives |
| Dependencies.NeedsBuilding | shipwright/dependencies.py:10-44 | `needs_building` computes its specification |
| Dependencies.SkipListMeaning | shipwright/dependencies.py:36-38 | `skip` holds exactly the unchanged visited targets that were built before |
| Dependencies.NeedsCoverSubtree | shipwright/dependencies.py:26-34 | every committed target below a changed one is in `needs` |
| Dependencies.NeedsComeFromChanged | shipwright/dependencies.py:26-34 | every target in `needs` is committed and lies below a changed target |
| Dependencies.VisitsReach | shipwright/dependencies.py:14-42 | the outer walk visits exactly the nodes not below a changed target, plus the changed ones |
| Dependencies.NoRootChildFails | shipwright/dependencies.py:14-16 | `needs_building` raises StopIteration exactly when the root has no children, in particular for no targets |
| LibCache.PullMissingImage | shipwright/_lib/cache.py:13-18 | for an image the registry lacks, the code as written raises AttributeError, while the intended pull ends normally with the daemon's records followed by an error record |
| LibCache.PullAsWritten | shipwright/_lib/cache.py:13-18 | as written: the daemon's records unchanged, raising exactly when the daemon's pull raises, and never with NotFound, which becomes AttributeError |
| LibCache.PullIntended | shipwright/_lib/cache.py:13-18 | as intended: the daemon's records come first; a pull that raises is the daemon's own, and never NotFound |
| LibCache.Pull | shipwright/_lib/cache.py:13-18 | both readings: apart from NotFound, the daemon's pull; a NotFound becomes AttributeError as written, and an appended error record ending normally as intended |
| LibCache.PullPassesThrough | shipwright/_lib/cache.py:13-18 | apart from a missing image, `pull` yields exactly what the daemon sends |
| LibCache.Rekey | shipwright/_lib/cache.py:122-125 | an `error` key is moved to `warn`, every other key kept; a record without `error` is unchanged |
| LibCache.PullMemo | shipwright/_lib/cache.py:104-132 | both readings: a pair already in the memo yields nothing and leaves the memo unchanged, and no yielded record has an `error` key |
| LibCache.PullMemoMissingImage | shipwright/_lib/cache.py:104-132 | an image the registry lacks: as written the memoised pull raises AttributeError and records nothing; as intended it raises PullFailedException and records the pair as failed (also lines 13-18) |
| LibCache.PullMemoRemembers | shipwright/_lib/cache.py:104-110 | both readings: a pair already tried is not pulled again: no records, no change to the memo, and PullFailedException exactly when it was recorded as failed |
| LibCache.PullMemoOutcome | shipwright/_lib/cache.py:104-132 | both readings: a first pull yields no `error` key; it raises PullFailedException exactly when some record had an error, and records the pair as failed or pulled accordingly; a daemon exception passes through and records nothing |
| LibCache.PullMemoGrows | shipwright/_lib/cache.py:104-132 | both readings: a pull only adds its own pair to the memo |
| LibCache.PullMemoTwice | shipwright/_lib/cache.py:104-110 | both readings: pulling a pair a second time yields nothing and ends as the first pull did |
| LibCache.Cache.PullImage | shipwright/_lib/cache.py:104-132 | whichever reading the object was built with: `_pull` updates the memo as its specification says and leaves the manifest cache alone |
| LibCache.ManifestLookup | shipwright/_lib/cache.py:151-162 | both readings: a cached key is answered from the cache with no change; a found manifest is cached under its key; otherwise the cache is unchanged |
| LibCache.ManifestLookupCaches | shipwright/_lib/cache.py:151-162 | both readings: `_get_manifest` answers from the cache when it can, and caches exactly the manifests it fetched; a cached answer is not asked again |
| LibCache.ManifestLookupAsks | shipwright/_lib/cache.py:151-162 | both readings: an uncached pair is asked of the registry; an HTTP error gives None, any other error is raised |
| LibCache.Cache.GetManifest | shipwright/_lib/cache.py:151-162 | whichever reading the object was built with: the method updates the manifest cache as specified and leaves the pull memo alone |
| LibCache.StoreMissingManifest | shipwright/_lib/cache.py:164-169 | with no manifest, the code as written raises AttributeError, while the intended store yields one error record |
| LibCache.StoreManifestAsWritten | shipwright/_lib/cache.py:164-176 | as written: a store that ends normally yields one empty record and had a manifest; a missing manifest raises AttributeError |
| LibCache.StoreManifestIntended | shipwright/_lib/cache.py:164-176 | as intended: one record when the store ends normally; a store that raises yields nothing, had a manifest and did not fail with an HTTP error; a missing manifest ends normally with an error record |
| LibCache.StoreManifest | shipwright/_lib/cache.py:164-176 | both readings: a manifest the registry accepts yields one empty record |
| LibCache.StoreManifestOutcome | shipwright/_lib/cache.py:164-176 | both readings: a store that ends normally yields one record, empty exactly when a manifest exists and the registry accepts it; as intended only a non-HTTP error escapes, as written a missing manifest or any refused store raises |
| LibCache.PullCacheHit | shipwright/_lib/cache.py:136-142 | both readings: `_pull_cache` never hits for NoCache; a Cache hit leaves the image recorded as pulled, a DirectRegistry hit leaves its manifest cached (also lines 37-39, 178-183) |
| LibCache.PullCacheMisses | shipwright/_lib/cache.py:136-142 | both readings: a failed pull becomes CacheMissException |
| LibCache.PullCacheSpec | shipwright/_lib/cache.py:136-142 | both readings: NoCache always misses and keeps the state; Cache never raises PullFailedException and keeps the manifest cache; DirectRegistry yields nothing and keeps the pull memo (also lines 37-39, 178-183) |
| LibCache.Cache.PullCache | shipwright/_lib/cache.py:136-142 | whichever reading the object was built with: the method of each strategy computes its specification (also lines 37-39, 178-183) |
| LibCache.BuildHitSkipsDaemon | shipwright/_lib/cache.py:73-79 | both readings: a cache hit ends `build` with the pull's records, without consulting the daemon's build |
| LibCache.BuildLeavesImageAvailable | shipwright/_lib/cache.py:68-102 | both readings: after a build that ends normally the image is recorded as pulled, or its manifest is cached |
| LibCache.BuildDespiteFailedParent | shipwright/_lib/cache.py:81-100 | both readings: a parent whose pull fails is still followed by the build: cache records, parent records, then the build's records |
| LibCache.BuildSpec | shipwright/_lib/cache.py:68-102 | both readings: anything but a cache miss is the lookup's result, and the manifest cache is the one the lookup left |
| LibCache.BuildWithMissingParent | shipwright/_lib/cache.py:81-100 | a parent image the registry lacks: as written the build raises AttributeError; as intended it yields the lookup's records, the parent pull's and the build's, ending as the build does |
| LibCache.PullCacheKeeps | shipwright/_lib/cache.py:104-142 | both readings: the cache lookup never drops or changes an entry of the memo or the manifest cache (also lines 37-39, 151-162) |
| LibCache.BuildState | shipwright/_lib/cache.py:68-102 | both readings: a build's state is the state after the cache lookup, after the parent pull, or that with the image recorded as pulled |
| LibCache.BuildKeepsOtherEntries | shipwright/_lib/cache.py:68-102 | both readings: a build changes no memo entry other than its own image's, and keeps every cached manifest |
| LibCache.Cache.Build | shipwright/_lib/cache.py:68-102 | whichever reading the object was built with: the method computes `build`'s records and state |
| LibCache.TagsOf | shipwright/_lib/cache.py:43-48 | one tag event per tag for an image, in order |
| LibCache.TagAll | shipwright/_lib/cache.py:41-48 | no targets or no tags yield no tag events |
| LibCache.TagAllGroups | shipwright/_lib/cache.py:41-48 | `NoCache.tag` yields one group of tag events per target, targets outer |
| LibCache.TagAllLength | shipwright/_lib/cache.py:41-48 | that is one event per target and tag |
| LibCache.TagUnderEach | shipwright/_lib/cache.py:43-48 | the inner loop appends one image's tag events |
| LibCache.TagEach | shipwright/_lib/cache.py:41-48 | the outer loop yields all of them |
| LibCache.TagSpec | shipwright/_lib/cache.py:41-48 | tagging never raises, and yields one event per target and tag, none for the direct registry (also lines 185-191) |
| LibCache.Cache.Tag | shipwright/_lib/cache.py:41-48 | NoCache and Cache tag every target under every tag; DirectRegistry yields nothing (also lines 185-191) |
| LibCache.TagPairs | shipwright/_lib/cache.py:54-55 | `(name, tag)` for each tag, in order |
| LibCache.TagPairsElements | shipwright/_lib/cache.py:54-55 | those pairs are exactly the name with each tag |
| LibCache.NamedSnoc | shipwright/_lib/cache.py:52-55 | one more image adds its `(name, ref)` and its `(name, tag)` pairs |
| LibCache.PairsOfElements | shipwright/_lib/cache.py:51-55 | the set holds exactly each image's `(name, ref)` and `(name, tag)` pairs |
| LibCache.AddTagPairs | shipwright/_lib/cache.py:54-55 | the inner loop adds the tag pairs of one image |
| LibCache.GatherPairs | shipwright/_lib/cache.py:51-55 | the loops gather exactly those pairs |
| LibCache.PairsOfOne | shipwright/_lib/cache.py:60-63 | the second set holds the last image's `(name, ref)` and its tag pairs |
| LibCache.LocalPushPairs | shipwright/_lib/cache.py:57 | the first push is sorted, has no duplicates, and holds exactly every image's pairs |
| LibCache.LocalPushOrderFree | shipwright/_lib/cache.py:51-57 | the first push depends only on which images are targets, not on their order |
| LibCache.LocalPush | shipwright/_lib/cache.py:50-66 | with no targets the push raises; a failed first push ends it |
| LibCache.PushLocal | shipwright/_lib/cache.py:50-66 | `NoCache.push` pushes the sorted pairs, then the last image's pairs again; with no targets the second step raises UnboundLocalError |
| LibCache.IsKeyGrows | shipwright/_lib/cache.py:196-197 | a pair named by some of the targets is named by all of them |
| LibCache.PartitionedSnoc | shipwright/_lib/cache.py:196-202 | one more image goes either to the aliases, with a manifest, or to the pairs to push |
| LibCache.LookupsPartition | shipwright/_lib/cache.py:194-202 | both readings: every target's `(name, ref)` is either aliased with a manifest or to be pushed, and nothing else is |
| LibCache.Cache.LookupAll | shipwright/_lib/cache.py:194-202 | whichever reading the object was built with: the first loop of `push` computes the lookups and the manifest cache they leave |
| LibCache.RelookupsKeys | shipwright/_lib/cache.py:208-210 | both readings: the second lookup gives one answer per pushed pair, in the order they were pushed |
| LibCache.Cache.RelookupAll | shipwright/_lib/cache.py:208-210 | whichever reading the object was built with: the loop computes those lookups and the cache they leave |
| LibCache.StoreWithOneRecord | shipwright/_lib/cache.py:164-176 | both readings: a store always yields exactly one record or raises |
| LibCache.AliasExtra | shipwright/_lib/cache.py:215-220 | the alias marker has the keys `event`, `old_image`, `repository` and `tag` |
| LibCache.AliasOne | shipwright/_lib/cache.py:214-223 | every record of a store gets the alias marker, its ending unchanged |
| LibCache.AliasTagsShape | shipwright/_lib/cache.py:213-223 | one marked record per tag for an alias |
| LibCache.AliasAllShape | shipwright/_lib/cache.py:212-223 | one marked record per (alias, tag) |
| LibCache.StoreUnderTags | shipwright/_lib/cache.py:213-223 | the inner loop computes one alias's records |
| LibCache.StoreAliases | shipwright/_lib/cache.py:212-223 | the outer loop computes every alias's records |
| LibCache.DirectPushShape | shipwright/_lib/cache.py:193-223 | both readings: `DirectRegistry.push` pushes the missing pairs in sorted order, looks each up again, then aliases the found and the pushed images under every tag |
| LibCache.DirectPush | shipwright/_lib/cache.py:193-223 | both readings: a failed first lookup ends the push with nothing yielded; a push that ends normally had its lookups succeed |
| LibCache.PushSpec | shipwright/_lib/cache.py:193-223 | both readings: a push never changes the pull memo, and only the registry-based push changes the manifest cache (also lines 50-66) |
| LibCache.LookupsSticks | shipwright/_lib/cache.py:196-202 | both readings: an exception from the registry ends the lookups |
| LibCache.RelookupsSticks | shipwright/_lib/cache.py:208-210 | both readings: likewise for the second lookups |
| LibCache.AliasTagsSticks | shipwright/_lib/cache.py:213-223 | a store that raises ends the aliasing of an image |
| LibCache.AliasAllSticks | shipwright/_lib/cache.py:212-223 | a store that raises ends all aliasing |
| LibCache.Cache.PushDirect | shipwright/_lib/cache.py:193-223 | whichever reading the object was built with: the method computes `DirectRegistry.push` and the manifest cache it leaves |
| LibCache.Cache.Push | shipwright/_lib/cache.py:193-223 | whichever reading the object was built with: `push` of each strategy, and the state it leaves (also lines 50-66) |
| LibCache.Cache.constructor | shipwright/_lib/cache.py:145-149 | a new cache holds the reading it is given, its strategy and client, and an empty memo and manifest cache (also lines 32-35) |
| Cache.PushRecord | shipwright/push.py:15-19 | a pushed record keeps every key of its own and gains `event` = `push` and `image` only where it has none |
| Cache.PushRecordAgrees | shipwright/push.py:15-19 | this marking equals the newer one exactly when the record carries no `event` or `image` of its own that differs from the push's |
| Cache.Push | shipwright/push.py:12-25 | a single call of the daemon's push, nothing retried, every record marked with `event` and `image` |
| Cache.PushAgrees | shipwright/push.py:12-25 | both readings: where the first call finishes and the records carry no marks of their own, the older push equals the newer one |
| Cache.PushAllAppend | shipwright/push.py:7-9 | pushing two runs of pairs is pushing the first, then the second |
| Cache.PushAllOutcome | shipwright/push.py:7-9 | the pushes end normally exactly when every pair's single call does |
| Cache.FailureRecord | shipwright/cache.py:106-108 | a refused store is reported under `error` → `errorDetails` → `message` |
| Cache.StoreManifestOutcome | shipwright/cache.py:102-110 | both readings: a store yields one record, empty exactly when the registry took the manifest, and raises only what is not an HTTP error |
| Cache.StoreMissingManifest | shipwright/cache.py:102-110 | both readings: a missing manifest is handed to the registry as is, unlike the newer store which reports it |
| Cache.StoreWithOneRecord | shipwright/cache.py:102-110 | both readings: every store yields exactly one record or raises |
| Cache.StoreManifest | shipwright/cache.py:102-110 | both readings: one record when the store ends normally, none when it raises, and never an HTTP error escaping; a missing manifest yields one empty record exactly when the registry accepts it |
| Cache.PullCacheRekeys | shipwright/cache.py:62-80 | both readings: the pull-based lookup yields the pull's records with `error` moved to `warn`, and misses exactly when one of them had an error (also lines 12-18) |
| Cache.PullCacheAgreesOnFirstPull | shipwright/cache.py:62-80 | on an image not pulled before, the older lookup under either reading yields what the newer, memoised one yields as intended |
| Cache.PullCacheDirect | shipwright/cache.py:89-117 | both readings: the registry-based lookup yields nothing, misses exactly when the registry has no manifest, raises what the registry raises, and caches what it finds |
| Cache.PullCacheSpec | shipwright/cache.py:62-80 | both readings: NoCache always misses; local strategies keep the manifest cache; the registry-based lookup yields nothing and, when it ends normally, has cached the image's manifest (also lines 29-31, 112-117) |
| Cache.TagNeedsTagImage | shipwright/cache.py:33-40 | with a target and a tag the local strategies crash on the missing `tag_image`, while the intended tagging yields one event per target and tag |
| Cache.TagAsWritten | shipwright/cache.py:33-40 | as written: nothing yielded, raising exactly for a local strategy with a target and a tag |
| Cache.TagSpec | shipwright/cache.py:33-40 | as intended: never raises; one event per target and tag, none for the registry-based strategy (also lines 119-125) |
| Cache.TagRun | shipwright/cache.py:33-40 | both readings: the registry-based strategy yields nothing; raises exactly as written for a local strategy with a target and a tag; as intended one event per target and tag (also lines 119-125) |
| Cache.PushDirectShape | shipwright/cache.py:127-157 | both readings: a registry-based push that ends normally pushes the missing images, sorted, each with a call that finished, looks each up again, then yields one alias record per image and tag |
| Cache.PushSpec | shipwright/cache.py:127-157 | both readings: local pushes keep the manifest cache; a failed first lookup ends the registry-based push with nothing yielded (also lines 42-58) |
| Cache.Cache.constructor | shipwright/cache.py:84-87 | a new cache holds the reading it is given, its strategy and client, and an empty manifest cache (also lines 26-27) |
| Cache.Cache.GetManifest | shipwright/cache.py:89-100 | whichever reading the object was built with: `_get_manifest` updates the manifest cache as specified |
| Cache.Cache.PullCache | shipwright/cache.py:62-80 | whichever reading the object was built with: `pull_cache` of each strategy computes its specification (also lines 29-31, 112-117) |
| Cache.Cache.Tag | shipwright/cache.py:33-40 | whichever reading the object was built with: `tag` of each strategy, the registry-based one yielding nothing (also lines 119-125) |
| Cache.Cache.LookupAll | shipwright/cache.py:130-136 | whichever reading the object was built with: the first loop of the registry-based `push` computes the lookups and the cache they leave |
| Cache.Cache.RelookupAll | shipwright/cache.py:142-144 | whichever reading the object was built with: the second loop computes the second lookups and the cache they leave |
| Cache.Cache.PushDirect | shipwright/cache.py:127-157 | whichever reading the object was built with: the registry-based `push` computes its specification and the cache it leaves |
| Cache.Cache.Push | shipwright/cache.py:127-157 | whichever reading the object was built with: `push` of each strategy, and the cache it leaves (also lines 42-58) |
| LibBuild.BuildIndexLookup | shipwright/_lib/build.py:33 | the index names exactly the targets' images, each with the ref of the last target of that name |
| LibBuild.ParentRef | shipwright/_lib/build.py:36-38 | a parent ref exists exactly when the target has a non-empty parent that the index names, and is the index's ref for it |
| LibBuild.BuildRecord | shipwright/_lib/build.py:51-58 | a build record keeps every key of its own and gains `event` = `build_msg`, `target` and `rev` only where it has none (also lines 7-10) |
| LibBuild.BuildImage | shipwright/_lib/build.py:44-65 | both readings: every message is a record; a failed listing ends the build with its error, and an image already built yields nothing, both leaving the state unchanged |
| LibBuild.BuildImageSkipsBuilt | shipwright/_lib/build.py:60-65 | both readings: an image already built under its ref yields nothing and leaves the cache alone; otherwise the cache's build is yielded, each record marked |
| LibBuild.BuildImageMarked | shipwright/_lib/build.py:57-65 | both readings: every message of one image's build is a record marked with `event`, `target` and `rev` |
| LibBuild.CompletedNone | shipwright/_lib/build.py:64-65 | one image's build completes no target |
| LibBuild.CompletedStep | shipwright/_lib/build.py:39-41 | one more target adds its `BuildComplete` unless its build raised |
| LibBuild.CompletesOneMore | shipwright/_lib/build.py:35-41 | after a run that completed a prefix, one more target extends it unless its build raised |
| LibBuild.BuildAllCompletes | shipwright/_lib/build.py:13-41 | both readings: targets are completed in the order given, each once; a run that raises has completed a proper prefix of them |
| LibBuild.BuildAll | shipwright/_lib/build.py:35-41 | both readings: a run that ends normally ends with the last target's `BuildComplete` |
| LibBuild.BuildAllSnoc | shipwright/_lib/build.py:35-41 | both readings: one more target's records and `BuildComplete` follow the run so far, or its failure ends the run |
| LibBuild.BuildAllSticks | shipwright/_lib/build.py:35-41 | both readings: once a prefix of the run has raised, the whole run ends as that prefix did |
| LibBuild.Build | shipwright/_lib/build.py:44-65 | whichever reading the cache was built with: `build` computes its specification and the cache state it leaves |
| LibBuild.DoBuild | shipwright/_lib/build.py:13-41 | whichever reading the cache was built with: `do_build` computes its specification over the index of the targets, and the cache state it leaves |
| Build.BuildIndexLookup | shipwright/build.py:36 | the index names exactly the targets' containers, each with the ref of the last target of that name |
| Build.ParentRef | shipwright/build.py:39-41 | a parent ref is found exactly when the target has a non-empty parent that the index names, and is the index's ref for it |
| Build.BuildRecord | shipwright/build.py:53-61 | a build record keeps every key of its own and gains `event` = `build_msg`, `container` and `rev` only where it has none (also lines 10-13) |
| Build.BuildContainerAsWritten | shipwright/build.py:63-76 | as written: an unbuilt container without a parent ref raises TypeError; every record is marked |
| Build.BuildContainerIntended | shipwright/build.py:63-76 | as intended: an unbuilt container without a parent ref ends as the daemon's build of its unchanged build file ends; every record is marked |
| Build.BuildContainer | shipwright/build.py:63-76 | both readings: a failed listing ends with its error and a listed ref yields nothing; as written a missing parent ref raises TypeError; every record carries `event`, `container` and `rev` |
| Build.ParentlessBuildCrashes | shipwright/build.py:63-74 | a container whose parent is pinned is built alike as written and as intended; one without a pinned parent crashes as written with TypeError, and as intended is built from its build file unchanged |
| Build.BuildContainerSkipsBuilt | shipwright/build.py:63-76 | both readings: a container whose ref the daemon lists yields nothing, whatever the daemon's build would do; every record of a build is marked |
| Build.BuildAll | shipwright/build.py:38-43 | both readings: no targets yield nothing, and a run that ends normally ended every target's build normally |
| Build.BuildAllAppend | shipwright/build.py:38-43 | both readings: building two runs of targets is building the first, then the second, with the same index |
| Build.IndexAgrees | shipwright/build.py:36 | with distinct names, a name one run indexes is indexed with the same ref by any run that contains it |
| Build.ParentRefOrderFree | shipwright/build.py:36-41 | with distinct names, reordering the run leaves every container's parent ref unchanged |
| Build.BuildAllSticks | shipwright/build.py:38-43 | both readings: once a prefix of the run has raised, the whole run ends as that prefix did |
| Build.DoBuild | shipwright/build.py:16-43 | both readings: `do_build` indexes the whole run first, then builds every container in turn |
| LibBase.TagList | shipwright/_lib/base.py:30-53 | the tags of a run are the default tags, then the extra tags, then the current ref |
| LibBase.BuildRun | shipwright/_lib/base.py:21-32 | both readings: the state is the one the build left, and a failed build is the whole run |
| LibBase.BuildRunOrder | shipwright/_lib/base.py:21-32 | both readings: the build messages come first and unchanged; the tag records follow only a build that ended normally, which has completed every target in order |
| LibBase.BuildRunTags | shipwright/_lib/base.py:27-32 | both readings: after a build that ended normally, a local strategy tags every target with every tag, targets outer, and the registry-based one adds nothing |
| LibBase.LogRecord | shipwright/_lib/base.py:36-39 | a log record has only `stream` and `event` = `log`, the stream being the image name, a colon and the ref |
| LibBase.PushRunOrder | shipwright/_lib/base.py:41-55 | both readings: without `no_build` the run is the build, then the push from the state the build left, ending at a failed build; with it, only the push, completing no target |
| LibBase.PushRun | shipwright/_lib/base.py:41-55 | both readings: without `no_build` the build's messages come first, unchanged, and a failed build ends the run |
| LibBase.Shipwright.constructor | shipwright/_lib/base.py:7-11 | a new object holds its source control, daemon, extra tags and cache |
| LibBase.Shipwright.BuildTargets | shipwright/_lib/base.py:21-32 | whichever reading its cache was built with: `_build` computes its specification and the cache state it leaves |
| LibBase.Shipwright.Build | shipwright/_lib/base.py:16-19 | whichever reading its cache was built with: `build` builds and tags the selected targets with the current ref |
| LibBase.Shipwright.Images | shipwright/_lib/base.py:34-39 | one log record per selected target, in order |
| LibBase.Shipwright.Push | shipwright/_lib/base.py:41-55 | whichever reading its cache was built with: `push` computes its specification over the selected targets, and the cache state it leaves |
| Base.TagList | shipwright/base.py:27-48 | the tag list fails exactly when the default tags do, with their error |
| Base.TagListOrder | shipwright/base.py:27-48 | once the default tags are known, the list holds them, then the extra tags, then the current ref |
| Base.TagsOfAt | shipwright/base.py:29-34 | the `j`-th of a target's tag events tags its image with the `j`-th tag |
| Base.TagLoopGroups | shipwright/base.py:28-34 | the intended tag loop is one group of tag events per target, targets outer |
| Base.TagLoopLength | shipwright/base.py:28-34 | one tag event per target and tag |
| Base.TagLoopAsWritten | shipwright/base.py:28-34 | as written: nothing is yielded, and AttributeError is raised exactly when there is a target and a tag |
| Base.TagLoop | shipwright/base.py:28-34 | as intended: no targets or no tags yield nothing |
| Base.TagRun | shipwright/base.py:28-34 | both readings: raises exactly as written with a target and a tag; as written yields nothing, as intended one event per target and tag |
| Base.TagStep | shipwright/base.py:27-34 | both readings: failed default tags end with their error; otherwise the tag run over the default tags, the extra tags and the ref |
| Base.BuildRun | shipwright/base.py:20-34 | both readings: a failed build is the whole run; otherwise the build's records come first, unchanged |
| Base.TagLoopNeedsTagImage | shipwright/base.py:28-34 | with a target and a tag, the loop as written crashes on the missing `tag_image` while the intended loop tags; with none, both yield nothing |
| Base.BuildRunOrder | shipwright/base.py:20-34 | both readings: the builds come first and unchanged; a failed build ends the run, failed default tags end it with their error, and otherwise as written AttributeError follows as soon as there is a target, while as intended the tag events follow |
| Base.NamedPairsAt | shipwright/base.py:51-52 | the `j`-th of a target's pairs is its name under the `j`-th tag |
| Base.NamesAndTagsGroups | shipwright/base.py:49-52 | the pairs are one group per target, targets outer, each naming the target under every tag in order |
| Base.NamesAndTagsLength | shipwright/base.py:49-52 | one pair per target and tag, duplicates kept |
| Base.PushStep | shipwright/base.py:47-55 | failed default tags end with their error; with no targets nothing is pushed |
| Base.PushRun | shipwright/base.py:36-55 | both readings: with `no_build` the push step alone; otherwise a failed build ends the run |
| Base.PushRunOrder | shipwright/base.py:36-55 | both readings: with `no_build` the run is the push alone; without it the push follows only a build that finished; the push sends the pairs in order, or fails with the default tags |
| Base.Shipwright.constructor | shipwright/base.py:7-10 | a new object holds the reading it is given, its source control, daemon and extra tags |
| Base.Shipwright.TagEach | shipwright/base.py:28-34 | the nested loop computes the intended tag events |
| Base.Shipwright.BuildTargets | shipwright/base.py:20-34 | whichever reading the object was built with: `_build` computes its specification |
| Base.Shipwright.Build | shipwright/base.py:15-18 | whichever reading the object was built with: `build` builds and tags the selected targets with the current ref |
| Base.Shipwright.PairUp | shipwright/base.py:49-52 | the nested loop computes the name and tag pairs |
| Base.Shipwright.Push | shipwright/base.py:36-55 | whichever reading the object was built with: `push` computes its specification over the selected targets |
| LibCli.Tags | shipwright/_lib/cli.py:191-212 | the tags are never empty and hold no duplicates: `latest` when none was given, otherwise exactly the tags given |
| LibCli.TagsSortedDistinct | shipwright/_lib/cli.py:212 | the tags are sorted, and a tag is listed exactly when some `-t` option gave it |
| LibCli.OldStyleArgDict | shipwright/_lib/cli.py:195-213 | one flag per sub-command, true exactly for the one given; the tags as above; no targets, no help; `--no-build` false when absent |
| LibCli.CommandName | shipwright/_lib/cli.py:256-258 | the command run is always one of `build`, `push`, `images` |
| LibCli.BuildTargets | shipwright/_lib/cli.py:260-265 | the selection carries the four lists of the arguments unchanged |
| LibCli.ArgumentsRoundTrip | shipwright/_lib/cli.py:195-213 | from the command line to the run: the sub-command given is the one run (an unknown one runs `build`), `--no-build` counts for `push` alone, and the selection is the flattened options (also lines 256-269) |
| LibCli.DetailMessage | shipwright/_lib/cli.py:423-425 | the detail message is found exactly when `errorDetail` is a dictionary holding `message`; otherwise KeyError, or TypeError when the detail is not a dictionary |
| LibCli.Switch | shipwright/_lib/cli.py:401-435 | only KeyError, TypeError or AttributeError escape; AttributeError exactly for a `stream` that is not a string; a record of no known kind raises KeyError |
| LibCli.Line | shipwright/_lib/cli.py:401-435 | a rendering fails exactly when its text does |
| LibCli.SwitchStreamFirst | shipwright/_lib/cli.py:403-404 | a `stream` record is shown by its text alone whatever else it holds, renders exactly when the stream is a string, and never starts or ends with a newline |
| LibCli.SwitchStatus | shipwright/_lib/cli.py:406-420 | a status record shows its status line; with progress it is hidden unless progress is shown, and then the line starts with the status and ends with a carriage return |
| LibCli.SwitchReportsFailures | shipwright/_lib/cli.py:422-425 | an error or warning record is shown as `[ERROR]` or `[WARN]` and its detail message |
| LibCli.SwitchTagEvent | shipwright/_lib/cli.py:426-428 | a tag event is shown as the retagging it did, or as the error when the image was missing |
| LibCli.SwitchAuxAndUnhandled | shipwright/_lib/cli.py:432-435 | a push record carrying `aux` is not shown, and a record of an unknown kind is shown as its JSON text |
| LibCli.SwitchPlainStatus | shipwright/_lib/cli.py:406-420 | the plain status example renders as `[STATUS] eg: Not Downloading xyz` |
| LibCli.SwitchProgress | shipwright/_lib/cli.py:412-419 | the download example renders as `... 10/100\r` when progress is shown, and as nothing otherwise |
| LibCli.ProgressExample | shipwright/_lib/cli.py:415-418 | the progress line appends `current/total` and a carriage return |
| LibCli.SwitchErrorExample | shipwright/_lib/cli.py:422-423 | an error record whose `error` is null is still shown by its detail's message |
| LibCli.HighlightName | shipwright/_lib/cli.py:377-382 | a record is highlighted under its target's name, else its `image`; a target without a name raises |
| LibCli.PrettyEvent | shipwright/_lib/cli.py:370-373 | a rendering failure is raised and a record that renders as nothing is not shown |
| LibCli.PrettyEventPrefix | shipwright/_lib/cli.py:370-387 | a shown record has an `event` and is shown as rendered, after its painted name exactly when it is a build message, a push message or an error |
| LibCli.BuildMessagePrefix | shipwright/_lib/cli.py:370-398 | a build message of a target is shown after the target's painted name |
| LibCli.Memo.constructor | shipwright/_lib/cli.py:362 | the memo starts empty |
| LibCli.Memo.Call | shipwright/_lib/cli.py:362-367 | `memo` answers a known argument from the memo and computes and stores an unknown one, never changing a stored answer |
| LibCli.ShowRecord | shipwright/_lib/cli.py:343-347 | a record is added to the errors exactly when it holds `error` |
| LibCli.Drain | shipwright/_lib/cli.py:339-347 | both readings: a loop that gets through every message has collected exactly the error records, in order; as written, getting through means no message was a completion |
| LibCli.DrainSticks | shipwright/_lib/cli.py:339-347 | both readings: once the loop has stopped on a prefix, it has stopped on the whole run in the same state |
| LibCli.AsWrittenVersusCorrected | shipwright/_lib/cli.py:401-426 | the loop as written and the corrected loop agree on records alone; as written, any completion message raises TypeError where the corrected loop gets through (also lines 339-347) |
| LibCli.CompletedHasCompletion | shipwright/_lib/build.py:41 | a run that completed a target holds a completion message |
| LibCli.FinishedBuildCrashesAsWritten | shipwright/_lib/cli.py:339-347 | a build of at least one target that ends normally, and whose records all render, crashes the loop as written with TypeError |
| LibCli.ErrorLines | shipwright/_lib/cli.py:351-352 | at most one line per error (which lines: ErrorLinesOne, ErrorLinesAppend) |
| LibCli.ErrorLinesOne | shipwright/_lib/cli.py:351-352 | one error gives `pretty_event(error, True)` when that is a line, nothing when it is None, and the exception it raises otherwise |
| LibCli.ErrorLinesAppend | shipwright/_lib/cli.py:351-352 | rendering two runs of errors renders the first, then the second, and the first exception ends it: the lines are each error's rendering, in order, the Nones dropped |
| LibCli.RunAbortsWhenDirty | shipwright/_lib/cli.py:302-306 | both readings: a dirty tree without `--dirty` aborts with the message, and `--dirty` never aborts |
| LibCli.RunExitStatus | shipwright/_lib/cli.py:349-354 | both readings: a run that finishes exits 1 exactly when some event held `error`; the report is then the header followed by the rendered lines of exactly those events (same lines, same counts), sorted; 0 otherwise |
| LibCli.RunSpec | shipwright/_lib/cli.py:302-354 | both readings: the run aborts exactly for a dirty tree without `--dirty`, and a finished run exits 0 exactly when it reports nothing |
| LibCli.CompletionCrashesRun | shipwright/_lib/cli.py:339-347 | a run whose one message is a completion: as written it crashes with TypeError, as intended it finishes with status 0 and reports nothing |
| LibCli.DrainEvents | shipwright/_lib/cli.py:339-347 | both readings: the loop computes its specification |
| LibCli.Run | shipwright/_lib/cli.py:302-354 | both readings: `run`, after the arguments are processed, computes its specification |
| Cli.EnabledCommands | shipwright/cli.py:115-118 | only lower-case keys are kept, at most one per entry |
| Cli.EnabledCommandsHead | shipwright/cli.py:115-118 | the list is empty exactly when no entry is enabled, and otherwise starts with the first enabled entry's key |
| Cli.CommandNameIsFirstEnabled | shipwright/cli.py:114-118 | the sub-command is the first lower-case key that is set, in the dictionary's order, or `build` when there is none |
| Cli.CommandNameExample | shipwright/cli.py:114-118 | the arguments of `shipwright purge` pick `purge`: in this dictionary `-H` and `TARGET` are not lower-case and `--help` is unset |
| Cli.CommandName | shipwright/cli.py:114-118 | never empty: the first enabled command, or `build` when none is |
| Cli.SwitchStreamAgrees | shipwright/cli.py:152-153 | a stream record is shown alike by both command lines, whatever else it holds |
| Cli.SwitchStatusTerminator | shipwright/cli.py:155-165 | a status line starts with `[STATUS] ` and ends with a carriage return exactly when the status starts with `Downloading`, with a newline otherwise |
| Cli.SwitchReportsFailures | shipwright/cli.py:166-167 | an error is shown as `[ERROR]`, its message and a newline, also inside another record |
| Cli.SwitchEvents | shipwright/cli.py:168-173 | tag and untag events name the image and the tag; any other event is returned as it is |
| Cli.Switch | shipwright/cli.py:150-173 | only KeyError, TypeError or AttributeError escape; a record returned as it is has no `stream`, `status` or `error`; a record of no known kind raises KeyError |
| Cli.MkShow | shipwright/cli.py:137-141 | a highlighted event is highlighted under its own container; an event without `event` raises KeyError |
| Cli.Display | shipwright/cli.py:122-124 | an event whose show function fails raises that failure |
| Cli.DisplayBuildMessage | shipwright/cli.py:122-148 | a build message is printed after its container's painted name, and a record `switch` returns unrendered raises TypeError |
| Common.Reverse | shipwright/commits.py:10-11 | the history is read oldest first: the log in reverse, element by element (also the reversed moves of `zipper.py:193-214`) |
| Commits.CommitMap | shipwright/commits.py:35 | every short id in the map names a commit of the history at the position it maps to |
| Commits.CommitMapPositions | shipwright/commits.py:35 | every commit of the history is in the map, at a position no earlier than its own, and exactly at its own when short ids do not clash |
| Commits.TagRels | shipwright/commits.py:17 | the pairs are exactly the tags that name a commit, each with that commit's position |
| Commits.TagRelLeTotal | shipwright/commits.py:18 | the tuple order `max` uses compares any two pairs |
| Commits.TagRelLeTransitive | shipwright/commits.py:18 | the tuple order `max` uses is transitive |
| Commits.Max | shipwright/commits.py:18 | `max` returns one of the pairs, no smaller than any other |
| Commits.MaxCommit | shipwright/commits.py:14-20 | no tags give `(None, -1)`; otherwise ValueError exactly when no tag names a commit, and else the greatest (tag, position) among the tags that do |
| Commits.LastCommitRelative | shipwright/commits.py:23-31 | a directory no commit touched gives None; otherwise the position of its newest commit, or KeyError when the map lacks it |
| Commits.CommittedPathHasPosition | shipwright/commits.py:28-35 | a directory touched by a commit of the history always has a position |
| Commits.MaxCommits | shipwright/commits.py:36 | one result per tag list, each `_max_commit` of it, failing exactly when one of them fails |
| Commits.CurrentRels | shipwright/commits.py:38 | one position per directory, each `_last_commit_relative` of it; only KeyError is raised |
| Commits.Firsts | shipwright/commits.py:37 | the first halves of the pairs, in order |
| Commits.Seconds | shipwright/commits.py:37 | the second halves of the pairs, in order |
| Commits.ContainerCommitInfo | shipwright/commits.py:34-39 | no tag lists raise ValueError (unpacking an empty `zip`); otherwise one ref and position per tag list and one position per directory, each as computed one at a time |
| Fn.ComposeNothing | shipwright/fn.py:57-71 | composing nothing is the identity |
| Fn.ComposeFirstOutermost | shipwright/fn.py:57-71 | the first function is applied last |
| Fn.ComposeThree | shipwright/fn.py:57-71 | `compose(f, g, h)(v) == f(g(h(v)))`, as documented |
| Fn.ComposeAppend | shipwright/fn.py:57-71 | composing a concatenation composes the two compositions |
| Fn.JuxtResults | shipwright/fn.py:112-123 | one result per function, in order, and juxtaposing a concatenation concatenates the results |
| Fn.ComparisonsNegate | shipwright/fn.py:151-184 | each comparison is the negation of its opposite, `lt(a)(b)` is `gt(b)(a)`, and negating twice changes nothing |
| Fn.Maybe | shipwright/fn.py:199-208 | nothing for nothing, otherwise the function of the value |
| Fn.MaybeMaybe | shipwright/fn.py:199-208 | mapping twice through `maybe` is mapping once through the composition |
| Fn.FirstMatch | shipwright/fn.py:213-215 | the first test that holds, with none holding before it, or none at all |
| Fn.When | shipwright/fn.py:211-217 | `when` applies the function of the first test that holds, and raises RuntimeError exactly when no test holds |
| Fn.FirstMatchIs | shipwright/fn.py:213-215 | a test that holds, with none holding before it, is the one chosen |
| Fn.WhenIgnoresLater | shipwright/fn.py:211-217 | tests after one that holds are never consulted |
| Fn.AffixesMeanConcatenation | shipwright/fn.py:236-250 | `endswith(s1)(s2)` holds exactly when `s2` is something followed by `s1`, `startswith` likewise |
| Fn.Flatten | shipwright/fn.py:266 | flattening one list gives that list |
| Fn.FlattenAppend | shipwright/fn.py:266 | flattening a concatenation concatenates the flattenings |
| Fn.FlattenMembers | shipwright/fn.py:266 | an element is in the result exactly when it is in one of the lists |
| Fn.PyIndex | shipwright/fn.py:294-307 | indexing succeeds exactly within `-len..len-1`, a negative index counting from the end, and raises IndexError otherwise |
| Fn.FirstAndLast | shipwright/fn.py:294-307 | `first` and `last` fail on the empty list alone, are the two ends otherwise, and agree on a list of one |
| Fn.Get | shipwright/fn.py:315-323 | None past the end, the element at the index otherwise, counting from the end for a negative index and raising IndexError before the start |
| Fn.GetZeroVersusFirst | shipwright/fn.py:294-330 | `_0` never raises: None for the empty list, otherwise what `first` gives |
| Events.Merge | shipwright/fn.py:348-352 | the merged dictionary has the keys of both, the second's values winning |
| LibPush.Calls | shipwright/_lib/push.py:15-27 | from attempt `i` the push is called at least once and at most once per remaining attempt plus the final one |
| LibPush.CallsStopAtFirstSuccess | shipwright/_lib/push.py:15-27 | the calls stop at the first attempt that finishes: every earlier one failed, and the last is either final or finished |
| LibPush.RetryGenAsWritten | shipwright/_lib/push.py:15-27 | as written: the first attempt's records, ending normally exactly when it does |
| LibPush.Retry | shipwright/_lib/push.py:15-27 | as intended: from an attempt that ends normally, or from the final one, the output is that attempt |
| LibPush.RetryOutcome | shipwright/_lib/push.py:15-27 | the retried push ends normally exactly when some attempt does, and otherwise with the final attempt's exception |
| LibPush.RetryAsWrittenNeverRetries | shipwright/_lib/push.py:21-23 | a push that fails once and then succeeds ends with AttributeError as written, and normally as intended |
| LibPush.RetryStep | shipwright/_lib/push.py:16-24 | a failed guarded attempt keeps its records and adds one `warn` record naming the exception and the attempt, then the next attempt runs |
| LibPush.RetryKeepsFailedAttempts | shipwright/_lib/push.py:16-24 | after `k` failed attempts the output holds all their records, each followed by its `warn` record |
| LibPush.Retried | shipwright/_lib/push.py:15-27 | both readings: a first attempt that ends normally, or no guarded attempt, is the output; as written a failed first guarded attempt ends with AttributeError after its records |
| LibPush.RetryGen | shipwright/_lib/push.py:15-27 | both readings: the counted loop with its early return and the final attempt computes the retry |
| LibPush.PushRecord | shipwright/_lib/push.py:32-39 | a pushed record is marked `event` = `push` with its `image`, overriding its own, every other key kept |
| LibPush.Push | shipwright/_lib/push.py:30-40 | both readings: every record of a pair's push is marked with `push` and the image |
| LibPush.PushAsWrittenStopsAtFirstFailure | shipwright/_lib/push.py:21-23 | a pair whose first call fails: as written the push raises AttributeError after the first call's records; as intended it ends normally when the second call does (also lines 30-40) |
| LibPush.PushAllAppend | shipwright/_lib/push.py:9-12 | both readings: pushing two runs of pairs is pushing the first, then the second |
| LibPush.PushAll | shipwright/_lib/push.py:9-12 | both readings: the pushes end normally exactly when every pair's push does |
| LibPush.PushAllMarked | shipwright/_lib/push.py:9-40 | both readings: every record of `do_push` is a `push` record |
| LibPush.DoPush | shipwright/_lib/push.py:9-12 | both readings: the loop chains the per-pair pushes in the given order |
| LibRegistry.PartitionAtSlash | shipwright/_lib/registry.py:13 | `partition('/')` splits at the first slash |
| LibRegistry.AsWrittenRejectsOnlyEmpty | shipwright/_lib/registry.py:13-15 | as written, RegistryException is raised for the empty name and for no other |
| LibRegistry.BareNameSlipsThrough | shipwright/_lib/registry.py:13-17 | a name without a slash passes the guard as written, while the intended check rejects it |
| LibRegistry.RegistryAndRepoAsWritten | shipwright/_lib/registry.py:12-17 | as written: only RegistryException or KeyError is raised, and RegistryException for the empty name |
| LibRegistry.RegistryAndRepo | shipwright/_lib/registry.py:12-17 | both readings: the empty name raises RegistryException; as intended an accepted name is a known non-empty host, a slash and a non-empty repository |
| LibRegistry.BareNameLookups | shipwright/_lib/registry.py:13-21 | a bare name such as `ubuntu`: as written the lookup asks the client registered under that name for an empty repository, or raises KeyError; as intended it raises RegistryException |
| LibRegistry.GetRegistryAndRepo | shipwright/_lib/registry.py:12-17 | a name is accepted only as a known non-empty host, a slash and a non-empty repository, giving that host's client and the repository |
| LibRegistry.RegistryNameSplits | shipwright/_lib/registry.py:12-17 | `host/repository` selects the client of `host` and the repository; an unknown host raises KeyError |
| LibRegistry.GetManifest | shipwright/_lib/registry.py:19-21 | both readings: a lookup fails as the name does, or is the selected client's lookup |
| LibRegistry.PutManifest | shipwright/_lib/registry.py:23-25 | both readings: a store fails as the name does, or is the selected client's store |
| LibRegistry.ManifestCallsForward | shipwright/_lib/registry.py:19-25 | both readings: the calls for `host/repository` reach the client of `host` with the repository alone |
| LibTargets.UptoSelection | shipwright/_lib/targets.py:10-33 | only `upto` selects, a missing one read as empty |
| LibTargets.AllTagsVersusTagList | shipwright/_lib/targets.py:36-40 | the listing's tags are those of a run in another order: extra tags first, the same tags, the current ref last, and equal when either extra or default tags are empty |
| LibTargets.Entries | shipwright/_lib/targets.py:43-46 | one line for the ref, then one per tag |
| LibTargets.EntriesAt | shipwright/_lib/targets.py:43-46 | the first line is `name:ref`; each later line is `name:` and the tag with every `/` made `-` |
| LibTargets.ListingGroups | shipwright/_lib/targets.py:42-48 | the listing is one group of lines per image, in order |
| LibTargets.ListingLength | shipwright/_lib/targets.py:42-48 | one line per image for its ref and one per image and tag |
| LibTargets.Targets | shipwright/_lib/targets.py:9-48 | `targets` lists the images up to `upto` under all tags |
| Fnmatch.StarMatchesRest | shipwright/_lib/source_control.py:106-109 | a trailing `*` matches whatever is left of the name |
| Fnmatch.LiteralStar | shipwright/_lib/source_control.py:106-109 | a literal directory followed by `*` matches exactly the names that start with it |
| Fnmatch.LiteralMatchesOnlyItself | shipwright/_lib/source_control.py:109 | a pattern without wildcards matches itself and nothing else |
| Fnmatch.MatchesItself | shipwright/_lib/source_control.py:109 | every pattern matches its own text |
| Fnmatch.SlashesNeeded | shipwright/_lib/source_control.py:109 | only a wildcard stands for a separator: a matching name has at least the pattern's separators |
| Ordering.SortBy | shipwright/_lib/cli.py:352 | sorting keeps exactly the elements, with their counts |
| Ordering.SortBySorted | shipwright/_lib/cli.py:352 | under a total preorder the result is sorted |
| Ordering.SortByDependsOnMultiset | shipwright/_lib/cache.py:65 | under a total order the result depends only on the elements and their counts, not their order (also line 204) |
| Ordering.SortedUnique | shipwright/_lib/cache.py:204 | under an antisymmetric order there is one sorted arrangement of a multiset |
| Ordering.StrLeIsTotalOrder | shipwright/_lib/cli.py:352 | Python's string comparison is a total order |
| Ordering.PairLeIsTotalOrder | shipwright/_lib/cache.py:57 | the comparison of `(name, tag)` tuples is a total order (also line 204) |
| Ordering.Dedupe | shipwright/_lib/cli.py:212 | `set` keeps every element once |
| Ordering.SortedSetBy | shipwright/_lib/cache.py:57 | `sorted(set(...))` keeps exactly the elements, each once (also line 204) |
| Ordering.SortedSetByIsSorted | shipwright/_lib/cache.py:57 | `sorted(set(...))` of pairs is sorted (also line 204) |
| Ordering.SortedSetByDependsOnElements | shipwright/_lib/cache.py:57 | `sorted(set(...))` of pairs depends only on which elements there are (also line 204) |
| Ordering.SortedSet | shipwright/_lib/cli.py:212 | `sorted(set(...))` of strings keeps exactly the elements, each once |
| Ordering.SortedSetIsSorted | shipwright/_lib/cli.py:212 | `sorted(set(...))` of strings is sorted |
| Ordering.SortedSetDependsOnElements | shipwright/_lib/cli.py:212 | `sorted(set(...))` of strings is fixed by the elements alone |
| Text.LStrip | shipwright/_lib/image.py:189 | `lstrip` drops exactly the leading whitespace |
| Text.RStrip | shipwright/_lib/image.py:189 | `rstrip` drops exactly the trailing whitespace |
| Text.StripChar | shipwright/_lib/cli.py:404 | `strip(c)` leaves no `c` at either end and adds no character |
| Text.Word | shipwright/_lib/image.py:190 | the longest whitespace-free prefix |
| Text.SplitWhitespace | shipwright/_lib/image.py:190 | `split()` yields no empty word |
| Text.Split | shipwright/_lib/image.py:152 | `split(sep)` yields at least one piece, none holding the separator |
| Text.JoinSplit | shipwright/_lib/image.py:152 | joining the pieces gives the text back |
| Text.SplitJoin | shipwright/_lib/image.py:152 | splitting undoes joining pieces free of the separator |
| Text.SplitNoSep | shipwright/_lib/docker.py:11 | text without the separator splits into itself alone |
| Text.SplitAfterFirst | shipwright/_lib/docker.py:11 | the first piece ends at the first separator |
| Text.Lower | shipwright/_lib/image.py:189 | `lower` maps each character, keeping the length |
| Text.ReplaceChar | shipwright/_lib/docker.py:38 | `replace` changes exactly the occurrences of one character |
| PosixPath.SplitIndex | shipwright/_lib/image.py:113-120 | the split point follows the last separator |
| PosixPath.Basename | shipwright/_lib/image.py:113 | a base name holds no separator |
| PosixPath.BasenameAfterSlash | shipwright/_lib/image.py:113 | the base name of `dir/name` is `name` |
| PosixPath.JoinPath | shipwright/_lib/image.py:165 | joining onto an absolute path gives that path, and an absolute start stays absolute |
| PosixPath.Normpath | shipwright/_lib/image.py:174 | normalising keeps a path absolute |
| PosixPath.NormpathChars | shipwright/_lib/image.py:174 | normalising only removes characters, besides separators and dots |
| PosixPath.Abspath | shipwright/_lib/source_control.py:93-94 | `abspath` is always absolute |

## Left out

- The selection algebra `dependencies.eval` (upto, exact, dependents, exclude). It is not part of this model: `shipwright/_lib/dependencies.py` is not among the modelled files. `_lib/base.py` and `_lib/targets.py` receive it as the function `LibDependencies.Eval`.
- Git, Docker and registry I/O are oracles. These include `iter_commits`, `diff`, `untracked_files`, `hash_object`, the daemon's `build`, `pull`, `push`, `tag` and `images`, and the registry client's manifest calls. Only what the code does with their answers is modelled.
- The SHA-256 digest of `_dirty_suffix` is an uninterpreted function of the text fed to it. The order and the filter of that text are modelled, and so is the shape of the suffix.
- Filesystem work is not modelled:
  - the `os.walk` listing is a list of paths;
  - build files are given as their lines;
  - `.shipwright.json` is not read;
  - the tar assembly of `bundle_docker_dir` (`tar.py:13-106`) is left out.
- The back-off `time.sleep(0.6 * (2 ** i))` of `retry_gen` is left out; it is timing only.
- Command-line plumbing is left out: argparse, docopt, shlex, `parse_registry_logins`, TLS and host settings, the dump file and `SetJSONEncoder`.
- Printing is modelled by the lines printed. The colour a name is painted in, `json.dumps` and `str()` of values shipwright does not format itself are parameters (`LibCli.Format`, `paint`).
- Some helpers in `fn.py` are not modelled:
  - `curry`, which relies on `inspect`;
  - `tap`/`show`, `debug`, `getattr`/`setattr`, `replace` and `search`;
  - `composed`, `apply`, `catch`, `const`, `identity`, `is_`, `map`, `slice`, `filter`, `empty`, `getitem`, `split`, `rsplit` and `strip`.
  
  No modelled code calls any of them. Where the modelled code uses `fmap` or `flat_map`, they are modelled, but their laziness is not.
- Generators are finite: the model does not capture a consumer that stops early, or work interleaved with consumption.
- `zipper.dict` (`zipper.py:28-37`) is left out; its branch test compares with `is` and never works as meant.
- `query.py`, `purge.py`, `__init__.py`, both `compat.py` files and `setup.py` are not part of this model. `_lib/msg.py`'s `BuildComplete` appears only as a message kind.
- Dependencies.ChildrenOf: siblings are sorted by name. Python sorts whole `Target` tuples, so two targets with the same name would be ordered by their later fields. The model keeps such targets in list order.
- Dependencies.Unfold: `make_tree` hands the zipper a lazy `children` function; the model unfolds the tree eagerly to depth `|targets| + 1`. Nothing is cut: each target is filed under exactly one key, so a path down from the `None` root never repeats a target (Dependencies.RootChainNoDuplicates), and more fuel gives the same tree (Dependencies.TreeOfEnoughFuel). Targets on a cycle of parent names, and those filed below them, are not reachable from the root: neither the zipper nor the model visits them, so `needs_building` leaves them out of both `skip` and `needs`.
- Lineage.Ancestry: a cycle of parent names makes `_image_parents` and `_container_parents` loop forever; the model reports it as `None`.
- The traceback text of a refused manifest store is modelled by the exception's name.
- Text.Lower: covers ASCII letters only; Python's `str.lower` also lowers other Unicode letters.
- LibImage.SameLetters: compares ASCII case only. Under `re.I` on a `str` pattern Python also applies Unicode case folds, under which a few non-ASCII letters match ASCII ones (`ſ` U+017F matches `s`, the Kelvin sign U+212A matches `k`, `ı` U+0131 matches `i`). None of these folds reaches a letter of `COPY` or `ADD`, so the keyword tests agree; the scheme test is the one affected (LibImage.IsUrl).
- LibImage.IsUrl: likewise ASCII only; Python's `re.I` lets `ſ` (U+017F) match the `s` of `https?`, so `httpſ:` counts as a URL in Python and not in the model.
- Text.IsWordChar: ASCII letters, digits and `_` only; the `\w` of Python's `re` on `str` also accepts other Unicode letters and digits.
- Fnmatch.Matches: `*` and `?` only; `fnmatch`'s `[...]` character classes are not modelled, so a base path holding `[` matches it literally.
- Tar.TagParent: `tar.py:166` makes the tag part of an `re.sub` replacement template, so Python processes backslash escapes in it: `\\` becomes one backslash, `\n` a newline, `\1` or `\g<2>` a matched group, and an unknown letter escape such as `\q` raises `re.error`. The model inserts the tag verbatim, which agrees with Python only for a tag without a backslash. The tags shipwright passes are commit-hash refs, and git ref names cannot hold a backslash.
- Tar.RewriteLine: inserts the tag verbatim, as under Tar.TagParent; template escapes in the tag are not modelled.
- Tar.MkContext: carries Tar.TagParent's verbatim tag; template escapes in the tag are not modelled.
- Tar.ParseFrom: the pattern is applied one line at a time. Under `re.MULTILINE` its `\s+` and `\s*` also match a line break, so in Python a `from` alone on its line with the image on the next is matched too. The model does not capture that.
- LibImage.ParseCopy: the JSON decoder is a parameter that answers only for an array of strings. `image.py:146-152` keeps any decoded list, so a JSON array holding other values is taken as that list by the code and split at spaces by the model.
- LibZipper.Zipper: `make_tree` in `shipwright/dependencies.py:105-106` passes a `make_node` that returns the node unchanged and ignores the children. An edited zipper over that tree would lose the edit on the way up. The model's nodes carry their children, so the model does not capture that loss; `make_tree` only navigates.
- LibCli.Memo: the `memo` of both command lines is one dictionary shared by every call in the process. It is modelled as one object per run.

## Findings

| source | as written | input that shows it | evidently intended | confidence | as-written member | corrected member |
|---|---|---|---|---|---|---|
| shipwright/_lib/push.py:23 | a failed attempt calls `docker.warn`, which `_lib/docker.py` does not define, so the first exception becomes AttributeError and nothing is retried | a push whose first call raises and whose second call succeeds | yield a warning record for the failed attempt and try again, up to the final attempt; `push` decodes every yielded value with `compat.json_loads`, so the warning is taken to reach the caller as a record | high; not executed | LibPush.RetryAsWrittenNeverRetries | LibPush.RetryOutcome |
| shipwright/_lib/cache.py:18 | `pull` reports a missing image with `docker.error`, which `_lib/docker.py` does not define, so a NotFound from the daemon becomes AttributeError | a pull of an image the registry does not have | end the pull normally with one error record | high; not executed | LibCache.PullMissingImage | LibCache.Pull |
| shipwright/_lib/cache.py:164-176 | `_put_manifest` reports a missing manifest and a refused store with the undefined `docker.error`, raising AttributeError | aliasing an image whose manifest is `None` | yield one error record and carry on | high; not executed | LibCache.StoreMissingManifest | LibCache.StoreManifestIntended |
| shipwright/_lib/source_control.py:103 | `re.match('[*?]', path_pattern)` only looks at the first character of an absolute path, which is `/`, so every base path is treated as a plain directory and a glob never matches as a glob | base path `/r/*.py` and file `/r/a.py` | use the pattern as a glob when it holds `*` or `?` anywhere | high; not executed | LibSourceControl.GlobBaseMissed | LibSourceControl.GlobBaseMatches |
| shipwright/_lib/registry.py:14 | `not (registry_name or success or repository)` holds only for the empty name, so a name with no `/` gets past the check | the name `ubuntu` | reject any name that lacks a registry, a `/` or a repository (`and` for `or`) | high; not executed | LibRegistry.BareNameSlipsThrough | LibRegistry.RegistryNameSplits |
| shipwright/base.py:30 | `_build` tags through `docker.tag_image`, which the older `docker.py` does not define (the same call is at `cache.py:36`), so tagging raises AttributeError | a run with one target and one tag | one tag event per target and tag, targets outer | high; not executed | Base.TagLoopNeedsTagImage | Base.TagLoopGroups |
| shipwright/tar.py:166 | `'\\1\\2:' + tag` with the `None` parent ref that `build.py:39-42` passes for a target without a parent in the run raises TypeError | building a container whose parent is not a target of the run | leave the build file unchanged when there is no parent ref | high; not executed | Build.ParentlessBuildCrashes | Build.BuildContainerIntended |
| shipwright/_lib/cli.py:339-347 | `run` hands every message to `pretty_event`, including the `BuildComplete` tuples `do_build` yields, and `switch` indexes them with `'event'`, raising TypeError | a build of one target that ends normally | pass completion messages over | high; not executed | LibCli.FinishedBuildCrashesAsWritten | LibCli.Drain |

=== FILE: base.dfy ===
/**
 * The older command layer of `shipwright/base.py`: a `Shipwright` holds
 * the source control, the docker client and the extra tags, builds the
 * selected containers, tags them, and pushes them. There is no cache
 * object: tagging is a loop over targets and tags, and a push sends every
 * `(name, tag)` pair through the older `shipwright/push.py`.
 *
 * The source control is represented by its answers: its targets, the
 * current ref string, and the default tags, which the older source
 * control refuses with TypeError on a detached head
 * (`SourceControl.DefaultTags`).
 */
module Base {
  import opened Common
  import opened Events
  import LibDocker
  import LibDependencies
  import LibCache
  import Builds = Build
  import Cache
  import Fn
  import SourceControl

  type Target = SourceControl.Target
  type Pair = (string, string)

  datatype Scm = Scm(targets: seq<Target>, thisRefStr: string, defaultTags: Result<seq<string>>)

  /** The docker client: what the older build reads and calls, and the daemon's push of one pair. */
  datatype Docker = Docker(builder: Builds.Client, push: (string, string, nat) -> Stream<Record>)

  /** `dependencies.eval(build_targets, targets)` over the older targets. */
  type Eval = (LibDependencies.Selection, seq<Target>) -> seq<Target>

  /** `default_tags() + self.tags + [this_ref_str]`: fails as the default tags do. */
  function TagList(scm: Scm, extra: seq<string>): (r: Result<seq<string>>)
    ensures r.Err? <==> scm.defaultTags.Err?
    ensures r.Err? ==> r.error == scm.defaultTags.error
  {
    match scm.defaultTags
    case Err(e) => Err(e)
    case Ok(d) => Ok(d + extra + [scm.thisRefStr])
  }

  /** Once the default tags are known, the tag list holds them, then the extra tags, then the current ref. */
  lemma TagListOrder(scm: Scm, extra: seq<string>)
    requires scm.defaultTags.Ok?
    ensures var d := scm.defaultTags.value;
      var r := TagList(scm, extra).value;
      && |r| == |d| + |extra| + 1
      && r[..|d|] == d && r[|d|..|d| + |extra|] == extra && r[|r| - 1] == scm.thisRefStr
  {
  }

  // ------------------------------------------------------------ tagging

  /** The ref the older build tagged its image with: a missing one is formatted as `None`. */
  function RefText(ref: Option<string>): string
  {
    if ref.Some? then ref.value else "None"
  }

  /**
   * The tag loop as written: it calls `docker.tag_image`, which the older
   * `shipwright/docker.py` does not define, so the first pair raises
   * AttributeError before anything is yielded.
   */
  function TagLoopAsWritten(targets: seq<Target>, tags: seq<string>): (r: Stream<Record>)
    ensures r.items == []
    ensures r.raised.Some? <==> targets != [] && tags != []
  {
    if targets == [] || tags == [] then Empty() else Stream([], Some(AttributeError))
  }

  /** One target's tag events, one per tag, in order, for the image its build made. */
  function TagsOf(daemon: LibDocker.Daemon, target: Target, tags: seq<string>): (r: seq<Record>)
    ensures |r| == |tags|
  {
    seq(|tags|, j requires 0 <= j < |tags| => LibDocker.TagEvent(daemon, target.container.name, RefText(target.ref), tags[j]))
  }

  /** The `j`-th of a target's tag events tags its image with the `j`-th tag. */
  lemma TagsOfAt(daemon: LibDocker.Daemon, target: Target, tags: seq<string>)
    ensures forall j :: 0 <= j < |tags| ==>
      TagsOf(daemon, target, tags)[j] == LibDocker.TagEvent(daemon, target.container.name, RefText(target.ref), tags[j])
  {
  }

  /** The tag loop as evidently intended, by the newer `tag_image`: every target under every tag, targets outer. */
  function TagLoop(daemon: LibDocker.Daemon, targets: seq<Target>, tags: seq<string>): (r: seq<Record>)
    ensures targets == [] || tags == [] ==> r == []
  {
    if targets == [] then [] else TagLoop(daemon, targets[..|targets| - 1], tags) + TagsOf(daemon, targets[|targets| - 1], tags)
  }

  /**
   * The intended loop is the targets' groups of tag events laid end to end,
   * target by target, each holding one event per tag (`TagsOf`).
   */
  lemma {:induction false} TagLoopGroups(daemon: LibDocker.Daemon, targets: seq<Target>, tags: seq<string>)
    ensures TagLoop(daemon, targets, tags) ==
      Fn.Flatten(seq(|targets|, i requires 0 <= i < |targets| => TagsOf(daemon, targets[i], tags)))
  {
    if targets != [] {
      var init := targets[..|targets| - 1];
      TagLoopGroups(daemon, init, tags);
      var groups := seq(|targets|, i requires 0 <= i < |targets| => TagsOf(daemon, targets[i], tags));
      assert groups[..|targets| - 1] == seq(|init|, i requires 0 <= i < |init| => TagsOf(daemon, init[i], tags));
    }
  }

  /** One tag event per target and tag. */
  lemma {:induction false} TagLoopLength(daemon: LibDocker.Daemon, targets: seq<Target>, tags: seq<string>)
    ensures |TagLoop(daemon, targets, tags)| == |targets| * |tags|
  {
    if targets != [] {
      var init := targets[..|targets| - 1];
      TagLoopLength(daemon, init, tags);
      MulSucc(|init|, |tags|);
    }
  }

  /**
   * With a target to tag, the loop as written crashes, while the intended
   * loop tags it; with none, both yield nothing.
   */
  lemma TagLoopNeedsTagImage(daemon: LibDocker.Daemon, targets: seq<Target>, tags: seq<string>)
    ensures targets != [] && tags != [] ==> TagLoopAsWritten(targets, tags) == Stream([], Some(AttributeError))
    ensures targets != [] && tags != [] ==> |TagLoop(daemon, targets, tags)| > 0
    ensures targets == [] || tags == [] ==>
      TagLoopAsWritten(targets, tags) == Stream(TagLoop(daemon, targets, tags), None) == Empty()
  {
    TagLoopLength(daemon, targets, tags);
    if targets != [] && tags != [] {
      LibCache.MulStep(0, |targets|, |tags|);
    }
  }

  // ------------------------------------------------------------ build

  /**
   * The tag loop under a reading: as written it crashes at the first
   * target and tag; as intended every target is tagged with every tag.
   */
  function TagRun(rd: Reading, daemon: LibDocker.Daemon, targets: seq<Target>, tags: seq<string>): (r: Stream<Record>)
    ensures r.raised.Some? <==> rd.AsWritten? && targets != [] && tags != []
    ensures rd.AsWritten? ==> r.items == []
    ensures rd.Intended? ==> |r.items| == |targets| * |tags|
  {
    TagLoopLength(daemon, targets, tags);
    if rd.AsWritten? then TagLoopAsWritten(targets, tags) else Stream(TagLoop(daemon, targets, tags), None)
  }

  /** The tag records of a run after its builds: the default tags may fail, and then the tag loop runs. */
  function TagStep(rd: Reading, daemon: LibDocker.Daemon, scm: Scm, extra: seq<string>, targets: seq<Target>): (r: Stream<Record>)
    ensures scm.defaultTags.Err? ==> r == Stream([], Some(scm.defaultTags.error))
    ensures scm.defaultTags.Ok? ==> r == TagRun(rd, daemon, targets, scm.defaultTags.value + extra + [scm.thisRefStr])
  {
    match TagList(scm, extra)
    case Err(e) => Stream([], Some(e))
    case Ok(tags) => TagRun(rd, daemon, targets, tags)
  }

  /**
   * `_build` under a reading: the builds, then the tag loop, which as
   * written crashes and as intended yields one tag event per target and
   * tag. A build that raises ends the run before any tagging.
   */
  function BuildRun(rd: Reading, docker: Docker, scm: Scm, extra: seq<string>, thisRef: string, targets: seq<Target>): (r: Stream<Record>)
    ensures var b := Builds.BuildAll(rd, docker.builder, Builds.BuildIndex(targets), targets);
      && (b.raised.Some? ==> r == b)
      && (b.raised.None? ==> |b.items| <= |r.items| && r.items[..|b.items|] == b.items)
  {
    var b := Builds.BuildAll(rd, docker.builder, Builds.BuildIndex(targets), targets);
    Then(b, TagStep(rd, docker.builder.daemon, scm.(thisRefStr := thisRef), extra, targets))
  }

  /**
   * The builds come first and unchanged. After builds that finished, a
   * detached head ends the run with TypeError; otherwise, as written, any
   * target ends it with AttributeError, and as intended every target is
   * tagged with every tag.
   */
  lemma BuildRunOrder(rd: Reading, docker: Docker, scm: Scm, extra: seq<string>, thisRef: string, targets: seq<Target>)
    ensures var b := Builds.BuildAll(rd, docker.builder, Builds.BuildIndex(targets), targets);
      var s := BuildRun(rd, docker, scm, extra, thisRef, targets);
      && (b.raised.None? && scm.defaultTags.Err? ==> s == Stream(b.items, Some(scm.defaultTags.error)))
      && (b.raised.None? && scm.defaultTags.Ok? && targets != [] && rd.AsWritten? ==> s == Stream(b.items, Some(AttributeError)))
      && (b.raised.None? && scm.defaultTags.Ok? && rd.Intended? ==>
            var tags := scm.defaultTags.value + extra + [thisRef];
            s == Stream(b.items + TagLoop(docker.builder.daemon, targets, tags), None))
  {
  }

  // ------------------------------------------------------------ push

  /** `names_and_tags`: every target's name under every tag, targets outer, duplicates kept. */
  function NamesAndTags(targets: seq<Target>, tags: seq<string>): seq<Pair>
  {
    if targets == [] then []
    else NamesAndTags(targets[..|targets| - 1], tags) + NamedPairs(targets[|targets| - 1], tags)
  }

  /** One target's pairs: its name under each tag, in order. */
  function NamedPairs(target: Target, tags: seq<string>): (r: seq<Pair>)
    ensures |r| == |tags|
  {
    seq(|tags|, j requires 0 <= j < |tags| => (target.container.name, tags[j]))
  }

  /** The `j`-th of a target's pairs is its name under the `j`-th tag. */
  lemma NamedPairsAt(target: Target, tags: seq<string>)
    ensures forall j :: 0 <= j < |tags| ==> NamedPairs(target, tags)[j] == (target.container.name, tags[j])
  {
  }

  /**
   * The pairs are the targets' groups laid end to end, target by target,
   * each naming the target under every tag in order (`NamedPairs`).
   */
  lemma {:induction false} NamesAndTagsGroups(targets: seq<Target>, tags: seq<string>)
    ensures NamesAndTags(targets, tags) ==
      Fn.Flatten(seq(|targets|, i requires 0 <= i < |targets| => NamedPairs(targets[i], tags)))
  {
    if targets != [] {
      var init := targets[..|targets| - 1];
      NamesAndTagsGroups(init, tags);
      var groups := seq(|targets|, i requires 0 <= i < |targets| => NamedPairs(targets[i], tags));
      assert groups[..|targets| - 1] == seq(|init|, i requires 0 <= i < |init| => NamedPairs(init[i], tags));
    }
  }

  /** One pair per target and tag. */
  lemma {:induction false} NamesAndTagsLength(targets: seq<Target>, tags: seq<string>)
    ensures |NamesAndTags(targets, tags)| == |targets| * |tags|
  {
    if targets != [] {
      var init := targets[..|targets| - 1];
      NamesAndTagsLength(init, tags);
      MulSucc(|init|, |tags|);
    }
  }

  /** The push after the build: every pair pushed in turn by the older `do_push`, once the default tags are known. */
  function PushStep(docker: Docker, scm: Scm, extra: seq<string>, targets: seq<Target>): (r: Stream<Record>)
    ensures scm.defaultTags.Err? ==> r == Stream([], Some(scm.defaultTags.error))
    ensures scm.defaultTags.Ok? && targets == [] ==> r == Empty()
  {
    match TagList(scm, extra)
    case Err(e) => Stream([], Some(e))
    case Ok(tagList) => Cache.PushAll(docker.push, NamesAndTags(targets, tagList))
  }

  /** `push(build_targets, no_build)`: the build unless `no_build`, then, when the build finished, the push. */
  function PushRun(rd: Reading, docker: Docker, scm: Scm, extra: seq<string>, targets: seq<Target>, noBuild: bool): (r: Stream<Record>)
    ensures noBuild ==> r == PushStep(docker, scm, extra, targets)
    ensures var b := BuildRun(rd, docker, scm, extra, scm.thisRefStr, targets);
      !noBuild && b.raised.Some? ==> r == b
  {
    var b := if noBuild then Empty() else BuildRun(rd, docker, scm, extra, scm.thisRefStr, targets);
    ThenEmpty(PushStep(docker, scm, extra, targets));
    Then(b, PushStep(docker, scm, extra, targets))
  }

  /**
   * With `no_build` the run is the push alone; without it, the build comes
   * first and the push only follows a build that finished. The push sends
   * one pair per target and tag, targets outer.
   */
  lemma PushRunOrder(rd: Reading, docker: Docker, scm: Scm, extra: seq<string>, targets: seq<Target>, noBuild: bool)
    ensures var s := PushRun(rd, docker, scm, extra, targets, noBuild);
      var p := PushStep(docker, scm, extra, targets);
      var b := BuildRun(rd, docker, scm, extra, scm.thisRefStr, targets);
      && (!noBuild && b.raised.None? ==> s.items == b.items + p.items && s.raised == p.raised)
      && (scm.defaultTags.Err? ==> p == Stream([], Some(scm.defaultTags.error)))
      && (scm.defaultTags.Ok? ==>
            p == Cache.PushAll(docker.push, NamesAndTags(targets, TagList(scm, extra).value)))
  {
  }

  // ------------------------------------------------------------ the object

  class Shipwright {
    const reading: Reading
    const scm: Scm
    const docker: Docker
    const tags: seq<string>
    const eval: Eval

    constructor (reading: Reading, scm: Scm, docker: Docker, tags: seq<string>, eval: Eval)
      ensures this.reading == reading && this.scm == scm && this.docker == docker && this.tags == tags && this.eval == eval
    {
      this.reading := reading;
      this.scm := scm;
      this.docker := docker;
      this.tags := tags;
      this.eval := eval;
    }

    /** The tag loop of `_build`, as evidently intended; as written it is never reached with a target and a tag. */
    method TagEach(targets: seq<Target>, tagList: seq<string>) returns (events: seq<Record>)
      ensures events == TagLoop(docker.builder.daemon, targets, tagList)
    {
      events := [];
      for i := 0 to |targets|
        invariant events == TagLoop(docker.builder.daemon, targets[..i], tagList)
      {
        var image := targets[i];
        var group := TagsOf(docker.builder.daemon, image, tagList);
        for j := 0 to |tagList|
          invariant events == TagLoop(docker.builder.daemon, targets[..i], tagList) + group[..j]
        {
          assert group[..j + 1] == group[..j] + [group[j]];
          events := events + [LibDocker.TagEvent(docker.builder.daemon, image.container.name, RefText(image.ref), tagList[j])];
        }
        assert group[..|tagList|] == group;
        assert targets[..i + 1][..i] == targets[..i];
      }
      assert targets[..|targets|] == targets;
    }

    /** `_build(this_ref_str, targets)`. */
    method BuildTargets(thisRef: string, targets: seq<Target>) returns (s: Stream<Record>)
      ensures s == BuildRun(reading, docker, scm, tags, thisRef, targets)
    {
      s := Builds.DoBuild(reading, docker.builder, targets);
      if s.raised.Some? {
        return;
      }
      match TagList(scm.(thisRefStr := thisRef), tags) {
        case Err(e) =>
          s := Then(s, Stream([], Some(e)));
        case Ok(tagList) =>
          if reading.AsWritten? {
            if targets != [] && tagList != [] {
              s := Then(s, Stream([], Some(AttributeError)));
            }
          } else {
            var events := TagEach(targets, tagList);
            s := Then(s, Stream(events, None));
          }
      }
    }

    /** `build(build_targets)`: the selected targets, built and tagged with the current ref. */
    method Build(selection: LibDependencies.Selection) returns (s: Stream<Record>)
      ensures s == BuildRun(reading, docker, scm, tags, scm.thisRefStr, eval(selection, scm.targets))
    {
      s := BuildTargets(scm.thisRefStr, eval(selection, scm.targets));
    }

    /** The `names_and_tags` loop of `push`. */
    method PairUp(targets: seq<Target>, tagList: seq<string>) returns (pairs: seq<Pair>)
      ensures pairs == NamesAndTags(targets, tagList)
    {
      pairs := [];
      for i := 0 to |targets|
        invariant pairs == NamesAndTags(targets[..i], tagList)
      {
        var group := NamedPairs(targets[i], tagList);
        for j := 0 to |tagList|
          invariant pairs == NamesAndTags(targets[..i], tagList) + group[..j]
        {
          assert group[..j + 1] == group[..j] + [group[j]];
          pairs := pairs + [(targets[i].container.name, tagList[j])];
        }
        assert group[..|tagList|] == group;
        assert targets[..i + 1][..i] == targets[..i];
      }
      assert targets[..|targets|] == targets;
    }

    /** `push(build_targets, no_build)`. */
    method Push(selection: LibDependencies.Selection, noBuild: bool) returns (s: Stream<Record>)
      ensures s == PushRun(reading, docker, scm, tags, eval(selection, scm.targets), noBuild)
    {
      var targets := eval(selection, scm.targets);
      s := Empty();
      if !noBuild {
        s := BuildTargets(scm.thisRefStr, targets);
        if s.raised.Some? {
          return;
        }
      }
      match TagList(scm, tags) {
        case Err(e) =>
          s := Then(s, Stream([], Some(e)));
        case Ok(tagList) =>
          var pairs := PairUp(targets, tagList);
          s := Then(s, Cache.PushAll(docker.push, pairs));
      }
    }
  }
}

=== FILE: build.dfy ===
/**
 * The older build loop of `shipwright/build.py`. Each target is built
 * straight through the docker client, from a context whose build file has
 * its parent pinned to the parent's ref in this run (`Tar`); a container
 * whose ref the daemon already lists is not built again. There is no
 * cache object and no completion message.
 *
 * The client is a parameter: the daemon's image listing, the text of a
 * build file, and the records of a build given the rewritten build file,
 * the image tag and the build file's name.
 */
module Build {
  import opened Common
  import opened Events
  import opened PosixPath
  import LibDocker
  import LibImage
  import Docker
  import Tar
  import SourceControl

  type Target = SourceControl.Target

  datatype Client = Client(
    daemon: LibDocker.Daemon,
    read: string -> string,                                  // the text of the build file at a path
    build: (string, string, string) -> Stream<Record>)       // `client.build(fileobj, tag, dockerfile)`, decoded

  // ------------------------------------------------------------ the parent-ref index

  /** `{t.container.name: t.ref for t in targets}`: a later target replaces an earlier one of the same name. */
  function BuildIndex(targets: seq<Target>): map<string, Option<string>>
  {
    if targets == [] then map[]
    else BuildIndex(targets[..|targets| - 1])[targets[|targets| - 1].container.name := targets[|targets| - 1].ref]
  }

  /** The `k`-th target is the last one named `n`. */
  predicate LastNamed(targets: seq<Target>, k: int, n: string)
  {
    && 0 <= k < |targets| && targets[k].container.name == n
    && forall j :: k < j < |targets| ==> targets[j].container.name != n
  }

  lemma LastNamedSnoc(init: seq<Target>, last: Target, k: int, n: string)
    requires LastNamed(init, k, n) && last.container.name != n
    ensures LastNamed(init + [last], k, n)
  {
    forall j | k < j < |init| + 1 ensures (init + [last])[j].container.name != n {
      if j < |init| { assert (init + [last])[j] == init[j]; }
    }
  }

  /** The index names exactly the targets, each with the ref of the last target of that name. */
  lemma {:induction false} BuildIndexLookup(targets: seq<Target>, n: string)
    ensures n in BuildIndex(targets) <==> exists k :: 0 <= k < |targets| && targets[k].container.name == n
    ensures n in BuildIndex(targets) ==> exists k :: LastNamed(targets, k, n) && BuildIndex(targets)[n] == targets[k].ref
  {
    if targets != [] {
      var init, last := targets[..|targets| - 1], targets[|targets| - 1];
      BuildIndexLookup(init, n);
      if last.container.name == n {
        assert LastNamed(targets, |targets| - 1, n);
      } else if n in BuildIndex(init) {
        var k :| LastNamed(init, k, n) && BuildIndex(init)[n] == init[k].ref;
        InitLast(targets);
        LastNamedSnoc(init, last, k, n);
      } else {
        assert forall k :: 0 <= k < |init| ==> init[k] == targets[k];
      }
    }
  }

  /**
   * `parent_ref`: `None` unless the target has a parent that is a target
   * of this run, and then that target's ref (itself `None` for a target
   * with no commit).
   */
  function ParentRef(index: map<string, Option<string>>, target: Target): (r: Option<string>)
    ensures r.Some? ==> (LibImage.Truthy(target.container.parent) && target.container.parent.value in index &&
      index[target.container.parent.value] == r)
    ensures LibImage.Truthy(target.container.parent) && target.container.parent.value in index ==>
      r == index[target.container.parent.value]
  {
    if LibImage.Truthy(target.container.parent) && target.container.parent.value in index then index[target.container.parent.value]
    else None
  }

  // ------------------------------------------------------------ one container

  /** The `rev` of a target: its ref, or null when it has none. */
  function Rev(ref: Option<string>): Value
  {
    match ref
    case None => Null
    case Some(r) => Str(r)
  }

  /** `_merge(merge_config, evt)`: the record marked as a build message of the container, its own keys winning. */
  function BuildRecord(target: Target, evt: Record): (r: Record)
    ensures r.Keys == evt.Keys + {"event", "container", "rev"}
    ensures forall k :: k in evt ==> r[k] == evt[k]
    ensures "event" !in evt ==> r["event"] == Str("build_msg")
    ensures "container" !in evt ==> r["container"] == Entity(target.container.name)
    ensures "rev" !in evt ==> r["rev"] == Rev(target.ref)
  {
    Merge(map["event" := Str("build_msg"), "container" := Entity(target.container.name), "rev" := Rev(target.ref)], evt)
  }

  /** `'{0}:{1}'.format(name, ref)`: a missing ref is formatted as `None`. */
  function ImageTag(target: Target): string
  {
    target.container.name + ":" + (if target.ref.Some? then target.ref.value else "None")
  }

  /** The daemon already lists the target's ref under its name. */
  predicate AlreadyBuilt(built: seq<string>, target: Target)
  {
    target.ref.Some? && target.ref.value in built
  }

  /**
   * `build` as written: the build file is rewritten by `mkcontext`, whose
   * rewrite concatenates the parent ref, so a container whose parent is
   * not built in this run (`parent_ref` is `None`) raises TypeError.
   */
  function BuildContainerAsWritten(client: Client, parentRef: Option<string>, target: Target): (r: Stream<Record>)
    ensures var listed := Docker.LastBuiltFromDocker(client.daemon, target.container.name);
      listed.Ok? && !AlreadyBuilt(listed.value, target) && parentRef.None? ==> r == Stream([], Some(TypeError))
    ensures forall i :: 0 <= i < |r.items| ==> {"event", "container", "rev"} <= r.items[i].Keys
  {
    match Docker.LastBuiltFromDocker(client.daemon, target.container.name)
    case Err(e) => Stream([], Some(e))
    case Ok(built) =>
      if AlreadyBuilt(built, target) then Empty()
      else
        match Tar.MkContext(parentRef, client.read(target.container.path))
        case Err(e) => Stream([], Some(e))
        case Ok(content) =>
          MapItems(client.build(content, ImageTag(target), Basename(target.container.path)), (evt: Record) => BuildRecord(target, evt))
  }

  /**
   * `build` as evidently intended: a parent built in this run is pinned to
   * its ref, and any other build file is built as it is.
   */
  function BuildContainerIntended(client: Client, parentRef: Option<string>, target: Target): (r: Stream<Record>)
    ensures var listed := Docker.LastBuiltFromDocker(client.daemon, target.container.name);
      listed.Ok? && !AlreadyBuilt(listed.value, target) && parentRef.None? ==>
        r.raised == client.build(client.read(target.container.path), ImageTag(target), Basename(target.container.path)).raised
    ensures forall i :: 0 <= i < |r.items| ==> {"event", "container", "rev"} <= r.items[i].Keys
  {
    match Docker.LastBuiltFromDocker(client.daemon, target.container.name)
    case Err(e) => Stream([], Some(e))
    case Ok(built) =>
      if AlreadyBuilt(built, target) then Empty()
      else
        var content := Tar.TagParentOrKeep(parentRef, client.read(target.container.path));
        MapItems(client.build(content, ImageTag(target), Basename(target.container.path)), (evt: Record) => BuildRecord(target, evt))
  }

  /**
   * `build` under a reading. Either way the daemon's listing is asked
   * first, and a container whose ref it lists is not built; as written, a
   * container whose parent is not built in this run ends the run with
   * TypeError; every record of a build is marked as a build message.
   */
  function BuildContainer(rd: Reading, client: Client, parentRef: Option<string>, target: Target): (r: Stream<Record>)
    ensures var listed := Docker.LastBuiltFromDocker(client.daemon, target.container.name);
      && (listed.Err? ==> r == Stream([], Some(listed.error)))
      && (listed.Ok? && AlreadyBuilt(listed.value, target) ==> r == Empty())
      && (listed.Ok? && !AlreadyBuilt(listed.value, target) && rd.AsWritten? && parentRef.None? ==>
            r == Stream([], Some(TypeError)))
    ensures forall i :: 0 <= i < |r.items| ==> {"event", "container", "rev"} <= r.items[i].Keys
  {
    if rd.AsWritten? then BuildContainerAsWritten(client, parentRef, target) else BuildContainerIntended(client, parentRef, target)
  }

  /**
   * A container with a parent in the run is built alike by both; one
   * without crashes as written, and as intended is built from its build
   * file unchanged.
   */
  lemma ParentlessBuildCrashes(client: Client, parentRef: Option<string>, target: Target)
    requires Docker.LastBuiltFromDocker(client.daemon, target.container.name).Ok?
    requires !AlreadyBuilt(Docker.LastBuiltFromDocker(client.daemon, target.container.name).value, target)
    ensures parentRef.Some? ==> BuildContainerAsWritten(client, parentRef, target) == BuildContainerIntended(client, parentRef, target)
    ensures parentRef.None? ==> BuildContainerAsWritten(client, parentRef, target) == Stream([], Some(TypeError))
    ensures parentRef.None? ==> (BuildContainerIntended(client, parentRef, target).raised ==
      client.build(client.read(target.container.path), ImageTag(target), Basename(target.container.path)).raised)
  {
  }

  /**
   * A container whose ref the daemon lists is not built: no records, and
   * the daemon's build is not consulted. Every record of a build is
   * marked as a build message.
   */
  lemma BuildContainerSkipsBuilt(rd: Reading, client: Client, build: (string, string, string) -> Stream<Record>, parentRef: Option<string>, target: Target)
    ensures var listed := Docker.LastBuiltFromDocker(client.daemon, target.container.name);
      listed.Ok? && AlreadyBuilt(listed.value, target) ==>
        BuildContainer(rd, client, parentRef, target) == Empty() &&
        BuildContainer(rd, client.(build := build), parentRef, target) == Empty()
  {
  }

  // ------------------------------------------------------------ the run

  /** `do_build` over `targets`, with parent refs from `index`: each container's records in turn; a build that raises ends the run. */
  function BuildAll(rd: Reading, client: Client, index: map<string, Option<string>>, targets: seq<Target>): (r: Stream<Record>)
    ensures targets == [] ==> r == Empty()
    ensures r.raised.None? ==> forall t :: t in targets ==> BuildContainer(rd, client, ParentRef(index, t), t).raised.None?
  {
    if targets == [] then Empty()
    else
      var t := targets[|targets| - 1];
      Then(BuildAll(rd, client, index, targets[..|targets| - 1]), BuildContainer(rd, client, ParentRef(index, t), t))
  }

  /** Building two runs of targets builds the first, then the second, with the same index. */
  lemma {:induction false} BuildAllAppend(rd: Reading, client: Client, index: map<string, Option<string>>, a: seq<Target>, b: seq<Target>)
    ensures BuildAll(rd, client, index, a + b) == Then(BuildAll(rd, client, index, a), BuildAll(rd, client, index, b))
    decreases |b|
  {
    if b == [] {
      assert a + b == a;
      ThenEmpty(BuildAll(rd, client, index, a));
    } else {
      var init, t := b[..|b| - 1], b[|b| - 1];
      assert (a + b)[..|a + b| - 1] == a + init;
      BuildAllAppend(rd, client, index, a, init);
      ThenAssociative(BuildAll(rd, client, index, a), BuildAll(rd, client, index, init), BuildContainer(rd, client, ParentRef(index, t), t));
    }
  }

  /**
   * Whether a container's parent is pinned depends on the whole run, not on
   * the containers built before it: reordering the run leaves every
   * container's parent ref alone when names are distinct.
   */
  lemma ParentRefOrderFree(a: seq<Target>, b: seq<Target>, target: Target)
    requires forall i, j :: 0 <= i < j < |a| ==> a[i].container.name != a[j].container.name
    requires forall i, j :: 0 <= i < j < |b| ==> b[i].container.name != b[j].container.name
    requires forall t :: t in a <==> t in b
    ensures ParentRef(BuildIndex(a), target) == ParentRef(BuildIndex(b), target)
  {
    if LibImage.Truthy(target.container.parent) {
      var n := target.container.parent.value;
      IndexAgrees(a, b, n);
      IndexAgrees(b, a, n);
    }
  }

  /** With distinct names, a name the first run indexes is indexed by the second with the same ref. */
  lemma IndexAgrees(a: seq<Target>, b: seq<Target>, n: string)
    requires forall i, j :: 0 <= i < j < |b| ==> b[i].container.name != b[j].container.name
    requires forall t :: t in a ==> t in b
    ensures n in BuildIndex(a) ==> n in BuildIndex(b) && BuildIndex(b)[n] == BuildIndex(a)[n]
  {
    BuildIndexLookup(a, n);
    BuildIndexLookup(b, n);
    if n in BuildIndex(a) {
      var k :| LastNamed(a, k, n) && BuildIndex(a)[n] == a[k].ref;
      assert a[k] in b;
      var j :| 0 <= j < |b| && b[j] == a[k];
      var k' :| LastNamed(b, k', n) && BuildIndex(b)[n] == b[k'].ref;
      assert k' == j;
    }
  }

  /**
   * `do_build(client, build_ref, targets)`: the index of the whole run
   * first, then every container built in turn, under the given reading.
   */
  method DoBuild(rd: Reading, client: Client, targets: seq<Target>) returns (s: Stream<Record>)
    ensures s == BuildAll(rd, client, BuildIndex(targets), targets)
  {
    var index := BuildIndex(targets);
    var events: seq<Record> := [];
    for i := 0 to |targets|
      invariant BuildAll(rd, client, index, targets[..i]) == Stream(events, None)
    {
      assert targets[..i + 1][..i] == targets[..i];
      var target := targets[i];
      var b := BuildContainer(rd, client, ParentRef(index, target), target);
      if b.raised.Some? {
        BuildAllSticks(rd, client, index, targets, i + 1);
        return Stream(events + b.items, b.raised);
      }
      events := events + b.items;
    }
    assert targets[..|targets|] == targets;
    return Stream(events, None);
  }

  /** Once a prefix of the run has raised, the whole run ends as that prefix did. */
  lemma {:induction false} BuildAllSticks(rd: Reading, client: Client, index: map<string, Option<string>>, targets: seq<Target>, n: nat)
    requires n <= |targets| && BuildAll(rd, client, index, targets[..n]).raised.Some?
    ensures BuildAll(rd, client, index, targets) == BuildAll(rd, client, index, targets[..n])
  {
    if n < |targets| {
      assert targets[..|targets| - 1][..n] == targets[..n];
      BuildAllSticks(rd, client, index, targets[..|targets| - 1], n);
    } else {
      assert targets[..n] == targets;
    }
  }
}

=== FILE: cache.dfy ===
/**
 * The older cache strategies of `shipwright/cache.py`. They share the
 * docker client, the manifest lookups and the shape of every loop with
 * `shipwright/_lib/cache.py` (module `LibCache`); what differs is:
 *  - the pull-based strategy keeps no memo: each lookup pulls again;
 *  - pushes go through the older `shipwright/push.py`, one call of the
 *    daemon per pair, no retry, with the pushed record's own keys winning;
 *  - storing a manifest under a new name sends whatever it was given, a
 *    missing manifest included, and reports a refused store with a record
 *    nested under `error`;
 *  - the local tagging calls `docker.tag_image`, which the older
 *    `shipwright/docker.py` does not define.
 *
 * Nothing in the older generation constructs these objects; the targets
 * they are given are modelled by the newer `LibSourceControl.Target`, whose
 * `name` and `ref` are all the code reads.
 */
module Cache {
  import opened Common
  import opened Ordering
  import opened Events
  import LibCache
  import LibDocker
  import LibPush
  import LibRegistry
  import LibSourceControl
  import Fn

  type Pair = LibCache.Pair
  type Manifest = LibCache.Manifest
  type Client = LibCache.Client

  // ------------------------------------------------------------ push

  /** `merge(dict(event='push', image=image))(evt)`: the decoded record's own keys win. */
  function PushRecord(image: string, evt: Record): (r: Record)
    ensures r.Keys == evt.Keys + {"event", "image"}
    ensures forall k :: k in evt ==> r[k] == evt[k]
    ensures "event" !in evt ==> r["event"] == Str("push")
    ensures "image" !in evt ==> r["image"] == Str(image)
  {
    Merge(map["event" := Str("push"), "image" := Str(image)], evt)
  }

  /**
   * The generations mark a record differently only when the daemon's
   * record has its own `event` or `image`: the newer push overwrites them,
   * the older one keeps them.
   */
  lemma PushRecordAgrees(image: string, evt: Record)
    ensures PushRecord(image, evt) == LibPush.PushRecord(image, evt) <==>
      (("event" in evt ==> evt["event"] == Str("push")) && ("image" in evt ==> evt["image"] == Str(image)))
  {
    var r, r' := PushRecord(image, evt), LibPush.PushRecord(image, evt);
    if ("event" in evt ==> evt["event"] == Str("push")) && ("image" in evt ==> evt["image"] == Str(image)) {
      assert r.Keys == r'.Keys;
      forall k | k in r ensures r[k] == r'[k] {
      }
    } else if "event" in evt && evt["event"] != Str("push") {
      assert r["event"] != r'["event"];
    } else {
      assert r["image"] != r'["image"];
    }
  }

  /** `push(client, (image, tag))`: the records of a single call of the daemon's push, each marked as a push of `image`. */
  function Push(push: (string, string, nat) -> Stream<Record>, image: string, tag: string): (r: Stream<Record>)
    ensures r.raised == push(image, tag, 0).raised
    ensures forall i :: 0 <= i < |r.items| ==> "event" in r.items[i] && "image" in r.items[i]
  {
    MapItems(push(image, tag, 0), (evt: Record) => PushRecord(image, evt))
  }

  /**
   * Where the newer push would not have retried (the first call finishes)
   * and the daemon's records carry no `event` or `image` of their own, the
   * two generations push alike.
   */
  lemma PushAgrees(rd: Reading, push: (string, string, nat) -> Stream<Record>, image: string, tag: string)
    requires push(image, tag, 0).raised.None?
    requires forall i :: 0 <= i < |push(image, tag, 0).items| ==>
      "event" !in push(image, tag, 0).items[i] && "image" !in push(image, tag, 0).items[i]
    ensures Push(push, image, tag) == LibPush.Push(rd, push, image, tag)
  {
    var first := push(image, tag, 0);
    assert LibPush.Retried(rd, (n: nat) => push(image, tag, n), LibPush.MaxAttempts) == first;
    forall i | 0 <= i < |first.items|
      ensures PushRecord(image, first.items[i]) == LibPush.PushRecord(image, first.items[i])
    {
      PushRecordAgrees(image, first.items[i]);
    }
  }

  /** `flat_map(push(client), images)`: the pushes of `pairs`, one after the other. */
  function PushAll(push: (string, string, nat) -> Stream<Record>, pairs: seq<Pair>): Stream<Record>
  {
    if pairs == [] then Empty()
    else Then(PushAll(push, pairs[..|pairs| - 1]), Push(push, pairs[|pairs| - 1].0, pairs[|pairs| - 1].1))
  }

  /** Pushing two runs of pairs is pushing the first, then the second. */
  lemma {:induction false} PushAllAppend(push: (string, string, nat) -> Stream<Record>, a: seq<Pair>, b: seq<Pair>)
    ensures PushAll(push, a + b) == Then(PushAll(push, a), PushAll(push, b))
    decreases |b|
  {
    if b == [] {
      assert a + b == a;
      ThenEmpty(PushAll(push, a));
    } else {
      var init := b[..|b| - 1];
      assert (a + b)[..|a + b| - 1] == a + init;
      PushAllAppend(push, a, init);
      ThenAssociative(PushAll(push, a), PushAll(push, init), Push(push, b[|b| - 1].0, b[|b| - 1].1));
    }
  }

  /** The pushes end normally exactly when every pair's single call does: nothing is retried. */
  lemma {:induction false} PushAllOutcome(push: (string, string, nat) -> Stream<Record>, pairs: seq<Pair>)
    ensures PushAll(push, pairs).raised.None? <==>
      forall i :: 0 <= i < |pairs| ==> push(pairs[i].0, pairs[i].1, 0).raised.None?
  {
    if pairs != [] {
      var init := pairs[..|pairs| - 1];
      PushAllOutcome(push, init);
      assert forall i :: 0 <= i < |init| ==> init[i] == pairs[i];
    }
  }

  /** `do_push(client)`, curried. */
  function DoPush(client: Client): seq<Pair> -> Stream<Record>
  {
    (pairs: seq<Pair>) => PushAll(client.push, pairs)
  }

  // ------------------------------------------------------------ storing manifests

  /** How a refused store is reported: the message nested under `error` and `errorDetails`. */
  function FailureRecord(message: string): (r: Record)
    ensures r.Keys == {"error"}
    ensures r["error"] == Dict(map["errorDetails" := Dict(map["message" := Str(message)])])
  {
    map["error" := Dict(map["errorDetails" := Dict(map["message" := Str(message)])])]
  }

  /**
   * `_put_manifest(dest, manifest)`: stores whatever it is given; a
   * missing manifest goes to the registry as it is, where `putNone` says
   * how the registry answers it. One record, empty on success; the
   * traceback text of a refused store is modelled by the exception's name.
   */
  function StoreManifest(rd: Reading, drc: LibRegistry.Registry, putNone: Pair -> Result<()>, dest: Pair, manifest: Option<Manifest>): (r: Stream<Record>)
    ensures r.raised.None? ==> |r.items| == 1
    ensures r.raised.Some? ==> r.items == [] && r.raised != Some(HttpError)
    ensures manifest.None? ==> (r == Stream([map[]], None) <==> putNone(dest).Ok?)
  {
    var put := match manifest
      case None => putNone(dest)
      case Some(m) => LibRegistry.PutManifest(rd, drc, dest.0, dest.1, m);
    match put
    case Ok(_) => Stream([map[]], None)
    case Err(e) => if e == HttpError then Stream([FailureRecord(LibPush.ErrorName(HttpError))], None) else Stream([], Some(e))
  }

  /**
   * A store yields exactly one record unless the registry raises something
   * other than an HTTP error: the empty record when the registry took the
   * manifest, and a record holding only `error` when it refused it.
   */
  lemma StoreManifestOutcome(rd: Reading, drc: LibRegistry.Registry, putNone: Pair -> Result<()>, dest: Pair, manifest: Option<Manifest>)
    ensures var s := StoreManifest(rd, drc, putNone, dest, manifest);
      var put := if manifest.None? then putNone(dest) else LibRegistry.PutManifest(rd, drc, dest.0, dest.1, manifest.value);
      (s.raised.None? <==> put.Ok? || put.error == HttpError) &&
      (s.raised.None? ==> |s.items| == 1 && (s.items[0] == map[] <==> put.Ok?) && (put.Err? ==> s.items[0].Keys == {"error"})) &&
      (s.raised.Some? ==> s.raised == Some(put.error))
  {
  }

  /**
   * Unlike the newer store, a missing manifest is not reported by the
   * cache: what the alias yields is whatever the registry answers.
   */
  lemma StoreMissingManifest(rd: Reading, drc: LibRegistry.Registry, putNone: Pair -> Result<()>, dest: Pair)
    ensures putNone(dest).Ok? ==> StoreManifest(rd, drc, putNone, dest, None) == Stream([map[]], None)
    ensures var s := LibCache.StoreManifestIntended(drc, dest, None); |s.items| == 1 && "error" in s.items[0]
  {
  }

  /** `_put_manifest` of the registry `drc`. */
  function StoreWith(rd: Reading, drc: LibRegistry.Registry, putNone: Pair -> Result<()>): LibCache.Store
  {
    (dest: Pair, manifest: Option<Manifest>) => StoreManifest(rd, drc, putNone, dest, manifest)
  }

  lemma StoreWithOneRecord(rd: Reading, drc: LibRegistry.Registry, putNone: Pair -> Result<()>)
    ensures LibCache.OneRecord(StoreWith(rd, drc, putNone))
  {
    forall dest, manifest
      ensures StoreWith(rd, drc, putNone)(dest, manifest).raised.None? ==> |StoreWith(rd, drc, putNone)(dest, manifest).items| == 1
    {
      StoreManifestOutcome(rd, drc, putNone, dest, manifest);
    }
  }

  // ------------------------------------------------------------ strategies

  /**
   * The older cache strategies. `DirectRegistry` holds the registry before
   * and after this run's pushes and how the registry answers a store of a
   * missing manifest.
   */
  datatype Strategy =
    | NoCache
    | PullCache
    | DirectRegistry(drc: LibRegistry.Registry, afterPush: LibRegistry.Registry, putNone: Pair -> Result<()>)

  /**
   * `pull_cache`: ends normally on a hit and raises CacheMissException on a
   * miss. The pull-based cache re-keys every `error` record to `warn` and,
   * once the pull is over, misses if there was any; the registry-based one
   * misses when the registry has no manifest.
   */
  function PullCacheSpec(rd: Reading, strategy: Strategy, client: Client, manifests: map<Pair, Manifest>, image: LibSourceControl.Target)
    : (r: (Stream<Record>, map<Pair, Manifest>))
    ensures strategy.NoCache? ==> r == (Stream([], Some(CacheMissException)), manifests)
    ensures !strategy.DirectRegistry? ==> r.1 == manifests
    ensures strategy.DirectRegistry? ==> r.0.items == [] && (r.0.raised.None? ==> LibCache.Key(image) in r.1)
  {
    match strategy
    case NoCache => (Stream([], Some(CacheMissException)), manifests)
    case PullCache =>
      var p := LibCache.PullIntended(client, image.image.name, image.ref);
      var s := MapItems(p, LibCache.Rekey);
      (if s.raised.None? && LibCache.HasError(p.items) then Stream(s.items, Some(CacheMissException)) else s, manifests)
    case DirectRegistry(drc, _, _) =>
      var (m, c) := LibCache.ManifestLookup(rd, drc, manifests, LibCache.Key(image));
      var s := match m
        case Err(e) => Stream([], Some(e))
        case Ok(found) => if found.None? then Stream([], Some(CacheMissException)) else Empty();
      (s, c)
  }

  /**
   * The pull-based lookup yields the pull's records with no `error` key
   * left, and misses exactly when the pull completed with an error record
   * among them.
   */
  lemma PullCacheRekeys(rd: Reading, client: Client, manifests: map<Pair, Manifest>, image: LibSourceControl.Target)
    ensures var s := PullCacheSpec(rd, PullCache, client, manifests, image).0;
      var p := LibCache.PullIntended(client, image.image.name, image.ref);
      |s.items| == |p.items| &&
      (forall i :: 0 <= i < |s.items| ==> "error" !in s.items[i] && s.items[i] == LibCache.Rekey(p.items[i])) &&
      (p.raised.None? ==> (s.raised == Some(CacheMissException) <==> LibCache.HasError(p.items))) &&
      (p.raised.Some? ==> s.raised == p.raised)
  {
  }

  /**
   * The newer memo of pulls changes only repeated lookups: the first
   * lookup of an image yields what the older, memo-less cache yields
   * (the daemon does not raise the cache's own PullFailedException). The
   * older `pull` reports a missing image as written, so it is compared
   * with the newer one as intended.
   */
  lemma PullCacheAgreesOnFirstPull(rd: Reading, client: Client, manifests: map<Pair, Manifest>, st: LibCache.CacheState, image: LibSourceControl.Target)
    requires LibCache.Key(image) !in st.pulled
    requires LibCache.PullIntended(client, image.image.name, image.ref).raised != Some(PullFailedException)
    ensures LibCache.PullCacheSpec(Intended, LibCache.PullCache, client, st, image).0 == PullCacheSpec(rd, PullCache, client, manifests, image).0
  {
    LibCache.PullMemoOutcome(Intended, client, st.pulled, image.image.name, image.ref);
  }

  /** The registry-based lookup misses exactly when the registry has no manifest, raises what the registry raises, and caches what it finds. */
  lemma PullCacheDirect(rd: Reading, strategy: Strategy, client: Client, manifests: map<Pair, Manifest>, image: LibSourceControl.Target)
    requires strategy.DirectRegistry?
    ensures var (s, c) := PullCacheSpec(rd, strategy, client, manifests, image);
      var (m, c') := LibCache.ManifestLookup(rd, strategy.drc, manifests, LibCache.Key(image));
      c == c' && s.items == [] &&
      (m.Ok? ==> (s.raised == Some(CacheMissException) <==> m.value.None?)) &&
      (m.Err? ==> s.raised == Some(m.error)) &&
      (s.raised.None? <==> LibCache.Key(image) in c)
  {
    LibCache.ManifestLookupCaches(rd, strategy.drc, strategy.drc, manifests, LibCache.Key(image));
  }

  // ------------------------------------------------------------ tag

  /**
   * `tag` as written: the local strategies call `docker.tag_image`, which
   * `shipwright/docker.py` does not define, so the first call raises
   * AttributeError before anything is yielded.
   */
  function TagAsWritten(strategy: Strategy, targets: seq<LibSourceControl.Target>, tags: seq<string>): (r: Stream<Record>)
    ensures r.items == []
    ensures r.raised.Some? <==> !strategy.DirectRegistry? && targets != [] && tags != []
  {
    if strategy.DirectRegistry? || targets == [] || tags == [] then Empty()
    else Stream([], Some(AttributeError))
  }

  /** `tag` as evidently intended: every target under every tag, tagged by the newer `tag_image`; the registry-based strategy yields nothing. */
  function TagSpec(strategy: Strategy, daemon: LibDocker.Daemon, targets: seq<LibSourceControl.Target>, tags: seq<string>): (r: Stream<Record>)
    ensures r.raised.None?
    ensures |r.items| == if strategy.DirectRegistry? then 0 else |targets| * |tags|
  {
    LibCache.TagAllLength(daemon, targets, tags);
    if strategy.DirectRegistry? then Empty() else Stream(LibCache.TagAll(daemon, targets, tags), None)
  }

  /**
   * `tag` under a reading: as written, the local strategies crash at the
   * first target and tag; as intended, they yield one event per target and
   * tag. Either way the registry-based strategy yields nothing.
   */
  function TagRun(rd: Reading, strategy: Strategy, daemon: LibDocker.Daemon, targets: seq<LibSourceControl.Target>, tags: seq<string>): (r: Stream<Record>)
    ensures strategy.DirectRegistry? ==> r == Empty()
    ensures r.raised.Some? <==> rd.AsWritten? && !strategy.DirectRegistry? && targets != [] && tags != []
    ensures rd.Intended? ==> |r.items| == if strategy.DirectRegistry? then 0 else |targets| * |tags|
    ensures rd.AsWritten? ==> r.items == []
  {
    if rd.AsWritten? then TagAsWritten(strategy, targets, tags) else TagSpec(strategy, daemon, targets, tags)
  }

  /**
   * With a target and a tag, the local strategies crash as written, while
   * the intended tagging yields one tag event per target and tag, targets
   * outer.
   */
  lemma TagNeedsTagImage(strategy: Strategy, daemon: LibDocker.Daemon, targets: seq<LibSourceControl.Target>, tags: seq<string>)
    requires !strategy.DirectRegistry? && targets != [] && tags != []
    ensures TagAsWritten(strategy, targets, tags) == Stream([], Some(AttributeError))
    ensures var s := TagSpec(strategy, daemon, targets, tags);
      && s.raised.None? && |s.items| == |targets| * |tags| > 0
      && s.items == Fn.Flatten(seq(|targets|, i requires 0 <= i < |targets| => LibCache.TagsOf(daemon, targets[i], tags)))
  {
    LibCache.TagAllLength(daemon, targets, tags);
    LibCache.TagAllGroups(daemon, targets, tags);
    LibCache.MulStep(0, |targets|, |tags|);
  }

  // ------------------------------------------------------------ push

  /** `push` of each strategy, with the manifests it leaves cached. */
  function PushSpec(rd: Reading, strategy: Strategy, client: Client, manifests: map<Pair, Manifest>,
                    targets: seq<LibSourceControl.Target>, tags: seq<string>): (r: (Stream<Record>, map<Pair, Manifest>))
    ensures !strategy.DirectRegistry? ==> r.1 == manifests
    ensures strategy.DirectRegistry? && LibCache.Lookups(rd, strategy.drc, manifests, targets).0.Err? ==> r.0.items == [] && r.0.raised.Some?
  {
    match strategy
    case DirectRegistry(drc, afterPush, putNone) =>
      LibCache.DirectPush(rd, drc, afterPush, DoPush(client), StoreWith(rd, drc, putNone), manifests, targets, tags)
    case _ => (LibCache.LocalPush(DoPush(client), targets, tags), manifests)
  }

  /**
   * A registry-based push that ends normally yields the single pushes of
   * the images the registry lacked, sorted, then one alias record per
   * image and tag.
   */
  lemma PushDirectShape(rd: Reading, strategy: Strategy, client: Client, manifests: map<Pair, Manifest>,
                        targets: seq<LibSourceControl.Target>, tags: seq<string>, aliases: seq<LibCache.Alias>, missing: seq<Pair>)
    requires strategy.DirectRegistry?
    requires LibCache.Lookups(rd, strategy.drc, manifests, targets).0 == Ok((aliases, missing))
    requires PushSpec(rd, strategy, client, manifests, targets, tags).0.raised.None?
    ensures forall i :: 0 <= i < |LibCache.SortedPairs(missing)| ==>
      client.push(LibCache.SortedPairs(missing)[i].0, LibCache.SortedPairs(missing)[i].1, 0).raised.None?
    ensures var r2 := LibCache.Relookups(rd, strategy.afterPush, LibCache.Lookups(rd, strategy.drc, manifests, targets).1, LibCache.SortedPairs(missing)).0;
      var s := PushSpec(rd, strategy, client, manifests, targets, tags).0;
      r2.Ok? && |r2.value| == |LibCache.SortedPairs(missing)| &&
      s == Then(PushAll(client.push, LibCache.SortedPairs(missing)), LibCache.AliasAll(StoreWith(rd, strategy.drc, strategy.putNone), aliases + r2.value, tags))
  {
    LibCache.DirectPushShape(rd, strategy.drc, strategy.afterPush, DoPush(client), StoreWith(rd, strategy.drc, strategy.putNone),
                    manifests, targets, tags, aliases, missing);
    PushAllOutcome(client.push, LibCache.SortedPairs(missing));
  }

  // ------------------------------------------------------------ the cache objects

  /**
   * A cache object: `NoCache`, `Cache` or `DirectRegistry` according to
   * `strategy`, with the manifests (`_cache`) the registry-based one keeps
   * between calls.
   */
  class Cache {
    const reading: Reading
    const strategy: Strategy
    const client: Client
    var manifests: map<Pair, Manifest>

    constructor (reading: Reading, strategy: Strategy, client: Client)
      ensures this.reading == reading && this.strategy == strategy && this.client == client
      ensures manifests == map[]
    {
      this.reading := reading;
      this.strategy := strategy;
      this.client := client;
      manifests := map[];
    }

    /** `_get_manifest`, asking `drc`: the registry as it answers at the time of the call. */
    method GetManifest(drc: LibRegistry.Registry, key: Pair) returns (m: Result<Option<Manifest>>)
      modifies this
      ensures (m, manifests) == LibCache.ManifestLookup(reading, drc, old(manifests), key)
    {
      if key in manifests {
        return Ok(Some(manifests[key]));
      }
      var got := LibRegistry.GetManifest(reading, drc, key.0, key.1);
      if got.Err? {
        if got.error == HttpError {
          return Ok(None);
        }
        return Err(got.error);
      }
      manifests := manifests[key := got.value];
      return Ok(Some(got.value));
    }

    /** `pull_cache`. */
    method PullCache(image: LibSourceControl.Target) returns (s: Stream<Record>)
      modifies this
      ensures (s, manifests) == PullCacheSpec(reading, strategy, client, old(manifests), image)
    {
      match strategy
      case NoCache =>
        s := Stream([], Some(CacheMissException));
      case PullCache =>
        var p := LibCache.PullIntended(client, image.image.name, image.ref);
        var failed := false;
        var events: seq<Record> := [];
        for i := 0 to |p.items|
          invariant |events| == i
          invariant forall k :: 0 <= k < i ==> events[k] == LibCache.Rekey(p.items[k])
          invariant failed <==> exists k :: 0 <= k < i && "error" in p.items[k]
        {
          if "error" in p.items[i] {
            failed := true;
          }
          events := events + [LibCache.Rekey(p.items[i])];
        }
        assert events == MapItems(p, LibCache.Rekey).items;
        if p.raised.Some? {
          return Stream(events, p.raised);
        }
        if failed {
          return Stream(events, Some(CacheMissException));
        }
        s := Stream(events, None);
      case DirectRegistry(drc, _, _) =>
        var m := GetManifest(drc, LibCache.Key(image));
        if m.Err? {
          s := Stream([], Some(m.error));
        } else if m.value.None? {
          s := Stream([], Some(CacheMissException));
        } else {
          s := Empty();
        }
    }

    /**
     * `tag`: as written, the call of the missing `docker.tag_image` raises
     * at the first target and tag; as intended, the newer `tag_image`
     * stands in for it.
     */
    method Tag(targets: seq<LibSourceControl.Target>, tags: seq<string>) returns (s: Stream<Record>)
      ensures s == TagRun(reading, strategy, client.daemon, targets, tags)
    {
      if strategy.DirectRegistry? {
        return Empty();
      }
      if reading.AsWritten? {
        if targets != [] && tags != [] {
          return Stream([], Some(AttributeError));
        }
        return Empty();
      }
      var events := LibCache.TagEach(client.daemon, targets, tags);
      return Stream(events, None);
    }

    /** The first loop of the registry-based `push`: each target's manifest looked up, splitting the images to alias from those to push. */
    method LookupAll(drc: LibRegistry.Registry, targets: seq<LibSourceControl.Target>) returns (r: Result<(seq<LibCache.Alias>, seq<Pair>)>)
      modifies this
      ensures (r, manifests) == LibCache.Lookups(reading, drc, old(manifests), targets)
    {
      var toPush: seq<Pair> := [];
      var toAlias: seq<LibCache.Alias> := [];
      for i := 0 to |targets|
        invariant LibCache.Lookups(reading, drc, old(manifests), targets[..i]) == (Ok((toAlias, toPush)), manifests)
      {
        assert targets[..i + 1][..i] == targets[..i];
        var m := GetManifest(drc, LibCache.Key(targets[i]));
        if m.Err? {
          LibCache.LookupsSticks(reading, drc, old(manifests), targets, i + 1);
          return Err(m.error);
        }
        if m.value.Some? {
          toAlias := toAlias + [(LibCache.Key(targets[i]), m.value)];
        } else {
          toPush := toPush + [LibCache.Key(targets[i])];
        }
      }
      assert targets[..|targets|] == targets;
      return Ok((toAlias, toPush));
    }

    /** The second loop of the registry-based `push`: each pushed image's manifest looked up again. */
    method RelookupAll(afterPush: LibRegistry.Registry, keys: seq<Pair>) returns (r: Result<seq<LibCache.Alias>>)
      modifies this
      ensures (r, manifests) == LibCache.Relookups(reading, afterPush, old(manifests), keys)
    {
      var found: seq<LibCache.Alias> := [];
      for i := 0 to |keys|
        invariant LibCache.Relookups(reading, afterPush, old(manifests), keys[..i]) == (Ok(found), manifests)
      {
        assert keys[..i + 1][..i] == keys[..i];
        var m := GetManifest(afterPush, keys[i]);
        if m.Err? {
          LibCache.RelookupsSticks(reading, afterPush, old(manifests), keys, i + 1);
          return Err(m.error);
        }
        found := found + [(keys[i], m.value)];
      }
      assert keys[..|keys|] == keys;
      return Ok(found);
    }

    /** `push` of the registry-based strategy. */
    method PushDirect(targets: seq<LibSourceControl.Target>, tags: seq<string>) returns (s: Stream<Record>)
      requires strategy.DirectRegistry?
      modifies this
      ensures (s, manifests) == PushSpec(reading, strategy, client, old(manifests), targets, tags)
    {
      var looked := LookupAll(strategy.drc, targets);
      if looked.Err? {
        return Stream([], Some(looked.error));
      }
      var toPush := LibCache.SortedPairs(looked.value.1);
      var pushed := PushAll(client.push, toPush);
      if pushed.raised.Some? {
        return pushed;
      }
      var found := RelookupAll(strategy.afterPush, toPush);
      if found.Err? {
        return Stream(pushed.items, Some(found.error));
      }
      var aliased := LibCache.StoreAliases(StoreWith(reading, strategy.drc, strategy.putNone), looked.value.0 + found.value, tags);
      s := Then(pushed, aliased);
    }

    /** `push`. */
    method Push(targets: seq<LibSourceControl.Target>, tags: seq<string>) returns (s: Stream<Record>)
      modifies this
      ensures (s, manifests) == PushSpec(reading, strategy, client, old(manifests), targets, tags)
    {
      if strategy.DirectRegistry? {
        s := PushDirect(targets, tags);
      } else {
        s := LibCache.PushLocal(DoPush(client), targets, tags);
      }
    }
  }
}

=== FILE: cli.dfy ===
/**
 * The older command line of `shipwright/cli.py`: the sub-command picked
 * from the docopt dictionary, and how each event of the run is shown
 * (`switch` renders the record, `mk_show` decides whether the line is
 * highlighted with the container's name or printed as it is).
 *
 * The memo is the same code as in `shipwright/_lib/cli.py` and is modelled
 * once, by `LibCli.Memo`; the rendering of values Python formats itself is
 * `LibCli.Format`.
 */
module Cli {
  import opened Common
  import opened Events
  import Text
  import Fn
  import LibCli

  // ------------------------------------------------------------ the sub-command

  /** `str.islower()` over ASCII: some cased character, and no upper-case one. */
  predicate IsLower(s: string)
  {
    (exists i :: 0 <= i < |s| && 'a' <= s[i] <= 'z') && forall i :: 0 <= i < |s| ==> !('A' <= s[i] <= 'Z')
  }

  /** A docopt key that names a sub-command which was given. */
  predicate Enabled(entry: (string, Value))
  {
    IsLower(entry.0) && Truthy(entry.1)
  }

  /** `[command for (command, enabled) in arguments.items() if command.islower() and enabled]`. */
  function EnabledCommands(arguments: seq<(string, Value)>): (r: seq<string>)
    ensures forall k :: 0 <= k < |r| ==> IsLower(r[k])
    ensures |r| <= |arguments|
  {
    if arguments == [] then []
    else
      var last := arguments[|arguments| - 1];
      EnabledCommands(arguments[..|arguments| - 1]) + (if Enabled(last) then [last.0] else [])
  }

  /** `_0(EnabledCommands(arguments)) or "build"`. */
  function CommandName(arguments: seq<(string, Value)>): (r: string)
    ensures r != ""
    ensures r == "build" || (EnabledCommands(arguments) != [] && r == EnabledCommands(arguments)[0])
    ensures EnabledCommands(arguments) == [] ==> r == "build"
  {
    var first := Fn.Get(0, EnabledCommands(arguments));
    if first.Ok? && first.value.Some? && first.value.value != "" then first.value.value else "build"
  }

  /** The first enabled entry, when there is one, is the head of the list of enabled commands. */
  lemma {:induction false} EnabledCommandsHead(arguments: seq<(string, Value)>)
    ensures EnabledCommands(arguments) == [] <==> forall j :: 0 <= j < |arguments| ==> !Enabled(arguments[j])
    ensures EnabledCommands(arguments) != [] ==>
      exists i :: 0 <= i < |arguments| && Enabled(arguments[i]) && arguments[i].0 == EnabledCommands(arguments)[0] &&
        forall j :: 0 <= j < i ==> !Enabled(arguments[j])
  {
    if arguments != [] {
      var init := arguments[..|arguments| - 1];
      EnabledCommandsHead(init);
      assert forall j :: 0 <= j < |init| ==> init[j] == arguments[j];
      if EnabledCommands(init) != [] {
        var i :| 0 <= i < |init| && Enabled(init[i]) && init[i].0 == EnabledCommands(init)[0] &&
          forall j :: 0 <= j < i ==> !Enabled(init[j]);
        assert Enabled(arguments[i]);
      } else if Enabled(arguments[|arguments| - 1]) {
        assert Enabled(arguments[|init|]);
      }
    }
  }

  /**
   * The sub-command is the first key, in the dictionary's order, that is
   * lower-case and set; when there is none it is `build`.
   */
  lemma CommandNameIsFirstEnabled(arguments: seq<(string, Value)>)
    ensures (forall j :: 0 <= j < |arguments| ==> !Enabled(arguments[j])) ==> CommandName(arguments) == "build"
    ensures (exists j :: 0 <= j < |arguments| && Enabled(arguments[j])) ==>
      exists i :: 0 <= i < |arguments| && Enabled(arguments[i]) && arguments[i].0 == CommandName(arguments) &&
        forall j :: 0 <= j < i ==> !Enabled(arguments[j])
  {
    EnabledCommandsHead(arguments);
    var cmds := EnabledCommands(arguments);
    if cmds != [] {
      assert IsLower(cmds[0]);
      assert cmds[0] != "";
    }
  }

  /**
   * The docopt dictionary of `shipwright purge` picks `purge`. In this
   * dictionary `-H` and `TARGET` are not lower-case and `--help` is unset;
   * an enabled lower-case option listed first would be picked, as
   * CommandNameIsFirstEnabled states.
   */
  lemma CommandNameExample()
    ensures CommandName([("--help", Bool(false)), ("-H", Str("tcp://host")), ("TARGET", List([Str("base")])),
                         ("build", Bool(false)), ("purge", Bool(true)), ("push", Bool(false))]) == "purge"
  {
    var arguments := [("--help", Bool(false)), ("-H", Str("tcp://host")), ("TARGET", List([Str("base")])),
                      ("build", Bool(false)), ("purge", Bool(true)), ("push", Bool(false))];
    assert !IsLower("-H") by { assert 'A' <= "-H"[1] <= 'Z'; }
    assert !IsLower("TARGET") by { assert 'A' <= "TARGET"[0] <= 'Z'; }
    assert IsLower("purge") by { assert 'a' <= "purge"[0] <= 'z'; }
    assert arguments[..1][..0] == [] && EnabledCommands(arguments[..1]) == [];
    assert arguments[..2][..1] == arguments[..1] && EnabledCommands(arguments[..2]) == [];
    assert arguments[..3][..2] == arguments[..2] && EnabledCommands(arguments[..3]) == [];
    assert arguments[..4][..3] == arguments[..3] && EnabledCommands(arguments[..4]) == [];
    assert arguments[..5][..4] == arguments[..4] && EnabledCommands(arguments[..5]) == ["purge"];
    assert arguments[..5] == arguments[..|arguments| - 1];
  }

  // ------------------------------------------------------------ showing an event

  /** What `switch` returns: a line of text, or the record itself when no case matches. */
  datatype Shown = Line(s: string) | Raw(rec: Record)

  /**
   * `switch(rec)` of the older command line. The keys are tried in this
   * order: `stream`, `status`, `error`, then the event kind `tag` or
   * `removed`; a status line ends with a carriage return for a download in
   * progress and with a newline otherwise.
   */
  function Switch(fmt: LibCli.Format, rec: Record): (r: Result<Shown>)
    ensures r.Err? ==> r.error == KeyError || r.error == TypeError || r.error == AttributeError
    ensures r.Ok? && r.value.Raw? ==> r.value.rec == rec && "stream" !in rec && "status" !in rec && "error" !in rec
    ensures "stream" !in rec && "status" !in rec && "error" !in rec && "event" !in rec ==> r == Err(KeyError)
  {
    if "stream" in rec then
      if rec["stream"].Str? then Ok(Line(Text.StripChar(rec["stream"].s, '\n'))) else Err(AttributeError)
    else if "status" in rec then
      if !rec["status"].Str? then Err(AttributeError)
      else
        var status := rec["status"].s;
        var term := if Text.StartsWith(status, "Downloading") then "\r" else "\n";
        Ok(Line("[STATUS] " + (if "id" in rec then LibCli.Show(fmt, rec["id"]) else "") + ": " + status + term))
    else if "error" in rec then
      var m := LibCli.DetailMessage(fmt, rec);
      if m.Err? then Err(m.error) else Ok(Line("[ERROR] " + m.value + "\n"))
    else if "event" !in rec then Err(KeyError)
    else if rec["event"] == Str("tag") then
      // `format(name=rec['container'].name, **rec)`: the name is read first, and a record that has its own `name` repeats the keyword
      if "container" !in rec then Err(KeyError)
      else if !rec["container"].Entity? then Err(AttributeError)
      else if "name" in rec then Err(TypeError)
      else if "image" !in rec || "tag" !in rec then Err(KeyError)
      else Ok(Line("Tagging " + LibCli.Show(fmt, rec["image"]) + " to " + rec["container"].name + ":" + LibCli.Show(fmt, rec["tag"])))
    else if rec["event"] == Str("removed") then
      if "image" in rec && "tag" in rec then Ok(Line("Untagging " + LibCli.Show(fmt, rec["image"]) + ":" + LibCli.Show(fmt, rec["tag"])))
      else Err(KeyError)
    else Ok(Raw(rec))
  }

  /** A stream record is shown by both command lines alike, whatever else it holds. */
  lemma SwitchStreamAgrees(fmt: LibCli.Format, rec: Record, showProgress: bool)
    requires "stream" in rec
    ensures Switch(fmt, rec).Ok? <==> LibCli.Switch(fmt, rec, showProgress).Ok?
    ensures Switch(fmt, rec).Ok? ==> Switch(fmt, rec) == Ok(Line(LibCli.Switch(fmt, rec, showProgress).value.value))
  {
  }

  /** A status line ends with a carriage return exactly when the status starts with `Downloading`, and with a newline otherwise. */
  lemma SwitchStatusTerminator(fmt: LibCli.Format, rec: Record)
    requires "stream" !in rec && "status" in rec && rec["status"].Str?
    ensures Switch(fmt, rec).Ok? && Switch(fmt, rec).value.Line?
    ensures var line := Switch(fmt, rec).value.s;
      && Text.StartsWith(line, "[STATUS] ")
      && (line[|line| - 1] == '\r' <==> Text.StartsWith(rec["status"].s, "Downloading"))
      && (line[|line| - 1] == '\n' <==> !Text.StartsWith(rec["status"].s, "Downloading"))
  {
    var line := Switch(fmt, rec).value.s;
    var head := "[STATUS] " + (if "id" in rec then LibCli.Show(fmt, rec["id"]) else "") + ": " + rec["status"].s;
    assert line == "[STATUS] " + ((if "id" in rec then LibCli.Show(fmt, rec["id"]) else "") + ": " + rec["status"].s) + line[|head|..];
  }

  /** A failure docker reports is shown as its message on a line of its own, also inside a build message. */
  lemma SwitchReportsFailures(fmt: LibCli.Format, d: Record, message: string)
    requires "stream" !in d && "status" !in d
    ensures Switch(fmt, Merge(d, ErrorRecord(message))) == Ok(Line("[ERROR] " + message + "\n"))
  {
    var e := Merge(d, ErrorRecord(message));
    assert "errorDetail" in e && e["errorDetail"] == Dict(map["message" := Str(message)]);
  }

  /** Tag and untag events name the image and the tag; any other event is returned as it is. */
  lemma SwitchEvents(fmt: LibCli.Format, rec: Record, image: string, tag: string, container: string)
    ensures Switch(fmt, map["event" := Str("tag"), "image" := Str(image), "tag" := Str(tag), "container" := Entity(container)])
      == Ok(Line("Tagging " + image + " to " + container + ":" + tag))
    ensures Switch(fmt, map["event" := Str("removed"), "image" := Str(image), "tag" := Str(tag)]) == Ok(Line("Untagging " + image + ":" + tag))
    ensures ("stream" !in rec && "status" !in rec && "error" !in rec && "event" in rec &&
             rec["event"] != Str("tag") && rec["event"] != Str("removed")) ==> Switch(fmt, rec) == Ok(Raw(rec))
  {
    var t := map["event" := Str("tag"), "image" := Str(image), "tag" := Str(tag), "container" := Entity(container)];
    assert "stream" !in t && "status" !in t && "error" !in t && "name" !in t;
    var u := map["event" := Str("removed"), "image" := Str(image), "tag" := Str(tag)];
    assert "stream" !in u && "status" !in u && "error" !in u;
  }

  /** How `mk_show` shows a line: highlighted with a container's name, or printed. */
  datatype Show = Highlight(container: Value) | Print

  /** `mk_show(evt)`: a build message or an error is highlighted with its container. */
  function MkShow(evt: Record): (r: Result<Show>)
    ensures r.Ok? && r.value.Highlight? ==> "container" in evt && r.value.container == evt["container"]
    ensures "event" !in evt ==> r == Err(KeyError)
  {
    if "event" !in evt then Err(KeyError)
    else if evt["event"] == Str("build_msg") || "error" in evt then
      if "container" in evt then Ok(Highlight(evt["container"])) else Err(KeyError)
    else Ok(Print)
  }

  /**
   * The line the main loop prints for an event: `show_fn(switch(event))`.
   * `paint` is the prefix `highlight` paints a container's name with (kept
   * per container by the memo). Highlighting concatenates, so a record
   * `switch` returns unrendered raises `TypeError` there; `print` shows it
   * with `repr`.
   */
  function Display(fmt: LibCli.Format, paint: string -> string, evt: Record): (r: Result<string>)
    ensures MkShow(evt).Err? ==> r == Err(MkShow(evt).error)
  {
    var show := MkShow(evt);
    var shown := Switch(fmt, evt);
    if show.Err? then Err(show.error)
    else if shown.Err? then Err(shown.error)
    else match show.value
      case Print => Ok(if shown.value.Line? then shown.value.s else fmt.repr(Dict(shown.value.rec)))
      case Highlight(container) =>
        if !container.Entity? then Err(AttributeError)
        else if shown.value.Raw? then Err(TypeError)
        else Ok(paint(container.name) + " | " + shown.value.s)
  }

  /** A build message of a container is shown after the container's painted name, and a record `switch` leaves unrendered cannot be. */
  lemma DisplayBuildMessage(fmt: LibCli.Format, paint: string -> string, evt: Record, container: string)
    requires "event" in evt && evt["event"] == Str("build_msg") && "container" in evt && evt["container"] == Entity(container)
    ensures Switch(fmt, evt).Ok? && Switch(fmt, evt).value.Line? ==>
      Display(fmt, paint, evt) == Ok(paint(container) + " | " + Switch(fmt, evt).value.s)
    ensures Switch(fmt, evt).Ok? && Switch(fmt, evt).value.Raw? ==> Display(fmt, paint, evt) == Err(TypeError)
  {
  }
}

=== FILE: commits.dfy ===
/**
 * The commit bookkeeping of `shipwright/commits.py`: every commit gets its
 * position in oldest-first history, a container's last build is the
 * greatest `(tag, position)` over its image tags that name a commit, and
 * its current position is that of the newest commit touching its directory.
 */
module Commits {
  import opened Common
  import opened Ordering
  import LibSourceControl
  import SourceControl

  /** `hexsha` of a commit that exists: its first twelve digits (the same code as `_hexsha` of `shipwright/source_control.py`). */
  function Short(sha: string): string
  {
    SourceControl.Hexsha(Some(sha)).value
  }

  /** `{hexsha(rev): i for i, rev in enumerate(oldest)}`: a later commit wins a clash of short ids. */
  function CommitMap(oldest: seq<string>): (m: map<string, int>)
    ensures forall c :: c in m ==> 0 <= m[c] < |oldest| && Short(oldest[m[c]]) == c
  {
    if oldest == [] then map[]
    else
      var n := |oldest| - 1;
      var m := CommitMap(oldest[..n]);
      assert forall c :: c in m ==> oldest[..n][m[c]] == oldest[m[c]];
      m[Short(oldest[n]) := n]
  }

  /**
   * Every commit is in the map; when no two commits share a short id, a
   * commit's entry is its position in oldest-first order.
   */
  lemma {:induction false} CommitMapPositions(oldest: seq<string>, k: nat)
    requires k < |oldest|
    ensures Short(oldest[k]) in CommitMap(oldest)
    ensures k <= CommitMap(oldest)[Short(oldest[k])]
    ensures (forall i, j :: 0 <= i < j < |oldest| ==> Short(oldest[i]) != Short(oldest[j])) ==>
              CommitMap(oldest)[Short(oldest[k])] == k
  {
    var n := |oldest| - 1;
    if k < n {
      CommitMapPositions(oldest[..n], k);
      assert oldest[..n][k] == oldest[k];
    }
  }

  /** The commit map of a repository: `_commits` lists the history oldest first. */
  function RepoCommitMap(repo: LibSourceControl.Repo): map<string, int>
  {
    CommitMap(Reverse(repo.history))
  }

  // ------------------------------------------------------------ last build

  /** Python 2's order on `(tag, position)` tuples: the tag, then the position. */
  predicate TagRelLe(a: (string, int), b: (string, int))
  {
    (StrLe(a.0, b.0) && a.0 != b.0) || (a.0 == b.0 && a.1 <= b.1)
  }

  /** `(c, commit_map[c]) for c in tags if c in commit_map`. */
  function TagRels(m: map<string, int>, tags: seq<string>): (r: seq<(string, int)>)
    ensures forall p :: p in r <==> p.0 in tags && p.0 in m && p.1 == m[p.0]
  {
    if tags == [] then []
    else
      var rest := TagRels(m, tags[1..]);
      assert forall t :: t in tags <==> t == tags[0] || t in tags[1..];
      if tags[0] in m then [(tags[0], m[tags[0]])] + rest else rest
  }

  lemma TagRelLeTotal(a: (string, int), b: (string, int))
    ensures TagRelLe(a, b) || TagRelLe(b, a)
  {
    StrLeTotalAt(a.0, b.0);
  }

  lemma TagRelLeTransitive(a: (string, int), b: (string, int), c: (string, int))
    requires TagRelLe(a, b) && TagRelLe(b, c)
    ensures TagRelLe(a, c)
  {
    if a.0 != b.0 && b.0 != c.0 {
      StrLeTransitiveAt(a.0, b.0, c.0);
      if a.0 == c.0 {
        StrLeAntisymmetricAt(a.0, b.0);
      }
    }
  }

  /** `max` of a non-empty run of tuples. */
  function Max(s: seq<(string, int)>): (r: (string, int))
    requires s != []
    ensures r in s && forall p :: p in s ==> TagRelLe(p, r)
  {
    if |s| == 1 then s[0]
    else
      var m := Max(s[1..]);
      TagRelLeTotal(s[0], m);
      assert forall p :: p in s ==> p == s[0] || p in s[1..];
      if TagRelLe(s[0], m) then m
      else
        forall p | p in s[1..] ensures TagRelLe(p, s[0]) {
          TagRelLeTransitive(p, m, s[0]);
        }
        s[0]
  }

  /**
   * `_max_commit`: `(None, -1)` for an image with no tags; otherwise the
   * greatest `(tag, position)` among its tags that name a commit, and
   * `ValueError` (`max` of nothing) when none does.
   */
  function MaxCommit(m: map<string, int>, tags: seq<string>): (r: Result<(Option<string>, int)>)
    ensures tags == [] ==> r == Ok((None, -1))
    ensures tags != [] ==> (r.Err? <==> forall t :: t in tags ==> t !in m)
    ensures r.Err? ==> r.error == ValueError
    ensures tags != [] && r.Ok? ==>
              && r.value.0.Some? && r.value.0.value in tags && r.value.0.value in m
              && r.value.1 == m[r.value.0.value]
              && forall t :: t in tags && t in m ==> TagRelLe((t, m[t]), (r.value.0.value, r.value.1))
  {
    if tags == [] then Ok((None, -1))
    else
      var rels := TagRels(m, tags);
      if rels == [] then
        assert forall t :: t in tags && t in m ==> (t, m[t]) in rels;
        Err(ValueError)
      else
        var best := Max(rels);
        Ok((Some(best.0), best.1))
  }

  // ------------------------------------------------------------ current position

  /** `_last_commit_relative`: the position of the newest commit touching the directory; `KeyError` if the map lacks it. */
  function LastCommitRelative(repo: LibSourceControl.Repo, m: map<string, int>, path: string): (r: Result<Option<int>>)
    ensures repo.lastCommit([path]).None? ==> r == Ok(None)
    ensures repo.lastCommit([path]).Some? ==>
              if Short(repo.lastCommit([path]).value) in m then r == Ok(Some(m[Short(repo.lastCommit([path]).value)]))
              else r == Err(KeyError)
  {
    match repo.lastCommit([path])
    case None => Ok(None)
    case Some(sha) => if Short(sha) in m then Ok(Some(m[Short(sha)])) else Err(KeyError)
  }

  /** A commit that touches the directory and is in the history always has a position. */
  lemma CommittedPathHasPosition(repo: LibSourceControl.Repo, path: string)
    requires repo.lastCommit([path]).Some? && repo.lastCommit([path]).value in repo.history
    ensures LastCommitRelative(repo, RepoCommitMap(repo), path).Ok?
    ensures LastCommitRelative(repo, RepoCommitMap(repo), path).value.Some?
  {
    var sha := repo.lastCommit([path]).value;
    var oldest := Reverse(repo.history);
    var i :| 0 <= i < |repo.history| && repo.history[i] == sha;
    assert oldest[|repo.history| - 1 - i] == sha;
    CommitMapPositions(oldest, |repo.history| - 1 - i);
  }

  // ------------------------------------------------------------ container_commit_info

  /** `[_max_commit(commit_map, tags) for tags in docker_tags]`, stopping at the first `ValueError`. */
  function MaxCommits(m: map<string, int>, tagLists: seq<seq<string>>): (r: Result<seq<(Option<string>, int)>>)
    ensures r.Ok? ==> |r.value| == |tagLists|
    ensures r.Ok? ==> forall k :: 0 <= k < |tagLists| ==> MaxCommit(m, tagLists[k]) == Ok(r.value[k])
    ensures r.Err? <==> exists k :: 0 <= k < |tagLists| && MaxCommit(m, tagLists[k]).Err?
  {
    if tagLists == [] then Ok([])
    else
      match MaxCommit(m, tagLists[0])
      case Err(e) => Err(e)
      case Ok(first) =>
        match MaxCommits(m, tagLists[1..])
        case Err(e) =>
          var k :| 0 <= k < |tagLists[1..]| && MaxCommit(m, tagLists[1..][k]).Err?;
          assert tagLists[k + 1] == tagLists[1..][k];
          Err(e)
        case Ok(rest) =>
          assert forall k :: 1 <= k < |tagLists| ==> tagLists[k] == tagLists[1..][k - 1];
          Ok([first] + rest)
  }

  /** `[_last_commit_relative(repo, commit_map, p) for p in paths]`, stopping at the first `KeyError`. */
  function CurrentRels(repo: LibSourceControl.Repo, m: map<string, int>, paths: seq<string>): (r: Result<seq<Option<int>>>)
    ensures r.Ok? ==> |r.value| == |paths|
    ensures r.Ok? ==> forall k :: 0 <= k < |paths| ==> LastCommitRelative(repo, m, paths[k]) == Ok(r.value[k])
    ensures r.Err? ==> r.error == KeyError
  {
    if paths == [] then Ok([])
    else
      match LastCommitRelative(repo, m, paths[0])
      case Err(e) => Err(e)
      case Ok(first) =>
        match CurrentRels(repo, m, paths[1..])
        case Err(e) => Err(e)
        case Ok(rest) =>
          assert forall k :: 1 <= k < |paths| ==> paths[k] == paths[1..][k - 1];
          Ok([first] + rest)
  }

  function Firsts(pairs: seq<(Option<string>, int)>): (r: seq<Option<string>>)
    ensures |r| == |pairs| && forall k :: 0 <= k < |pairs| ==> r[k] == pairs[k].0
  {
    seq(|pairs|, k requires 0 <= k < |pairs| => pairs[k].0)
  }

  function Seconds(pairs: seq<(Option<string>, int)>): (r: seq<int>)
    ensures |r| == |pairs| && forall k :: 0 <= k < |pairs| ==> r[k] == pairs[k].1
  {
    seq(|pairs|, k requires 0 <= k < |pairs| => pairs[k].1)
  }

  /** What `container_commit_info` returns: the last built refs and positions, one per tag list, and one current position per path. */
  datatype CommitInfo = CommitInfo(lastBuiltRef: seq<Option<string>>, lastBuiltRel: seq<int>, currentRels: seq<Option<int>>)

  /**
   * `container_commit_info`. Unpacking `zip()` of no pairs into two names
   * raises `ValueError`, so an empty tag-list list fails.
   */
  function ContainerCommitInfo(repo: LibSourceControl.Repo, dockerTags: seq<seq<string>>, paths: seq<string>): (r: Result<CommitInfo>)
    ensures dockerTags == [] ==> r == Err(ValueError)
    ensures r.Ok? ==> |r.value.lastBuiltRef| == |dockerTags| == |r.value.lastBuiltRel| && |r.value.currentRels| == |paths|
    ensures r.Ok? ==> forall k :: 0 <= k < |dockerTags| ==>
              MaxCommit(RepoCommitMap(repo), dockerTags[k]) == Ok((r.value.lastBuiltRef[k], r.value.lastBuiltRel[k]))
    ensures r.Ok? ==> forall k :: 0 <= k < |paths| ==>
              LastCommitRelative(repo, RepoCommitMap(repo), paths[k]) == Ok(r.value.currentRels[k])
  {
    var m := RepoCommitMap(repo);
    match MaxCommits(m, dockerTags)
    case Err(e) => Err(e)
    case Ok(latest) =>
      if latest == [] then Err(ValueError)
      else
        match CurrentRels(repo, m, paths)
        case Err(e) => Err(e)
        case Ok(current) => Ok(CommitInfo(Firsts(latest), Seconds(latest), current))
  }
}

=== FILE: common.dfy ===
/**
 * Values shared by every module of the model: optional values, the
 * exceptions the Python code raises, and results that carry either a value
 * or the exception raised instead.
 */
module Common {

  datatype Option<T> = None | Some(value: T)

  /** The Python exceptions (and shipwright's own) that the modelled code raises. */
  datatype Error =
    | IndexError
    | KeyError
    | TypeError
    | ValueError
    | AttributeError
    | StopIteration
    | UnboundLocalError
    | NotFound
    | RegistryException
    | HttpError
    | RuntimeError
    | PullFailedException
    | CacheMissException

  datatype Result<T> = Ok(value: T) | Err(error: Error)

  /**
   * Which program a member follows where shipwright has a defect (listed
   * in README.md under "Findings"): the code as written, or the code as
   * evidently intended. Members that compose several steps take a reading
   * and use the as-written or the corrected step accordingly.
   */
  datatype Reading = AsWritten | Intended

  function OptionOr<T>(o: Option<T>, default: T): (r: T)
    ensures o.Some? ==> r == o.value
    ensures o.None? ==> r == default
  {
    match o
    case Some(v) => v
    case None => default
  }

  /** The group after the `a`-th of `n` elements ends `n` elements later. */
  lemma MulSucc(a: nat, n: nat)
    ensures (a + 1) * n == a * n + n
  {
  }

  /** `reversed(s)`: the elements from last to first. */
  function Reverse<T>(s: seq<T>): (r: seq<T>)
    ensures |r| == |s| && forall k :: 0 <= k < |s| ==> r[k] == s[|s| - 1 - k]
  {
    if s == [] then [] else Reverse(s[1..]) + [s[0]]
  }

  /** A non-empty sequence is its prefix and its last element. */
  lemma InitLast<T>(s: seq<T>)
    requires s != []
    ensures s[..|s| - 1] + [s[|s| - 1]] == s
  {
  }

  /** Taking one more element of a sequence appends that element. */
  lemma TakeOneMore<T>(s: seq<T>, i: nat)
    requires i < |s|
    ensures s[..i + 1] == s[..i] + [s[i]]
  {
  }

  /** `f` applied to each element in turn, stopping at the first error: a loop that raises on the first bad element. */
  function CollectAll<A, B>(f: A -> Result<B>, xs: seq<A>): Result<seq<B>>
  {
    if xs == [] then Ok([])
    else
      match CollectAll(f, xs[..|xs| - 1])
      case Err(e) => Err(e)
      case Ok(bs) =>
        match f(xs[|xs| - 1])
        case Err(e) => Err(e)
        case Ok(b) => Ok(bs + [b])
  }

  /** The `k`-th element is the first `f` fails on, with `e`. */
  predicate FirstFailure<A, B>(f: A -> Result<B>, xs: seq<A>, k: int, e: Error)
  {
    && 0 <= k < |xs|
    && f(xs[k]) == Err(e)
    && forall j :: 0 <= j < k ==> f(xs[j]).Ok?
  }

  /** Collecting succeeds with every element's result, in order, or fails as the first element that fails. */
  lemma {:induction false} CollectAllMeaning<A, B>(f: A -> Result<B>, xs: seq<A>)
    ensures var r := CollectAll(f, xs);
      && (r.Ok? ==> |r.value| == |xs| && forall k :: 0 <= k < |xs| ==> f(xs[k]) == Ok(r.value[k]))
      && (r.Err? ==> exists k :: FirstFailure(f, xs, k, r.error))
  {
    if xs != [] {
      var init := xs[..|xs| - 1];
      CollectAllMeaning(f, init);
      var r := CollectAll(f, init);
      if r.Err? {
        var k :| FirstFailure(f, init, k, r.error);
        assert FirstFailure(f, xs, k, r.error) by {
          assert forall j :: 0 <= j <= k ==> init[j] == xs[j];
        }
      } else if f(xs[|xs| - 1]).Err? {
        assert FirstFailure(f, xs, |xs| - 1, f(xs[|xs| - 1]).error) by {
          assert forall j :: 0 <= j < |init| ==> init[j] == xs[j];
        }
      } else {
        assert forall j :: 0 <= j < |init| ==> init[j] == xs[j];
      }
    }
  }

  /** Once a prefix has failed, the whole sequence fails the same way. */
  lemma {:induction false} CollectAllSticks<A, B>(f: A -> Result<B>, xs: seq<A>, n: nat)
    requires n <= |xs| && CollectAll(f, xs[..n]).Err?
    ensures CollectAll(f, xs) == CollectAll(f, xs[..n])
  {
    if n < |xs| {
      assert xs[..|xs| - 1][..n] == xs[..n];
      CollectAllSticks(f, xs[..|xs| - 1], n);
    } else {
      assert xs[..n] == xs;
    }
  }

  /** `f` applied to each element in turn, with no result as soon as one application has none. */
  function MapSome<A, B>(f: A -> Option<B>, xs: seq<A>): (r: Option<seq<B>>)
    ensures r.Some? ==> |r.value| == |xs|
  {
    if xs == [] then Some([])
    else
      match MapSome(f, xs[..|xs| - 1])
      case None => None
      case Some(init) =>
        match f(xs[|xs| - 1])
        case None => None
        case Some(y) => Some(init + [y])
  }

  /** There is a result exactly when every element has one. */
  lemma {:induction false} MapSomeAllSome<A, B>(f: A -> Option<B>, xs: seq<A>)
    ensures MapSome(f, xs).Some? <==> forall k :: 0 <= k < |xs| ==> f(xs[k]).Some?
  {
    if xs != [] {
      var init := xs[..|xs| - 1];
      MapSomeAllSome(f, init);
      if MapSome(f, init).None? {
        var k :| 0 <= k < |init| && f(init[k]).None?;
        assert init[k] == xs[k];
      } else if f(xs[|xs| - 1]).Some? {
        forall k | 0 <= k < |xs| ensures f(xs[k]).Some? {
          if k < |init| { assert xs[k] == init[k]; }
        }
      }
    }
  }

  /** The elements that `keep` accepts, in order. */
  function Filter<T>(keep: T -> bool, xs: seq<T>): (r: seq<T>)
    ensures |r| <= |xs|
  {
    if xs == [] then [] else (if keep(xs[0]) then [xs[0]] else []) + Filter(keep, xs[1..])
  }

  /** Filtering a concatenation filters each part. */
  lemma {:induction false} FilterAppend<T>(keep: T -> bool, xs: seq<T>, ys: seq<T>)
    ensures Filter(keep, xs + ys) == Filter(keep, xs) + Filter(keep, ys)
  {
    if xs != [] {
      assert (xs + ys)[0] == xs[0] && (xs + ys)[1..] == xs[1..] + ys;
      FilterAppend(keep, xs[1..], ys);
    } else {
      assert xs + ys == ys;
    }
  }

  /** Regrouping a concatenation of four runs. */
  lemma ConcatAssoc<T>(a: seq<T>, b: seq<T>, c: seq<T>)
    ensures (a + b) + c == a + (b + c)
  {
  }

  lemma ConcatRegroup<T>(a: seq<T>, b: seq<T>, c: seq<T>, e: seq<T>)
    ensures ((a + b) + c) + e == a + ((b + c) + e)
  {
  }

  /** The index of the first element at or after `start` that satisfies `p`, if any. */
  function FirstWhere<T>(xs: seq<T>, p: T -> bool, start: nat): (i: Option<nat>)
    ensures i.Some? ==> start <= i.value < |xs| && p(xs[i.value])
    ensures i.Some? ==> forall j :: start <= j < i.value ==> !p(xs[j])
    ensures i.None? ==> forall j :: start <= j < |xs| ==> !p(xs[j])
    decreases |xs| - start
  {
    if start >= |xs| then None
    else if p(xs[start]) then Some(start)
    else FirstWhere(xs, p, start + 1)
  }

  /** An element that satisfies `p` with none before it is the first one. */
  lemma FirstWhereIs<T>(xs: seq<T>, p: T -> bool, i: nat)
    requires i < |xs| && p(xs[i])
    requires forall j :: 0 <= j < i ==> !p(xs[j])
    ensures FirstWhere(xs, p, 0) == Some(i)
  {
    var f := FirstWhere(xs, p, 0);
    if f.None? || f.value != i {
      assert false;
    }
  }

  /** A linear search for the first element that satisfies `p`. */
  method SearchFirst<T>(xs: seq<T>, p: T -> bool) returns (i: Option<nat>)
    ensures i == FirstWhere(xs, p, 0)
  {
    for k := 0 to |xs|
      invariant forall j :: 0 <= j < k ==> !p(xs[j])
    {
      if p(xs[k]) {
        FirstWhereIs(xs, p, k);
        return Some(k);
      }
    }
    return None;
  }
}

=== FILE: container.dfy ===
/**
 * The older build-file catalogue of `shipwright/container.py`. Its naming,
 * `Dockerfile` validation, `build_files` walk and `parent` scan are the same
 * code as in `shipwright/_lib/image.py`, so they are the members of
 * `LibImage`; a container is an image without its dependency files.
 */
module Container {
  import opened Common
  import opened PosixPath
  import opened LibImage

  datatype Container = Container(
    name: string,
    dirPath: string,
    path: string,
    parent: Option<string>,
    shortName: string)

  /** The container `list_containers` records for one build file, or the exception that stops the listing. */
  function ContainerOf(
    namespace: string, nameMap: map<string, string>, rootPath: string, path: string,
    read: string -> seq<string>): Result<Container>
  {
    match ImageName(namespace, nameMap, rootPath, path)
    case Err(e) => Err(e)
    case Ok(names) =>
      match ParentOf(read(path))
      case Err(e) => Err(e)
      case Ok(parent) => Ok(Container(names.0, Dirname(path), path, parent, names.1))
  }

  /**
   * Both generations agree on every build file: they fail alike, and when
   * they succeed the container is the image without its `copy_paths`.
   */
  lemma ContainerIsImage(
    namespace: string, nameMap: map<string, string>, rootPath: string, path: string,
    read: string -> seq<string>, decode: string -> Option<seq<string>>)
    ensures var c := ContainerOf(namespace, nameMap, rootPath, path, read);
            var i := ImageOf(namespace, nameMap, rootPath, path, read, decode);
            && (c.Ok? <==> i.Ok?)
            && (c.Err? ==> c.error == i.error)
            && (c.Ok? ==> c.value == Container(i.value.name, i.value.dirPath, i.value.path, i.value.parent, i.value.shortName))
  {
  }

  /** The container of a build file: its directory, both names, and its parent (`ValueError` for a bad name, `IndexError` for a bare `from`). */
  lemma ContainerOfFields(
    namespace: string, nameMap: map<string, string>, rootPath: string, path: string,
    read: string -> seq<string>)
    ensures var c := ContainerOf(namespace, nameMap, rootPath, path, read);
            && (c.Ok? <==> ImageName(namespace, nameMap, rootPath, path).Ok? && ParentOf(read(path)).Ok?)
            && (c.Err? ==> c.error == if ImageName(namespace, nameMap, rootPath, path).Err? then ValueError else IndexError)
            && (c.Ok? ==>
                  && c.value.path == path && c.value.dirPath == Dirname(path)
                  && (c.value.name, c.value.shortName) == ImageName(namespace, nameMap, rootPath, path).value
                  && c.value.parent == ParentOf(read(path)).value)
  {
  }

  /** The `k`-th path is the first whose container cannot be read, and it fails with `e`. */
  predicate FailsFirstAt(
    namespace: string, nameMap: map<string, string>, rootPath: string, paths: seq<string>,
    read: string -> seq<string>, k: int, e: Error)
  {
    && 0 <= k < |paths|
    && ContainerOf(namespace, nameMap, rootPath, paths[k], read) == Err(e)
    && forall j :: 0 <= j < k ==> ContainerOf(namespace, nameMap, rootPath, paths[j], read).Ok?
  }

  /** The body of `list_containers`' loop: the names of the build file, then its parent, read in that order. */
  method ReadContainer(
    namespace: string, nameMap: map<string, string>, rootPath: string, path: string,
    read: string -> seq<string>)
    returns (r: Result<Container>)
    ensures r == ContainerOf(namespace, nameMap, rootPath, path, read)
  {
    var names := ImageName(namespace, nameMap, rootPath, path);
    if names.Err? {
      return Err(names.error);
    }
    var parent := Parent(read(path));
    if parent.Err? {
      return Err(parent.error);
    }
    return Ok(Container(names.value.0, Dirname(path), path, parent.value, names.value.1));
  }

  /** `list_containers`' loop: one container per path, in order, or the exception of the first path that fails. */
  method ContainersAt(
    namespace: string, nameMap: map<string, string>, rootPath: string, paths: seq<string>,
    read: string -> seq<string>)
    returns (r: Result<seq<Container>>)
    ensures r.Ok? ==> |r.value| == |paths|
                      && forall k :: 0 <= k < |paths| ==> ContainerOf(namespace, nameMap, rootPath, paths[k], read) == Ok(r.value[k])
    ensures r.Err? ==> exists k :: FailsFirstAt(namespace, nameMap, rootPath, paths, read, k, r.error)
  {
    ghost var containerOf := (p: string) => ContainerOf(namespace, nameMap, rootPath, p, read);
    var containers: seq<Container> := [];
    for i := 0 to |paths|
      invariant CollectAll(containerOf, paths[..i]) == Ok(containers)
    {
      var c := ReadContainer(namespace, nameMap, rootPath, paths[i], read);
      assert paths[..i + 1][..i] == paths[..i];
      if c.Err? {
        CollectAllSticks(containerOf, paths, i + 1);
        CollectAllMeaning(containerOf, paths);
        ghost var k :| FirstFailure(containerOf, paths, k, c.error);
        assert FailsFirstAt(namespace, nameMap, rootPath, paths, read, k, c.error);
        return Err(c.error);
      }
      containers := containers + [c.value];
    }
    assert paths[..|paths|] == paths;
    CollectAllMeaning(containerOf, paths);
    return Ok(containers);
  }

  /** `list_containers`: the containers of every build file of the walk. */
  method ListContainers(
    namespace: string, nameMap: map<string, string>, rootPath: string, walk: Walk,
    read: string -> seq<string>)
    returns (r: Result<seq<Container>>)
    ensures r.Ok? ==> |r.value| == |BuildFiles(walk)|
    ensures r.Ok? ==> forall k :: 0 <= k < |BuildFiles(walk)| ==>
                        ContainerOf(namespace, nameMap, rootPath, BuildFiles(walk)[k], read) == Ok(r.value[k])
    ensures r.Err? ==> exists k :: FailsFirstAt(namespace, nameMap, rootPath, BuildFiles(walk), read, k, r.error)
  {
    r := ContainersAt(namespace, nameMap, rootPath, BuildFiles(walk), read);
  }
}

=== FILE: dependencies.dfy ===
/**
 * The rebuild planner of `shipwright/dependencies.py`.
 *
 * `make_tree` files every target under the target named by its parent (an
 * unknown parent files it under a `None` root) and hands the result to the
 * zipper, whose nodes are the targets themselves. The zipper is modelled
 * over the tree this unfolds to. `breadth_first_iter` walks that tree level
 * by level; the value the consumer sends back after each location decides
 * whether the location's children are queued. `needs_building` is the only
 * consumer, and what it sends depends only on the node it was given, so
 * the walk is a function of the tree and a `skip` test on nodes.
 */
module Dependencies {
  import opened Common
  import opened Ordering
  import opened LibZipper
  import opened Zipper
  import Container

  /** The `Target` record of `shipwright/__init__.py`: a container and its commit indices. */
  datatype Target = Target(
    container: Container.Container,
    lastBuiltRef: Option<string>,
    lastBuiltRel: Option<int>,
    currentRel: Option<int>)

  type Node = Option<Target>

  // ------------------------------------------------------------ filing

  /** The `k`-th target is the last one named `n`. */
  predicate LastNamed(targets: seq<Target>, k: int, n: string)
  {
    && 0 <= k < |targets| && targets[k].container.name == n
    && forall j :: k < j < |targets| ==> targets[j].container.name != n
  }

  lemma LastNamedSnoc(init: seq<Target>, last: Target, k: int, n: string)
    requires LastNamed(init, k, n) && last.container.name != n
    ensures LastNamed(init + [last], k, n)
  {
    forall j | k < j < |init| + 1 ensures (init + [last])[j].container.name != n {
      if j < |init| { assert (init + [last])[j] == init[j]; }
    }
  }

  /** `{c.container.name: c for c in containers}`: a later target replaces an earlier one of the same name. */
  function NameIndex(targets: seq<Target>): map<string, Target>
  {
    if targets == [] then map[]
    else
      var last := targets[|targets| - 1];
      NameIndex(targets[..|targets| - 1])[last.container.name := last]
  }

  /** The index holds every name of the list, and under each the last target of that name. */
  lemma {:induction false} NameIndexLastWins(targets: seq<Target>, n: string)
    ensures n in NameIndex(targets) <==> exists k :: 0 <= k < |targets| && targets[k].container.name == n
    ensures n in NameIndex(targets) ==> exists k :: LastNamed(targets, k, n) && targets[k] == NameIndex(targets)[n]
  {
    if targets != [] {
      var init := targets[..|targets| - 1];
      var last := targets[|targets| - 1];
      NameIndexLastWins(init, n);
      if n == last.container.name {
        assert LastNamed(targets, |targets| - 1, n);
      } else {
        if n in NameIndex(init) {
          var k :| LastNamed(init, k, n) && init[k] == NameIndex(init)[n];
          InitLast(targets);
          LastNamedSnoc(init, last, k, n);
        }
        if k :| 0 <= k < |targets| && targets[k].container.name == n {
          assert init[k] == targets[k];
        }
      }
    }
  }

  /** `container_map.get(c.container.parent)`: the node a target is filed under. */
  function ParentKey(index: map<string, Target>, t: Target): Node
  {
    if t.container.parent.Some? && t.container.parent.value in index then Some(index[t.container.parent.value])
    else None
  }

  /** The targets filed under `key`, in list order. */
  function Filed(targets: seq<Target>, index: map<string, Target>, key: Node): seq<Target>
  {
    if targets == [] then []
    else
      var last := targets[|targets| - 1];
      Filed(targets[..|targets| - 1], index, key) + if ParentKey(index, last) == key then [last] else []
  }

  lemma {:induction false} FiledMembers(targets: seq<Target>, index: map<string, Target>, key: Node, t: Target)
    ensures t in Filed(targets, index, key) <==> t in targets && ParentKey(index, t) == key
  {
    if targets != [] {
      var init := targets[..|targets| - 1];
      FiledMembers(init, index, key, t);
      assert targets == init + [targets[|targets| - 1]];
    }
  }

  /** The order `sorted` puts siblings in: by container name. */
  predicate NameLe(a: Target, b: Target)
  {
    StrLe(a.container.name, b.container.name)
  }

  lemma NameLeIsTotalPreorder()
    ensures TotalPreorder(NameLe)
  {
    forall a: Target, b: Target ensures NameLe(a, b) || NameLe(b, a) {
      StrLeTotalAt(a.container.name, b.container.name);
    }
    forall a: Target, b: Target, c: Target | NameLe(a, b) && NameLe(b, c) ensures NameLe(a, c) {
      StrLeTransitiveAt(a.container.name, b.container.name, c.container.name);
    }
  }

  /** `graph[key]` once `make_tree` has filed and sorted every target. */
  function ChildrenOf(targets: seq<Target>, key: Node): seq<Target>
  {
    SortBy(Filed(targets, NameIndex(targets), key), NameLe)
  }

  /** The nodes `make_tree`'s `defaultdict` holds an entry for. */
  function ParentKeys(targets: seq<Target>, index: map<string, Target>): set<Node>
  {
    set t | t in targets :: ParentKey(index, t)
  }

  lemma ParentKeysSnoc(targets: seq<Target>, index: map<string, Target>, t: Target)
    ensures ParentKeys(targets + [t], index) == ParentKeys(targets, index) + {ParentKey(index, t)}
  {
    forall k | k in ParentKeys(targets + [t], index) ensures k in ParentKeys(targets, index) + {ParentKey(index, t)} {
      var u :| u in targets + [t] && ParentKey(index, u) == k;
      if u != t { assert u in targets; }
    }
  }

  function GraphOf(targets: seq<Target>): map<Node, seq<Target>>
  {
    map key | key in ParentKeys(targets, NameIndex(targets)) :: ChildrenOf(targets, key)
  }

  /** `graph[item]` on a `defaultdict(list)`: a missing entry reads as no children. */
  function KidsIn(graph: map<Node, seq<Target>>, item: Node): seq<Target>
  {
    if item in graph then graph[item] else []
  }

  /** Every target sits under the node its parent names, or under the root when no target has that name. */
  lemma FiledUnderParent(targets: seq<Target>, key: Node, t: Target)
    ensures t in ChildrenOf(targets, key) <==> t in targets && ParentKey(NameIndex(targets), t) == key
    ensures multiset(ChildrenOf(targets, key)) == multiset(Filed(targets, NameIndex(targets), key))
  {
    var filed := Filed(targets, NameIndex(targets), key);
    FiledMembers(targets, NameIndex(targets), key, t);
    assert t in ChildrenOf(targets, key) <==> t in multiset(ChildrenOf(targets, key));
    assert t in filed <==> t in multiset(filed);
  }

  /** Siblings come out in name order. */
  lemma ChildrenSorted(targets: seq<Target>, key: Node)
    ensures Sorted(ChildrenOf(targets, key), NameLe)
  {
    NameLeIsTotalPreorder();
    SortBySorted(Filed(targets, NameIndex(targets), key), NameLe);
  }

  /** One more target is filed under its own parent key and nowhere else. */
  lemma FiledSnoc(targets: seq<Target>, index: map<string, Target>, c: Target)
    ensures forall k :: Filed(targets + [c], index, k) == Filed(targets, index, k) + if k == ParentKey(index, c) then [c] else []
  {
    assert (targets + [c])[..|targets|] == targets;
  }

  /** One step of the filing loop: the `i`-th target appended to its parent's list. */
  lemma FileOne(targets: seq<Target>, index: map<string, Target>, i: nat, graph: map<Node, seq<Target>>)
    requires i < |targets|
    requires graph.Keys == ParentKeys(targets[..i], index)
    requires forall key :: KidsIn(graph, key) == Filed(targets[..i], index, key)
    ensures var c := targets[i];
      var g := graph[ParentKey(index, c) := KidsIn(graph, ParentKey(index, c)) + [c]];
      && g.Keys == ParentKeys(targets[..i + 1], index)
      && forall key :: KidsIn(g, key) == Filed(targets[..i + 1], index, key)
  {
    var c := targets[i];
    TakeOneMore(targets, i);
    ParentKeysSnoc(targets[..i], index, c);
    FiledSnoc(targets[..i], index, c);
  }

  /** The first loop of `make_tree`: each target appended to its parent's list. */
  method FileTargets(targets: seq<Target>, index: map<string, Target>) returns (graph: map<Node, seq<Target>>)
    ensures graph.Keys == ParentKeys(targets, index)
    ensures forall key :: key in graph ==> graph[key] == Filed(targets, index, key)
  {
    graph := map[];
    for i := 0 to |targets|
      invariant graph.Keys == ParentKeys(targets[..i], index)
      invariant forall key :: KidsIn(graph, key) == Filed(targets[..i], index, key)
    {
      var c := targets[i];
      var key := ParentKey(index, c);
      FileOne(targets, index, i, graph);
      graph := graph[key := KidsIn(graph, key) + [c]];
    }
    assert targets[..|targets|] == targets;
    forall key | key in graph ensures graph[key] == Filed(targets, index, key) {
      assert KidsIn(graph, key) == graph[key];
    }
  }

  /** `make_tree`'s graph: the filing loop, then every entry sorted in place. */
  method MakeGraph(targets: seq<Target>) returns (graph: map<Node, seq<Target>>)
    ensures graph == GraphOf(targets)
  {
    var index := NameIndex(targets);
    var filed := FileTargets(targets, index);
    graph := SortEntries(targets, filed);
    GraphOfExt(targets, graph);
  }

  /** The second loop of `make_tree`: every filed list sorted by name, the keys unchanged. */
  method SortEntries(targets: seq<Target>, filed: map<Node, seq<Target>>) returns (graph: map<Node, seq<Target>>)
    requires forall key :: key in filed ==> filed[key] == Filed(targets, NameIndex(targets), key)
    ensures graph.Keys == filed.Keys
    ensures forall key :: key in graph ==> graph[key] == ChildrenOf(targets, key)
  {
    graph := filed;
    var todo := graph.Keys;
    while todo != {}
      invariant todo <= graph.Keys == filed.Keys
      invariant forall key :: key in graph && key in todo ==> graph[key] == filed[key]
      invariant forall key :: key in graph && key !in todo ==> graph[key] == ChildrenOf(targets, key)
      decreases |todo|
    {
      var key :| key in todo;
      graph := graph[key := SortBy(graph[key], NameLe)];
      todo := todo - {key};
    }
  }

  lemma GraphOfExt(targets: seq<Target>, graph: map<Node, seq<Target>>)
    requires graph.Keys == ParentKeys(targets, NameIndex(targets))
    requires forall key :: key in graph ==> graph[key] == ChildrenOf(targets, key)
    ensures graph == GraphOf(targets)
  {
    var g := GraphOf(targets);
    var keys := ParentKeys(targets, NameIndex(targets));
    GraphOfKeys(targets);
    forall key | key in keys ensures graph[key] == g[key] {
      GraphOfAt(targets, key);
    }
    MapsAgree(graph, g, keys);
  }

  /** Two maps over the same keys that agree at every key are equal. */
  lemma MapsAgree<K, V>(a: map<K, V>, b: map<K, V>, keys: set<K>)
    requires a.Keys == keys && b.Keys == keys
    requires forall k :: k in keys ==> a[k] == b[k]
    ensures a == b
  {
  }

  lemma GraphOfKeys(targets: seq<Target>)
    ensures GraphOf(targets).Keys == ParentKeys(targets, NameIndex(targets))
  {
  }

  lemma GraphOfAt(targets: seq<Target>, key: Node)
    requires key in GraphOf(targets)
    ensures GraphOf(targets)[key] == ChildrenOf(targets, key)
  {
  }

  // -------------------------------------------------------------- tree

  /**
   * The tree the zipper presents from `item` down: a node with children is
   * a branch, one without is a leaf. The unfolding stops after `fuel`
   * levels.
   */
  function Unfold(graph: map<Node, seq<Target>>, item: Node, fuel: nat): Tree<Node>
    decreases fuel
  {
    var kids := KidsIn(graph, item);
    if fuel == 0 || kids == [] then Leaf(item)
    else Branch(item, seq(|kids|, i requires 0 <= i < |kids| => Unfold(graph, Some(kids[i]), fuel - 1)))
  }

  /** `make_tree(containers)`: the zipper at the `None` root. */
  function TreeOf(targets: seq<Target>): Tree<Node>
  {
    Unfold(GraphOf(targets), None, |targets| + 1)
  }

  method MakeTree(targets: seq<Target>) returns (root: Loc<Node>)
    ensures root == LibZipper.Zipper(TreeOf(targets))
    ensures root.current.value == None && AtEnd(root)
  {
    var graph := MakeGraph(targets);
    root := LibZipper.Zipper(Unfold(graph, None, |targets| + 1));
  }

  /** Reading the built graph agrees with the filing specification, missing entries included. */
  lemma KidsInGraph(targets: seq<Target>, item: Node)
    ensures KidsIn(GraphOf(targets), item) == ChildrenOf(targets, item)
  {
    if item !in ParentKeys(targets, NameIndex(targets)) && ChildrenOf(targets, item) != [] {
      var t := ChildrenOf(targets, item)[0];
      FiledUnderParent(targets, item, t);
    }
  }

  /** Below the root, every node is a target, and its children are its filed targets in name order. */
  lemma UnfoldNodes(targets: seq<Target>, item: Node, fuel: nat)
    ensures Unfold(GraphOf(targets), item, fuel).value == item
    ensures fuel > 0 ==> |KidsOf(Unfold(GraphOf(targets), item, fuel))| == |ChildrenOf(targets, item)|
    ensures forall i :: 0 <= i < |KidsOf(Unfold(GraphOf(targets), item, fuel))| ==>
              KidsOf(Unfold(GraphOf(targets), item, fuel))[i].value == Some(ChildrenOf(targets, item)[i])
  {
    KidsInGraph(targets, item);
    UnfoldNodesIn(GraphOf(targets), item, fuel);
  }

  /** In any graph, an unfolded node holds its item, and its children hold the item's entries in order. */
  lemma {:induction false} UnfoldNodesIn(graph: map<Node, seq<Target>>, item: Node, fuel: nat)
    ensures Unfold(graph, item, fuel).value == item
    ensures fuel > 0 ==> |KidsOf(Unfold(graph, item, fuel))| == |KidsIn(graph, item)|
    ensures forall i :: 0 <= i < |KidsOf(Unfold(graph, item, fuel))| ==>
              KidsOf(Unfold(graph, item, fuel))[i].value == Some(KidsIn(graph, item)[i])
    decreases fuel
  {
    if fuel > 0 {
      var kids := KidsIn(graph, item);
      forall i | 0 <= i < |kids| ensures Unfold(graph, Some(kids[i]), fuel - 1).value == Some(kids[i]) {
        UnfoldNodesIn(graph, Some(kids[i]), fuel - 1);
      }
    }
  }

  /**
   * `chain` is a path down from the root: its first target is filed under
   * `None`, and each later one under the target before it.
   */
  predicate RootChain(targets: seq<Target>, chain: seq<Target>)
  {
    && (forall j :: 0 <= j < |chain| ==> chain[j] in targets)
    && (|chain| > 0 ==> ParentKey(NameIndex(targets), chain[0]) == None)
    && (forall j :: 0 < j < |chain| ==> ParentKey(NameIndex(targets), chain[j]) == Some(chain[j - 1]))
  }

  /** The node a path down from the root ends at. */
  function EndOf(chain: seq<Target>): (n: Node)
    ensures n.None? <==> chain == []
    ensures n.Some? ==> n.value == chain[|chain| - 1]
  {
    if chain == [] then None else Some(chain[|chain| - 1])
  }

  lemma {:induction false} RootChainDistinctAt(targets: seq<Target>, chain: seq<Target>, i: nat, j: nat)
    requires RootChain(targets, chain) && i < j < |chain|
    ensures chain[i] != chain[j]
    decreases i
  {
    var index := NameIndex(targets);
    assert ParentKey(index, chain[j]) == Some(chain[j - 1]);
    if i > 0 {
      assert ParentKey(index, chain[i]) == Some(chain[i - 1]);
      RootChainDistinctAt(targets, chain, i - 1, j - 1);
    } else {
      assert ParentKey(index, chain[i]) == None;
    }
  }

  /**
   * A path down from the root never meets a target twice, so no parent
   * cycle is reachable from `None`, and such a path is no longer than the
   * target list.
   */
  lemma RootChainNoDuplicates(targets: seq<Target>, chain: seq<Target>)
    requires RootChain(targets, chain)
    ensures NoDuplicates(chain) && |chain| <= |targets|
  {
    forall i, j | 0 <= i < j < |chain| ensures chain[i] != chain[j] {
      RootChainDistinctAt(targets, chain, i, j);
    }
    NoDuplicatesWithin(chain, targets);
  }

  /** A target filed under a path's end extends the path. */
  lemma RootChainSnoc(targets: seq<Target>, chain: seq<Target>, kid: Target)
    requires RootChain(targets, chain)
    requires kid in targets && ParentKey(NameIndex(targets), kid) == EndOf(chain)
    ensures RootChain(targets, chain + [kid]) && EndOf(chain + [kid]) == Some(kid)
  {
    var longer := chain + [kid];
    forall j | 0 < j < |longer| ensures ParentKey(NameIndex(targets), longer[j]) == Some(longer[j - 1]) {
      assert longer[j - 1] == chain[j - 1];
      if j < |chain| { assert longer[j] == chain[j]; }
    }
    if chain == [] { assert longer[0] == kid; } else { assert longer[0] == chain[0]; }
  }

  /** `graph` files every child under the node its parent names, as `make_tree` does. */
  ghost predicate FilesUnderParents(targets: seq<Target>, graph: map<Node, seq<Target>>)
  {
    && (forall n: Node, k :: k in KidsIn(graph, n) ==> k in targets)
    && (forall n: Node, k :: k in KidsIn(graph, n) ==> ParentKey(NameIndex(targets), k) == n)
  }

  lemma GraphFilesUnderParents(targets: seq<Target>)
    ensures FilesUnderParents(targets, GraphOf(targets))
  {
    var graph := GraphOf(targets);
    forall n: Node, k | k in KidsIn(graph, n) ensures k in targets {
      GraphFilesKid(targets, n, k);
    }
    forall n: Node, k | k in KidsIn(graph, n) ensures ParentKey(NameIndex(targets), k) == n {
      GraphFilesKid(targets, n, k);
    }
  }

  lemma GraphFilesKid(targets: seq<Target>, n: Node, k: Target)
    requires k in KidsIn(GraphOf(targets), n)
    ensures k in targets && ParentKey(NameIndex(targets), k) == n
  {
    KidsInGraph(targets, n);
    FiledUnderParent(targets, n, k);
  }

  /**
   * Below the end of a path down from the root, any fuel above the number
   * of targets not yet on the path unfolds the same tree.
   */
  lemma {:induction false} UnfoldFuelSuffices(targets: seq<Target>, graph: map<Node, seq<Target>>, chain: seq<Target>, f: nat, g: nat)
    requires FilesUnderParents(targets, graph) && RootChain(targets, chain)
    requires f > |targets| - |chain| && g > |targets| - |chain|
    ensures Unfold(graph, EndOf(chain), f) == Unfold(graph, EndOf(chain), g)
    decreases |targets| - |chain|
  {
    RootChainNoDuplicates(targets, chain);
    var kids := KidsIn(graph, EndOf(chain));
    if kids != [] {
      var sf := seq(|kids|, i requires 0 <= i < |kids| => Unfold(graph, Some(kids[i]), f - 1));
      var sg := seq(|kids|, i requires 0 <= i < |kids| => Unfold(graph, Some(kids[i]), g - 1));
      forall i | 0 <= i < |kids| ensures sf[i] == sg[i] {
        assert kids[i] in KidsIn(graph, EndOf(chain));
        RootChainSnoc(targets, chain, kids[i]);
        RootChainNoDuplicates(targets, chain + [kids[i]]);
        UnfoldFuelSuffices(targets, graph, chain + [kids[i]], f - 1, g - 1);
      }
      assert sf == sg;
      assert Unfold(graph, EndOf(chain), f) == Branch(EndOf(chain), sf);
      assert Unfold(graph, EndOf(chain), g) == Branch(EndOf(chain), sg);
    }
  }

  /**
   * `make_tree`'s zipper asks for children lazily; unfolding to depth
   * `|targets| + 1` already gives everything reachable from the root, and
   * more fuel changes nothing.
   */
  lemma TreeOfEnoughFuel(targets: seq<Target>, fuel: nat)
    requires fuel > |targets|
    ensures Unfold(GraphOf(targets), None, fuel) == TreeOf(targets)
  {
    GraphFilesUnderParents(targets);
    assert RootChain(targets, []);
    UnfoldFuelSuffices(targets, GraphOf(targets), [], fuel, |targets| + 1);
  }

  // --------------------------------------------------- breadth-first walk

  lemma {:induction false} SizeForestAppend<T>(a: seq<Tree<T>>, b: seq<Tree<T>>)
    ensures SizeForest(a + b) == SizeForest(a) + SizeForest(b)
  {
    if a != [] {
      assert (a + b)[0] == a[0] && (a + b)[1..] == a[1..] + b;
      SizeForestAppend(a[1..], b);
    } else {
      assert a + b == b;
    }
  }

  lemma KidsSmaller<T>(t: Tree<T>)
    ensures SizeForest(KidsOf(t)) < Size(t)
  {
  }

  /**
   * What `breadth_first_iter` yields from the queue `queue` when the
   * consumer answers `skip(node)` after each location: the head, then the
   * rest of the queue followed by the head's children unless they are
   * skipped.
   */
  function BreadthFirst<T>(queue: seq<Tree<T>>, skip: T -> bool): seq<Tree<T>>
    decreases SizeForest(queue)
  {
    if queue == [] then []
    else
      var next := queue[1..] + if skip(queue[0].value) then [] else KidsOf(queue[0]);
      SizeForestAppend(queue[1..], if skip(queue[0].value) then [] else KidsOf(queue[0]));
      assert SizeForest(queue) == Size(queue[0]) + SizeForest(queue[1..]);
      KidsSmaller(queue[0]);
      [queue[0]] + BreadthFirst(next, skip)
  }

  function NoSkip<T>(node: T): bool { false }

  lemma CurrentsAppend<T>(a: seq<Loc<T>>, b: seq<Loc<T>>)
    ensures Currents(a + b) == Currents(a) + Currents(b)
  {
    assert forall i :: 0 <= i < |a + b| ==> Currents(a + b)[i] == (a + b)[i].current;
  }

  /** `child = l.down(); while child: tocheck.append(child); child = child.right()`. */
  method EnqueueChildren<T>(tocheck: seq<Loc<T>>, l: Loc<T>) returns (q: seq<Loc<T>>)
    ensures Currents(q) == Currents(tocheck) + KidsOf(l.current)
  {
    q := tocheck;
    var child := Down(l);
    if child.None? {
      return;
    }
    while child.Some?
      invariant child.Some? ==> child.value.path.Frame?
      invariant child.Some? ==> Currents(q) + [child.value.current] + child.value.path.r == Currents(tocheck) + KidsOf(l.current)
      invariant child.None? ==> Currents(q) == Currents(tocheck) + KidsOf(l.current)
      decreases if child.Some? then |child.value.path.r| + 1 else 0
    {
      CurrentsAppend(q, [child.value]);
      q := q + [child.value];
      child := Right(child.value);
    }
  }

  /** The walk visits the head of the queue, then walks the rest with the head's children queued unless it is skipped. */
  lemma BreadthFirstUnfold<T>(queue: seq<Tree<T>>, skip: T -> bool)
    requires queue != []
    ensures var next := queue[1..] + if skip(queue[0].value) then [] else KidsOf(queue[0]);
      && BreadthFirst(queue, skip) == [queue[0]] + BreadthFirst(next, skip)
      && SizeForest(next) < SizeForest(queue)
  {
    SizeForestAppend(queue[1..], if skip(queue[0].value) then [] else KidsOf(queue[0]));
    assert SizeForest(queue) == Size(queue[0]) + SizeForest(queue[1..]);
    KidsSmaller(queue[0]);
  }

  /** One round of `breadth_first_iter`: the head is yielded, and what is left to yield is the walk from the new queue. */
  lemma IterStep<T>(visited: seq<Loc<T>>, l: Loc<T>, rest: seq<Loc<T>>, skip: T -> bool, next: seq<Loc<T>>)
    requires Currents(next) == Currents(rest) + if skip(l.current.value) then [] else KidsOf(l.current)
    ensures Currents(visited + [l]) + BreadthFirst(Currents(next), skip) == Currents(visited) + BreadthFirst(Currents([l] + rest), skip)
    ensures SizeForest(Currents(next)) < SizeForest(Currents([l] + rest))
  {
    CurrentsCons(l, rest);
    CurrentsAppend(visited, [l]);
    BreadthFirstYield(Currents(visited), l.current, Currents(rest), skip, Currents(next));
  }

  lemma CurrentsCons<T>(l: Loc<T>, rest: seq<Loc<T>>)
    ensures Currents([l] + rest) == [l.current] + Currents(rest)
  {
    assert ([l] + rest)[1..] == rest;
  }

  /** With `done` yielded so far, yielding the head `h` of the queue leaves the walk from `next` to yield. */
  lemma BreadthFirstYield<T>(done: seq<Tree<T>>, h: Tree<T>, q: seq<Tree<T>>, skip: T -> bool, next: seq<Tree<T>>)
    requires next == q + if skip(h.value) then [] else KidsOf(h)
    ensures (done + [h]) + BreadthFirst(next, skip) == done + BreadthFirst([h] + q, skip)
    ensures SizeForest(next) < SizeForest([h] + q)
  {
    assert ([h] + q)[0] == h && ([h] + q)[1..] == q;
    BreadthFirstUnfold([h] + q, skip);
    ConcatAssoc(done, [h], BreadthFirst(next, skip));
  }

  /** `breadth_first_iter(loc)` with the consumer's answers given by `skip`: every location it yields, in order. */
  method BreadthFirstIter<T>(loc: Loc<T>, skip: T -> bool) returns (visited: seq<Loc<T>>)
    ensures Currents(visited) == BreadthFirst([loc.current], skip)
  {
    var tocheck := [loc];
    visited := [];
    while tocheck != []
      invariant Currents(visited) + BreadthFirst(Currents(tocheck), skip) == BreadthFirst([loc.current], skip)
      decreases SizeForest(Currents(tocheck))
    {
      var l := tocheck[0];
      var next := tocheck[1..];
      if !skip(l.current.value) {
        next := EnqueueChildren(next, l);
      }
      assert tocheck == [l] + tocheck[1..];
      IterStep(visited, l, tocheck[1..], skip, next);
      visited := visited + [l];
      tocheck := next;
    }
  }

  /** The subtrees a walk from `queue` reaches: each tree, and below it unless it is skipped. */
  function ReachAll<T(==)>(queue: seq<Tree<T>>, skip: T -> bool): set<Tree<T>>
    decreases queue, 1
  {
    if queue == [] then {} else Reach(queue[0], skip) + ReachAll(queue[1..], skip)
  }

  function Reach<T(==)>(t: Tree<T>, skip: T -> bool): set<Tree<T>>
    decreases t, 0
  {
    {t} + if skip(t.value) || t.Leaf? then {} else ReachAll(t.kids, skip)
  }

  lemma {:induction false} ReachAllAppend<T>(a: seq<Tree<T>>, b: seq<Tree<T>>, skip: T -> bool)
    ensures ReachAll(a + b, skip) == ReachAll(a, skip) + ReachAll(b, skip)
  {
    if a != [] {
      assert (a + b)[0] == a[0] && (a + b)[1..] == a[1..] + b;
      ReachAllAppend(a[1..], b, skip);
    } else {
      assert a + b == b;
    }
  }

  /**
   * The walk visits exactly the subtrees reachable without passing below a
   * skipped one: a skipped location's descendants are never yielded on its
   * account.
   */
  lemma {:induction false} BreadthFirstReaches<T>(queue: seq<Tree<T>>, skip: T -> bool)
    ensures Elements(BreadthFirst(queue, skip)) == ReachAll(queue, skip)
    decreases SizeForest(queue)
  {
    if queue != [] {
      var t := queue[0];
      var more := if skip(t.value) then [] else KidsOf(t);
      var next := queue[1..] + more;
      SizeForestAppend(queue[1..], more);
      KidsSmaller(t);
      BreadthFirstReaches(next, skip);
      ReachAllAppend(queue[1..], more, skip);
      assert ReachAll(more, skip) == if skip(t.value) || t.Leaf? then {} else ReachAll(t.kids, skip);
      var rest := BreadthFirst(next, skip);
      assert BreadthFirst(queue, skip) == [t] + rest;
      assert Elements([t] + rest) == {t} + Elements(rest) by {
        forall x ensures x in Elements([t] + rest) <==> x in {t} + Elements(rest) {
          assert x in [t] + rest <==> x == t || x in rest;
        }
      }
      assert ReachAll(queue, skip) == Reach(t, skip) + ReachAll(queue[1..], skip);
    }
  }

  /** Without skips the walk visits every node of the queued trees once: as many locations as nodes. */
  lemma {:induction false} BreadthFirstCount<T>(queue: seq<Tree<T>>)
    ensures |BreadthFirst(queue, NoSkip)| == SizeForest(queue)
    decreases SizeForest(queue)
  {
    if queue != [] {
      var next := queue[1..] + KidsOf(queue[0]);
      SizeForestAppend(queue[1..], KidsOf(queue[0]));
      KidsSmaller(queue[0]);
      BreadthFirstCount(next);
      assert SizeForest(queue) == Size(queue[0]) + SizeForest(queue[1..]);
    }
  }

  /** The walk yields its start first, then the start's children in order when it is not skipped. */
  lemma BreadthFirstStart<T>(t: Tree<T>, skip: T -> bool)
    ensures BreadthFirst([t], skip)[0] == t
    ensures !skip(t.value) ==> |BreadthFirst([t], skip)| > |KidsOf(t)|
    ensures !skip(t.value) ==> BreadthFirst([t], skip)[1..|KidsOf(t)| + 1] == KidsOf(t)
  {
    if !skip(t.value) {
      BreadthFirstPrefix(KidsOf(t), skip);
      assert [t][1..] + KidsOf(t) == KidsOf(t);
    }
  }

  /** A queue is yielded in order before anything it queues. */
  lemma {:induction false} BreadthFirstPrefix<T>(queue: seq<Tree<T>>, skip: T -> bool)
    ensures |BreadthFirst(queue, skip)| >= |queue|
    ensures BreadthFirst(queue, skip)[..|queue|] == queue
    decreases SizeForest(queue)
  {
    if queue != [] {
      var more := if skip(queue[0].value) then [] else KidsOf(queue[0]);
      var next := queue[1..] + more;
      BreadthFirstUnfold(queue, skip);
      BreadthFirstPrefix(next, skip);
      var rest := BreadthFirst(next, skip);
      assert rest[..|queue| - 1] == next[..|queue| - 1] == queue[1..];
      assert ([queue[0]] + rest)[..|queue|] == [queue[0]] + rest[..|queue| - 1];
    }
  }

  // --------------------------------------------------- needs_building

  /** Python 2's `a > b`, where `None` orders below every integer. */
  predicate Py2Gt(a: Option<int>, b: Option<int>)
  {
    a.Some? && (b.None? || a.value > b.value)
  }

  /** `target.current_rel > target.last_built_rel`: the target changed since its last build. */
  predicate Changed(node: Node)
  {
    node.Some? && Py2Gt(node.value.currentRel, node.value.lastBuiltRel)
  }

  /** Truthiness of `last_built_rel`: neither `None` nor `0`. */
  predicate Truthy(rel: Option<int>)
  {
    rel.Some? && rel.value != 0
  }

  /** The targets among `nodes` that are committed to git (`current_rel is not None`), in order. */
  function Committed(nodes: seq<Tree<Node>>): seq<Target>
  {
    if nodes == [] then []
    else
      var last := nodes[|nodes| - 1];
      Committed(nodes[..|nodes| - 1]) + if last.value.Some? && last.value.value.currentRel.Some? then [last.value.value] else []
  }

  lemma {:induction false} CommittedMembers(nodes: seq<Tree<Node>>, t: Target)
    ensures t in Committed(nodes) <==> exists k :: 0 <= k < |nodes| && nodes[k].value == Some(t) && t.currentRel.Some?
  {
    if nodes != [] {
      var init := nodes[..|nodes| - 1];
      CommittedMembers(init, t);
      assert forall k :: 0 <= k < |init| ==> init[k] == nodes[k];
    }
  }

  /** The `skip` list built from the locations `needs_building` examined. */
  function SkipList(visits: seq<Tree<Node>>): (r: seq<Target>)
  {
    if visits == [] then []
    else
      var v := visits[|visits| - 1].value;
      SkipList(visits[..|visits| - 1])
        + if !Changed(v) && v.Some? && Truthy(v.value.lastBuiltRel) then [v.value] else []
  }

  /** The `needs` list: for each changed location, the committed targets of its whole subtree. */
  function NeedsList(visits: seq<Tree<Node>>): (r: seq<Target>)
  {
    if visits == [] then []
    else
      var v := visits[|visits| - 1];
      NeedsList(visits[..|visits| - 1])
        + if Changed(v.value) then Committed(BreadthFirst([v], NoSkip)) else []
  }

  /** The locations `needs_building` is handed, root first. */
  function Visits(targets: seq<Target>): seq<Tree<Node>>
  {
    BreadthFirst([TreeOf(targets)], Changed)
  }

  /**
   * `needs_building(targets)` as `(skip, needs)`. The root is consumed by
   * the first `next`; the second `next` stands outside the `try`, so a root
   * without children raises `StopIteration` to the caller.
   */
  function NeedsBuildingOf(targets: seq<Target>): Result<(seq<Target>, seq<Target>)>
  {
    var visits := Visits(targets);
    if |visits| < 2 then Err(StopIteration)
    else Ok((SkipList(visits[1..]), NeedsList(visits[1..])))
  }

  /** `for modified_loc in breadth_first_iter(loc)`: the committed targets appended to `needs`. */
  method AppendCommitted(needs: seq<Target>, modified: seq<Loc<Node>>) returns (r: seq<Target>)
    ensures r == needs + Committed(Currents(modified))
  {
    r := needs;
    ghost var nodes := Currents(modified);
    for k := 0 to |modified|
      invariant r == needs + Committed(nodes[..k])
    {
      var target := modified[k].current.value;
      assert nodes[..k + 1][..k] == nodes[..k] && nodes[..k + 1][k] == modified[k].current;
      if target.Some? && target.value.currentRel.Some? {
        r := r + [target.value];
      }
    }
    assert nodes[..|modified|] == nodes;
  }

  /** The loop of `needs_building` over the locations after the root. */
  method Plan(examined: seq<Loc<Node>>) returns (skip: seq<Target>, needs: seq<Target>)
    ensures skip == SkipList(Currents(examined)) && needs == NeedsList(Currents(examined))
  {
    ghost var visits := Currents(examined);
    skip, needs := [], [];
    for i := 0 to |examined|
      invariant skip == SkipList(visits[..i]) && needs == NeedsList(visits[..i])
    {
      var loc := examined[i];
      var target := loc.current.value;
      assert visits[..i + 1][..i] == visits[..i] && visits[..i + 1][i] == loc.current;
      if Changed(target) {
        var modified := BreadthFirstIter(loc, NoSkip);
        needs := AppendCommitted(needs, modified);
      } else if target.Some? && Truthy(target.value.lastBuiltRel) {
        skip := skip + [target.value];
      }
    }
    assert visits[..|examined|] == visits;
  }

  method NeedsBuilding(targets: seq<Target>) returns (r: Result<(seq<Target>, seq<Target>)>)
    ensures r == NeedsBuildingOf(targets)
  {
    var root := MakeTree(targets);
    var gen := BreadthFirstIter(root, Changed);
    if |gen| < 2 {
      return Err(StopIteration);
    }
    assert Currents(gen[1..]) == Currents(gen)[1..];
    var skip, needs := Plan(gen[1..]);
    return Ok((skip, needs));
  }

  // ------------------------------------------------------------ laws

  /** A target lands in `skip` exactly when a location holding it was examined, it is unchanged, and its last build index is truthy. */
  lemma {:induction false} SkipListMeaning(visits: seq<Tree<Node>>, t: Target)
    ensures t in SkipList(visits) <==>
              exists k :: 0 <= k < |visits| && visits[k].value == Some(t) && !Changed(Some(t)) && Truthy(t.lastBuiltRel)
  {
    if visits != [] {
      var init := visits[..|visits| - 1];
      SkipListMeaning(init, t);
      assert forall k :: 0 <= k < |init| ==> init[k] == visits[k];
    }
  }

  /** A changed location puts every committed target of its subtree into `needs`. */
  lemma {:induction false} NeedsCoverSubtree(visits: seq<Tree<Node>>, k: nat, n: Tree<Node>)
    requires k < |visits| && Changed(visits[k].value)
    requires n in Reach(visits[k], NoSkip) && n.value.Some? && n.value.value.currentRel.Some?
    ensures n.value.value in NeedsList(visits)
  {
    var init := visits[..|visits| - 1];
    if k == |visits| - 1 {
      var walk := BreadthFirst([visits[k]], NoSkip);
      BreadthFirstReaches([visits[k]], NoSkip);
      assert ReachAll([visits[k]], NoSkip) == Reach(visits[k], NoSkip) + ReachAll([visits[k]][1..], NoSkip);
      var j :| 0 <= j < |walk| && walk[j] == n;
      CommittedMembers(walk, n.value.value);
    } else {
      assert init[k] == visits[k];
      NeedsCoverSubtree(init, k, n);
    }
  }

  /** Everything in `needs` is committed and lies in the subtree of an examined changed location. */
  lemma {:induction false} NeedsComeFromChanged(visits: seq<Tree<Node>>, t: Target)
    requires t in NeedsList(visits)
    ensures t.currentRel.Some?
    ensures exists k, n :: 0 <= k < |visits| && Changed(visits[k].value) && n in Reach(visits[k], NoSkip) && n.value == Some(t)
  {
    var init := visits[..|visits| - 1];
    var v := visits[|visits| - 1];
    if t in NeedsList(init) {
      NeedsComeFromChanged(init, t);
      var k, n :| 0 <= k < |init| && Changed(init[k].value) && n in Reach(init[k], NoSkip) && n.value == Some(t);
      assert visits[k] == init[k];
    } else {
      var walk := BreadthFirst([v], NoSkip);
      assert t in Committed(walk);
      CommittedMembers(walk, t);
      var j :| 0 <= j < |walk| && walk[j].value == Some(t) && t.currentRel.Some?;
      BreadthFirstReaches([v], NoSkip);
      assert ReachAll([v], NoSkip) == Reach(v, NoSkip) + ReachAll([v][1..], NoSkip);
      assert walk[j] in Elements(walk);
    }
  }

  /** The planner is handed the targets that are reachable without passing below a changed one, and nothing else. */
  lemma VisitsReach(targets: seq<Target>)
    ensures Elements(Visits(targets)) == Reach(TreeOf(targets), Changed)
  {
    BreadthFirstReaches([TreeOf(targets)], Changed);
    assert ReachAll([TreeOf(targets)], Changed) == Reach(TreeOf(targets), Changed) + ReachAll([TreeOf(targets)][1..], Changed);
  }

  /** `needs_building` fails with `StopIteration` exactly when no target is filed under the root, as for an empty list. */
  lemma NoRootChildFails(targets: seq<Target>)
    ensures NeedsBuildingOf(targets).Err? <==> ChildrenOf(targets, None) == []
    ensures targets == [] ==> NeedsBuildingOf(targets) == Err(StopIteration)
  {
    var t := TreeOf(targets);
    UnfoldNodes(targets, None, |targets| + 1);
    BreadthFirstStart(t, Changed);
    assert BreadthFirst([t], Changed) == [t] + BreadthFirst([t][1..] + KidsOf(t), Changed);
    assert [t][1..] + KidsOf(t) == KidsOf(t);
    if KidsOf(t) == [] {
      assert BreadthFirst(KidsOf(t), Changed) == [];
    }
  }
}

=== FILE: docker.dfy ===
/**
 * The older tag helpers of `shipwright/docker.py`. The key functions and
 * `encode_tag` are the same code as in `shipwright/_lib/docker.py` and are
 * shared with that module; what differs is that the built tags are a list
 * (duplicates kept, no check for untagged images) and that tagging walks
 * the planner's targets, each tagged from its last built ref.
 */
module Docker {
  import opened Common
  import opened Ordering
  import opened Events
  import opened LibDocker
  import Container
  import Dependencies

  /** `[x for i in infos for x in key_from_image_info(i)]`: every key, in listing order. */
  function FlatKeys(infos: seq<ImageInfo>): Result<seq<string>>
  {
    if infos == [] then Ok([])
    else
      match FlatKeys(infos[..|infos| - 1])
      case Err(e) => Err(e)
      case Ok(keys) =>
        match KeyFromImageInfo(infos[|infos| - 1])
        case Err(e) => Err(e)
        case Ok(more) => Ok(keys + more)
  }

  /**
   * The listing fails exactly when some image is untagged or has a tag
   * without `:`. An untagged image, unlike in the newer code, is not
   * skipped: when every tag has a `:`, it raises TypeError.
   */
  lemma {:induction false} FlatKeysFails(infos: seq<ImageInfo>)
    ensures FlatKeys(infos).Ok? <==>
      forall i :: 0 <= i < |infos| ==> infos[i].repoTags.Some? && Keyable(infos[i])
    ensures (forall i :: 0 <= i < |infos| ==> Keyable(infos[i])) && FlatKeys(infos).Err? ==>
      FlatKeys(infos).error == TypeError
  {
    if infos != [] {
      var init := infos[..|infos| - 1];
      FlatKeysFails(init);
      assert forall i :: 0 <= i < |init| ==> init[i] == infos[i];
    }
  }

  lemma SeqAssoc<T>(x: seq<T>, y: seq<T>, z: seq<T>)
    ensures (x + y) + z == x + (y + z)
  {
  }

  lemma FlatKeysSnoc(infos: seq<ImageInfo>, info: ImageInfo)
    requires FlatKeys(infos).Ok? && KeyFromImageInfo(info).Ok?
    ensures FlatKeys(infos + [info]) == Ok(FlatKeys(infos).value + KeyFromImageInfo(info).value)
  {
    assert (infos + [info])[..|infos|] == infos;
  }

  /** Listing two runs of images lists the first run's keys, then the second's: nothing is merged away. */
  lemma {:induction false} FlatKeysAppend(a: seq<ImageInfo>, b: seq<ImageInfo>)
    requires FlatKeys(a).Ok? && FlatKeys(b).Ok?
    ensures FlatKeys(a + b) == Ok(FlatKeys(a).value + FlatKeys(b).value)
    decreases |b|
  {
    if b == [] {
      assert a + b == a;
      assert FlatKeys(a).value + [] == FlatKeys(a).value;
    } else {
      var init, last := b[..|b| - 1], b[|b| - 1];
      assert FlatKeys(init).Ok? && KeyFromImageInfo(last).Ok?;
      var x, y, z := FlatKeys(a).value, FlatKeys(init).value, KeyFromImageInfo(last).value;
      assert FlatKeys(b).value == y + z;
      FlatKeysAppend(a, init);
      var ai := a + init;
      assert a + b == ai + [last];
      FlatKeysSnoc(ai, last);
      SeqAssoc(x, y, z);
    }
  }

  /**
   * With every image tagged, the older list holds exactly the keys of the
   * newer set: the generations differ only in order, duplicates and the
   * handling of untagged images.
   */
  lemma {:induction false} FlatKeysAgreeWithBuiltTags(infos: seq<ImageInfo>)
    requires FlatKeys(infos).Ok?
    ensures BuiltTags(infos).Ok?
    ensures Elements(FlatKeys(infos).value) == BuiltTags(infos).value
  {
    if infos != [] {
      var init := infos[..|infos| - 1];
      FlatKeysAgreeWithBuiltTags(init);
      var keys := FlatKeys(init).value;
      var more := KeyFromImageInfo(infos[|infos| - 1]).value;
      assert Elements(keys + more) == Elements(keys) + Elements(more);
    }
  }

  /** `last_built_from_docker`: the keys of every image listed for `name`, as a list. */
  function LastBuiltFromDocker(daemon: Daemon, name: string): (r: Result<seq<string>>)
    ensures r.Ok? <==> forall i :: 0 <= i < |daemon.images(name)| ==>
      daemon.images(name)[i].repoTags.Some? && Keyable(daemon.images(name)[i])
    ensures r.Ok? ==> BuiltTags(daemon.images(name)).Ok?
    ensures r.Ok? ==> Elements(r.value) == BuiltTags(daemon.images(name)).value
  {
    var infos := daemon.images(name);
    FlatKeysFails(infos);
    if FlatKeys(infos).Ok? then
      FlatKeysAgreeWithBuiltTags(infos);
      FlatKeys(infos)
    else
      FlatKeys(infos)
  }

  /**
   * `tags_from_containers`: one list of built tags per container, in
   * container order; the first container whose listing fails raises.
   */
  function TagsFromContainers(daemon: Daemon, containers: seq<Container.Container>): (r: Result<seq<seq<string>>>)
    ensures r.Ok? <==> forall i :: 0 <= i < |containers| ==> LastBuiltFromDocker(daemon, containers[i].name).Ok?
    ensures r.Ok? ==> |r.value| == |containers|
    ensures r.Ok? ==> forall i :: 0 <= i < |containers| ==>
      r.value[i] == LastBuiltFromDocker(daemon, containers[i].name).value
    ensures r.Err? ==>
      exists i :: 0 <= i < |containers| && LastBuiltFromDocker(daemon, containers[i].name) == Err(r.error)
  {
    if containers == [] then Ok([])
    else
      match LastBuiltFromDocker(daemon, containers[0].name)
      case Err(e) => Err(e)
      case Ok(first) =>
        match TagsFromContainers(daemon, containers[1..])
        case Err(e) =>
          assert forall i :: 1 <= i < |containers| ==> containers[i] == containers[1..][i - 1];
          Err(e)
        case Ok(rest) =>
          assert forall i :: 1 <= i < |containers| ==> containers[i] == containers[1..][i - 1];
          Ok([first] + rest)
  }

  // ------------------------------------------------------------ tagging

  /**
   * Why tagging a target fails, if it does: a target never built has no
   * ref to concatenate (TypeError), and the daemon may not find the image.
   */
  function TagFailure(daemon: Daemon, t: Dependencies.Target): Option<Error>
  {
    match t.lastBuiltRef
    case None => Some(TypeError)
    case Some(ref) => if daemon.has(t.container.name + ":" + ref) then None else Some(NotFound)
  }

  /** The event yielded after tagging `t`: the target, the image tagged and the encoded tag. */
  function TagRecord(t: Dependencies.Target, newRef: string): (evt: Record)
    requires t.lastBuiltRef.Some?
    ensures evt.Keys == {"event", "container", "image", "tag"}
    ensures evt["image"] == Str(t.container.name + ":" + t.lastBuiltRef.value)
    ensures evt["tag"] == Str(EncodeTag(newRef))
    ensures evt["container"] == Entity(t.container.name)
  {
    map[
      "event" := Str("tag"),
      "container" := Entity(t.container.name),
      "image" := Str(t.container.name + ":" + t.lastBuiltRef.value),
      "tag" := Str(EncodeTag(newRef))]
  }

  /**
   * `tag_containers`: tags every target's last built image with
   * `encode_tag(new_ref)`, yielding one event per target in order, and
   * stops at the first target that cannot be tagged.
   */
  method TagContainers(daemon: Daemon, targets: seq<Dependencies.Target>, newRef: string)
    returns (s: Stream<Record>)
    ensures |s.items| <= |targets|
    ensures forall i :: 0 <= i < |s.items| ==>
      TagFailure(daemon, targets[i]).None? && s.items[i] == TagRecord(targets[i], newRef)
    ensures s.raised.None? <==> |s.items| == |targets|
    ensures s.raised.Some? ==> s.raised == TagFailure(daemon, targets[|s.items|])
  {
    var events: seq<Record> := [];
    for i := 0 to |targets|
      invariant |events| == i
      invariant forall k :: 0 <= k < i ==>
        TagFailure(daemon, targets[k]).None? && events[k] == TagRecord(targets[k], newRef)
    {
      var target := targets[i];
      var tag := EncodeTag(newRef);
      if target.lastBuiltRef.None? {
        return Stream(events, Some(TypeError));
      }
      var image := target.container.name + ":" + target.lastBuiltRef.value;
      if !daemon.has(image) {
        return Stream(events, Some(NotFound));
      }
      events := events + [map["event" := Str("tag"), "container" := Entity(target.container.name),
                               "image" := Str(image), "tag" := Str(tag)]];
    }
    return Stream(events, None);
  }
}

=== FILE: events.dfy ===
/**
 * The event records every generator in shipwright yields: JSON-like
 * dictionaries, decoded from the daemon's output or built by shipwright
 * itself. A generator is modelled as the finite list of records it yields
 * together with the exception, if any, that ended it.
 */
module Events {
  import opened Common

  /**
   * A value held in an event record. `Entity` stands for a target, image or
   * container object put into a record; consumers only read its name.
   */
  datatype Value =
    | Null
    | Bool(b: bool)
    | Int(i: int)
    | Str(s: string)
    | List(items: seq<Value>)
    | Dict(fields: map<string, Value>)
    | Entity(name: string)

  type Record = map<string, Value>

  /** Python truthiness: `None`, `False`, zero and empty strings, lists and dicts are false; any object is true. */
  predicate Truthy(v: Value)
  {
    match v
    case Null => false
    case Bool(b) => b
    case Int(i) => i != 0
    case Str(s) => s != []
    case List(items) => items != []
    case Dict(fields) => fields != map[]
    case Entity(_) => true
  }

  /** What a generator produced: the records it yielded and the exception that stopped it. */
  datatype Stream<T> = Stream(items: seq<T>, raised: Option<Error>)

  function Empty<T>(): Stream<T> { Stream([], None) }

  /**
   * `for evt in a: yield evt` followed by `for evt in b: yield evt`: the
   * second generator only runs when the first one ended normally.
   */
  function Then<T>(a: Stream<T>, b: Stream<T>): (r: Stream<T>)
    ensures a.raised.Some? ==> r == a
    ensures a.raised.None? ==> r.items == a.items + b.items && r.raised == b.raised
  {
    if a.raised.Some? then a else Stream(a.items + b.items, b.raised)
  }

  /** Chaining generators does not depend on how they are grouped. */
  lemma ThenAssociative<T>(a: Stream<T>, b: Stream<T>, c: Stream<T>)
    ensures Then(Then(a, b), c) == Then(a, Then(b, c))
  {
    if a.raised.None? && b.raised.None? {
      assert (a.items + b.items) + c.items == a.items + (b.items + c.items);
    }
  }

  /** The empty generator is a unit of chaining on both sides. */
  lemma ThenEmpty<T>(a: Stream<T>)
    ensures Then(Empty(), a) == a
    ensures Then(a, Empty()) == a
  {
    assert [] + a.items == a.items;
    assert a.items + [] == a.items;
  }

  /**
   * `d = d1.copy(); d.update(d2)`: a new dictionary holding both, where
   * `d2` wins on a shared key. Maps are values, so `d1` is left as it was.
   */
  function Merge<K, V>(d1: map<K, V>, d2: map<K, V>): (r: map<K, V>)
    ensures r.Keys == d1.Keys + d2.Keys
    ensures forall k :: k in d2 ==> r[k] == d2[k]
    ensures forall k :: k in d1 && k !in d2 ==> r[k] == d1[k]
  {
    d1 + d2
  }

  /** A generator that transforms each record of another: the same records, each mapped, and the same ending. */
  function MapItems<T, U>(s: Stream<T>, f: T -> U): (r: Stream<U>)
    ensures |r.items| == |s.items| && r.raised == s.raised
    ensures forall i :: 0 <= i < |s.items| ==> r.items[i] == f(s.items[i])
  {
    Stream(seq(|s.items|, i requires 0 <= i < |s.items| => f(s.items[i])), s.raised)
  }

  /** The record docker reports a failure with: the message, and again under `errorDetail`. */
  function ErrorRecord(message: string): (r: Record)
    ensures r.Keys == {"error", "errorDetail"}
    ensures r["errorDetail"] == Dict(map["message" := Str(message)])
  {
    map["error" := Str(message), "errorDetail" := Dict(map["message" := Str(message)])]
  }

  /** A failure shipwright reports and then carries on from: an error record keyed `warn` instead. */
  function WarnRecord(message: string): (r: Record)
    ensures r.Keys == {"warn", "errorDetail"}
    ensures r["errorDetail"] == Dict(map["message" := Str(message)])
  {
    map["warn" := Str(message), "errorDetail" := Dict(map["message" := Str(message)])]
  }
}

=== FILE: fn.dfy ===
/**
 * The functional helpers of `shipwright/fn.py` that the rest of the code
 * composes its pipelines from. Python's `curry` is not modelled: a curried
 * helper is written with its arguments in the order the source takes them,
 * and the partial applications the source uses (`_0`, `not_(fn)`) are
 * ordinary functions of the remaining argument.
 */
module Fn {
  import opened Common
  import Text

  // ------------------------------------------------------------ composition

  /**
   * `compose(*fns)(v)`: `reduce(apply_, reversed(fns), v)`, so the last
   * function is applied first and what is left of the list is folded over
   * its result.
   */
  function ComposeApply<T>(fns: seq<T -> T>, v: T): T
  {
    if fns == [] then v else ComposeApply(fns[..|fns| - 1], fns[|fns| - 1](v))
  }

  function Compose<T>(fns: seq<T -> T>): T -> T
  {
    v => ComposeApply(fns, v)
  }

  /** Composing nothing is the identity. */
  lemma ComposeNothing<T>(v: T)
    ensures Compose<T>([])(v) == v
  {
  }

  /** The first function is applied last: `compose(f, *rest)(v) == f(compose(*rest)(v))`. */
  lemma {:induction false} ComposeFirstOutermost<T>(fns: seq<T -> T>, v: T)
    requires fns != []
    ensures Compose(fns)(v) == fns[0](Compose(fns[1..])(v))
    decreases |fns|
  {
    var n := |fns| - 1;
    if n > 0 {
      var rest := fns[1..];
      assert fns[..n][1..] == rest[..|rest| - 1] && rest[|rest| - 1] == fns[n] && fns[..n][0] == fns[0];
      ComposeFirstOutermost(fns[..n], fns[n](v));
      assert Compose(rest)(v) == ComposeApply(rest[..|rest| - 1], fns[n](v));
    } else {
      assert fns[1..] == [] && fns[..n] == [];
      assert ComposeApply(fns, v) == ComposeApply([], fns[0](v));
      assert Compose(fns[1..])(v) == ComposeApply([], v);
    }
  }

  /** The documented shape: `compose(f, g, h)(v) == f(g(h(v)))`. */
  lemma ComposeThree<T>(f: T -> T, g: T -> T, h: T -> T, v: T)
    ensures Compose([f, g, h])(v) == f(g(h(v)))
  {
    ComposeFirstOutermost([f, g, h], v);
    ComposeFirstOutermost([g, h], v);
    ComposeFirstOutermost([h], v);
    assert [f, g, h][1..] == [g, h];
    assert [g, h][1..] == [h];
  }

  /** Composition is associative: composing a concatenation composes the two compositions. */
  lemma {:induction false} ComposeAppend<T>(a: seq<T -> T>, b: seq<T -> T>, v: T)
    ensures Compose(a + b)(v) == Compose(a)(Compose(b)(v))
    decreases |a|
  {
    if a != [] {
      ComposeFirstOutermost(a + b, v);
      assert (a + b)[0] == a[0] && (a + b)[1..] == a[1..] + b;
      ComposeAppend(a[1..], b, v);
      ComposeFirstOutermost(a, Compose(b)(v));
    } else {
      assert a + b == b;
    }
  }

  /** `juxt(*fns)(val)`: every function applied to the same value, in order. */
  function Juxt<T, U>(fns: seq<T -> U>): T -> seq<U>
  {
    v => seq(|fns|, i requires 0 <= i < |fns| => fns[i](v))
  }

  /** One result per function, in the functions' order; juxtaposing a concatenation concatenates the results. */
  lemma JuxtResults<T, U>(a: seq<T -> U>, b: seq<T -> U>, v: T)
    ensures |Juxt(a)(v)| == |a| && forall i :: 0 <= i < |a| ==> Juxt(a)(v)[i] == a[i](v)
    ensures Juxt(a + b)(v) == Juxt(a)(v) + Juxt(b)(v)
  {
    assert Juxt(a + b)(v) == Juxt(a)(v) + Juxt(b)(v);
  }

  // ------------------------------------------------------------ logic

  /** `not_(fn)`: the negated predicate. */
  function Not<T>(fn: T -> bool): T -> bool
  {
    a => !fn(a)
  }

  /** The curried comparisons: the first argument is the one fixed by a partial application. */
  function Eq(a: int): int -> bool { b => a == b }
  function Ne(a: int): int -> bool { b => a != b }
  function Lt(a: int): int -> bool { b => a < b }
  function Lte(a: int): int -> bool { b => a <= b }
  function Gt(a: int): int -> bool { b => a > b }
  function Gte(a: int): int -> bool { b => a >= b }

  /** `contains(a)(b)`: whether `b` is in `a`. */
  function Contains<T(==)>(a: seq<T>): T -> bool { b => b in a }

  /** Each comparison is the negation of its opposite, and negating twice changes nothing. */
  lemma ComparisonsNegate(a: int, b: int, p: int -> bool)
    ensures Ne(a)(b) == Not(Eq(a))(b)
    ensures Gte(a)(b) == Not(Lt(a))(b)
    ensures Lte(a)(b) == Not(Gt(a))(b)
    ensures Lt(a)(b) == Gt(b)(a)
    ensures Not(Not(p))(b) == p(b)
  {
  }

  /** `maybe(fn, value)`: nothing for nothing, otherwise the function of the value. */
  function Maybe<T, U>(fn: T -> U, value: Option<T>): (r: Option<U>)
    ensures r.None? <==> value.None?
    ensures r.Some? ==> r.value == fn(value.value)
  {
    match value
    case None => None
    case Some(v) => Some(fn(v))
  }

  /** Mapping twice through `maybe` is mapping once through the composition. */
  lemma MaybeMaybe<T, U, W>(f: T -> U, g: U -> W, value: Option<T>)
    ensures Maybe(g, Maybe(f, value)) == Maybe((x: T) => g(f(x)), value)
  {
  }

  /** The position of the first test that holds of `value`, if any. */
  function FirstMatch<T, U>(tests: seq<(T -> bool, T -> U)>, value: T): (r: Option<nat>)
    ensures r.Some? ==> r.value < |tests| && tests[r.value].0(value)
    ensures r.Some? ==> forall j :: 0 <= j < r.value ==> !tests[j].0(value)
    ensures r.None? ==> forall j :: 0 <= j < |tests| ==> !tests[j].0(value)
  {
    if tests == [] then None
    else if tests[0].0(value) then Some(0)
    else
      var r := FirstMatch(tests[1..], value);
      if r.Some? then Some(r.value + 1) else None
  }

  /** What `when(*tests)(value)` returns: the function paired with the first test that holds, applied; `RuntimeError` when none does. */
  function WhenSpec<T, U>(tests: seq<(T -> bool, T -> U)>, value: T): Result<U>
  {
    var m := FirstMatch(tests, value);
    if m.Some? then Ok(tests[m.value].1(value)) else Err(RuntimeError)
  }

  /** `when(*tests)(value)`: the tests are tried in order and the first that holds decides. */
  method When<T, U>(tests: seq<(T -> bool, T -> U)>, value: T) returns (r: Result<U>)
    ensures r == WhenSpec(tests, value)
    ensures r.Err? <==> forall j :: 0 <= j < |tests| ==> !tests[j].0(value)
    ensures r.Err? ==> r.error == RuntimeError
  {
    for i := 0 to |tests|
      invariant forall j :: 0 <= j < i ==> !tests[j].0(value)
    {
      var (test, fn) := tests[i];
      if test(value) {
        FirstMatchIs(tests, value, i);
        return Ok(fn(value));
      }
    }
    return Err(RuntimeError);
  }

  /** A test that holds, with none holding before it, is the first match. */
  lemma FirstMatchIs<T, U>(tests: seq<(T -> bool, T -> U)>, value: T, i: nat)
    requires i < |tests| && tests[i].0(value)
    requires forall j :: 0 <= j < i ==> !tests[j].0(value)
    ensures FirstMatch(tests, value) == Some(i)
  {
  }

  /** Tests after a test that holds are never consulted. */
  lemma WhenIgnoresLater<T, U>(tests: seq<(T -> bool, T -> U)>, more: seq<(T -> bool, T -> U)>, value: T)
    requires exists j :: 0 <= j < |tests| && tests[j].0(value)
    ensures WhenSpec(tests + more, value) == WhenSpec(tests, value)
  {
    var m := FirstMatch(tests, value);
    FirstMatchIs(tests + more, value, m.value);
  }

  // ------------------------------------------------------------ strings

  /** `endswith(s1)(s2)`: whether `s2` ends with `s1`; the argument order is the reverse of `str.endswith`. */
  function EndsWith(s1: string): string -> bool { s2 => Text.EndsWith(s2, s1) }

  /** `startswith(s1)(s2)`: whether `s2` starts with `s1`. */
  function StartsWith(s1: string): string -> bool { s2 => Text.StartsWith(s2, s1) }

  /** A string ends with `s1` exactly when it is something followed by `s1`, and starts with it exactly when it is `s1` followed by something. */
  lemma AffixesMeanConcatenation(s1: string, s2: string)
    ensures EndsWith(s1)(s2) <==> exists p :: s2 == p + s1
    ensures StartsWith(s1)(s2) <==> exists q :: s2 == s1 + q
  {
    if EndsWith(s1)(s2) {
      assert s2 == s2[..|s2| - |s1|] + s1;
    }
    if StartsWith(s1)(s2) {
      assert s2 == s1 + s2[|s1|..];
    }
    if exists p :: s2 == p + s1 {
      var p :| s2 == p + s1;
      assert s2[|s2| - |s1|..] == s1;
    }
    if exists q :: s2 == s1 + q {
      var q :| s2 == s1 + q;
      assert s2[..|s1|] == s1;
    }
  }

  // ------------------------------------------------------------ sequences

  /** `flatten` (`chain.from_iterable`): the lists one after the other. */
  function Flatten<T>(xss: seq<seq<T>>): (r: seq<T>)
    ensures |xss| == 1 ==> r == xss[0]
  {
    if xss == [] then [] else Flatten(xss[..|xss| - 1]) + xss[|xss| - 1]
  }

  /** Flattening a concatenation concatenates the flattenings, and an element is in the result exactly when it is in one of the lists. */
  lemma {:induction false} FlattenAppend<T>(a: seq<seq<T>>, b: seq<seq<T>>)
    ensures Flatten(a + b) == Flatten(a) + Flatten(b)
    decreases |b|
  {
    if b == [] {
      assert a + b == a;
    } else {
      var n := |b| - 1;
      assert (a + b)[..|a + b| - 1] == a + b[..n];
      FlattenAppend(a, b[..n]);
    }
  }

  lemma {:induction false} FlattenMembers<T>(xss: seq<seq<T>>, x: T)
    ensures x in Flatten(xss) <==> exists i :: 0 <= i < |xss| && x in xss[i]
  {
    if xss != [] {
      var n := |xss| - 1;
      FlattenMembers(xss[..n], x);
      if x in Flatten(xss[..n]) {
        var i :| 0 <= i < n && x in xss[..n][i];
        assert x in xss[i];
      }
      if exists i :: 0 <= i < |xss| && x in xss[i] {
        var i :| 0 <= i < |xss| && x in xss[i];
        if i < n { assert xss[..n][i] == xss[i]; }
      }
    }
  }

  /** `arr[i]` with Python's reading of a negative index as counting from the end; `IndexError` outside the list. */
  function PyIndex<T>(arr: seq<T>, i: int): (r: Result<T>)
    ensures r.Ok? <==> -|arr| <= i < |arr|
    ensures 0 <= i < |arr| ==> r.value == arr[i]
    ensures -|arr| <= i < 0 ==> r.value == arr[|arr| + i]
    ensures r.Err? ==> r.error == IndexError
  {
    if 0 <= i < |arr| then Ok(arr[i])
    else if -|arr| <= i < 0 then Ok(arr[|arr| + i])
    else Err(IndexError)
  }

  /** `first(arr)`: `arr[0]`. */
  function First<T>(arr: seq<T>): Result<T> { PyIndex(arr, 0) }

  /** `last(arr)`: `arr[-1]`. */
  function Last<T>(arr: seq<T>): Result<T> { PyIndex(arr, -1) }

  /** Both fail on the empty list alone; otherwise they are the two ends, and they agree on a list of one. */
  lemma FirstAndLast<T>(arr: seq<T>, x: T)
    ensures (First(arr).Ok? <==> arr != []) && (Last(arr).Ok? <==> arr != [])
    ensures First([x] + arr) == Ok(x) && Last(arr + [x]) == Ok(x)
    ensures |arr| == 1 ==> First(arr) == Last(arr)
    ensures arr == [] ==> First(arr) == Err(IndexError) && Last(arr) == Err(IndexError)
  {
  }

  /**
   * `get(index, arr)`: `None` past the end, otherwise `arr[index]`. A
   * negative index is never past the end, so it counts from the end and
   * raises `IndexError` below the start instead of giving `None`.
   */
  function Get<T>(index: int, arr: seq<T>): (r: Result<Option<T>>)
    ensures index >= |arr| ==> r == Ok(None)
    ensures 0 <= index < |arr| ==> r == Ok(Some(arr[index]))
    ensures -|arr| <= index < 0 ==> r == Ok(Some(arr[|arr| + index]))
    ensures index < -|arr| ==> r == Err(IndexError)
  {
    if index > |arr| - 1 then Ok(None)
    else
      var x := PyIndex(arr, index);
      if x.Ok? then Ok(Some(x.value)) else Err(x.error)
  }

  /** `_0`: the first element when there is one, `None` for the empty list; unlike `first` it never raises. */
  lemma GetZeroVersusFirst<T>(arr: seq<T>)
    ensures Get(0, arr).Ok?
    ensures arr == [] ==> Get(0, arr) == Ok(None) && First(arr).Err?
    ensures arr != [] ==> Get(0, arr) == Ok(Some(First(arr).value))
  {
  }
}

=== FILE: fnmatch.dfy ===
/**
 * `fnmatch.fnmatch` on POSIX, where `normcase` is the identity: the whole
 * name must match the pattern, `*` matches any run of characters (the
 * separator included) and `?` any one character.
 */
module Fnmatch {
  import opened Text

  predicate IsWildcard(c: char) { c == '*' || c == '?' }

  /** A pattern without wildcards. */
  predicate Literal(pat: string) { forall k :: 0 <= k < |pat| ==> !IsWildcard(pat[k]) }

  /** Does `s[i..]` match `pat[j..]`? */
  predicate MatchFrom(s: string, i: nat, pat: string, j: nat)
    requires i <= |s| && j <= |pat|
    decreases |pat| - j, |s| - i
  {
    if j == |pat| then i == |s|
    else if pat[j] == '*' then MatchFrom(s, i, pat, j + 1) || (i < |s| && MatchFrom(s, i + 1, pat, j))
    else i < |s| && (pat[j] == '?' || s[i] == pat[j]) && MatchFrom(s, i + 1, pat, j + 1)
  }

  predicate Matches(s: string, pat: string)
  {
    MatchFrom(s, 0, pat, 0)
  }

  /** A trailing `*` matches whatever is left. */
  lemma {:induction false} StarMatchesRest(s: string, i: nat, pat: string)
    requires i <= |s| && |pat| > 0 && pat[|pat| - 1] == '*'
    ensures MatchFrom(s, i, pat, |pat| - 1)
    decreases |s| - i
  {
    if i < |s| {
      StarMatchesRest(s, i + 1, pat);
    }
  }

  lemma {:induction false} LiteralStarFrom(s: string, i: nat, lit: string, j: nat)
    requires Literal(lit) && i <= |s| && j <= |lit|
    ensures MatchFrom(s, i, lit + "*", j) <==> |lit| - j <= |s| - i && s[i..i + |lit| - j] == lit[j..]
    decreases |lit| - j
  {
    var pat := lit + "*";
    if j == |lit| {
      StarMatchesRest(s, i, pat);
    } else {
      assert pat[j] == lit[j];
      if i < |s| {
        LiteralStarFrom(s, i + 1, lit, j + 1);
        if |lit| - j <= |s| - i {
          assert s[i..i + |lit| - j] == [s[i]] + s[i + 1..i + 1 + |lit| - (j + 1)];
          assert lit[j..] == [lit[j]] + lit[j + 1..];
        }
      }
    }
  }

  /** The number of separators in `s[i..]`. */
  function SeparatorCount(s: string, i: nat): nat
    requires i <= |s|
    decreases |s| - i
  {
    if i == |s| then 0 else (if s[i] == '/' then 1 else 0) + SeparatorCount(s, i + 1)
  }

  /** Only a wildcard can stand for a separator, so a name has at least the pattern's separators. */
  lemma {:induction false} SlashesNeeded(s: string, i: nat, pat: string, j: nat)
    requires i <= |s| && j <= |pat| && MatchFrom(s, i, pat, j)
    ensures SeparatorCount(s, i) >= SeparatorCount(pat, j)
    decreases |pat| - j, |s| - i
  {
    if j < |pat| {
      if pat[j] == '*' {
        if MatchFrom(s, i, pat, j + 1) {
          SlashesNeeded(s, i, pat, j + 1);
        } else {
          SlashesNeeded(s, i + 1, pat, j);
        }
      } else {
        SlashesNeeded(s, i + 1, pat, j + 1);
      }
    }
  }

  /** A literal prefix followed by `*` matches exactly the names that start with it. */
  lemma LiteralStar(s: string, lit: string)
    requires Literal(lit)
    ensures Matches(s, lit + "*") <==> StartsWith(s, lit)
  {
    LiteralStarFrom(s, 0, lit, 0);
  }

  lemma {:induction false} LiteralFrom(s: string, i: nat, lit: string, j: nat)
    requires Literal(lit) && i <= |s| && j <= |lit|
    ensures MatchFrom(s, i, lit, j) <==> s[i..] == lit[j..]
    decreases |lit| - j
  {
    if j < |lit| && i < |s| {
      LiteralFrom(s, i + 1, lit, j + 1);
      assert s[i..] == [s[i]] + s[i + 1..];
      assert lit[j..] == [lit[j]] + lit[j + 1..];
    }
  }

  /** A literal pattern matches itself and nothing else. */
  lemma LiteralMatchesOnlyItself(s: string, lit: string)
    requires Literal(lit)
    ensures Matches(s, lit) <==> s == lit
  {
    LiteralFrom(s, 0, lit, 0);
  }

  lemma {:induction false} MatchesItselfFrom(s: string, i: nat)
    requires i <= |s|
    ensures MatchFrom(s, i, s, i)
    decreases |s| - i
  {
    if i < |s| {
      MatchesItselfFrom(s, i + 1);
      if s[i] == '*' {
        if i + 1 < |s| {
          assert MatchFrom(s, i + 1, s, i + 1);
        }
      }
    }
  }

  /** Every pattern matches its own text: `*` and `?` also match themselves. */
  lemma MatchesItself(s: string)
    ensures Matches(s, s)
  {
    MatchesItselfFrom(s, 0);
  }
}

=== FILE: lib_base.dfy ===
/**
 * The command layer of `shipwright/_lib/base.py`: a `Shipwright` holds the
 * source control, the docker client, the extra tags and the cache, and
 * runs `build`, `images` and `push` over the targets a selection picks.
 *
 * The source control is represented by its answers (its targets, the
 * current ref string and the default tags); `LibSourceControl` computes
 * them from the repository.
 */
module LibBase {
  import opened Common
  import opened Events
  import LibDocker
  import LibSourceControl
  import LibCache
  import LibBuild
  import LibDependencies

  type Target = LibSourceControl.Target

  /** What the source control answers: `targets()`, `this_ref_str()` and `default_tags()`. */
  datatype SourceControl = SourceControl(targets: seq<Target>, thisRefStr: string, defaultTags: seq<string>)

  /** The tag list of a run: the default tags, the extra tags, then the current ref. */
  function TagList(defaultTags: seq<string>, extra: seq<string>, thisRef: string): (r: seq<string>)
    ensures |r| == |defaultTags| + |extra| + 1
    ensures r[..|defaultTags|] == defaultTags
    ensures r[|defaultTags|..|defaultTags| + |extra|] == extra
    ensures r[|r| - 1] == thisRef
  {
    defaultTags + extra + [thisRef]
  }

  /** The cache's records, forwarded as messages of the run. */
  function Records(s: Stream<Record>): (r: Stream<LibBuild.Msg>)
    ensures |r.items| == |s.items| && r.raised == s.raised
    ensures forall i :: 0 <= i < |s.items| ==> r.items[i] == LibBuild.Rec(s.items[i])
  {
    MapItems(s, (evt: Record) => LibBuild.Rec(evt))
  }

  // ------------------------------------------------------------ build

  /**
   * `_build`: every message of `do_build`, then, when that ended normally,
   * the cache's tag records for the tag list.
   */
  function BuildRun(rd: Reading, daemon: LibDocker.Daemon, strategy: LibCache.Strategy, client: LibCache.Client, st: LibCache.CacheState,
                    defaultTags: seq<string>, extra: seq<string>, thisRef: string, targets: seq<Target>)
    : (r: (Stream<LibBuild.Msg>, LibCache.CacheState))
    ensures r.1 == LibBuild.BuildAll(rd, daemon, strategy, client, st, LibBuild.BuildIndex(targets), targets).1
    ensures LibBuild.BuildAll(rd, daemon, strategy, client, st, LibBuild.BuildIndex(targets), targets).0.raised.Some? ==>
      r.0 == LibBuild.BuildAll(rd, daemon, strategy, client, st, LibBuild.BuildIndex(targets), targets).0
  {
    var (b, st1) := LibBuild.BuildAll(rd, daemon, strategy, client, st, LibBuild.BuildIndex(targets), targets);
    (Then(b, Records(LibCache.TagSpec(strategy, client, targets, TagList(defaultTags, extra, thisRef)))), st1)
  }

  /**
   * The build messages come first and unchanged, and the tag records only
   * follow a build that ended normally, which has completed every target
   * in order.
   */
  lemma BuildRunOrder(rd: Reading, daemon: LibDocker.Daemon, strategy: LibCache.Strategy, client: LibCache.Client, st: LibCache.CacheState,
                      defaultTags: seq<string>, extra: seq<string>, thisRef: string, targets: seq<Target>)
    ensures var (s, st') := BuildRun(rd, daemon, strategy, client, st, defaultTags, extra, thisRef, targets);
      var (b, st1) := LibBuild.BuildAll(rd, daemon, strategy, client, st, LibBuild.BuildIndex(targets), targets);
      var t := LibCache.TagSpec(strategy, client, targets, TagList(defaultTags, extra, thisRef));
      && st' == st1
      && (b.raised.Some? ==> s == b)
      && (b.raised.None? ==> s.items == b.items + Records(t).items && s.raised == t.raised)
      && (s.raised.None? ==> LibBuild.Completed(s.items) == targets)
  {
    var built := LibBuild.BuildAll(rd, daemon, strategy, client, st, LibBuild.BuildIndex(targets), targets);
    var b := built.0;
    var t := Records(LibCache.TagSpec(strategy, client, targets, TagList(defaultTags, extra, thisRef)));
    var r := BuildRun(rd, daemon, strategy, client, st, defaultTags, extra, thisRef, targets);
    assert r == (Then(b, t), built.1);
    LibBuild.BuildAllCompletes(rd, daemon, strategy, client, st, LibBuild.BuildIndex(targets), targets);
    RecordsAfterBuild(b, t, targets);
  }

  /** Records chained after a build add no completed target to it. */
  lemma RecordsAfterBuild(b: Stream<LibBuild.Msg>, t: Stream<LibBuild.Msg>, targets: seq<Target>)
    requires b.raised.None? ==> LibBuild.Completed(b.items) == targets
    requires forall i :: 0 <= i < |t.items| ==> t.items[i].Rec?
    ensures Then(b, t).raised.None? ==> LibBuild.Completed(Then(b, t).items) == targets
  {
    if b.raised.None? {
      LibBuild.CompletedAppend(b.items, t.items);
      LibBuild.CompletedNone(t.items);
    }
  }

  /**
   * After a build that ended normally, a local strategy tags every target
   * with every tag, targets outer (`LibCache.TagAllGroups` lays the records out),
   * and the direct registry tags nothing.
   */
  lemma BuildRunTags(rd: Reading, daemon: LibDocker.Daemon, strategy: LibCache.Strategy, client: LibCache.Client, st: LibCache.CacheState,
                     defaultTags: seq<string>, extra: seq<string>, thisRef: string, targets: seq<Target>)
    requires LibBuild.BuildAll(rd, daemon, strategy, client, st, LibBuild.BuildIndex(targets), targets).0.raised.None?
    ensures var s := BuildRun(rd, daemon, strategy, client, st, defaultTags, extra, thisRef, targets).0;
      var b := LibBuild.BuildAll(rd, daemon, strategy, client, st, LibBuild.BuildIndex(targets), targets).0;
      var tags := TagList(defaultTags, extra, thisRef);
      && s.raised.None? && |b.items| <= |s.items| && s.items[..|b.items|] == b.items
      && var tagged := s.items[|b.items|..];
      && (strategy.DirectRegistry? ==> tagged == [])
      && (!strategy.DirectRegistry? ==>
            && |tagged| == |targets| * |tags|
            && tagged == Records(Stream(LibCache.TagAll(client.daemon, targets, tags), None)).items)
  {
    var b := LibBuild.BuildAll(rd, daemon, strategy, client, st, LibBuild.BuildIndex(targets), targets).0;
    var tags := TagList(defaultTags, extra, thisRef);
    var t := Records(LibCache.TagSpec(strategy, client, targets, tags));
    var s := BuildRun(rd, daemon, strategy, client, st, defaultTags, extra, thisRef, targets).0;
    BuildRunOrder(rd, daemon, strategy, client, st, defaultTags, extra, thisRef, targets);
    assert s.items[..|b.items|] == b.items && s.items[|b.items|..] == t.items;
    if !strategy.DirectRegistry? {
      LibCache.TagAllLength(client.daemon, targets, tags);
    }
  }

  // ------------------------------------------------------------ images

  /** The log record naming one target's image: `name:ref`. */
  function LogRecord(target: Target): (r: Record)
    ensures r.Keys == {"stream", "event"} && r["event"] == Str("log")
    ensures r["stream"].Str? && |r["stream"].s| == |target.image.name| + 1 + |target.ref|
    ensures r["stream"].s[..|target.image.name|] == target.image.name && r["stream"].s[|target.image.name|] == ':'
    ensures r["stream"].s[|target.image.name| + 1..] == target.ref
  {
    map["stream" := Str(target.image.name + ":" + target.ref), "event" := Str("log")]
  }

  // ------------------------------------------------------------ push

  /**
   * `push`: `_build` unless `no_build`, then, when nothing was raised, the
   * cache's push of the targets under the tag list.
   */
  function PushRun(rd: Reading, daemon: LibDocker.Daemon, strategy: LibCache.Strategy, client: LibCache.Client, st: LibCache.CacheState,
                   scm: SourceControl, extra: seq<string>, targets: seq<Target>, noBuild: bool)
    : (r: (Stream<LibBuild.Msg>, LibCache.CacheState))
    ensures !noBuild ==> var b := BuildRun(rd, daemon, strategy, client, st, scm.defaultTags, extra, scm.thisRefStr, targets).0;
      |b.items| <= |r.0.items| && r.0.items[..|b.items|] == b.items && (b.raised.Some? ==> r.0 == b)
  {
    var (b, st1) := if noBuild then (Empty(), st) else BuildRun(rd, daemon, strategy, client, st, scm.defaultTags, extra, scm.thisRefStr, targets);
    if b.raised.Some? then (b, st1)
    else
      var (p, st2) := LibCache.PushSpec(rd, strategy, client, st1, targets, TagList(scm.defaultTags, extra, scm.thisRefStr));
      (Then(b, Records(p)), st2)
  }

  /**
   * Without `no_build` the run is the build, then the push; with it, only
   * the push, from the cache state as it was. The pushed records are
   * forwarded as they are and complete no target.
   */
  lemma PushRunOrder(rd: Reading, daemon: LibDocker.Daemon, strategy: LibCache.Strategy, client: LibCache.Client, st: LibCache.CacheState,
                     scm: SourceControl, extra: seq<string>, targets: seq<Target>, noBuild: bool)
    ensures var (s, st') := PushRun(rd, daemon, strategy, client, st, scm, extra, targets, noBuild);
      var tags := TagList(scm.defaultTags, extra, scm.thisRefStr);
      && (noBuild ==> (s, st') == (Records(LibCache.PushSpec(rd, strategy, client, st, targets, tags).0),
                                    LibCache.PushSpec(rd, strategy, client, st, targets, tags).1))
      && (noBuild ==> LibBuild.Completed(s.items) == [])
      && (!noBuild ==>
            var (b, st1) := BuildRun(rd, daemon, strategy, client, st, scm.defaultTags, extra, scm.thisRefStr, targets);
            var (p, st2) := LibCache.PushSpec(rd, strategy, client, st1, targets, tags);
            && (b.raised.Some? ==> (s, st') == (b, st1))
            && (b.raised.None? ==> s.items == b.items + Records(p).items && s.raised == p.raised && st' == st2)
            && (b.raised.None? ==> LibBuild.Completed(s.items) == targets))
  {
    var tags := TagList(scm.defaultTags, extra, scm.thisRefStr);
    if noBuild {
      var p := LibCache.PushSpec(rd, strategy, client, st, targets, tags).0;
      ThenEmpty(Records(p));
      LibBuild.CompletedNone(Records(p).items);
    } else {
      var (b, st1) := BuildRun(rd, daemon, strategy, client, st, scm.defaultTags, extra, scm.thisRefStr, targets);
      var (p, st2) := LibCache.PushSpec(rd, strategy, client, st1, targets, tags);
      if b.raised.None? {
        BuildRunOrder(rd, daemon, strategy, client, st, scm.defaultTags, extra, scm.thisRefStr, targets);
        LibBuild.CompletedAppend(b.items, Records(p).items);
        LibBuild.CompletedNone(Records(p).items);
      }
    }
  }

  // ------------------------------------------------------------ the object

  class Shipwright {
    const scm: SourceControl
    const docker: LibDocker.Daemon
    const tags: seq<string>
    const cache: LibCache.Cache
    const eval: LibDependencies.Eval

    constructor (scm: SourceControl, docker: LibDocker.Daemon, tags: seq<string>, cache: LibCache.Cache, eval: LibDependencies.Eval)
      ensures this.scm == scm && this.docker == docker && this.tags == tags && this.cache == cache && this.eval == eval
    {
      this.scm := scm;
      this.docker := docker;
      this.tags := tags;
      this.cache := cache;
      this.eval := eval;
    }

    /** `_build(this_ref_str, targets)`. */
    method BuildTargets(thisRef: string, targets: seq<Target>) returns (s: Stream<LibBuild.Msg>)
      modifies cache
      ensures (s, cache.State()) == BuildRun(cache.reading, docker, cache.strategy, cache.client, old(cache.State()), scm.defaultTags, tags, thisRef, targets)
    {
      s := LibBuild.DoBuild(docker, cache, targets);
      if s.raised.Some? {
        return;
      }
      var t := cache.Tag(targets, TagList(scm.defaultTags, tags, thisRef));
      s := Then(s, Records(t));
    }

    /** `build(build_targets)`: the selected targets, built and tagged with the current ref. */
    method Build(selection: LibDependencies.Selection) returns (s: Stream<LibBuild.Msg>)
      modifies cache
      ensures (s, cache.State()) ==
        BuildRun(cache.reading, docker, cache.strategy, cache.client, old(cache.State()), scm.defaultTags, tags, scm.thisRefStr, eval(selection, scm.targets))
    {
      var targets := eval(selection, scm.targets);
      s := BuildTargets(scm.thisRefStr, targets);
    }

    /** `images(build_targets)`: one log record per selected target, in order. */
    method Images(selection: LibDependencies.Selection) returns (s: seq<Record>)
      ensures |s| == |eval(selection, scm.targets)|
      ensures forall i :: 0 <= i < |s| ==> s[i] == LogRecord(eval(selection, scm.targets)[i])
    {
      var targets := eval(selection, scm.targets);
      s := [];
      for i := 0 to |targets|
        invariant |s| == i
        invariant forall k :: 0 <= k < i ==> s[k] == LogRecord(targets[k])
      {
        s := s + [LogRecord(targets[i])];
      }
    }

    /** `push(build_targets, no_build)`. */
    method Push(selection: LibDependencies.Selection, noBuild: bool) returns (s: Stream<LibBuild.Msg>)
      modifies cache
      ensures (s, cache.State()) ==
        PushRun(cache.reading, docker, cache.strategy, cache.client, old(cache.State()), scm, tags, eval(selection, scm.targets), noBuild)
    {
      var targets := eval(selection, scm.targets);
      s := Empty();
      if !noBuild {
        s := BuildTargets(scm.thisRefStr, targets);
        if s.raised.Some? {
          return;
        }
      }
      var p := cache.Push(targets, TagList(scm.defaultTags, tags, scm.thisRefStr));
      s := Then(s, Records(p));
    }
  }
}

=== FILE: lib_build.dfy ===
/**
 * Building the targets of a run, from `shipwright/_lib/build.py`, with the
 * messages of `shipwright/_lib/msg.py`.
 *
 * Every target is built through the cache object, in the order given; a
 * target whose ref the daemon already has under the target's name is not
 * built again. Each target's build records are marked as build messages of
 * that target, and followed by one `BuildComplete` message.
 */
module LibBuild {
  import opened Common
  import opened Events
  import LibDocker
  import LibImage
  import LibSourceControl
  import LibCache

  type Target = LibSourceControl.Target

  /** What the build generator yields: a record, or the message that a target is done. */
  datatype Msg =
    | Rec(rec: Record)
    | BuildComplete(target: Target)

  // ------------------------------------------------------------ the parent-ref index

  /** `{t.image.name: t.ref for t in targets}`: a later target replaces an earlier one of the same name. */
  function BuildIndex(targets: seq<Target>): map<string, string>
  {
    if targets == [] then map[]
    else BuildIndex(targets[..|targets| - 1])[targets[|targets| - 1].image.name := targets[|targets| - 1].ref]
  }

  /** The `k`-th target is the last one named `n`. */
  predicate LastNamed(targets: seq<Target>, k: int, n: string)
  {
    && 0 <= k < |targets| && targets[k].image.name == n
    && forall j :: k < j < |targets| ==> targets[j].image.name != n
  }

  /** The index names exactly the targets, each with the ref of the last target of that name. */
  lemma {:induction false} BuildIndexLookup(targets: seq<Target>, n: string)
    ensures n in BuildIndex(targets) <==> exists k :: 0 <= k < |targets| && targets[k].image.name == n
    ensures n in BuildIndex(targets) ==> exists k :: LastNamed(targets, k, n) && BuildIndex(targets)[n] == targets[k].ref
  {
    if targets != [] {
      var init, last := targets[..|targets| - 1], targets[|targets| - 1];
      BuildIndexLookup(init, n);
      if last.image.name == n {
        assert LastNamed(targets, |targets| - 1, n);
      } else if n in BuildIndex(init) {
        var k :| LastNamed(init, k, n) && BuildIndex(init)[n] == init[k].ref;
        assert LastNamed(targets, k, n);
      } else {
        assert forall k :: 0 <= k < |init| ==> init[k] == targets[k];
      }
    }
  }

  /**
   * `parent_ref`: looked up only when the target has a parent, and then
   * the ref of the target of this run named by the parent, if there is one.
   */
  function ParentRef(index: map<string, string>, target: Target): (r: Option<string>)
    ensures r.Some? <==> LibImage.Truthy(target.image.parent) && target.image.parent.value in index
    ensures r.Some? ==> r.value == index[target.image.parent.value]
  {
    if LibImage.Truthy(target.image.parent) && target.image.parent.value in index then Some(index[target.image.parent.value])
    else None
  }

  // ------------------------------------------------------------ one target

  /** `_merge(merge_config, evt)`: the record marked as a build message of `image`, its own keys winning. */
  function BuildRecord(image: Target, evt: Record): (r: Record)
    ensures r.Keys == evt.Keys + {"event", "target", "rev"}
    ensures forall k :: k in evt ==> r[k] == evt[k]
    ensures "event" !in evt ==> r["event"] == Str("build_msg")
    ensures "target" !in evt ==> r["target"] == Entity(image.image.name)
    ensures "rev" !in evt ==> r["rev"] == Str(image.ref)
  {
    Merge(map["event" := Str("build_msg"), "target" := Entity(image.image.name), "rev" := Str(image.ref)], evt)
  }

  /**
   * `build`: nothing when the daemon already has `image.ref` among the
   * tags of the image's name; otherwise the cache's build, every record
   * marked. A failing listing of the daemon's images raises.
   */
  function BuildImage(rd: Reading, daemon: LibDocker.Daemon, strategy: LibCache.Strategy, client: LibCache.Client, st: LibCache.CacheState,
                      parentRef: Option<string>, image: Target): (r: (Stream<Msg>, LibCache.CacheState))
    requires parentRef.Some? ==> image.image.parent.Some?
    ensures forall i :: 0 <= i < |r.0.items| ==> r.0.items[i].Rec?
    ensures LibDocker.BuiltTags(daemon.images(image.image.name)).Err? ==>
      r == (Stream([], Some(LibDocker.BuiltTags(daemon.images(image.image.name)).error)), st)
    ensures var built := LibDocker.BuiltTags(daemon.images(image.image.name));
      built.Ok? && image.ref in built.value ==> r == (Empty(), st)
  {
    var built := LibDocker.BuiltTags(daemon.images(image.image.name));
    if built.Err? then (Stream([], Some(built.error)), st)
    else if image.ref in built.value then (Empty(), st)
    else
      var (s, st') := LibCache.BuildSpec(rd, strategy, client, st, parentRef, image);
      (MapItems(s, (evt: Record) => Rec(BuildRecord(image, evt))), st')
  }

  /** An image already built under its ref is skipped: nothing is yielded and the cache is not asked. */
  lemma BuildImageSkipsBuilt(rd: Reading, daemon: LibDocker.Daemon, strategy: LibCache.Strategy, client: LibCache.Client, st: LibCache.CacheState,
                             parentRef: Option<string>, image: Target)
    requires parentRef.Some? ==> image.image.parent.Some?
    requires LibDocker.BuiltTags(daemon.images(image.image.name)).Ok?
    ensures var (s, st') := BuildImage(rd, daemon, strategy, client, st, parentRef, image);
      (image.ref in LibDocker.BuiltTags(daemon.images(image.image.name)).value ==> s == Empty() && st' == st) &&
      (image.ref !in LibDocker.BuiltTags(daemon.images(image.image.name)).value ==>
        (s.items, st') == ( MapItems(LibCache.BuildSpec(rd, strategy, client, st, parentRef, image).0, (evt: Record) => Rec(BuildRecord(image, evt))).items,
                            LibCache.BuildSpec(rd, strategy, client, st, parentRef, image).1))
  {
  }

  /** Every message of one image's build is a record, marked with the `event`, `target` and `rev` keys. */
  lemma BuildImageMarked(rd: Reading, daemon: LibDocker.Daemon, strategy: LibCache.Strategy, client: LibCache.Client, st: LibCache.CacheState,
                         parentRef: Option<string>, image: Target)
    requires parentRef.Some? ==> image.image.parent.Some?
    ensures var s := BuildImage(rd, daemon, strategy, client, st, parentRef, image).0;
      forall i :: 0 <= i < |s.items| ==> s.items[i].Rec? && {"event", "target", "rev"} <= s.items[i].rec.Keys
  {
  }

  // ------------------------------------------------------------ the run

  /**
   * `do_build` over `targets`, with the parent refs looked up in `index`:
   * each target's messages, then its `BuildComplete`; a target whose build
   * raises ends the run.
   */
  function BuildAll(rd: Reading, daemon: LibDocker.Daemon, strategy: LibCache.Strategy, client: LibCache.Client, st: LibCache.CacheState,
                    index: map<string, string>, targets: seq<Target>): (r: (Stream<Msg>, LibCache.CacheState))
    ensures r.0.raised.None? && targets != [] ==>
      |r.0.items| > 0 && r.0.items[|r.0.items| - 1] == BuildComplete(targets[|targets| - 1])
  {
    if targets == [] then (Empty(), st)
    else
      var (s, st1) := BuildAll(rd, daemon, strategy, client, st, index, targets[..|targets| - 1]);
      if s.raised.Some? then (s, st1)
      else
        var t := targets[|targets| - 1];
        var (b, st2) := BuildImage(rd, daemon, strategy, client, st1, ParentRef(index, t), t);
        (Then(s, Then(b, Stream([BuildComplete(t)], None))), st2)
  }

  /** The targets whose `BuildComplete` the messages hold, in order. */
  function Completed(msgs: seq<Msg>): seq<Target>
  {
    if msgs == [] then []
    else if msgs[|msgs| - 1].BuildComplete? then Completed(msgs[..|msgs| - 1]) + [msgs[|msgs| - 1].target]
    else Completed(msgs[..|msgs| - 1])
  }

  lemma {:induction false} CompletedAppend(a: seq<Msg>, b: seq<Msg>)
    ensures Completed(a + b) == Completed(a) + Completed(b)
    decreases |b|
  {
    if b == [] {
      assert a + b == a;
    } else {
      assert (a + b)[..|a + b| - 1] == a + b[..|b| - 1];
      CompletedAppend(a, b[..|b| - 1]);
    }
  }

  /** One image's build yields records only. */
  lemma {:induction false} CompletedNone(msgs: seq<Msg>)
    requires forall i :: 0 <= i < |msgs| ==> msgs[i].Rec?
    ensures Completed(msgs) == []
  {
    if msgs != [] {
      CompletedNone(msgs[..|msgs| - 1]);
    }
  }

  /**
   * Targets are built in the order given, each completed once: a run that
   * ends normally completes every target in order, and one that raises has
   * completed the targets before the one that failed.
   */
  lemma {:induction false} BuildAllCompletes(rd: Reading, daemon: LibDocker.Daemon, strategy: LibCache.Strategy, client: LibCache.Client,
                                             st: LibCache.CacheState, index: map<string, string>, targets: seq<Target>)
    ensures var s := BuildAll(rd, daemon, strategy, client, st, index, targets).0;
      var done := Completed(s.items);
      (s.raised.None? ==> done == targets) &&
      (s.raised.Some? ==> |done| < |targets| && done == targets[..|done|])
  {
    if targets != [] {
      var init, t := targets[..|targets| - 1], targets[|targets| - 1];
      BuildAllCompletes(rd, daemon, strategy, client, st, index, init);
      var (s, st1) := BuildAll(rd, daemon, strategy, client, st, index, init);
      if s.raised.None? {
        var (b, st2) := BuildImage(rd, daemon, strategy, client, st1, ParentRef(index, t), t);
        BuildImageMarked(rd, daemon, strategy, client, st1, ParentRef(index, t), t);
        CompletesOneMore(s, b, init, t);
        InitLast(targets);
        assert BuildAll(rd, daemon, strategy, client, st, index, targets).0 == Then(s, Then(b, Stream([BuildComplete(t)], None)));
      } else {
        assert BuildAll(rd, daemon, strategy, client, st, index, targets).0 == s;
        assert init[..|Completed(s.items)|] == targets[..|Completed(s.items)|];
      }
    }
  }

  /** After a run that completed `done`, one more target's build completes it too unless the build raised. */
  lemma CompletesOneMore(s: Stream<Msg>, b: Stream<Msg>, done: seq<Target>, t: Target)
    requires s.raised.None? && Completed(s.items) == done
    requires forall i :: 0 <= i < |b.items| ==> b.items[i].Rec?
    ensures var r := Then(s, Then(b, Stream([BuildComplete(t)], None)));
      && (r.raised.None? ==> Completed(r.items) == done + [t])
      && (r.raised.Some? ==> Completed(r.items) == done)
  {
    CompletedStep(s.items, b, t);
  }

  /** One more target: its records complete nothing, and its `BuildComplete` follows unless its build raised. */
  lemma CompletedStep(msgs: seq<Msg>, b: Stream<Msg>, t: Target)
    requires forall i :: 0 <= i < |b.items| ==> b.items[i].Rec?
    ensures var r := Then(Stream(msgs, None), Then(b, Stream([BuildComplete(t)], None)));
      Completed(r.items) == Completed(msgs) + (if b.raised.None? then [t] else [])
  {
    CompletedNone(b.items);
    if b.raised.None? {
      var tail := b.items + [BuildComplete(t)];
      assert Completed([BuildComplete(t)]) == [t] by {
        assert [BuildComplete(t)][..0] == [];
      }
      CompletedAppend(b.items, [BuildComplete(t)]);
      CompletedAppend(msgs, tail);
    } else {
      CompletedAppend(msgs, b.items);
    }
  }

  // ------------------------------------------------------------ the generators

  /** `build(client, parent_ref, image, cache)`: the cache object's build, marked, unless the image is already built. */
  method Build(daemon: LibDocker.Daemon, cache: LibCache.Cache, parentRef: Option<string>, image: Target) returns (s: Stream<Msg>)
    requires parentRef.Some? ==> image.image.parent.Some?
    modifies cache
    ensures (s, cache.State()) == BuildImage(cache.reading, daemon, cache.strategy, cache.client, old(cache.State()), parentRef, image)
  {
    var builtTags := LibDocker.LastBuiltFromDocker(daemon, image.image.name);
    if builtTags.Err? {
      return Stream([], Some(builtTags.error));
    }
    if image.ref in builtTags.value {
      return Empty();
    }
    var b := cache.Build(parentRef, image);
    s := MapItems(b, (evt: Record) => Rec(BuildRecord(image, evt)));
  }

  /** One more target built: its records and its `BuildComplete` follow the run so far, or its failure ends the run. */
  lemma BuildAllSnoc(rd: Reading, daemon: LibDocker.Daemon, strategy: LibCache.Strategy, client: LibCache.Client, st: LibCache.CacheState,
                     index: map<string, string>, targets: seq<Target>, i: nat, msgs: seq<Msg>, st1: LibCache.CacheState)
    requires i < |targets| && BuildAll(rd, daemon, strategy, client, st, index, targets[..i]) == (Stream(msgs, None), st1)
    ensures var (b, st2) := BuildImage(rd, daemon, strategy, client, st1, ParentRef(index, targets[i]), targets[i]);
      BuildAll(rd, daemon, strategy, client, st, index, targets[..i + 1]) ==
        if b.raised.Some? then (Stream(msgs + b.items, b.raised), st2)
        else (Stream(msgs + b.items + [BuildComplete(targets[i])], None), st2)
  {
    assert targets[..i + 1][..i] == targets[..i];
    var (b, st2) := BuildImage(rd, daemon, strategy, client, st1, ParentRef(index, targets[i]), targets[i]);
    assert msgs + (b.items + [BuildComplete(targets[i])]) == msgs + b.items + [BuildComplete(targets[i])];
  }

  /** `do_build(client, build_ref, targets, cache)`: every target built in turn, each followed by its `BuildComplete`. */
  method DoBuild(daemon: LibDocker.Daemon, cache: LibCache.Cache, targets: seq<Target>) returns (s: Stream<Msg>)
    modifies cache
    ensures (s, cache.State()) == BuildAll(cache.reading, daemon, cache.strategy, cache.client, old(cache.State()), BuildIndex(targets), targets)
  {
    var index := BuildIndex(targets);
    var msgs: seq<Msg> := [];
    for i := 0 to |targets|
      invariant (Stream(msgs, None), cache.State()) == BuildAll(cache.reading, daemon, cache.strategy, cache.client, old(cache.State()), index, targets[..i])
    {
      var target := targets[i];
      BuildAllSnoc(cache.reading, daemon, cache.strategy, cache.client, old(cache.State()), index, targets, i, msgs, cache.State());
      var b := Build(daemon, cache, ParentRef(index, target), target);
      if b.raised.Some? {
        BuildAllSticks(cache.reading, daemon, cache.strategy, cache.client, old(cache.State()), index, targets, i + 1);
        return Stream(msgs + b.items, b.raised);
      }
      msgs := msgs + b.items + [BuildComplete(target)];
    }
    assert targets[..|targets|] == targets;
    return Stream(msgs, None);
  }

  /** Once a prefix of the run has raised, the whole run ends as that prefix did. */
  lemma {:induction false} BuildAllSticks(rd: Reading, daemon: LibDocker.Daemon, strategy: LibCache.Strategy, client: LibCache.Client,
                                          st: LibCache.CacheState, index: map<string, string>, targets: seq<Target>, n: nat)
    requires n <= |targets| && BuildAll(rd, daemon, strategy, client, st, index, targets[..n]).0.raised.Some?
    ensures BuildAll(rd, daemon, strategy, client, st, index, targets) == BuildAll(rd, daemon, strategy, client, st, index, targets[..n])
  {
    if n < |targets| {
      assert targets[..|targets| - 1][..n] == targets[..n];
      BuildAllSticks(rd, daemon, strategy, client, st, index, targets[..|targets| - 1], n);
    } else {
      assert targets[..n] == targets;
    }
  }
}

=== FILE: lib_cache.dfy ===
/**
 * The build cache strategies of `shipwright/_lib/cache.py`. Every strategy
 * builds through the docker daemon; they differ in how an image already
 * built elsewhere is found:
 *  - `NoCache` never finds one;
 *  - `PullCache` pulls `name:ref` from the registry, remembering every pull
 *    it tried so that an image is pulled at most once;
 *  - `DirectRegistry` asks the registry for the manifest of `name:ref`,
 *    remembering the manifests it got, and aliases new tags by storing an
 *    existing manifest under them instead of pushing.
 *
 * The daemon and the registry are parameters (`Client`,
 * `LibRegistry.Registry`), each answering as a fixed function of its
 * arguments. A registry's answers change when images are pushed to it, so
 * `DirectRegistry` carries the registry as it answers before this run's
 * pushes and as it answers after them.
 */
module LibCache {
  import opened Common
  import opened Ordering
  import opened Events
  import opened LibDocker
  import opened LibPush
  import LibRegistry
  import LibSourceControl
  import Fn

  /** An image name and a tag, `(name, ref)`. */
  type Pair = (string, string)

  type Manifest = LibRegistry.Manifest

  /** The docker client: image listing and tagging, and the decoded output of its pull, build and push calls. */
  datatype Client = Client(
    daemon: Daemon,
    pull: (string, string) -> Stream<Record>,                             // `client.pull(repository, tag)`
    explanation: (string, string) -> string,                              // the message of a NotFound raised by that pull
    build: (Option<string>, LibSourceControl.Target) -> Stream<Record>,   // `client.build` of the target's context, built from the parent ref
    push: (string, string, nat) -> Stream<Record>)                        // the n-th attempt of `client.push(image, tag)`

  // ------------------------------------------------------------ pull

  /**
   * `pull` as written: the NotFound handler calls `docker.error`, which the
   * docker helper module does not define, so a missing image raises
   * AttributeError instead of being reported.
   */
  function PullAsWritten(client: Client, repo: string, tag: string): (r: Stream<Record>)
    ensures r.items == client.pull(repo, tag).items
    ensures r.raised.Some? <==> client.pull(repo, tag).raised.Some?
    ensures r.raised != Some(NotFound)
  {
    var s := client.pull(repo, tag);
    if s.raised == Some(NotFound) then Stream(s.items, Some(AttributeError)) else s
  }

  /** `pull` as intended: the pull's records; an image the registry does not have ends with an error record instead of NotFound. */
  function PullIntended(client: Client, repo: string, tag: string): (r: Stream<Record>)
    ensures |client.pull(repo, tag).items| <= |r.items| && r.items[..|client.pull(repo, tag).items|] == client.pull(repo, tag).items
    ensures r.raised.Some? ==> r == client.pull(repo, tag) && r.raised != Some(NotFound)
  {
    var s := client.pull(repo, tag);
    if s.raised == Some(NotFound) then Stream(s.items + [ErrorRecord(client.explanation(repo, tag))], None) else s
  }

  /**
   * A missing image: the code as written crashes with AttributeError, while
   * the intended pull reports it as an error record and ends normally, so
   * the caller can count the pull as failed and carry on.
   */
  lemma PullMissingImage(client: Client, repo: string, tag: string)
    requires client.pull(repo, tag).raised == Some(NotFound)
    ensures PullAsWritten(client, repo, tag).raised == Some(AttributeError)
    ensures var r := PullIntended(client, repo, tag);
      r.raised.None? && |r.items| > 0 && "error" in r.items[|r.items| - 1] &&
      r.items[..|r.items| - 1] == client.pull(repo, tag).items
  {
  }

  /** Apart from a missing image, both versions yield exactly what the daemon sends. */
  lemma PullPassesThrough(client: Client, repo: string, tag: string)
    requires client.pull(repo, tag).raised != Some(NotFound)
    ensures PullIntended(client, repo, tag) == PullAsWritten(client, repo, tag) == client.pull(repo, tag)
  {
  }

  /** `pull` under the reading `rd`: the daemon's pull, which differs between readings only for a missing image. */
  function Pull(rd: Reading, client: Client, repo: string, tag: string): (r: Stream<Record>)
    ensures client.pull(repo, tag).raised != Some(NotFound) ==> r == client.pull(repo, tag)
    ensures client.pull(repo, tag).raised == Some(NotFound) && rd.AsWritten? ==>
      r == Stream(client.pull(repo, tag).items, Some(AttributeError))
    ensures client.pull(repo, tag).raised == Some(NotFound) && rd.Intended? ==>
      r == Stream(client.pull(repo, tag).items + [ErrorRecord(client.explanation(repo, tag))], None)
  {
    match rd
    case AsWritten => PullAsWritten(client, repo, tag)
    case Intended => PullIntended(client, repo, tag)
  }

  /** A failure reported while pulling for the cache is only a warning: `error` is renamed `warn`. */
  function Rekey(evt: Record): (r: Record)
    ensures "error" !in r
    ensures "error" in evt ==> r.Keys == evt.Keys - {"error"} + {"warn"} && r["warn"] == evt["error"]
    ensures "error" !in evt ==> r == evt
    ensures forall k :: k in evt && k != "error" && k != "warn" ==> k in r && r[k] == evt[k]
  {
    if "error" in evt then (evt - {"error"})["warn" := evt["error"]] else evt
  }

  predicate HasError(evts: seq<Record>)
  {
    exists i :: 0 <= i < |evts| && "error" in evts[i]
  }

  // ------------------------------------------------------------ the pull memo

  /** What `_pulled_images` remembers of a pull: it succeeded (`True`) or failed (`_FAILED`). */
  datatype PullState = Pulled | Failed

  /** The state a cache object carries from one call to the next. */
  datatype CacheState = CacheState(pulled: map<Pair, PullState>, manifests: map<Pair, Manifest>)

  /**
   * `_pull`: the pull's records with errors turned into warnings, and the
   * new memo. A pull tried before is not tried again: a failed one raises
   * PullFailedException at once, a successful one yields nothing.
   */
  function PullMemo(rd: Reading, client: Client, pulled: map<Pair, PullState>, repo: string, tag: string): (r: (Stream<Record>, map<Pair, PullState>))
    ensures (repo, tag) in pulled ==> r.1 == pulled && r.0.items == []
    ensures forall i :: 0 <= i < |r.0.items| ==> "error" !in r.0.items[i]
  {
    var key := (repo, tag);
    if key in pulled && pulled[key] == Failed then (Stream([], Some(PullFailedException)), pulled)
    else if key in pulled then (Empty(), pulled)
    else
      var p := Pull(rd, client, repo, tag);
      var evts := MapItems(p, Rekey);
      if p.raised.Some? then (evts, pulled)
      else if HasError(p.items) then (Stream(evts.items, Some(PullFailedException)), pulled[key := Failed])
      else (evts, pulled[key := Pulled])
  }

  /** An image whose pull was tried before does not reach the daemon: any client gives the same answer, and the memo is unchanged. */
  lemma PullMemoRemembers(rd: Reading, c1: Client, c2: Client, pulled: map<Pair, PullState>, repo: string, tag: string)
    requires (repo, tag) in pulled
    ensures PullMemo(rd, c1, pulled, repo, tag) == PullMemo(rd, c2, pulled, repo, tag)
    ensures PullMemo(rd, c1, pulled, repo, tag).1 == pulled
    ensures PullMemo(rd, c1, pulled, repo, tag).0.items == []
    ensures PullMemo(rd, c1, pulled, repo, tag).0.raised.Some? <==> pulled[(repo, tag)] == Failed
  {
  }

  /**
   * A first pull: nothing it yields is an error, and when the daemon's
   * stream completes, the pull fails exactly when some record reported an
   * error; the outcome is remembered. A stream that breaks off is not
   * remembered.
   */
  lemma PullMemoOutcome(rd: Reading, client: Client, pulled: map<Pair, PullState>, repo: string, tag: string)
    requires (repo, tag) !in pulled
    ensures var (s, p) := PullMemo(rd, client, pulled, repo, tag);
      forall i :: 0 <= i < |s.items| ==> "error" !in s.items[i]
    ensures var (s, p) := PullMemo(rd, client, pulled, repo, tag);
      var src := Pull(rd, client, repo, tag);
      src.raised.None? ==>
        (s.raised == Some(PullFailedException) <==> HasError(src.items)) &&
        (s.raised.None? <==> !HasError(src.items)) &&
        p == pulled[(repo, tag) := if HasError(src.items) then Failed else Pulled]
    ensures var (s, p) := PullMemo(rd, client, pulled, repo, tag);
      var src := Pull(rd, client, repo, tag);
      src.raised.Some? ==> s.raised == src.raised && p == pulled
  {
  }

  /** The memo only grows: earlier entries stay, and only the pulled image may be added. */
  lemma PullMemoGrows(rd: Reading, client: Client, pulled: map<Pair, PullState>, repo: string, tag: string)
    ensures var p := PullMemo(rd, client, pulled, repo, tag).1;
      p.Keys <= pulled.Keys + {(repo, tag)} &&
      forall k :: k in pulled ==> k in p && p[k] == pulled[k]
  {
  }

  /** Pulling an image a second time, once its outcome is remembered: nothing is yielded and the pull ends as the first one did. */
  lemma PullMemoTwice(rd: Reading, client: Client, pulled: map<Pair, PullState>, repo: string, tag: string)
    requires (repo, tag) in PullMemo(rd, client, pulled, repo, tag).1
    ensures var (s, p) := PullMemo(rd, client, pulled, repo, tag);
      PullMemo(rd, client, p, repo, tag) == (Stream([], s.raised), p)
  {
  }

  /**
   * A first pull of an image the registry does not have: as written the
   * pull crashes with AttributeError and nothing is remembered; as
   * intended it fails with PullFailedException and the failure is
   * remembered.
   */
  lemma PullMemoMissingImage(client: Client, pulled: map<Pair, PullState>, repo: string, tag: string)
    requires (repo, tag) !in pulled && client.pull(repo, tag).raised == Some(NotFound)
    ensures PullMemo(AsWritten, client, pulled, repo, tag) ==
      (Stream(MapItems(client.pull(repo, tag), Rekey).items, Some(AttributeError)), pulled)
    ensures PullMemo(Intended, client, pulled, repo, tag).0.raised == Some(PullFailedException)
    ensures PullMemo(Intended, client, pulled, repo, tag).1 == pulled[(repo, tag) := Failed]
  {
    var p := Pull(Intended, client, repo, tag);
    assert "error" in p.items[|p.items| - 1];
  }

  // ------------------------------------------------------------ manifests

  /**
   * `_get_manifest`: the manifest of `key`, from the cache or else from the
   * registry. An HTTP error means the registry lacks it (`None`, not
   * remembered); any other failure propagates. Only manifests found are
   * cached.
   */
  function ManifestLookup(rd: Reading, drc: LibRegistry.Registry, cache: map<Pair, Manifest>, key: Pair): (r: (Result<Option<Manifest>>, map<Pair, Manifest>))
    ensures key in cache ==> r == (Ok(Some(cache[key])), cache)
    ensures r.0.Ok? && r.0.value.Some? ==> r.1 == cache[key := r.0.value.value]
    ensures !(r.0.Ok? && r.0.value.Some?) ==> r.1 == cache
  {
    if key in cache then (Ok(Some(cache[key])), cache)
    else
      match LibRegistry.GetManifest(rd, drc, key.0, key.1)
      case Ok(m) => (Ok(Some(m)), cache[key := m])
      case Err(e) => if e == HttpError then (Ok(None), cache) else (Err(e), cache)
  }

  /**
   * The cache holds exactly the manifests found: a lookup adds the one it
   * found and nothing else, and once cached, a manifest is answered from the
   * cache whatever the registry now says.
   */
  lemma ManifestLookupCaches(rd: Reading, drc: LibRegistry.Registry, other: LibRegistry.Registry, cache: map<Pair, Manifest>, key: Pair)
    ensures var (m, c) := ManifestLookup(rd, drc, cache, key);
      (m.Ok? && m.value.Some? ==> c == cache[key := m.value.value]) &&
      (!(m.Ok? && m.value.Some?) ==> c == cache) &&
      (key in cache ==> c == cache && m == Ok(Some(cache[key])))
    ensures var (m, c) := ManifestLookup(rd, drc, cache, key);
      m.Ok? && m.value.Some? ==> ManifestLookup(rd, other, c, key) == (m, c)
  {
  }

  /** A lookup the cache cannot answer asks the registry, and a registry's HTTP error is a miss. */
  lemma ManifestLookupAsks(rd: Reading, drc: LibRegistry.Registry, cache: map<Pair, Manifest>, key: Pair)
    requires key !in cache
    ensures var m := ManifestLookup(rd, drc, cache, key).0;
      var g := LibRegistry.GetManifest(rd, drc, key.0, key.1);
      (g.Ok? ==> m == Ok(Some(g.value))) &&
      (g == Err(HttpError) ==> m == Ok(None)) &&
      (g.Err? && g.error != HttpError ==> m == Err(g.error))
  {
  }

  /** The message `_put_manifest` reports for an image without a manifest. */
  const MissingManifestMessage: string := "manifest does not exist, did the image fail to build?"

  /**
   * `_put_manifest` as written: both reports call the undefined
   * `docker.error`, so a missing manifest and a failed store raise
   * AttributeError.
   */
  function StoreManifestAsWritten(drc: LibRegistry.Registry, dest: Pair, manifest: Option<Manifest>): (r: Stream<Record>)
    ensures r.raised.None? ==> r == Stream([map[]], None) && manifest.Some?
    ensures manifest.None? ==> r == Stream([], Some(AttributeError))
  {
    match manifest
    case None => Stream([], Some(AttributeError))
    case Some(m) =>
      match LibRegistry.PutManifest(AsWritten, drc, dest.0, dest.1, m)
      case Ok(_) => Stream([map[]], None)
      case Err(e) => if e == HttpError then Stream([], Some(AttributeError)) else Stream([], Some(e))
  }

  /**
   * `_put_manifest`: one record, empty on success and an error record when
   * there is no manifest or the registry refuses it. The traceback text of
   * a refused store is modelled by the exception's name.
   */
  function StoreManifestIntended(drc: LibRegistry.Registry, dest: Pair, manifest: Option<Manifest>): (r: Stream<Record>)
    ensures r.raised.None? ==> |r.items| == 1
    ensures r.raised.Some? ==> r.items == [] && manifest.Some? && r.raised != Some(HttpError)
    ensures manifest.None? ==> r.raised.None? && "error" in r.items[0]
  {
    match manifest
    case None => Stream([ErrorRecord(MissingManifestMessage)], None)
    case Some(m) =>
      match LibRegistry.PutManifest(Intended, drc, dest.0, dest.1, m)
      case Ok(_) => Stream([map[]], None)
      case Err(e) => if e == HttpError then Stream([ErrorRecord(ErrorName(HttpError))], None) else Stream([], Some(e))
  }

  /**
   * An image that failed to build has no manifest: as written, aliasing it
   * crashes; as intended, it yields one error record and aliasing goes on.
   */
  lemma StoreMissingManifest(drc: LibRegistry.Registry, dest: Pair)
    ensures StoreManifestAsWritten(drc, dest, None) == Stream([], Some(AttributeError))
    ensures var s := StoreManifestIntended(drc, dest, None);
      s.raised.None? && |s.items| == 1 && "error" in s.items[0]
  {
  }

  /** `_put_manifest` under the reading `rd`. */
  function StoreManifest(rd: Reading, drc: LibRegistry.Registry, dest: Pair, manifest: Option<Manifest>): (r: Stream<Record>)
    ensures manifest.Some? && LibRegistry.PutManifest(rd, drc, dest.0, dest.1, manifest.value).Ok? ==> r == Stream([map[]], None)
  {
    match rd
    case AsWritten => StoreManifestAsWritten(drc, dest, manifest)
    case Intended => StoreManifestIntended(drc, dest, manifest)
  }

  /**
   * A store that ends normally yields exactly one record, empty exactly
   * when the registry took the manifest. As intended, only an exception
   * other than an HTTP error ends a store; as written, so does a missing
   * manifest or any refusal.
   */
  lemma StoreManifestOutcome(rd: Reading, drc: LibRegistry.Registry, dest: Pair, manifest: Option<Manifest>)
    ensures var s := StoreManifest(rd, drc, dest, manifest);
      s.raised.None? ==> (|s.items| == 1 &&
        (s.items[0] == map[] <==> manifest.Some? && LibRegistry.PutManifest(rd, drc, dest.0, dest.1, manifest.value).Ok?))
    ensures var s := StoreManifest(Intended, drc, dest, manifest);
      s.raised.Some? <==> (manifest.Some? && LibRegistry.PutManifest(Intended, drc, dest.0, dest.1, manifest.value).Err? &&
        LibRegistry.PutManifest(Intended, drc, dest.0, dest.1, manifest.value).error != HttpError)
    ensures var s := StoreManifest(AsWritten, drc, dest, manifest);
      s.raised.Some? <==> (manifest.None? || LibRegistry.PutManifest(AsWritten, drc, dest.0, dest.1, manifest.value).Err?)
  {
  }

  // ------------------------------------------------------------ strategies

  /** The cache strategies; `DirectRegistry` holds the registry before and after this run's pushes. */
  datatype Strategy =
    | NoCache
    | PullCache
    | DirectRegistry(drc: LibRegistry.Registry, afterPush: LibRegistry.Registry)

  /**
   * `_pull_cache`: looks for an image built elsewhere. It ends normally on
   * a hit and raises CacheMissException on a miss; the pull-based cache
   * turns a failed pull into a miss, and the registry-based one a missing
   * manifest.
   */
  function PullCacheSpec(rd: Reading, strategy: Strategy, client: Client, st: CacheState, image: LibSourceControl.Target): (r: (Stream<Record>, CacheState))
    ensures strategy.NoCache? ==> r == (Stream([], Some(CacheMissException)), st)
    ensures strategy.PullCache? ==> r.0.raised != Some(PullFailedException) && r.1.manifests == st.manifests
    ensures strategy.DirectRegistry? ==> r.0.items == [] && r.1.pulled == st.pulled
  {
    match strategy
    case NoCache => (Stream([], Some(CacheMissException)), st)
    case PullCache =>
      var (s, p) := PullMemo(rd, client, st.pulled, image.image.name, image.ref);
      (if s.raised == Some(PullFailedException) then Stream(s.items, Some(CacheMissException)) else s, st.(pulled := p))
    case DirectRegistry(drc, _) =>
      var (m, c) := ManifestLookup(rd, drc, st.manifests, (image.image.name, image.ref));
      var s := match m
        case Err(e) => Stream([], Some(e))
        case Ok(found) => if found.None? then Stream([], Some(CacheMissException)) else Empty();
      (s, st.(manifests := c))
  }

  /** A hit: the pull-based cache has pulled the image, the registry-based one has its manifest; the plain strategy never hits. */
  lemma PullCacheHit(rd: Reading, strategy: Strategy, client: Client, st: CacheState, image: LibSourceControl.Target)
    ensures var (s, st') := PullCacheSpec(rd, strategy, client, st, image);
      var key := (image.image.name, image.ref);
      s.raised.None? ==>
        !strategy.NoCache? &&
        (strategy.PullCache? ==> key in st'.pulled && st'.pulled[key] == Pulled) &&
        (strategy.DirectRegistry? ==> key in st'.manifests)
  {
  }

  /** A lookup never raises PullFailedException: a failed pull is reported as a miss. */
  lemma PullCacheMisses(rd: Reading, strategy: Strategy, client: Client, st: CacheState, image: LibSourceControl.Target)
    requires strategy.PullCache?
    requires PullMemo(rd, client, st.pulled, image.image.name, image.ref).0.raised == Some(PullFailedException)
    ensures PullCacheSpec(rd, strategy, client, st, image).0.raised == Some(CacheMissException)
  {
  }

  /**
   * `build`: a cache hit ends the build with the cache's records. On a
   * miss the parent, when there is a parent ref, is pulled first (a failed
   * parent pull is ignored), the daemon builds, and a completed build is
   * remembered as pulled.
   */
  function BuildSpec(rd: Reading, strategy: Strategy, client: Client, st: CacheState, parentRef: Option<string>, image: LibSourceControl.Target): (r: (Stream<Record>, CacheState))
    requires parentRef.Some? ==> image.image.parent.Some?
    ensures var c := PullCacheSpec(rd, strategy, client, st, image);
      c.0.raised != Some(CacheMissException) ==> r == c
    ensures r.1.manifests == PullCacheSpec(rd, strategy, client, st, image).1.manifests
  {
    var (c, st1) := PullCacheSpec(rd, strategy, client, st, image);
    if c.raised != Some(CacheMissException) then (c, st1)
    else
      var (pp, p2) := if LibImage.Truthy(parentRef) then PullMemo(rd, client, st1.pulled, image.image.parent.value, parentRef.value)
                      else (Empty(), st1.pulled);
      var pre := Stream(c.items, None);
      if pp.raised.Some? && pp.raised != Some(PullFailedException) then (Then(pre, pp), st1.(pulled := p2))
      else
        var b := client.build(parentRef, image);
        var out := Then(Stream(c.items + pp.items, None), b);
        if b.raised.Some? then (out, st1.(pulled := p2))
        else (out, st1.(pulled := p2[(image.image.name, image.ref) := Pulled]))
  }

  /** On a hit the daemon does not build: the outcome is the same whatever the build would have produced. */
  lemma BuildHitSkipsDaemon(rd: Reading, strategy: Strategy, client: Client, st: CacheState, parentRef: Option<string>, image: LibSourceControl.Target,
                            build: (Option<string>, LibSourceControl.Target) -> Stream<Record>)
    requires parentRef.Some? ==> image.image.parent.Some?
    requires PullCacheSpec(rd, strategy, client, st, image).0.raised.None?
    ensures BuildSpec(rd, strategy, client, st, parentRef, image) == PullCacheSpec(rd, strategy, client, st, image)
    ensures BuildSpec(rd, strategy, client, st, parentRef, image) == BuildSpec(rd, strategy, client.(build := build), st, parentRef, image)
  {
  }

  /**
   * After a build that ends normally the image is available: pulled or
   * built (remembered as pulled), or, for the registry-based cache, present
   * in the registry.
   */
  lemma BuildLeavesImageAvailable(rd: Reading, strategy: Strategy, client: Client, st: CacheState, parentRef: Option<string>, image: LibSourceControl.Target)
    requires parentRef.Some? ==> image.image.parent.Some?
    ensures var (s, st') := BuildSpec(rd, strategy, client, st, parentRef, image);
      var key := (image.image.name, image.ref);
      s.raised.None? ==>
        (key in st'.pulled && st'.pulled[key] == Pulled) || (strategy.DirectRegistry? && key in st'.manifests)
  {
    var (c, st1) := PullCacheSpec(rd, strategy, client, st, image);
    PullCacheHit(rd, strategy, client, st, image);
  }

  /**
   * On a miss whose parent pull fails, the daemon still builds: the records
   * are the cache's, then the parent pull's warnings, then the build's.
   */
  lemma BuildDespiteFailedParent(rd: Reading, strategy: Strategy, client: Client, st: CacheState, parentRef: Option<string>, image: LibSourceControl.Target)
    requires parentRef.Some? && image.image.parent.Some? && parentRef.value != ""
    requires PullCacheSpec(rd, strategy, client, st, image).0.raised == Some(CacheMissException)
    requires var st1 := PullCacheSpec(rd, strategy, client, st, image).1;
      PullMemo(rd, client, st1.pulled, image.image.parent.value, parentRef.value).0.raised == Some(PullFailedException)
    ensures var (c, st1) := PullCacheSpec(rd, strategy, client, st, image);
      var pp := PullMemo(rd, client, st1.pulled, image.image.parent.value, parentRef.value).0;
      var b := client.build(parentRef, image);
      BuildSpec(rd, strategy, client, st, parentRef, image).0 == Stream(c.items + pp.items + b.items, b.raised)
  {
  }

  /**
   * On a miss whose parent the registry does not have (and was not pulled
   * before): as written the parent pull crashes with AttributeError and
   * the daemon never builds; as intended the failed pull is only a
   * warning and the daemon builds.
   */
  lemma BuildWithMissingParent(client: Client, st: CacheState, strategy: Strategy, parentRef: Option<string>, image: LibSourceControl.Target)
    requires parentRef.Some? && image.image.parent.Some? && parentRef.value != ""
    requires client.pull(image.image.parent.value, parentRef.value).raised == Some(NotFound)
    requires forall rd: Reading :: (image.image.parent.value, parentRef.value) !in PullCacheSpec(rd, strategy, client, st, image).1.pulled
    requires forall rd: Reading :: PullCacheSpec(rd, strategy, client, st, image).0.raised == Some(CacheMissException)
    ensures BuildSpec(AsWritten, strategy, client, st, parentRef, image).0.raised == Some(AttributeError)
    ensures var c := PullCacheSpec(Intended, strategy, client, st, image).0;
      var pp := PullMemo(Intended, client, PullCacheSpec(Intended, strategy, client, st, image).1.pulled, image.image.parent.value, parentRef.value).0;
      var b := client.build(parentRef, image);
      BuildSpec(Intended, strategy, client, st, parentRef, image).0 == Stream(c.items + pp.items + b.items, b.raised)
  {
    var st1 := PullCacheSpec(AsWritten, strategy, client, st, image).1;
    PullMemoMissingImage(client, st1.pulled, image.image.parent.value, parentRef.value);
    var st2 := PullCacheSpec(Intended, strategy, client, st, image).1;
    PullMemoMissingImage(client, st2.pulled, image.image.parent.value, parentRef.value);
  }

  /** The first state keeps every entry of the second except the one for `key`, and every manifest. */
  predicate KeepsBut(st: CacheState, st': CacheState, key: Pair)
  {
    && (forall k :: k in st.pulled && k != key ==> k in st'.pulled && st'.pulled[k] == st.pulled[k])
    && (forall k :: k in st.manifests ==> k in st'.manifests && st'.manifests[k] == st.manifests[k])
  }

  /** A cache lookup only adds to what the memo and the manifests remember. */
  lemma PullCacheKeeps(rd: Reading, strategy: Strategy, client: Client, st: CacheState, image: LibSourceControl.Target)
    ensures var st' := PullCacheSpec(rd, strategy, client, st, image).1;
      (forall k :: k in st.pulled ==> k in st'.pulled && st'.pulled[k] == st.pulled[k]) &&
      (forall k :: k in st.manifests ==> k in st'.manifests && st'.manifests[k] == st.manifests[k])
  {
    PullMemoGrows(rd, client, st.pulled, image.image.name, image.ref);
  }

  /** The memo after a parent pull: the pull's when the parent ref is set, otherwise unchanged. */
  function ParentPulled(rd: Reading, client: Client, pulled: map<Pair, PullState>, parentRef: Option<string>, image: LibSourceControl.Target): map<Pair, PullState>
    requires parentRef.Some? ==> image.image.parent.Some?
  {
    if LibImage.Truthy(parentRef) then PullMemo(rd, client, pulled, image.image.parent.value, parentRef.value).1 else pulled
  }

  /** The state after a build: the lookup's, with the memo left as it was, as the parent pull left it, or with the image remembered as pulled. */
  lemma BuildState(rd: Reading, strategy: Strategy, client: Client, st: CacheState, parentRef: Option<string>, image: LibSourceControl.Target)
    requires parentRef.Some? ==> image.image.parent.Some?
    ensures var st1 := PullCacheSpec(rd, strategy, client, st, image).1;
      var p2 := ParentPulled(rd, client, st1.pulled, parentRef, image);
      var st' := BuildSpec(rd, strategy, client, st, parentRef, image).1;
      st' == st1 || st' == st1.(pulled := p2) || st' == st1.(pulled := p2[(image.image.name, image.ref) := Pulled])
  {
  }

  /** Keeping every entry, then every entry again, then all but one, keeps all but that one. */
  lemma KeepsChain(st: CacheState, st1: CacheState, p2: map<Pair, PullState>, st': CacheState, key: Pair)
    requires forall k :: k in st.pulled ==> k in st1.pulled && st1.pulled[k] == st.pulled[k]
    requires forall k :: k in st.manifests ==> k in st1.manifests && st1.manifests[k] == st.manifests[k]
    requires forall k :: k in st1.pulled ==> k in p2 && p2[k] == st1.pulled[k]
    requires st' == st1 || st' == st1.(pulled := p2) || st' == st1.(pulled := p2[key := Pulled])
    ensures KeepsBut(st, st', key)
  {
  }

  /** Only the image built, or the parent pulled for it, can change what the memo says; registry manifests only accumulate. */
  lemma BuildKeepsOtherEntries(rd: Reading, strategy: Strategy, client: Client, st: CacheState, parentRef: Option<string>, image: LibSourceControl.Target)
    requires parentRef.Some? ==> image.image.parent.Some?
    ensures KeepsBut(st, BuildSpec(rd, strategy, client, st, parentRef, image).1, (image.image.name, image.ref))
  {
    var st1 := PullCacheSpec(rd, strategy, client, st, image).1;
    PullCacheKeeps(rd, strategy, client, st, image);
    if LibImage.Truthy(parentRef) {
      PullMemoGrows(rd, client, st1.pulled, image.image.parent.value, parentRef.value);
    }
    BuildState(rd, strategy, client, st, parentRef, image);
    KeepsChain(st, st1, ParentPulled(rd, client, st1.pulled, parentRef, image), BuildSpec(rd, strategy, client, st, parentRef, image).1,
               (image.image.name, image.ref));
  }

  // ------------------------------------------------------------ tagging

  /** The tag events of one image, one per tag, in order. */
  function TagsOf(daemon: Daemon, image: LibSourceControl.Target, tags: seq<string>): (r: seq<Record>)
    ensures |r| == |tags|
    ensures forall j :: 0 <= j < |tags| ==> r[j] == TagEvent(daemon, image.image.name, image.ref, tags[j])
  {
    seq(|tags|, j requires 0 <= j < |tags| => TagEvent(daemon, image.image.name, image.ref, tags[j]))
  }

  /** `tag` of the local strategies: every target tagged with every tag, target by target. */
  function TagAll(daemon: Daemon, targets: seq<LibSourceControl.Target>, tags: seq<string>): (r: seq<Record>)
    ensures targets == [] || tags == [] ==> r == []
  {
    if targets == [] then [] else TagAll(daemon, targets[..|targets| - 1], tags) + TagsOf(daemon, targets[|targets| - 1], tags)
  }

  lemma {:induction false} MulStep(a: nat, b: nat, n: nat)
    requires a < b
    ensures a * n + n <= b * n
    decreases b - a
  {
    assert b * n == (b - 1) * n + n;
    if a < b - 1 {
      MulStep(a, b - 1, n);
    }
  }

  /**
   * `TagAll` is the targets' groups of tag events laid end to end, target
   * by target; each group holds one event per tag, in order (`TagsOf`).
   */
  lemma {:induction false} TagAllGroups(daemon: Daemon, targets: seq<LibSourceControl.Target>, tags: seq<string>)
    ensures TagAll(daemon, targets, tags) ==
      Fn.Flatten(seq(|targets|, i requires 0 <= i < |targets| => TagsOf(daemon, targets[i], tags)))
  {
    if targets != [] {
      var init := targets[..|targets| - 1];
      TagAllGroups(daemon, init, tags);
      var groups := seq(|targets|, i requires 0 <= i < |targets| => TagsOf(daemon, targets[i], tags));
      assert groups[..|targets| - 1] == seq(|init|, i requires 0 <= i < |init| => TagsOf(daemon, init[i], tags));
    }
  }

  /** One tag event per target and tag. */
  lemma {:induction false} TagAllLength(daemon: Daemon, targets: seq<LibSourceControl.Target>, tags: seq<string>)
    ensures |TagAll(daemon, targets, tags)| == |targets| * |tags|
  {
    if targets != [] {
      var init := targets[..|targets| - 1];
      TagAllLength(daemon, init, tags);
      MulSucc(|init|, |tags|);
    }
  }

  // ------------------------------------------------------------ pushing

  /** The pairs naming one image under each of the tags. */
  function TagPairs(name: string, tags: seq<string>): (r: seq<Pair>)
    ensures |r| == |tags|
    ensures forall j :: 0 <= j < |tags| ==> r[j] == (name, tags[j])
  {
    seq(|tags|, j requires 0 <= j < |tags| => (name, tags[j]))
  }

  /** The `(name, tag)` pairs of the targets, each target's ref first and then every tag, in the order met. */
  function PairsOf(targets: seq<LibSourceControl.Target>, tags: seq<string>): seq<Pair>
  {
    if targets == [] then []
    else
      var t := targets[|targets| - 1];
      PairsOf(targets[..|targets| - 1], tags) + [(t.image.name, t.ref)] + TagPairs(t.image.name, tags)
  }

  /** The image a target builds, as a pair: `(image.name, image.ref)`. */
  function Key(t: LibSourceControl.Target): Pair
  {
    (t.image.name, t.ref)
  }

  /** `p` names some target's image under its ref or one of the tags. */
  predicate Named(targets: seq<LibSourceControl.Target>, tags: seq<string>, p: Pair)
  {
    exists i :: 0 <= i < |targets| && p.0 == targets[i].image.name && (p.1 == targets[i].ref || p.1 in tags)
  }

  lemma NamedSnoc(targets: seq<LibSourceControl.Target>, tags: seq<string>, p: Pair)
    requires targets != []
    ensures Named(targets, tags, p) <==>
      Named(targets[..|targets| - 1], tags, p) ||
      (p.0 == targets[|targets| - 1].image.name && (p.1 == targets[|targets| - 1].ref || p.1 in tags))
  {
    var init := targets[..|targets| - 1];
    if Named(targets, tags, p) {
      var i :| 0 <= i < |targets| && p.0 == targets[i].image.name && (p.1 == targets[i].ref || p.1 in tags);
      if i < |init| {
        assert init[i] == targets[i];
      }
    }
    if Named(init, tags, p) {
      var i :| 0 <= i < |init| && p.0 == init[i].image.name && (p.1 == init[i].ref || p.1 in tags);
      assert init[i] == targets[i];
    }
  }

  lemma TagPairsElements(name: string, tags: seq<string>, p: Pair)
    ensures p in TagPairs(name, tags) <==> p.0 == name && p.1 in tags
  {
    if p.0 == name && p.1 in tags {
      var j :| 0 <= j < |tags| && tags[j] == p.1;
      assert TagPairs(name, tags)[j] == p;
    }
  }

  /** The pairs are exactly those naming a target's image under its ref or one of the tags. */
  lemma {:induction false} PairsOfElements(targets: seq<LibSourceControl.Target>, tags: seq<string>)
    ensures forall p :: p in Elements(PairsOf(targets, tags)) <==> Named(targets, tags, p)
  {
    if targets != [] {
      var init := targets[..|targets| - 1];
      var t := targets[|targets| - 1];
      PairsOfElements(init, tags);
      var more := TagPairs(t.image.name, tags);
      assert Elements(PairsOf(targets, tags)) == Elements(PairsOf(init, tags)) + {(t.image.name, t.ref)} + Elements(more);
      forall p ensures p in Elements(PairsOf(targets, tags)) <==> Named(targets, tags, p) {
        NamedSnoc(targets, tags, p);
        TagPairsElements(t.image.name, tags, p);
      }
    }
  }

  /** `sorted(names_and_tags)` for a set of pairs. */
  function SortedPairs(pairs: seq<Pair>): seq<Pair>
  {
    SortedSetBy(pairs, PairLe)
  }

  /**
   * `push` of the local strategies: every pair of the targets, sorted and
   * without repeats, pushed in that order; then the pairs of the last
   * target once more (the loop variable outlives the loop). Without
   * targets the second step raises UnboundLocalError.
   */
  function LocalPush(pushAll: seq<Pair> -> Stream<Record>, targets: seq<LibSourceControl.Target>, tags: seq<string>): (r: Stream<Record>)
    ensures targets == [] ==> r.raised.Some?
    ensures var first := pushAll(SortedPairs(PairsOf(targets, tags)));
      first.raised.Some? ==> r == first
  {
    var first := pushAll(SortedPairs(PairsOf(targets, tags)));
    if targets == [] then Then(first, Stream([], Some(UnboundLocalError)))
    else Then(first, pushAll(SortedPairs(PairsOf([targets[|targets| - 1]], tags))))
  }

  /**
   * What the local strategies push first: each `(name, ref)` and
   * `(name, tag)` of the targets exactly once, in increasing order.
   */
  lemma LocalPushPairs(targets: seq<LibSourceControl.Target>, tags: seq<string>)
    ensures var ps := SortedPairs(PairsOf(targets, tags));
      Sorted(ps, PairLe) && NoDuplicates(ps) &&
      forall p :: p in Elements(ps) <==> Named(targets, tags, p)
  {
    PairLeIsTotalOrder();
    SortedSetByIsSorted(PairsOf(targets, tags), PairLe);
    PairsOfElements(targets, tags);
  }

  /** Listing the targets in another order pushes the same pairs in the same order. */
  lemma LocalPushOrderFree(pushAll: seq<Pair> -> Stream<Record>, a: seq<LibSourceControl.Target>, b: seq<LibSourceControl.Target>, tags: seq<string>)
    requires Elements(a) == Elements(b)
    ensures pushAll(SortedPairs(PairsOf(a, tags))) == pushAll(SortedPairs(PairsOf(b, tags)))
  {
    PairsOfElements(a, tags);
    PairsOfElements(b, tags);
    forall p ensures Named(a, tags, p) <==> Named(b, tags, p) {
      if Named(a, tags, p) {
        var i :| 0 <= i < |a| && p.0 == a[i].image.name && (p.1 == a[i].ref || p.1 in tags);
        assert a[i] in Elements(b);
        var k :| 0 <= k < |b| && b[k] == a[i];
      }
      if Named(b, tags, p) {
        var i :| 0 <= i < |b| && p.0 == b[i].image.name && (p.1 == b[i].ref || p.1 in tags);
        assert b[i] in Elements(a);
        var k :| 0 <= k < |a| && a[k] == b[i];
      }
    }
    PairLeIsTotalOrder();
    SortedSetByDependsOnElements(PairsOf(a, tags), PairsOf(b, tags), PairLe);
  }

  // ------------------------------------------------------------ aliasing through the registry

  /** An entry of `to_alias`: an image and its manifest, `None` when the registry has none. */
  type Alias = (Pair, Option<Manifest>)

  /**
   * The first loop of the registry-based `push`: each target's manifest is
   * looked up; a target the registry has is to be aliased, any other is to
   * be pushed. A failing lookup ends the loop.
   */
  function Lookups(rd: Reading, drc: LibRegistry.Registry, cache: map<Pair, Manifest>, targets: seq<LibSourceControl.Target>)
    : (Result<(seq<Alias>, seq<Pair>)>, map<Pair, Manifest>)
  {
    if targets == [] then (Ok(([], [])), cache)
    else
      var (r, c) := Lookups(rd, drc, cache, targets[..|targets| - 1]);
      if r.Err? then (r, c)
      else
        var t := targets[|targets| - 1];
        var (m, c') := ManifestLookup(rd, drc, c, Key(t));
        match m
        case Err(e) => (Err(e), c')
        case Ok(found) =>
          if found.Some? then (Ok((r.value.0 + [(Key(t), found)], r.value.1)), c')
          else (Ok((r.value.0, r.value.1 + [Key(t)])), c')
  }

  /** `p` is the image of one of the targets. */
  predicate IsKey(targets: seq<LibSourceControl.Target>, p: Pair)
  {
    exists i :: 0 <= i < |targets| && p == Key(targets[i])
  }

  /** A target is aliased or pushed. */
  predicate Placed(aliases: seq<Alias>, toPush: seq<Pair>, key: Pair)
  {
    key in toPush || exists a :: a in aliases && a.0 == key
  }

  /** The lookups' split is exact: aliased entries carry a manifest, and aliased and pushed images are the targets' images. */
  predicate Partitioned(targets: seq<LibSourceControl.Target>, aliases: seq<Alias>, toPush: seq<Pair>)
  {
    (forall a :: a in aliases ==> a.1.Some? && IsKey(targets, a.0)) &&
    (forall p :: p in toPush ==> IsKey(targets, p)) &&
    (forall i :: 0 <= i < |targets| ==> Placed(aliases, toPush, Key(targets[i])))
  }

  lemma IsKeyGrows(targets: seq<LibSourceControl.Target>, p: Pair)
    requires targets != [] && IsKey(targets[..|targets| - 1], p)
    ensures IsKey(targets, p)
  {
    var init := targets[..|targets| - 1];
    var i :| 0 <= i < |init| && p == Key(init[i]);
    assert init[i] == targets[i];
  }

  /** Placing the last target, aliased with a manifest or pushed, extends a split of the others to all targets. */
  lemma PartitionedSnoc(targets: seq<LibSourceControl.Target>, aliases: seq<Alias>, toPush: seq<Pair>,
                        aliases': seq<Alias>, toPush': seq<Pair>)
    requires targets != [] && Partitioned(targets[..|targets| - 1], aliases, toPush)
    requires var key := Key(targets[|targets| - 1]);
      || (toPush' == toPush && |aliases'| == |aliases| + 1 && aliases'[..|aliases|] == aliases
          && aliases'[|aliases|].0 == key && aliases'[|aliases|].1.Some?)
      || (aliases' == aliases && toPush' == toPush + [key])
    ensures Partitioned(targets, aliases', toPush')
  {
    var init, t := targets[..|targets| - 1], targets[|targets| - 1];
    assert IsKey(targets, Key(t));
    forall a | a in aliases' ensures a.1.Some? && IsKey(targets, a.0) {
      var j :| 0 <= j < |aliases'| && aliases'[j] == a;
      if j < |aliases| {
        assert aliases[j] == aliases'[..|aliases|][j] == a;
        IsKeyGrows(targets, a.0);
      }
    }
    forall p | p in toPush' ensures IsKey(targets, p) {
      if p in toPush { IsKeyGrows(targets, p); }
    }
    forall i | 0 <= i < |targets| ensures Placed(aliases', toPush', Key(targets[i])) {
      if i < |init| {
        assert init[i] == targets[i];
        assert Placed(aliases, toPush, Key(init[i]));
        if toPush' == toPush && Key(init[i]) !in toPush {
          var a :| a in aliases && a.0 == Key(init[i]);
          var j :| 0 <= j < |aliases| && aliases[j] == a;
          assert aliases'[j] == aliases'[..|aliases|][j] == a;
        }
      } else if toPush' == toPush {
        assert aliases'[|aliases|] in aliases';
      }
    }
  }

  /** Every target is either aliased, with the manifest found for it, or pushed; nothing else is aliased or pushed. */
  lemma {:induction false} LookupsPartition(rd: Reading, drc: LibRegistry.Registry, cache: map<Pair, Manifest>, targets: seq<LibSourceControl.Target>)
    ensures var r := Lookups(rd, drc, cache, targets).0;
      r.Ok? ==> Partitioned(targets, r.value.0, r.value.1)
  {
    if targets != [] {
      var init := targets[..|targets| - 1];
      LookupsPartition(rd, drc, cache, init);
      var (r, c) := Lookups(rd, drc, cache, init);
      if r.Ok? {
        var t := targets[|targets| - 1];
        var (m, c') := ManifestLookup(rd, drc, c, Key(t));
        if m.Ok? {
          var (aliases, toPush) := Lookups(rd, drc, cache, targets).0.value;
          if m.value.Some? {
            assert aliases == r.value.0 + [(Key(t), m.value)] && toPush == r.value.1;
            assert aliases[..|r.value.0|] == r.value.0;
          }
          PartitionedSnoc(targets, r.value.0, r.value.1, aliases, toPush);
        }
      }
    }
  }

  /** The second loop of the registry-based `push`: after pushing, each pushed image's manifest is looked up again. */
  function Relookups(rd: Reading, afterPush: LibRegistry.Registry, cache: map<Pair, Manifest>, keys: seq<Pair>): (Result<seq<Alias>>, map<Pair, Manifest>)
  {
    if keys == [] then (Ok([]), cache)
    else
      var (r, c) := Relookups(rd, afterPush, cache, keys[..|keys| - 1]);
      if r.Err? then (r, c)
      else
        var (m, c') := ManifestLookup(rd, afterPush, c, keys[|keys| - 1]);
        match m
        case Err(e) => (Err(e), c')
        case Ok(found) => (Ok(r.value + [(keys[|keys| - 1], found)]), c')
  }

  /** Every pushed image is aliased in push order, with whatever manifest the registry now has. */
  lemma {:induction false} RelookupsKeys(rd: Reading, afterPush: LibRegistry.Registry, cache: map<Pair, Manifest>, keys: seq<Pair>)
    ensures var r := Relookups(rd, afterPush, cache, keys).0;
      r.Ok? ==> |r.value| == |keys| && forall i :: 0 <= i < |keys| ==> r.value[i].0 == keys[i]
  {
    if keys != [] {
      RelookupsKeys(rd, afterPush, cache, keys[..|keys| - 1]);
    }
  }

  /** The fields an alias record is marked with: the source image and the new tag. */
  function AliasExtra(src: Pair, tag: string): (r: Record)
    ensures r.Keys == {"event", "old_image", "repository", "tag"}
  {
    map["event" := Str("alias"), "old_image" := Str(src.0 + ":" + src.1), "repository" := Str(src.0), "tag" := Str(tag)]
  }

  /** `_put_manifest(dest, manifest)` as a generator: how a manifest is stored under a new name. */
  type Store = (Pair, Option<Manifest>) -> Stream<Record>

  /** `_put_manifest` of the registry `drc`. */
  function StoreWith(rd: Reading, drc: LibRegistry.Registry): Store
  {
    (dest: Pair, manifest: Option<Manifest>) => StoreManifest(rd, drc, dest, manifest)
  }

  /** A store yields one record unless it raises. */
  ghost predicate OneRecord(store: Store)
  {
    forall dest, manifest :: store(dest, manifest).raised.None? ==> |store(dest, manifest).items| == 1
  }

  lemma StoreWithOneRecord(rd: Reading, drc: LibRegistry.Registry)
    ensures OneRecord(StoreWith(rd, drc))
  {
    forall dest, manifest ensures StoreWith(rd, drc)(dest, manifest).raised.None? ==> |StoreWith(rd, drc)(dest, manifest).items| == 1 {
      StoreManifestOutcome(rd, drc, dest, manifest);
    }
  }

  /** Storing an image's manifest under one more tag, each record marked as an alias. */
  function AliasOne(store: Store, a: Alias, tag: string): (r: Stream<Record>)
    ensures r.raised == store((a.0.0, tag), a.1).raised
    ensures |r.items| == |store((a.0.0, tag), a.1).items|
    ensures forall k :: 0 <= k < |r.items| ==> r.items[k] == Merge(store((a.0.0, tag), a.1).items[k], AliasExtra(a.0, tag))
  {
    MapItems(store((a.0.0, tag), a.1), (evt: Record) => Merge(evt, AliasExtra(a.0, tag)))
  }

  /** One image stored under every tag, in order. */
  function AliasTags(store: Store, a: Alias, tags: seq<string>): Stream<Record>
  {
    if tags == [] then Empty() else Then(AliasTags(store, a, tags[..|tags| - 1]), AliasOne(store, a, tags[|tags| - 1]))
  }

  /** Every `to_alias` entry stored under every tag: the third loop of the registry-based `push`. */
  function AliasAll(store: Store, aliases: seq<Alias>, tags: seq<string>): Stream<Record>
  {
    if aliases == [] then Empty() else Then(AliasAll(store, aliases[..|aliases| - 1], tags), AliasTags(store, aliases[|aliases| - 1], tags))
  }

  predicate AliasMarked(evt: Record)
  {
    "event" in evt && evt["event"] == Str("alias") && "old_image" in evt && "repository" in evt && "tag" in evt
  }

  /** One record per tag, each marked as an alias, unless the registry raises. */
  lemma {:induction false} AliasTagsShape(store: Store, a: Alias, tags: seq<string>)
    requires OneRecord(store)
    ensures var s := AliasTags(store, a, tags);
      (s.raised.None? ==> |s.items| == |tags|) &&
      forall k :: 0 <= k < |s.items| ==> AliasMarked(s.items[k])
  {
    if tags != [] {
      AliasTagsShape(store, a, tags[..|tags| - 1]);
    }
  }

  /** Aliasing yields one record per entry and tag, each marked as an alias, unless the registry raises. */
  lemma {:induction false} AliasAllShape(store: Store, aliases: seq<Alias>, tags: seq<string>)
    requires OneRecord(store)
    ensures var s := AliasAll(store, aliases, tags);
      (s.raised.None? ==> |s.items| == |aliases| * |tags|) &&
      forall k :: 0 <= k < |s.items| ==> AliasMarked(s.items[k])
  {
    if aliases != [] {
      var init := aliases[..|aliases| - 1];
      AliasAllShape(store, init, tags);
      AliasTagsShape(store, aliases[|aliases| - 1], tags);
      assert |aliases| * |tags| == |init| * |tags| + |tags|;
    }
  }

  /**
   * `push` of the registry-based strategy: look every target up; push the
   * ones the registry lacks, sorted and without repeats; look those up
   * again; then store each found manifest under every tag.
   */
  function DirectPush(rd: Reading, drc: LibRegistry.Registry, afterPush: LibRegistry.Registry, pushAll: seq<Pair> -> Stream<Record>, store: Store,
                      cache: map<Pair, Manifest>,
                      targets: seq<LibSourceControl.Target>, tags: seq<string>): (out: (Stream<Record>, map<Pair, Manifest>))
    ensures Lookups(rd, drc, cache, targets).0.Err? ==> out.0.items == [] && out.0.raised.Some?
    ensures out.0.raised.None? ==> Lookups(rd, drc, cache, targets).0.Ok?
  {
    var (r, c1) := Lookups(rd, drc, cache, targets);
    if r.Err? then (Stream([], Some(r.error)), c1)
    else
      var toPush := SortedPairs(r.value.1);
      var pushed := pushAll(toPush);
      if pushed.raised.Some? then (pushed, c1)
      else
        var (r2, c2) := Relookups(rd, afterPush, c1, toPush);
        if r2.Err? then (Stream(pushed.items, Some(r2.error)), c2)
        else (Then(pushed, AliasAll(store, r.value.0 + r2.value, tags)), c2)
  }

  /**
   * A registry-based push that ends normally yields the pushes of the
   * missing images, then the alias records: every image found before the
   * push and every image pushed, stored under every tag (one record each,
   * by AliasAllShape).
   */
  lemma DirectPushShape(rd: Reading, drc: LibRegistry.Registry, afterPush: LibRegistry.Registry, pushAll: seq<Pair> -> Stream<Record>, store: Store,
                        cache: map<Pair, Manifest>,
                        targets: seq<LibSourceControl.Target>, tags: seq<string>, aliases: seq<Alias>, missing: seq<Pair>)
    requires Lookups(rd, drc, cache, targets).0 == Ok((aliases, missing))
    requires DirectPush(rd, drc, afterPush, pushAll, store, cache, targets, tags).0.raised.None?
    ensures pushAll(SortedPairs(missing)).raised.None?
    ensures var r2 := Relookups(rd, afterPush, Lookups(rd, drc, cache, targets).1, SortedPairs(missing)).0;
      r2.Ok? && |r2.value| == |SortedPairs(missing)| &&
      (forall i :: 0 <= i < |r2.value| ==> r2.value[i].0 == SortedPairs(missing)[i]) &&
      DirectPush(rd, drc, afterPush, pushAll, store, cache, targets, tags).0 ==
        Then(pushAll(SortedPairs(missing)), AliasAll(store, aliases + r2.value, tags))
  {
    RelookupsKeys(rd, afterPush, Lookups(rd, drc, cache, targets).1, SortedPairs(missing));
  }

  /** `push.do_push` of the client. */
  function PushWith(rd: Reading, client: Client): seq<Pair> -> Stream<Record>
  {
    (pairs: seq<Pair>) => PushAll(rd, client.push, pairs)
  }

  /** `tag`: the local strategies tag every target with every tag; the registry-based one cannot tag locally and yields nothing. */
  function TagSpec(strategy: Strategy, client: Client, targets: seq<LibSourceControl.Target>, tags: seq<string>): (r: Stream<Record>)
    ensures r.raised.None?
    ensures |r.items| == if strategy.DirectRegistry? then 0 else |targets| * |tags|
  {
    TagAllLength(client.daemon, targets, tags);
    if strategy.DirectRegistry? then Empty() else Stream(TagAll(client.daemon, targets, tags), None)
  }

  /** `push` of each strategy, with the cache state it leaves. */
  function PushSpec(rd: Reading, strategy: Strategy, client: Client, st: CacheState, targets: seq<LibSourceControl.Target>, tags: seq<string>)
    : (r: (Stream<Record>, CacheState))
    ensures r.1.pulled == st.pulled
    ensures !strategy.DirectRegistry? ==> r.1 == st
  {
    match strategy
    case DirectRegistry(drc, afterPush) =>
      var (s, c) := DirectPush(rd, drc, afterPush, PushWith(rd, client), StoreWith(rd, drc), st.manifests, targets, tags);
      (s, st.(manifests := c))
    case _ => (LocalPush(PushWith(rd, client), targets, tags), st)
  }

  // A failure ends each loop of the registry-based push: once a prefix of the
  // loop has failed, the whole loop ends as that prefix did.

  lemma {:induction false} LookupsSticks(rd: Reading, drc: LibRegistry.Registry, cache: map<Pair, Manifest>, targets: seq<LibSourceControl.Target>, n: nat)
    requires n <= |targets| && Lookups(rd, drc, cache, targets[..n]).0.Err?
    ensures Lookups(rd, drc, cache, targets) == Lookups(rd, drc, cache, targets[..n])
  {
    if n < |targets| {
      var init := targets[..|targets| - 1];
      assert init[..n] == targets[..n];
      LookupsSticks(rd, drc, cache, init, n);
    } else {
      assert targets[..n] == targets;
    }
  }

  lemma {:induction false} RelookupsSticks(rd: Reading, afterPush: LibRegistry.Registry, cache: map<Pair, Manifest>, keys: seq<Pair>, n: nat)
    requires n <= |keys| && Relookups(rd, afterPush, cache, keys[..n]).0.Err?
    ensures Relookups(rd, afterPush, cache, keys) == Relookups(rd, afterPush, cache, keys[..n])
  {
    if n < |keys| {
      var init := keys[..|keys| - 1];
      assert init[..n] == keys[..n];
      RelookupsSticks(rd, afterPush, cache, init, n);
    } else {
      assert keys[..n] == keys;
    }
  }

  lemma {:induction false} AliasTagsSticks(store: Store, a: Alias, tags: seq<string>, n: nat)
    requires n <= |tags| && AliasTags(store, a, tags[..n]).raised.Some?
    ensures AliasTags(store, a, tags) == AliasTags(store, a, tags[..n])
  {
    if n < |tags| {
      var init := tags[..|tags| - 1];
      assert init[..n] == tags[..n];
      AliasTagsSticks(store, a, init, n);
    } else {
      assert tags[..n] == tags;
    }
  }

  lemma {:induction false} AliasAllSticks(store: Store, aliases: seq<Alias>, tags: seq<string>, n: nat)
    requires n <= |aliases| && AliasAll(store, aliases[..n], tags).raised.Some?
    ensures AliasAll(store, aliases, tags) == AliasAll(store, aliases[..n], tags)
  {
    if n < |aliases| {
      var init := aliases[..|aliases| - 1];
      assert init[..n] == aliases[..n];
      AliasAllSticks(store, init, tags, n);
    } else {
      assert aliases[..n] == aliases;
    }
  }

  /** The inner loop of the aliasing: one entry stored under every tag, stopping at a store that raises. */
  method StoreUnderTags(store: Store, a: Alias, tags: seq<string>) returns (s: Stream<Record>)
    ensures s == AliasTags(store, a, tags)
  {
    var events: seq<Record> := [];
    for j := 0 to |tags|
      invariant AliasTags(store, a, tags[..j]) == Stream(events, None)
    {
      assert tags[..j + 1][..j] == tags[..j];
      var one := AliasOne(store, a, tags[j]);
      if one.raised.Some? {
        AliasTagsSticks(store, a, tags, j + 1);
        return Stream(events + one.items, one.raised);
      }
      events := events + one.items;
    }
    assert tags[..|tags|] == tags;
    return Stream(events, None);
  }

  /** The third loop of the registry-based `push`: every entry stored under every tag, stopping at the first store that raises. */
  method StoreAliases(store: Store, aliases: seq<Alias>, tags: seq<string>) returns (s: Stream<Record>)
    ensures s == AliasAll(store, aliases, tags)
  {
    var events: seq<Record> := [];
    for i := 0 to |aliases|
      invariant AliasAll(store, aliases[..i], tags) == Stream(events, None)
    {
      assert aliases[..i + 1][..i] == aliases[..i];
      var one := StoreUnderTags(store, aliases[i], tags);
      if one.raised.Some? {
        AliasAllSticks(store, aliases, tags, i + 1);
        return Stream(events + one.items, one.raised);
      }
      events := events + one.items;
    }
    assert aliases[..|aliases|] == aliases;
    return Stream(events, None);
  }

  /** The inner loop collecting the pairs to push: an image under every tag, added in order. */
  method AddTagPairs(pairs: seq<Pair>, name: string, tags: seq<string>) returns (r: seq<Pair>)
    ensures r == pairs + TagPairs(name, tags)
  {
    r := pairs;
    for j := 0 to |tags|
      invariant r == pairs + TagPairs(name, tags[..j])
    {
      assert TagPairs(name, tags[..j + 1]) == TagPairs(name, tags[..j]) + [(name, tags[j])];
      r := r + [(name, tags[j])];
    }
    assert tags[..|tags|] == tags;
  }

  /** The inner tagging loop: one target under every tag, in order. */
  method TagUnderEach(daemon: Daemon, events: seq<Record>, target: LibSourceControl.Target, tags: seq<string>) returns (r: seq<Record>)
    ensures r == events + TagsOf(daemon, target, tags)
  {
    r := events;
    for j := 0 to |tags|
      invariant r == events + TagsOf(daemon, target, tags[..j])
    {
      var evt := TagImage(daemon, target, tags[j]);
      assert TagsOf(daemon, target, tags[..j + 1]) == TagsOf(daemon, target, tags[..j]) + [evt];
      r := r + [evt];
    }
    assert tags[..|tags|] == tags;
  }

  /** The nested tagging loop of the local strategies: every target under every tag, targets outer. */
  method TagEach(daemon: Daemon, targets: seq<LibSourceControl.Target>, tags: seq<string>) returns (events: seq<Record>)
    ensures events == TagAll(daemon, targets, tags)
  {
    events := [];
    for i := 0 to |targets|
      invariant events == TagAll(daemon, targets[..i], tags)
    {
      assert targets[..i + 1][..i] == targets[..i];
      events := TagUnderEach(daemon, events, targets[i], tags);
    }
    assert targets[..|targets|] == targets;
  }

  /** The loop of the local `push` that gathers `names_and_tags`: each target's ref, then its tags. */
  method GatherPairs(targets: seq<LibSourceControl.Target>, tags: seq<string>) returns (namesAndTags: seq<Pair>)
    ensures namesAndTags == PairsOf(targets, tags)
  {
    namesAndTags := [];
    for i := 0 to |targets|
      invariant namesAndTags == PairsOf(targets[..i], tags)
    {
      assert targets[..i + 1][..i] == targets[..i];
      namesAndTags := AddTagPairs(namesAndTags + [Key(targets[i])], targets[i].image.name, tags);
    }
    assert targets[..|targets|] == targets;
  }

  /** The pairs of a single target: its ref, then its tags. */
  lemma PairsOfOne(image: LibSourceControl.Target, tags: seq<string>)
    ensures PairsOf([image], tags) == [Key(image)] + TagPairs(image.image.name, tags)
  {
    assert [image][..0] == [];
  }

  /** `push` of the local strategies, pushing with `pushAll`. */
  method PushLocal(pushAll: seq<Pair> -> Stream<Record>, targets: seq<LibSourceControl.Target>, tags: seq<string>) returns (s: Stream<Record>)
    ensures s == LocalPush(pushAll, targets, tags)
  {
    var namesAndTags := GatherPairs(targets, tags);
    var first := pushAll(SortedPairs(namesAndTags));
    if first.raised.Some? {
      return first;
    }
    if targets == [] {
      return Stream(first.items, Some(UnboundLocalError));
    }
    var image := targets[|targets| - 1];
    namesAndTags := AddTagPairs([Key(image)], image.image.name, tags);
    PairsOfOne(image, tags);
    var second := pushAll(SortedPairs(namesAndTags));
    s := Then(first, second);
  }

  // ------------------------------------------------------------ the cache objects

  /**
   * A cache object: `NoCache`, `Cache` or `DirectRegistry` according to
   * `strategy`, with the memo of pulls (`_pulled_images`) and of manifests
   * (`_cache`) it keeps between calls. `reading` says whether its helpers
   * behave as written or as intended.
   */
  class Cache {
    const reading: Reading
    const strategy: Strategy
    const client: Client
    var pulled: map<Pair, PullState>
    var manifests: map<Pair, Manifest>

    constructor (reading: Reading, strategy: Strategy, client: Client)
      ensures this.reading == reading && this.strategy == strategy && this.client == client
      ensures pulled == map[] && manifests == map[]
    {
      this.reading := reading;
      this.strategy := strategy;
      this.client := client;
      pulled := map[];
      manifests := map[];
    }

    function State(): CacheState
      reads this
    {
      CacheState(pulled, manifests)
    }

    /** `_pull`. */
    method PullImage(repo: string, tag: string) returns (s: Stream<Record>)
      modifies this
      ensures (s, pulled) == PullMemo(reading, client, old(pulled), repo, tag)
      ensures manifests == old(manifests)
    {
      var key := (repo, tag);
      if key in pulled && pulled[key] == Failed {
        return Stream([], Some(PullFailedException));
      }
      if key in pulled {
        return Empty();
      }
      var p := Pull(reading, client, repo, tag);
      var failed := false;
      var events: seq<Record> := [];
      for i := 0 to |p.items|
        invariant |events| == i
        invariant forall k :: 0 <= k < i ==> events[k] == Rekey(p.items[k])
        invariant failed <==> exists k :: 0 <= k < i && "error" in p.items[k]
      {
        if "error" in p.items[i] {
          failed := true;
        }
        events := events + [Rekey(p.items[i])];
      }
      assert events == MapItems(p, Rekey).items;
      if p.raised.Some? {
        return Stream(events, p.raised);
      }
      if failed {
        pulled := pulled[key := Failed];
        return Stream(events, Some(PullFailedException));
      }
      pulled := pulled[key := Pulled];
      return Stream(events, None);
    }

    /** `_get_manifest`, asking `drc`: the registry as it answers at the time of the call. */
    method GetManifest(drc: LibRegistry.Registry, key: Pair) returns (m: Result<Option<Manifest>>)
      modifies this
      ensures (m, manifests) == ManifestLookup(reading, drc, old(manifests), key)
      ensures pulled == old(pulled)
    {
      if key in manifests {
        return Ok(Some(manifests[key]));
      }
      var got := LibRegistry.GetManifest(reading, drc, key.0, key.1);
      if got.Err? {
        if got.error == HttpError {
          return Ok(None);
        }
        return Err(got.error);
      }
      manifests := manifests[key := got.value];
      return Ok(Some(got.value));
    }

    /** `_pull_cache`. */
    method PullCache(image: LibSourceControl.Target) returns (s: Stream<Record>)
      modifies this
      ensures (s, State()) == PullCacheSpec(reading, strategy, client, old(State()), image)
    {
      match strategy
      case NoCache =>
        s := Stream([], Some(CacheMissException));
      case PullCache =>
        s := PullImage(image.image.name, image.ref);
        if s.raised == Some(PullFailedException) {
          s := Stream(s.items, Some(CacheMissException));
        }
      case DirectRegistry(drc, _) =>
        var m := GetManifest(drc, Key(image));
        if m.Err? {
          s := Stream([], Some(m.error));
        } else if m.value.None? {
          s := Stream([], Some(CacheMissException));
        } else {
          s := Empty();
        }
    }

    /** `build`. */
    method Build(parentRef: Option<string>, image: LibSourceControl.Target) returns (s: Stream<Record>)
      requires parentRef.Some? ==> image.image.parent.Some?
      modifies this
      ensures (s, State()) == BuildSpec(reading, strategy, client, old(State()), parentRef, image)
    {
      var c := PullCache(image);
      if c.raised != Some(CacheMissException) {
        return c;
      }
      var pp: Stream<Record> := Empty();
      if LibImage.Truthy(parentRef) {
        pp := PullImage(image.image.parent.value, parentRef.value);
        if pp.raised.Some? && pp.raised != Some(PullFailedException) {
          return Stream(c.items + pp.items, pp.raised);
        }
      }
      var b := client.build(parentRef, image);
      s := Stream(c.items + pp.items + b.items, b.raised);
      if b.raised.None? {
        pulled := pulled[Key(image) := Pulled];
      }
    }

    /** `tag`. */
    method Tag(targets: seq<LibSourceControl.Target>, tags: seq<string>) returns (s: Stream<Record>)
      ensures s == TagSpec(strategy, client, targets, tags)
    {
      if strategy.DirectRegistry? {
        return Empty();
      }
      var events := TagEach(client.daemon, targets, tags);
      return Stream(events, None);
    }

    /** The first loop of the registry-based `push`: each target's manifest looked up, splitting the images to alias from those to push. */
    method LookupAll(drc: LibRegistry.Registry, targets: seq<LibSourceControl.Target>) returns (r: Result<(seq<Alias>, seq<Pair>)>)
      modifies this
      ensures (r, manifests) == Lookups(reading, drc, old(manifests), targets)
      ensures pulled == old(pulled)
    {
      var toPush: seq<Pair> := [];
      var toAlias: seq<Alias> := [];
      for i := 0 to |targets|
        invariant pulled == old(pulled)
        invariant Lookups(reading, drc, old(manifests), targets[..i]) == (Ok((toAlias, toPush)), manifests)
      {
        assert targets[..i + 1][..i] == targets[..i];
        var m := GetManifest(drc, Key(targets[i]));
        if m.Err? {
          LookupsSticks(reading, drc, old(manifests), targets, i + 1);
          return Err(m.error);
        }
        if m.value.Some? {
          toAlias := toAlias + [(Key(targets[i]), m.value)];
        } else {
          toPush := toPush + [Key(targets[i])];
        }
      }
      assert targets[..|targets|] == targets;
      return Ok((toAlias, toPush));
    }

    /** The second loop of the registry-based `push`: each pushed image's manifest looked up again. */
    method RelookupAll(afterPush: LibRegistry.Registry, keys: seq<Pair>) returns (r: Result<seq<Alias>>)
      modifies this
      ensures (r, manifests) == Relookups(reading, afterPush, old(manifests), keys)
      ensures pulled == old(pulled)
    {
      var found: seq<Alias> := [];
      for i := 0 to |keys|
        invariant pulled == old(pulled)
        invariant Relookups(reading, afterPush, old(manifests), keys[..i]) == (Ok(found), manifests)
      {
        assert keys[..i + 1][..i] == keys[..i];
        var m := GetManifest(afterPush, keys[i]);
        if m.Err? {
          RelookupsSticks(reading, afterPush, old(manifests), keys, i + 1);
          return Err(m.error);
        }
        found := found + [(keys[i], m.value)];
      }
      assert keys[..|keys|] == keys;
      return Ok(found);
    }

    /** `push` of the registry-based strategy. */
    method PushDirect(targets: seq<LibSourceControl.Target>, tags: seq<string>) returns (s: Stream<Record>)
      requires strategy.DirectRegistry?
      modifies this
      ensures (s, manifests) == DirectPush(reading, strategy.drc, strategy.afterPush, PushWith(reading, client), StoreWith(reading, strategy.drc), old(manifests), targets, tags)
      ensures pulled == old(pulled)
    {
      var looked := LookupAll(strategy.drc, targets);
      if looked.Err? {
        return Stream([], Some(looked.error));
      }
      var toPush := SortedPairs(looked.value.1);
      var pushed := DoPush(reading, client.push, toPush);
      if pushed.raised.Some? {
        return pushed;
      }
      var found := RelookupAll(strategy.afterPush, toPush);
      if found.Err? {
        return Stream(pushed.items, Some(found.error));
      }
      var aliased := StoreAliases(StoreWith(reading, strategy.drc), looked.value.0 + found.value, tags);
      s := Then(pushed, aliased);
    }

    /** `push`. */
    method Push(targets: seq<LibSourceControl.Target>, tags: seq<string>) returns (s: Stream<Record>)
      modifies this
      ensures (s, State()) == PushSpec(reading, strategy, client, old(State()), targets, tags)
    {
      if strategy.DirectRegistry? {
        s := PushDirect(targets, tags);
      } else {
        s := PushLocal(PushWith(reading, client), targets, tags);
      }
    }
  }
}

=== FILE: lib_cli.dfy ===
/**
 * The command-line layer of `shipwright/_lib/cli.py`: the argument
 * dictionary handed to `run`, the choice of command, the one-line rendering
 * of every event record (`switch`, `pretty_event`), the shared memo, and
 * the decisions `run` takes around the event loop: the dirty-tree abort,
 * collecting the error records, and the exit status.
 *
 * Printing is modelled by its result: the lines `run` prints, in order.
 * What Python prints for values shipwright does not format itself (`str()`
 * of lists, dicts and objects, `json.dumps` of a record) and the colour a
 * name is painted in are parameters.
 */
module LibCli {
  import opened Common
  import opened Events
  import Text
  import Ordering
  import Fn
  import LibDocker
  import LibBuild
  import LibBase
  import LibCache
  import LibDependencies

  // ------------------------------------------------------------ arguments

  /** The parsed command line: each repeatable option as the list of its occurrences' lists. */
  datatype Namespace = Namespace(
    account: Option<string>,
    dependants: seq<seq<string>>,
    dumpFile: Option<string>,
    exact: seq<seq<string>>,
    exclude: seq<seq<string>>,
    noBuild: Option<bool>,          // only the `push` sub-command defines `no_build`
    upto: seq<seq<string>>,
    xAssertHostname: bool,
    dockerHost: Option<string>,
    command: string,
    tags: seq<seq<string>>)

  /** The docopt-style argument dictionary `run` reads, one field per key. */
  datatype Arguments = Arguments(
    account: Option<string>,
    dependents: seq<string>,
    dumpFile: Option<string>,
    exact: seq<string>,
    exclude: seq<string>,
    help: bool,
    noBuild: bool,
    upto: seq<string>,
    xAssertHostname: bool,
    dockerHost: Option<string>,
    target: seq<string>,
    build: bool,
    push: bool,
    images: bool,
    tags: seq<string>)

  /** `sorted(set(_flatten(tags))) or ['latest']`. */
  function Tags(tags: seq<seq<string>>): (r: seq<string>)
    ensures r != [] && Ordering.NoDuplicates(r)
    ensures Fn.Flatten(tags) == [] ==> r == ["latest"]
    ensures Fn.Flatten(tags) != [] ==> Ordering.Elements(r) == Ordering.Elements(Fn.Flatten(tags))
  {
    var flat := Fn.Flatten(tags);
    var s := Ordering.SortedSet(flat);
    assert flat != [] ==> flat[0] in Ordering.Elements(flat);
    assert s != [] ==> s[0] in Ordering.Elements(s);
    if s == [] then ["latest"] else s
  }

  /** The tags are sorted, and a tag given twice, or in two options, is listed once. */
  lemma TagsSortedDistinct(tags: seq<seq<string>>, tag: string)
    ensures Ordering.Sorted(Tags(tags), Ordering.StrLe)
    ensures Fn.Flatten(tags) != [] ==> (tag in Tags(tags) <==> exists i :: 0 <= i < |tags| && tag in tags[i])
  {
    Ordering.SortedSetIsSorted(Fn.Flatten(tags));
    Fn.FlattenMembers(tags, tag);
    assert tag in Tags(tags) <==> tag in Ordering.Elements(Tags(tags));
    assert tag in Fn.Flatten(tags) <==> tag in Ordering.Elements(Fn.Flatten(tags));
  }

  /** `old_style_arg_dict(namespace)`. */
  function OldStyleArgDict(ns: Namespace): (r: Arguments)
    ensures r.build == (ns.command == "build") && r.push == (ns.command == "push") && r.images == (ns.command == "images")
    ensures r.tags == Tags(ns.tags) && r.target == [] && !r.help
    ensures r.noBuild == OptionOr(ns.noBuild, false)
  {
    Arguments(ns.account, Fn.Flatten(ns.dependants), ns.dumpFile, Fn.Flatten(ns.exact), Fn.Flatten(ns.exclude), false,
      OptionOr(ns.noBuild, false), Fn.Flatten(ns.upto), ns.xAssertHostname, ns.dockerHost, [],
      ns.command == "build", ns.command == "push", ns.command == "images", Tags(ns.tags))
  }

  /** The command `process_arguments` picks: the first of `build`, `push`, `images` that is set, else `build`. */
  function CommandName(args: Arguments): (r: string)
    ensures r in ["build", "push", "images"]
  {
    if args.build then "build" else if args.push then "push" else if args.images then "images" else "build"
  }

  /** `--no-build` only counts for `push`. */
  function NoBuild(args: Arguments): bool
  {
    CommandName(args) == "push" && args.noBuild
  }

  /** The `build_targets` dictionary: the four selection lists. */
  function BuildTargets(args: Arguments): (r: LibDependencies.Selection)
    ensures r.upto == args.upto && r.exact == args.exact && r.dependents == args.dependents && r.exclude == args.exclude
  {
    LibDependencies.Selection(args.upto, args.exact, args.dependents, args.exclude)
  }

  /**
   * From the command line to the run: the sub-command given is the one
   * run (an unknown one runs `build`), `--no-build` is honoured for `push`
   * alone, and each selection is every occurrence's names in order.
   */
  lemma ArgumentsRoundTrip(ns: Namespace)
    ensures var args := OldStyleArgDict(ns);
      && CommandName(args) == (if ns.command in ["build", "push", "images"] then ns.command else "build")
      && NoBuild(args) == (ns.command == "push" && ns.noBuild == Some(true))
      && BuildTargets(args) == LibDependencies.Selection(Fn.Flatten(ns.upto), Fn.Flatten(ns.exact), Fn.Flatten(ns.dependants), Fn.Flatten(ns.exclude))
  {
  }

  // ------------------------------------------------------------ rendering one record

  /** What Python prints for values shipwright does not format itself: `str()` of a list, dict or object, and `json.dumps` of a record. */
  datatype Format = Format(repr: Value -> string, dumps: Record -> string)

  /** `'{0}'.format(v)`. */
  function Show(fmt: Format, v: Value): string
  {
    match v
    case Str(s) => s
    case Int(i) => Text.IntToString(i)
    case Null => "None"
    case Bool(b) => if b then "True" else "False"
    case _ => fmt.repr(v)
  }

  /** `rec['errorDetail']['message']`: `KeyError` for a missing key, `TypeError` when the detail is not a dictionary. */
  function DetailMessage(fmt: Format, rec: Record): (r: Result<string>)
    ensures r.Ok? <==> "errorDetail" in rec && rec["errorDetail"].Dict? && "message" in rec["errorDetail"].fields
    ensures r.Ok? ==> r.value == Show(fmt, rec["errorDetail"].fields["message"])
    ensures r.Err? ==> r.error == (if "errorDetail" in rec && !rec["errorDetail"].Dict? then TypeError else KeyError)
  {
    if "errorDetail" !in rec then Err(KeyError)
    else if !rec["errorDetail"].Dict? then Err(TypeError)
    else if "message" !in rec["errorDetail"].fields then Err(KeyError)
    else Ok(Show(fmt, rec["errorDetail"].fields["message"]))
  }

  /** `'[STATUS] {0}: {1}'.format(rec.get('id', ''), rec['status'])`. */
  function StatusLine(fmt: Format, rec: Record): string
    requires "status" in rec
  {
    "[STATUS] " + (if "id" in rec then Show(fmt, rec["id"]) else "") + ": " + Show(fmt, rec["status"])
  }

  /** `'{status} {p[current]}/{p[total]}\r'`: `KeyError` for a missing count, `TypeError` when the detail is not a dictionary. */
  function ProgressLine(fmt: Format, status: string, progress: Value): Result<string>
  {
    if !progress.Dict? then Err(TypeError)
    else if "current" !in progress.fields || "total" !in progress.fields then Err(KeyError)
    else Ok(status + " " + Show(fmt, progress.fields["current"]) + "/" + Show(fmt, progress.fields["total"]) + "\r")
  }

  /** `'<verb> {rec[old_image]} to {rec[repository]}:{rec[tag]}'`: `KeyError` for a missing field. */
  function TagLine(fmt: Format, verb: string, rec: Record): Result<string>
  {
    if "old_image" in rec && "repository" in rec && "tag" in rec then
      Ok(verb + " " + Show(fmt, rec["old_image"]) + " to " + Show(fmt, rec["repository"]) + ":" + Show(fmt, rec["tag"]))
    else Err(KeyError)
  }

  /** A line, or the exception raised while rendering it. */
  function Line(r: Result<string>): (o: Result<Option<string>>)
    ensures o.Ok? <==> r.Ok?
  {
    if r.Ok? then Ok(Some(r.value)) else Err(r.error)
  }

  /**
   * `switch(rec, show_progress)`: the line a record is shown as, or
   * nothing. The keys are tried in this order: `stream`, `status`,
   * `error`, `warn`, then the event kind; a record without any of them and
   * without `event` raises `KeyError`.
   */
  function Switch(fmt: Format, rec: Record, showProgress: bool): (r: Result<Option<string>>)
    ensures r.Err? ==> r.error == KeyError || r.error == TypeError || r.error == AttributeError
    ensures r.Err? && r.error == AttributeError <==> "stream" in rec && !rec["stream"].Str?
    ensures "stream" !in rec && "status" !in rec && "error" !in rec && "warn" !in rec && "event" !in rec ==> r == Err(KeyError)
  {
    if "stream" in rec then
      if rec["stream"].Str? then Ok(Some(Text.StripChar(rec["stream"].s, '\n'))) else Err(AttributeError)
    else if "status" in rec then
      var status := StatusLine(fmt, rec);
      var progress := if "progressDetail" in rec then rec["progressDetail"] else Null;
      if !Truthy(progress) then Ok(Some(status))
      else if !showProgress then Ok(None)
      else Line(ProgressLine(fmt, status, progress))
    else if "error" in rec then
      var m := DetailMessage(fmt, rec);
      Line(if m.Ok? then Ok("[ERROR] " + m.value) else m)
    else if "warn" in rec then
      var m := DetailMessage(fmt, rec);
      Line(if m.Ok? then Ok("[WARN] " + m.value) else m)
    else if "event" !in rec then Err(KeyError)
    else if rec["event"] == Str("tag") then Line(TagLine(fmt, "Tagging", rec))
    else if rec["event"] == Str("alias") then Line(TagLine(fmt, "Fast-aliased", rec))
    else if rec["event"] == Str("push") && "aux" in rec then Ok(None)
    else Ok(Some(fmt.dumps(rec)))
  }

  /**
   * A `stream` record is shown by its text alone, whatever else it holds,
   * and the line never starts or ends with a newline.
   */
  lemma SwitchStreamFirst(fmt: Format, rec: Record, showProgress: bool)
    requires "stream" in rec
    ensures Switch(fmt, rec, showProgress) == Switch(fmt, map["stream" := rec["stream"]], showProgress)
    ensures rec["stream"].Str? <==> Switch(fmt, rec, showProgress).Ok?
    ensures var r := Switch(fmt, rec, showProgress);
      r.Ok? ==> r.value.Some? && (r.value.value == [] || (r.value.value[0] != '\n' && r.value.value[|r.value.value| - 1] != '\n'))
  {
  }

  /**
   * A status record shows its status line; with progress counts the line
   * is hidden unless progress is shown, and then ends with a carriage
   * return.
   */
  lemma SwitchStatus(fmt: Format, rec: Record, showProgress: bool)
    requires "stream" !in rec && "status" in rec
    ensures var r := Switch(fmt, rec, showProgress);
      && ("progressDetail" !in rec ==> r == Ok(Some(StatusLine(fmt, rec))))
      && ("progressDetail" in rec && Truthy(rec["progressDetail"]) && !showProgress ==> r == Ok(None))
      && ("progressDetail" in rec && Truthy(rec["progressDetail"]) && showProgress && r.Ok? ==>
            r.value.Some? && Text.StartsWith(r.value.value, StatusLine(fmt, rec)) && r.value.value[|r.value.value| - 1] == '\r')
  {
  }

  /**
   * A failure docker reports, or one shipwright reports and carries on
   * from, is shown as its message, also when it is merged into a record
   * that marks it as a build or push message.
   */
  lemma SwitchReportsFailures(fmt: Format, d: Record, message: string, showProgress: bool)
    requires "stream" !in d && "status" !in d
    ensures Switch(fmt, Merge(d, ErrorRecord(message)), showProgress) == Ok(Some("[ERROR] " + message))
    ensures "error" !in d ==> Switch(fmt, Merge(d, WarnRecord(message)), showProgress) == Ok(Some("[WARN] " + message))
  {
    var e := Merge(d, ErrorRecord(message));
    assert "errorDetail" in e && e["errorDetail"] == Dict(map["message" := Str(message)]);
    var w := Merge(d, WarnRecord(message));
    assert "errorDetail" in w && w["errorDetail"] == Dict(map["message" := Str(message)]);
  }

  /** A tag event is shown as the retagging it did, or as the failure when the image was missing. */
  lemma SwitchTagEvent(fmt: Format, daemon: LibDocker.Daemon, name: string, ref: string, newRef: string, showProgress: bool)
    ensures var oldImage := name + ":" + ref;
      Switch(fmt, LibDocker.TagEvent(daemon, name, ref, newRef), showProgress) ==
        if daemon.has(oldImage) then Ok(Some("Tagging " + oldImage + " to " + name + ":" + LibDocker.EncodeTag(newRef)))
        else Ok(Some("[ERROR] " + LibDocker.NotFoundMessage(oldImage)))
  {
    var evt := LibDocker.TagEvent(daemon, name, ref, newRef);
    var oldImage := name + ":" + ref;
    assert "stream" !in evt && "status" !in evt && "warn" !in evt;
    if daemon.has(oldImage) {
      assert "error" !in evt;
      assert Show(fmt, evt["old_image"]) == oldImage && Show(fmt, evt["repository"]) == name;
      assert Show(fmt, evt["tag"]) == LibDocker.EncodeTag(newRef);
      assert "Tagging" + " " == "Tagging ";
      assert TagLine(fmt, "Tagging", evt) == Ok("Tagging " + oldImage + " to " + name + ":" + LibDocker.EncodeTag(newRef));
    } else {
      assert DetailMessage(fmt, evt) == Ok(LibDocker.NotFoundMessage(oldImage));
    }
  }

  /** The push record carrying `aux` is not shown, and a record of an unknown kind is shown as its JSON text. */
  lemma SwitchAuxAndUnhandled(fmt: Format)
    ensures Switch(fmt, map["aux" := Dict(map["Digest" := Str("sha256:redacted"), "Size" := Int(1337), "Tag" := Str("redacted")]),
                            "event" := Str("push"), "image" := Str("redacted/redacted"), "progressDetail" := Dict(map[])], true) == Ok(None)
    ensures Switch(fmt, map["event" := Str("unhandled")], true) == Ok(Some(fmt.dumps(map["event" := Str("unhandled")])))
  {
  }

  /** The plain status record of the switch tests is shown with its id. */
  lemma SwitchPlainStatus(fmt: Format)
    ensures Switch(fmt, map["status" := Str("Not Downloading xyz"), "id" := Str("eg")], true) == Ok(Some("[STATUS] eg: Not Downloading xyz"))
  {
    var status := map["status" := Str("Not Downloading xyz"), "id" := Str("eg")];
    assert StatusLine(fmt, status) == "[STATUS] eg: Not Downloading xyz";
  }

  /** The download record of the switch tests: its progress is shown when asked for, and the record is hidden otherwise. */
  lemma SwitchProgress(fmt: Format)
    ensures var progress := map["status" := Str("Downloading xyz"), "id" := Str("eg"),
                                "progressDetail" := Dict(map["current" := Int(10), "total" := Int(100)])];
      && Switch(fmt, progress, true) == Ok(Some("[STATUS] eg: Downloading xyz 10/100\r"))
      && Switch(fmt, progress, false) == Ok(None)
  {
    var progress := map["status" := Str("Downloading xyz"), "id" := Str("eg"),
                        "progressDetail" := Dict(map["current" := Int(10), "total" := Int(100)])];
    assert StatusLine(fmt, progress) == "[STATUS] eg: Downloading xyz";
    ProgressExample(fmt);
  }

  lemma ProgressExample(fmt: Format)
    ensures ProgressLine(fmt, "[STATUS] eg: Downloading xyz", Dict(map["current" := Int(10), "total" := Int(100)]))
      == Ok("[STATUS] eg: Downloading xyz 10/100\r")
  {
    assert Text.IntToString(10) == "10" && Text.IntToString(100) == "100";
    assert "[STATUS] eg: Downloading xyz" + " " + "10" + "/" + "100" + "\r" == "[STATUS] eg: Downloading xyz 10/100\r";
  }

  /** The error record of the switch tests, whose `error` is null, is shown by its detail's message. */
  lemma SwitchErrorExample(fmt: Format)
    ensures Switch(fmt, map["error" := Null, "errorDetail" := Dict(map["message" := Str("I AM ERROR")])], true) == Ok(Some("[ERROR] I AM ERROR"))
  {
    var error := map["error" := Null, "errorDetail" := Dict(map["message" := Str("I AM ERROR")])];
    assert "stream" !in error && "status" !in error && "error" in error;
    assert DetailMessage(fmt, error) == Ok("I AM ERROR");
    assert Switch(fmt, error, true) == Line(Ok("[ERROR] " + "I AM ERROR"));
    assert "[ERROR] " + "I AM ERROR" == "[ERROR] I AM ERROR";
  }

  /** The name a record is highlighted under: its target's name, else its `image` (`None` when absent). */
  function HighlightName(evt: Record): (r: Result<Value>)
    ensures "target" in evt && evt["target"].Entity? ==> r == Ok(Str(evt["target"].name))
    ensures ("target" !in evt || evt["target"] == Null) ==> r == Ok(if "image" in evt then evt["image"] else Null)
    ensures r.Err? <==> "target" in evt && evt["target"] != Null && !evt["target"].Entity?
  {
    var target := if "target" in evt then evt["target"] else Null;
    if target != Null then
      if target.Entity? then Ok(Str(target.name)) else Err(AttributeError)
    else Ok(if "image" in evt then evt["image"] else Null)
  }

  /** A build or push message, or an error: shown after its name. */
  predicate Highlighted(evt: Record)
    requires "event" in evt
  {
    evt["event"] == Str("build_msg") || evt["event"] == Str("push") || "error" in evt
  }

  /**
   * `pretty_event(evt, show_progress)`. `paint` is the prefix
   * `highlight(name)` paints a name with: the memo keeps it fixed per name,
   * so within a run it is a function of the name.
   */
  function PrettyEvent(fmt: Format, paint: Value -> string, evt: Record, showProgress: bool): (r: Result<Option<string>>)
    ensures Switch(fmt, evt, showProgress).Err? ==> r == Err(Switch(fmt, evt, showProgress).error)
    ensures Switch(fmt, evt, showProgress) == Ok(None) ==> r == Ok(None)
  {
    var m := Switch(fmt, evt, showProgress);
    if m.Err? then Err(m.error)
    else if m.value.None? then Ok(None)
    else if "event" !in evt then Err(KeyError)
    else if !Highlighted(evt) then Ok(m.value)
    else
      var name := HighlightName(evt);
      if name.Err? then Err(name.error) else Ok(Some(paint(name.value) + " | " + m.value.value))
  }

  /**
   * A record that is shown is shown as `switch` renders it, after its
   * painted name when it is a build message, a push message or an error.
   */
  lemma PrettyEventPrefix(fmt: Format, paint: Value -> string, evt: Record, showProgress: bool)
    requires PrettyEvent(fmt, paint, evt, showProgress).Ok? && PrettyEvent(fmt, paint, evt, showProgress).value.Some?
    ensures var line := PrettyEvent(fmt, paint, evt, showProgress).value.value;
      var text := Switch(fmt, evt, showProgress).value.value;
      && "event" in evt
      && (!Highlighted(evt) ==> line == text)
      && (Highlighted(evt) ==> line == paint(HighlightName(evt).value) + " | " + text)
  {
  }

  /** A build message of a target is shown after the target's name. */
  lemma BuildMessagePrefix(fmt: Format, paint: Value -> string, name: string, rev: string, evt: Record, showProgress: bool)
    requires "event" !in evt && "target" !in evt
    requires Switch(fmt, Merge(map["event" := Str("build_msg"), "target" := Entity(name), "rev" := Str(rev)], evt), showProgress).Ok?
    ensures var rec := Merge(map["event" := Str("build_msg"), "target" := Entity(name), "rev" := Str(rev)], evt);
      var text := Switch(fmt, rec, showProgress).value;
      PrettyEvent(fmt, paint, rec, showProgress) == if text.Some? then Ok(Some(paint(Str(name)) + " | " + text.value)) else Ok(None)
  {
  }

  // ------------------------------------------------------------ the memo

  /**
   * `memo(f, arg, memos={})`: the default dictionary is shared by every
   * call, so the first result for an argument is returned for it from then
   * on. It is keyed by the argument alone.
   */
  class Memo<K(==), V(==)> {
    var memos: map<K, V>

    constructor ()
      ensures memos == map[]
    {
      memos := map[];
    }

    /** Every recorded answer is what `f` gives. */
    predicate Agrees(f: K -> V)
      reads this
    {
      forall k :: k in memos ==> memos[k] == f(k)
    }

    method Call(f: K -> V, arg: K) returns (r: V)
      modifies this
      ensures arg in old(memos) ==> r == old(memos)[arg] && memos == old(memos)
      ensures arg !in old(memos) ==> r == f(arg) && memos == old(memos)[arg := f(arg)]
      ensures arg in memos && memos[arg] == r
      ensures forall k :: k in old(memos) ==> k in memos && memos[k] == old(memos)[k]
      ensures old(Agrees(f)) ==> Agrees(f) && r == f(arg)
    {
      if arg in memos {
        r := memos[arg];
      } else {
        memos := memos[arg := f(arg)];
        r := memos[arg];
      }
    }
  }

  // ------------------------------------------------------------ the run

  /** What the event loop has printed and collected, and the exception that stopped it. */
  datatype Drained = Drained(shown: seq<string>, errors: seq<Record>, raised: Option<Error>)

  function Start(): Drained { Drained([], [], None) }

  /** One record of the loop: kept when it holds `error`, then shown unless it renders as nothing. */
  function ShowRecord(fmt: Format, paint: Value -> string, d: Drained, rec: Record, showProgress: bool): (r: Drained)
    ensures r.errors == d.errors + (if "error" in rec then [rec] else [])
  {
    var errors := d.errors + (if "error" in rec then [rec] else []);
    var p := PrettyEvent(fmt, paint, rec, showProgress);
    if p.Err? then Drained(d.shown, errors, Some(p.error))
    else Drained(d.shown + (if p.value.Some? then [p.value.value] else []), errors, None)
  }

  /**
   * The loop of `run`: every record is shown as it comes and the error
   * records are kept, until a record fails to render. A completion message
   * is not a dictionary: as written, `switch` indexes it by `'event'` and
   * raises TypeError; as evidently intended, it is passed over. A loop
   * that gets through every message has kept exactly the error records,
   * and as written it only gets through runs without completions.
   */
  function Drain(rd: Reading, fmt: Format, paint: Value -> string, msgs: seq<LibBuild.Msg>, showProgress: bool): (r: Drained)
    ensures r.raised.None? ==> r.errors == ErrorRecords(msgs)
    ensures rd.AsWritten? && r.raised.None? ==> forall j :: 0 <= j < |msgs| ==> msgs[j].Rec?
  {
    if msgs == [] then Start()
    else
      var init := msgs[..|msgs| - 1];
      assert forall j :: 0 <= j < |init| ==> init[j] == msgs[j];
      var d := Drain(rd, fmt, paint, init, showProgress);
      if d.raised.Some? then d
      else match msgs[|msgs| - 1]
        case BuildComplete(_) => if rd.AsWritten? then d.(raised := Some(TypeError)) else d
        case Rec(rec) => ShowRecord(fmt, paint, d, rec, showProgress)
  }

  /** The records among the messages that hold `error`, in order. */
  function ErrorRecords(msgs: seq<LibBuild.Msg>): seq<Record>
  {
    if msgs == [] then []
    else
      var m := msgs[|msgs| - 1];
      ErrorRecords(msgs[..|msgs| - 1]) + (if m.Rec? && "error" in m.rec then [m.rec] else [])
  }

  /** Once the loop has stopped on a prefix, it has stopped on the whole run in the same state. */
  lemma {:induction false} DrainSticks(rd: Reading, fmt: Format, paint: Value -> string, msgs: seq<LibBuild.Msg>, n: nat, showProgress: bool)
    requires n <= |msgs| && Drain(rd, fmt, paint, msgs[..n], showProgress).raised.Some?
    ensures Drain(rd, fmt, paint, msgs, showProgress) == Drain(rd, fmt, paint, msgs[..n], showProgress)
  {
    if n < |msgs| {
      assert msgs[..|msgs| - 1][..n] == msgs[..n];
      DrainSticks(rd, fmt, paint, msgs[..|msgs| - 1], n, showProgress);
    } else {
      assert msgs[..n] == msgs;
    }
  }

  /**
   * The two loops agree on records alone; as written, a run holding a
   * completion message whose records all render raises `TypeError`.
   */
  lemma {:induction false} AsWrittenVersusCorrected(fmt: Format, paint: Value -> string, msgs: seq<LibBuild.Msg>, showProgress: bool)
    ensures (forall j :: 0 <= j < |msgs| ==> msgs[j].Rec?) ==> Drain(AsWritten, fmt, paint, msgs, showProgress) == Drain(Intended, fmt, paint, msgs, showProgress)
    ensures (exists j :: 0 <= j < |msgs| && msgs[j].BuildComplete?) && Drain(Intended, fmt, paint, msgs, showProgress).raised.None? ==>
      Drain(AsWritten, fmt, paint, msgs, showProgress).raised == Some(TypeError)
  {
    if msgs != [] {
      var init := msgs[..|msgs| - 1];
      AsWrittenVersusCorrected(fmt, paint, init, showProgress);
      assert forall j :: 0 <= j < |init| ==> init[j] == msgs[j];
      if exists j :: 0 <= j < |msgs| && msgs[j].BuildComplete? {
        var j :| 0 <= j < |msgs| && msgs[j].BuildComplete?;
        if j < |init| {
          assert init[j].BuildComplete?;
        }
      }
    }
  }

  /** A run whose last message is a completion has a completion message. */
  lemma {:induction false} CompletedHasCompletion(msgs: seq<LibBuild.Msg>)
    requires LibBuild.Completed(msgs) != []
    ensures exists j :: 0 <= j < |msgs| && msgs[j].BuildComplete?
  {
    var init := msgs[..|msgs| - 1];
    if msgs[|msgs| - 1].BuildComplete? {
      assert msgs[|msgs| - 1].BuildComplete?;
    } else {
      CompletedHasCompletion(init);
      var j :| 0 <= j < |init| && init[j].BuildComplete?;
      assert msgs[j] == init[j];
    }
  }

  /** How `run` ends. */
  datatype Outcome =
    | Aborted(message: string)                                   // returned before anything is built
    | Crashed(error: Error, shown: seq<string>)                  // an exception left `run`
    | Finished(shown: seq<string>, report: seq<string>, code: nat)  // the lines printed, the error report, the exit status

  const AbortMessage: string :=
    "Aborting build, due to uncommitted changes. If you are not ready to commit these changes, re-run with the --dirty flag."

  const ErrorsHeader: string := "The following errors occurred:"

  /** `[pretty_event(error, True) for error in errors]` with the nothings dropped; the first exception ends it. */
  function ErrorLines(fmt: Format, paint: Value -> string, errors: seq<Record>): (r: Result<seq<string>>)
    ensures r.Ok? ==> |r.value| <= |errors|
  {
    if errors == [] then Ok([])
    else
      var init := ErrorLines(fmt, paint, errors[..|errors| - 1]);
      var p := PrettyEvent(fmt, paint, errors[|errors| - 1], true);
      if init.Err? then init
      else if p.Err? then Err(p.error)
      else Ok(init.value + (if p.value.Some? then [p.value.value] else []))
  }

  /** One error gives its rendering, nothing when it renders as nothing, or the exception its rendering raises. */
  lemma ErrorLinesOne(fmt: Format, paint: Value -> string, e: Record)
    ensures ErrorLines(fmt, paint, [e]) ==
      match PrettyEvent(fmt, paint, e, true)
      case Err(x) => Err(x)
      case Ok(None) => Ok([])
      case Ok(Some(m)) => Ok([m])
  {
    assert [e][..0] == [];
    var p := PrettyEvent(fmt, paint, e, true);
    if p.Ok? && p.value.Some? {
      var none: seq<string> := [];
      assert ErrorLines(fmt, paint, [e]) == Ok(none + [p.value.value]);
      assert none + [p.value.value] == [p.value.value];
    }
  }

  /**
   * Rendering two runs of errors renders the first, then the second; the
   * first exception ends it. With the one-error case this fixes the lines:
   * each error's rendering, in order, the nothings dropped.
   */
  lemma {:induction false} ErrorLinesAppend(fmt: Format, paint: Value -> string, s: seq<Record>, t: seq<Record>)
    ensures ErrorLines(fmt, paint, s + t) ==
      if ErrorLines(fmt, paint, s).Err? then ErrorLines(fmt, paint, s)
      else if ErrorLines(fmt, paint, t).Err? then ErrorLines(fmt, paint, t)
      else Ok(ErrorLines(fmt, paint, s).value + ErrorLines(fmt, paint, t).value)
  {
    if t == [] {
      assert s + t == s;
      if ErrorLines(fmt, paint, s).Ok? {
        assert ErrorLines(fmt, paint, s).value + [] == ErrorLines(fmt, paint, s).value;
      }
    } else {
      var init := t[..|t| - 1];
      assert (s + t)[..|s + t| - 1] == s + init;
      assert (s + t)[|s + t| - 1] == t[|t| - 1];
      ErrorLinesAppend(fmt, paint, s, init);
      var a, b := ErrorLines(fmt, paint, s), ErrorLines(fmt, paint, init);
      var p := PrettyEvent(fmt, paint, t[|t| - 1], true);
      if a.Ok? && b.Ok? && p.Ok? {
        var last: seq<string> := if p.value.Some? then [p.value.value] else [];
        assert ErrorLines(fmt, paint, t) == Ok(b.value + last);
        assert ErrorLines(fmt, paint, s + t) == Ok((a.value + b.value) + last);
        assert (a.value + b.value) + last == a.value + (b.value + last);
      }
    }
  }

  /**
   * `run` after the arguments are processed: `dirty` is `--dirty`,
   * `isDirty` what the source control reports, `events` what the command
   * yields, and `showProgress` whether standard output is a terminal.
   */
  function RunSpec(rd: Reading, fmt: Format, paint: Value -> string, dirty: bool, isDirty: bool, events: Stream<LibBuild.Msg>, showProgress: bool)
    : (o: Outcome)
    ensures o.Aborted? <==> !dirty && isDirty
    ensures o.Finished? ==> (o.code == 0 <==> o.report == [])
  {
    if !dirty && isDirty then Aborted(AbortMessage)
    else
      var d := Drain(rd, fmt, paint, events.items, showProgress);
      if d.raised.Some? then Crashed(d.raised.value, d.shown)
      else if events.raised.Some? then Crashed(events.raised.value, d.shown)
      else if d.errors == [] then Finished(d.shown, [], 0)
      else
        var lines := ErrorLines(fmt, paint, d.errors);
        if lines.Err? then Crashed(lines.error, d.shown + [ErrorsHeader])
        else Finished(d.shown, [ErrorsHeader] + Ordering.SortBy(lines.value, Ordering.StrLe), 1)
  }

  /** A dirty tree without `--dirty` aborts with the same message whatever the command would have done. */
  lemma RunAbortsWhenDirty(rd: Reading, fmt: Format, paint: Value -> string, events: Stream<LibBuild.Msg>, showProgress: bool)
    ensures RunSpec(rd, fmt, paint, false, true, events, showProgress) == Aborted(AbortMessage)
    ensures forall dirty: bool :: dirty ==> !RunSpec(rd, fmt, paint, dirty, true, events, showProgress).Aborted?
  {
  }

  /**
   * A run that finishes exits with status 1 exactly when some event held
   * `error`, and then reports, after the header, the lines of `ErrorLines`
   * of those events, sorted.
   */
  lemma RunExitStatus(rd: Reading, fmt: Format, paint: Value -> string, dirty: bool, isDirty: bool, events: Stream<LibBuild.Msg>, showProgress: bool)
    requires RunSpec(rd, fmt, paint, dirty, isDirty, events, showProgress).Finished?
    ensures var o := RunSpec(rd, fmt, paint, dirty, isDirty, events, showProgress);
      && (o.code == 1 <==> ErrorRecords(events.items) != [])
      && (o.code == 0 <==> ErrorRecords(events.items) == [])
      && (o.code == 1 ==> o.report[0] == ErrorsHeader && Ordering.Sorted(o.report[1..], Ordering.StrLe))
      && (o.code == 1 ==> ErrorLines(fmt, paint, ErrorRecords(events.items)).Ok?
                          && multiset(o.report[1..]) == multiset(ErrorLines(fmt, paint, ErrorRecords(events.items)).value))
  {
    var o := RunSpec(rd, fmt, paint, dirty, isDirty, events, showProgress);
    if o.code == 1 {
      var lines := ErrorLines(fmt, paint, Drain(rd, fmt, paint, events.items, showProgress).errors).value;
      Ordering.StrLeIsTotalOrder();
      Ordering.SortBySorted(lines, Ordering.StrLe);
      assert o.report[1..] == Ordering.SortBy(lines, Ordering.StrLe);
    }
  }

  /**
   * As written, a run of any command that yields a completion message
   * crashes with TypeError once the records before it have been shown; the
   * intended loop passes over it. The smallest case is a build whose only
   * event is the completion of an image already built.
   */
  lemma CompletionCrashesRun(fmt: Format, paint: Value -> string, t: LibBuild.Target, showProgress: bool)
    ensures RunSpec(AsWritten, fmt, paint, true, false, Stream([LibBuild.BuildComplete(t)], None), showProgress) == Crashed(TypeError, [])
    ensures RunSpec(Intended, fmt, paint, true, false, Stream([LibBuild.BuildComplete(t)], None), showProgress) == Finished([], [], 0)
  {
    var msgs := [LibBuild.BuildComplete(t)];
    assert msgs[..0] == [];
    assert Drain(AsWritten, fmt, paint, msgs, showProgress) == Drained([], [], Some(TypeError));
    assert Drain(Intended, fmt, paint, msgs, showProgress) == Drained([], [], None);
  }

  /**
   * The discrepancy on the real command: a build of at least one target
   * that ends normally, and whose records all render, crashes the loop as
   * written with `TypeError`, while the corrected loop gets through it.
   */
  lemma FinishedBuildCrashesAsWritten(fmt: Format, paint: Value -> string, daemon: LibDocker.Daemon, strategy: LibCache.Strategy,
                                      client: LibCache.Client, st: LibCache.CacheState, defaultTags: seq<string>,
                                      extra: seq<string>, thisRef: string, targets: seq<LibBase.Target>, showProgress: bool)
    requires targets != []
    ensures var s := LibBase.BuildRun(AsWritten, daemon, strategy, client, st, defaultTags, extra, thisRef, targets).0;
      s.raised.None? && Drain(Intended, fmt, paint, s.items, showProgress).raised.None? ==>
        && Drain(AsWritten, fmt, paint, s.items, showProgress).raised == Some(TypeError)
        && RunSpec(AsWritten, fmt, paint, true, false, s, showProgress).Crashed?
        && RunSpec(AsWritten, fmt, paint, true, false, s, showProgress).error == TypeError
  {
    var s := LibBase.BuildRun(AsWritten, daemon, strategy, client, st, defaultTags, extra, thisRef, targets).0;
    LibBase.BuildRunOrder(AsWritten, daemon, strategy, client, st, defaultTags, extra, thisRef, targets);
    if s.raised.None? {
      CompletedHasCompletion(s.items);
      AsWrittenVersusCorrected(fmt, paint, s.items, showProgress);
    }
  }

  /**
   * `run`'s loop over the command's events: every record is shown as it
   * comes and the error records are kept, until a record fails to render.
   */
  method DrainEvents(rd: Reading, fmt: Format, paint: Value -> string, msgs: seq<LibBuild.Msg>, showProgress: bool) returns (d: Drained)
    ensures d == Drain(rd, fmt, paint, msgs, showProgress)
  {
    var shown: seq<string> := [];
    var errors: seq<Record> := [];
    for i := 0 to |msgs|
      invariant Drain(rd, fmt, paint, msgs[..i], showProgress) == Drained(shown, errors, None)
    {
      assert msgs[..i + 1][..i] == msgs[..i];
      var event := msgs[i];
      if event.Rec? {
        if "error" in event.rec {
          errors := errors + [event.rec];
        }
        var msg := PrettyEvent(fmt, paint, event.rec, showProgress);
        if msg.Err? {
          DrainSticks(rd, fmt, paint, msgs, i + 1, showProgress);
          return Drained(shown, errors, Some(msg.error));
        }
        if msg.value.Some? {
          shown := shown + [msg.value.value];
        }
      } else if rd.AsWritten? {
        // `'error' in event` is false for the completion tuple; `switch` then indexes it by a string
        DrainSticks(rd, fmt, paint, msgs, i + 1, showProgress);
        return Drained(shown, errors, Some(TypeError));
      }
    }
    assert msgs[..|msgs|] == msgs;
    return Drained(shown, errors, None);
  }

  /** `run`: the dirty check, the loop over the command's events, then the errors decide the exit status. */
  method Run(rd: Reading, fmt: Format, paint: Value -> string, dirty: bool, isDirty: bool, events: Stream<LibBuild.Msg>, showProgress: bool)
    returns (o: Outcome)
    ensures o == RunSpec(rd, fmt, paint, dirty, isDirty, events, showProgress)
  {
    if !dirty && isDirty {
      return Aborted(AbortMessage);
    }
    var d := DrainEvents(rd, fmt, paint, events.items, showProgress);
    if d.raised.Some? {
      return Crashed(d.raised.value, d.shown);
    }
    if events.raised.Some? {
      return Crashed(events.raised.value, d.shown);
    }
    if d.errors == [] {
      return Finished(d.shown, [], 0);
    }
    var messages := ErrorLines(fmt, paint, d.errors);
    if messages.Err? {
      return Crashed(messages.error, d.shown + [ErrorsHeader]);
    }
    return Finished(d.shown, [ErrorsHeader] + Ordering.SortBy(messages.value, Ordering.StrLe), 1);
  }
}

=== FILE: lib_dependencies.dfy ===
/**
 * The selection of targets handed to `dependencies.eval` in
 * `shipwright/_lib`. The selection algebra itself (upto, exact,
 * dependents, exclude over the dependency graph) is not part of this
 * model: callers receive it as a function.
 */
module LibDependencies {
  import LibSourceControl

  /** `build_targets`: the names given to each selector. */
  datatype Selection = Selection(upto: seq<string>, exact: seq<string>, dependents: seq<string>, exclude: seq<string>)

  /** `dependencies.eval(build_targets, targets)`: the targets a selection picks. */
  type Eval = (Selection, seq<LibSourceControl.Target>) -> seq<LibSourceControl.Target>
}

=== FILE: lib_docker.dfy ===
/**
 * The tag helpers of `shipwright/_lib/docker.py`: the key of an image name
 * is what follows its first `:`, the tags a name was built with are the
 * keys of every listed image, and a tag is made safe for docker by
 * replacing `/` with `-`.
 *
 * The daemon is an oracle: what `client.images(name)` lists for a name,
 * and whether `client.tag` finds the image it is asked to tag.
 */
module LibDocker {
  import opened Common
  import opened Text
  import opened Ordering
  import opened Events
  import LibImage
  import LibSourceControl

  /** One entry of `client.images(name)`; docker reports `RepoTags` as null for an untagged image. */
  datatype ImageInfo = ImageInfo(repoTags: Option<seq<string>>)

  datatype Daemon = Daemon(
    images: string -> seq<ImageInfo>,   // `client.images(name)`
    has: string -> bool)                // `client.tag(image, ...)` finds `image`, else it raises NotFound

  // ------------------------------------------------------------ keys

  /** The text after the first `c` in `s`, if `s` holds one. */
  function AfterFirst(s: string, c: char): (r: Option<string>)
    ensures r.Some? <==> c in s
    ensures r.Some? ==> var p := |s| - |r.value| - 1;
      && 0 <= p && s[p] == c && c !in s[..p] && s[p + 1..] == r.value
  {
    if s == [] then None
    else if s[0] == c then Some(s[1..])
    else
      var r := AfterFirst(s[1..], c);
      if r.Some? then
        var t, p := s[1..], |s| - |r.value| - 1;
        assert s[p] == t[p - 1];
        assert s[..p] == [s[0]] + t[..p - 1];
        assert s[p + 1..] == t[p..];
        r
      else r
  }

  /**
   * `image_name.split(':', 1)[1]`: the text after the first `:`, or
   * IndexError when there is none.
   */
  function KeyFromImageName(imageName: string): (r: Result<string>)
    ensures r.Ok? <==> ':' in imageName
    ensures r.Err? ==> r.error == IndexError
    ensures r.Ok? ==> Some(r.value) == AfterFirst(imageName, ':')
  {
    match AfterFirst(imageName, ':')
    case None => Err(IndexError)
    case Some(key) => Ok(key)
  }

  /** The key is exactly what follows the first `:`, whatever the rest holds. */
  lemma KeyAfterFirstColon(a: string, b: string)
    requires ':' !in a
    ensures KeyFromImageName(a + ":" + b) == Ok(b)
  {
    var s := a + ":" + b;
    assert s[|a|] == ':';
    var r := AfterFirst(s, ':');
    assert s[|a| + 1..] == b;
  }

  /** `shipwright/blah:1234` has the key `1234`. */
  lemma NamedTagKey(name: string, tag: string)
    requires ':' !in name
    ensures KeyFromImageName(name + ":" + tag) == Ok(tag)
  {
    KeyAfterFirstColon(name, tag);
  }

  /** For a registry `host:port/...` name the key is everything from the port on. */
  lemma PortNameKey(host: string, port: string, rest: string)
    requires ':' !in host
    ensures KeyFromImageName(host + ":" + port + "/" + rest).Ok?
    ensures StartsWith(KeyFromImageName(host + ":" + port + "/" + rest).value, port)
  {
    assert host + ":" + port + "/" + rest == host + ":" + (port + "/" + rest);
    KeyAfterFirstColon(host, port + "/" + rest);
  }

  /** The keys of a list of names, in order; the first name without `:` raises. */
  function KeysOf(names: seq<string>): (r: Result<seq<string>>)
    ensures r.Ok? <==> forall i :: 0 <= i < |names| ==> ':' in names[i]
    ensures r.Err? ==> r.error == IndexError
    ensures r.Ok? ==> |r.value| == |names|
    ensures r.Ok? ==> forall i :: 0 <= i < |names| ==> KeyFromImageName(names[i]) == Ok(r.value[i])
  {
    if names == [] then Ok([])
    else
      match KeyFromImageName(names[0])
      case Err(e) => Err(e)
      case Ok(k) =>
        match KeysOf(names[1..])
        case Err(e) => Err(e)
        case Ok(ks) =>
          assert forall i :: 1 <= i < |names| ==> names[i] == names[1..][i - 1];
          Ok([k] + ks)
  }

  /**
   * `key_from_image_info`: the key of every `RepoTags` entry, in order.
   * Iterating over a null `RepoTags` raises TypeError.
   */
  function KeyFromImageInfo(info: ImageInfo): (r: Result<seq<string>>)
    ensures info.repoTags.None? ==> r == Err(TypeError)
    ensures info.repoTags.Some? ==> r == KeysOf(info.repoTags.value)
  {
    match info.repoTags
    case None => Err(TypeError)
    case Some(tags) => KeysOf(tags)
  }

  // ------------------------------------------------------ built tags

  /** `k` is the key of one of the tags listed for `info`. */
  predicate HasKey(info: ImageInfo, k: string)
  {
    info.repoTags.Some? &&
    exists j :: 0 <= j < |info.repoTags.value| && KeyFromImageName(info.repoTags.value[j]) == Ok(k)
  }

  /** The image's tags can all be keyed (an untagged image has nothing to key). */
  predicate Keyable(info: ImageInfo)
  {
    info.repoTags.Some? ==> KeysOf(info.repoTags.value).Ok?
  }

  /** The set `last_built_from_docker` accumulates over the first images listed. */
  function BuiltTags(infos: seq<ImageInfo>): Result<set<string>>
  {
    if infos == [] then Ok({})
    else
      match BuiltTags(infos[..|infos| - 1])
      case Err(e) => Err(e)
      case Ok(tags) =>
        var last := infos[|infos| - 1];
        if last.repoTags.None? then Ok(tags)
        else
          match KeyFromImageInfo(last)
          case Err(e) => Err(e)
          case Ok(keys) => Ok(tags + Elements(keys))
  }

  /**
   * Listing fails exactly when a tagged image has a tag without `:`; an
   * untagged image is skipped, so the failure is always IndexError.
   */
  lemma {:induction false} BuiltTagsFails(infos: seq<ImageInfo>)
    ensures BuiltTags(infos).Ok? <==> forall i :: 0 <= i < |infos| ==> Keyable(infos[i])
    ensures BuiltTags(infos).Err? ==> BuiltTags(infos).error == IndexError
  {
    if infos != [] {
      var n := |infos| - 1;
      var init := infos[..n];
      BuiltTagsFails(init);
      assert forall i :: 0 <= i < n ==> init[i] == infos[i];
    }
  }

  /** The keys listed for one tagged image are the keys of its tags. */
  lemma ImageKeys(info: ImageInfo)
    requires info.repoTags.Some? && Keyable(info)
    ensures forall k :: k in Elements(KeyFromImageInfo(info).value) <==> HasKey(info, k)
  {
    var keys := KeyFromImageInfo(info).value;
    forall k | HasKey(info, k) ensures k in keys {
      var j :| 0 <= j < |info.repoTags.value| && KeyFromImageName(info.repoTags.value[j]) == Ok(k);
      assert keys[j] == k;
    }
  }

  /** The built tags are the keys of every tagged image. */
  lemma {:induction false} BuiltTagsKeys(infos: seq<ImageInfo>)
    requires BuiltTags(infos).Ok?
    ensures forall k :: k in BuiltTags(infos).value <==> exists i :: 0 <= i < |infos| && HasKey(infos[i], k)
  {
    if infos != [] {
      var n := |infos| - 1;
      var init := infos[..n];
      BuiltTagsKeys(init);
      assert forall i :: 0 <= i < n ==> init[i] == infos[i];
      if infos[n].repoTags.Some? {
        ImageKeys(infos[n]);
      }
    }
  }

  /** A failure while listing the first images is the failure of the whole listing. */
  lemma {:induction false} BuiltTagsErrSticks(infos: seq<ImageInfo>, n: nat)
    requires n <= |infos| && BuiltTags(infos[..n]).Err?
    ensures BuiltTags(infos) == BuiltTags(infos[..n])
    decreases |infos|
  {
    if n < |infos| {
      var init := infos[..|infos| - 1];
      assert init[..n] == infos[..n];
      BuiltTagsErrSticks(init, n);
    } else {
      assert infos[..n] == infos;
    }
  }

  /** One more image listed: skipped when untagged, otherwise its keys added or its failure raised. */
  lemma BuiltTagsSnoc(infos: seq<ImageInfo>, i: nat, built: set<string>)
    requires i < |infos| && BuiltTags(infos[..i]) == Ok(built)
    ensures infos[i].repoTags.None? ==> BuiltTags(infos[..i + 1]) == Ok(built)
    ensures infos[i].repoTags.Some? && KeyFromImageInfo(infos[i]).Err? ==>
              BuiltTags(infos[..i + 1]) == Err(KeyFromImageInfo(infos[i]).error)
    ensures infos[i].repoTags.Some? && KeyFromImageInfo(infos[i]).Ok? ==>
              BuiltTags(infos[..i + 1]) == Ok(built + Elements(KeyFromImageInfo(infos[i]).value))
  {
    assert infos[..i + 1][..i] == infos[..i];
  }

  /** The inner loop of `last_built_from_docker`: each key of one image added to the set. */
  method AddKeys(built: set<string>, keys: seq<string>) returns (r: set<string>)
    ensures r == built + Elements(keys)
  {
    r := built;
    for j := 0 to |keys|
      invariant r == built + Elements(keys[..j])
    {
      assert keys[..j + 1] == keys[..j] + [keys[j]];
      r := r + {keys[j]};
    }
    assert keys[..|keys|] == keys;
  }

  /**
   * `last_built_from_docker`: every key of every image listed for `name`
   * gathered into a set, skipping images whose `RepoTags` is null.
   */
  method LastBuiltFromDocker(daemon: Daemon, name: string) returns (r: Result<set<string>>)
    ensures r == BuiltTags(daemon.images(name))
  {
    var images := daemon.images(name);
    var built: set<string> := {};
    for i := 0 to |images|
      invariant BuiltTags(images[..i]) == Ok(built)
    {
      var image := images[i];
      BuiltTagsSnoc(images, i, built);
      if image.repoTags.Some? {
        var keys := KeyFromImageInfo(image);
        if keys.Err? {
          BuiltTagsErrSticks(images, i + 1);
          return Err(keys.error);
        }
        built := AddKeys(built, keys.value);
      }
    }
    assert images[..|images|] == images;
    return Ok(built);
  }

  // ------------------------------------------------------------ tags

  /** `encode_tag`: every `/` becomes `-`, so a branch name such as `feature/x` is a valid tag. */
  function EncodeTag(tag: string): (r: string)
    ensures |r| == |tag| && '/' !in r
    ensures forall i :: 0 <= i < |tag| ==> r[i] == (if tag[i] == '/' then '-' else tag[i])
  {
    ReplaceChar(tag, '/', '-')
  }

  /** Encoding an encoded tag changes nothing. */
  lemma EncodeTagIdempotent(tag: string)
    ensures EncodeTag(EncodeTag(tag)) == EncodeTag(tag)
  {
  }

  /** A tag without `/` is its own encoding. */
  lemma EncodeTagKeepsPlain(tag: string)
    requires '/' !in tag
    ensures EncodeTag(tag) == tag
  {
  }

  /** The message of the `tag` event whose image is missing. */
  function NotFoundMessage(oldImage: string): string
  {
    "Error tagging " + oldImage + ", not found"
  }

  /**
   * The `tag` event `tag_image` reports for the image `name:ref`: the image
   * tagged, its repository and the encoded tag, plus `error` and
   * `errorDetail` exactly when the daemon does not find the image.
   */
  function TagEvent(daemon: Daemon, name: string, ref: string, newRef: string): (evt: Record)
    ensures var oldImage := name + ":" + ref;
      && {"event", "old_image", "repository", "tag"} <= evt.Keys
      && evt["event"] == Str("tag")
      && evt["old_image"] == Str(oldImage)
      && evt["repository"] == Str(name)
      && evt["tag"] == Str(EncodeTag(newRef))
      && ("error" in evt <==> !daemon.has(oldImage))
      && ("errorDetail" in evt <==> !daemon.has(oldImage))
      && (!daemon.has(oldImage) ==>
            && evt["error"] == Str(NotFoundMessage(oldImage))
            && evt["errorDetail"] == Dict(map["message" := Str(NotFoundMessage(oldImage))]))
    ensures evt.Keys <= {"event", "old_image", "repository", "tag", "error", "errorDetail"}
  {
    var oldImage := name + ":" + ref;
    var evt := map[
      "event" := Str("tag"),
      "old_image" := Str(oldImage),
      "repository" := Str(name),
      "tag" := Str(EncodeTag(newRef))];
    if daemon.has(oldImage) then evt
    else
      var message := NotFoundMessage(oldImage);
      evt["error" := Str(message)]["errorDetail" := Dict(map["message" := Str(message)])]
  }

  /** `tag_image`: tags `name:ref` as `name:encode_tag(new_ref)`; a missing image is reported in the event. */
  method TagImage(daemon: Daemon, image: LibSourceControl.Target, newRef: string) returns (evt: Record)
    ensures evt == TagEvent(daemon, image.image.name, image.ref, newRef)
  {
    var tag := EncodeTag(newRef);
    var oldImage := image.image.name + ":" + image.ref;
    var repository := image.image.name;
    evt := map["event" := Str("tag"), "old_image" := Str(oldImage), "repository" := Str(repository), "tag" := Str(tag)];
    if !daemon.has(oldImage) {
      var message := NotFoundMessage(oldImage);
      evt := Merge(evt, map["error" := Str(message), "errorDetail" := Dict(map["message" := Str(message)])]);
    }
  }
}

=== FILE: lib_image.dfy ===
/**
 * The build-file catalogue of `shipwright/_lib/image.py`: an image's name
 * from its path, the parent named by the first `FROM` line, and the files a
 * build depends on (its `COPY`/`ADD` sources).
 *
 * The filesystem is a parameter: the paths `os.walk` lists and a
 * `read(path)` function giving a file's lines (each with its line break).
 * `json.loads` is the parameter `decode`, which answers `Some(items)` when
 * the text is a JSON array of strings and `None` otherwise.
 */
module LibImage {
  import opened Common
  import opened Text
  import opened PosixPath
  import Ordering

  datatype Image = Image(
    name: string,
    dirPath: string,
    path: string,
    parent: Option<string>,
    shortName: string,
    copyPaths: seq<string>)

  // ------------------------------------------------------------ names

  predicate OccursAt(s: string, sep: string, k: nat)
  {
    k + |sep| <= |s| && s[k..k + |sep|] == sep
  }

  /** The index of the first occurrence of `sep` in `s`. */
  function FindFirst(s: string, sep: string): (i: Option<nat>)
    ensures i.Some? ==> OccursAt(s, sep, i.value)
    ensures i.Some? ==> forall k :: 0 <= k < i.value ==> !OccursAt(s, sep, k)
    ensures i.None? ==> forall k :: 0 <= k ==> !OccursAt(s, sep, k)
  {
    FindFrom(s, sep, 0)
  }

  function FindFrom(s: string, sep: string, start: nat): (i: Option<nat>)
    ensures i.Some? ==> start <= i.value && OccursAt(s, sep, i.value)
    ensures i.Some? ==> forall k :: start <= k < i.value ==> !OccursAt(s, sep, k)
    ensures i.None? ==> forall k :: start <= k ==> !OccursAt(s, sep, k)
    decreases |s| - start
  {
    if start + |sep| > |s| then None
    else if OccursAt(s, sep, start) then Some(start)
    else FindFrom(s, sep, start + 1)
  }

  /** `s.partition(sep)`: the text before the first `sep`, `sep` itself, and the text after it. */
  function Partition(s: string, sep: string): (r: (string, string, string))
    ensures r.0 + r.1 + r.2 == s
    ensures r.1 == sep || (r.1 == "" && r.2 == "")
  {
    match FindFirst(s, sep)
    case Some(i) =>
      assert s == s[..i] + s[i..i + |sep|] + s[i + |sep|..];
      (s[..i], sep, s[i + |sep|..])
    case None => (s, "", "")
  }

  /** `partition` finds a non-empty `sep` at the very start exactly when `s` starts with it. */
  lemma PartitionAtStart(s: string, sep: string)
    requires sep != ""
    ensures (Partition(s, sep).1 == sep && Partition(s, sep).0 == "") <==> StartsWith(s, sep)
  {
    if StartsWith(s, sep) {
      assert s[0..|sep|] == sep;
    }
  }

  /** `name`: the directory's name followed by what comes after `Dockerfile` in the file name. */
  function Name(dockerPath: string): (r: Result<string>)
    ensures r.Err? <==> !StartsWith(Basename(dockerPath), "Dockerfile")
    ensures r.Err? ==> r.error == ValueError
    ensures r.Ok? ==> r.value == Basename(Dirname(dockerPath)) + Basename(dockerPath)[10..]
  {
    var filename := Basename(dockerPath);
    var (before, dockerfile, after) := Partition(filename, "Dockerfile");
    PartitionAtStart(filename, "Dockerfile");
    if dockerfile != "Dockerfile" || before != "" then Err(ValueError)
    else Ok(Basename(Dirname(dockerPath)) + after)
  }

  /** The directory of `path` relative to `rootPath`, when `path` lies under it. */
  function RelativeDir(rootPath: string, path: string): Option<string>
  {
    if StartsWith(path, rootPath) then Some(Dirname(path[|rootPath|..])) else None
  }

  /** `image_name`: the mapped name (twice) for a mapped directory, else `namespace/short` and `short`. */
  function ImageName(namespace: string, nameMap: map<string, string>, rootPath: string, path: string): (r: Result<(string, string)>)
    ensures RelativeDir(rootPath, path).Some? && RelativeDir(rootPath, path).value in nameMap ==>
              var mapped := nameMap[RelativeDir(rootPath, path).value];
              r == Ok((mapped, mapped))
    ensures !(RelativeDir(rootPath, path).Some? && RelativeDir(rootPath, path).value in nameMap) ==>
              && (r.Ok? <==> Name(path).Ok?)
              && (r.Err? ==> r.error == ValueError)
              && (r.Ok? ==> r.value == (namespace + "/" + Name(path).value, Name(path).value))
  {
    var rel := RelativeDir(rootPath, path);
    if rel.Some? && rel.value in nameMap then
      Ok((nameMap[rel.value], nameMap[rel.value]))
    else
      match Name(path)
      case Err(e) => Err(e)
      case Ok(short) => Ok((namespace + "/" + short, short))
  }

  /** `os.walk` output: each directory with the names of the files in it. */
  type Walk = seq<(string, seq<string>)>

  function FilesIn(root: string, files: seq<string>): (r: seq<string>)
    ensures |r| <= |files|
  {
    if files == [] then []
    else
      var rest := FilesIn(root, files[1..]);
      if StartsWith(files[0], "Dockerfile") then [JoinPath(root, files[0])] + rest else rest
  }

  /** `build_files`: every file whose name starts with `Dockerfile`, joined to its directory, in walk order. */
  function BuildFiles(walk: Walk): seq<string>
  {
    if walk == [] then [] else FilesIn(walk[0].0, walk[0].1) + BuildFiles(walk[1..])
  }

  /** Every file of the walk whose name starts with `Dockerfile` is listed. */
  lemma {:induction false} BuildFilesComplete(walk: Walk, i: nat, f: string)
    requires i < |walk| && f in walk[i].1 && StartsWith(f, "Dockerfile")
    ensures JoinPath(walk[i].0, f) in BuildFiles(walk)
  {
    if i == 0 {
      FilesInComplete(walk[0].0, walk[0].1, f);
    } else {
      BuildFilesComplete(walk[1..], i - 1, f);
    }
  }

  lemma {:induction false} FilesInComplete(root: string, files: seq<string>, f: string)
    requires f in files && StartsWith(f, "Dockerfile")
    ensures JoinPath(root, f) in FilesIn(root, files)
  {
    if files[0] != f {
      FilesInComplete(root, files[1..], f);
    }
  }

  /** Only such files are listed: when no file name holds a separator, each listed path's base name starts with `Dockerfile`. */
  lemma {:induction false} BuildFilesSound(walk: Walk)
    requires forall i :: 0 <= i < |walk| ==> forall f :: f in walk[i].1 ==> '/' !in f
    ensures forall p :: p in BuildFiles(walk) ==> StartsWith(Basename(p), "Dockerfile")
  {
    if walk != [] {
      BuildFilesSound(walk[1..]);
      FilesInSound(walk[0].0, walk[0].1);
    }
  }

  lemma {:induction false} FilesInSound(root: string, files: seq<string>)
    requires forall f :: f in files ==> '/' !in f
    ensures forall p :: p in FilesIn(root, files) ==> StartsWith(Basename(p), "Dockerfile")
  {
    if files != [] {
      FilesInSound(root, files[1..]);
      BasenameOfJoin(root, files[0]);
    }
  }

  /** So every listed build file has a valid name. */
  lemma BuildFilesHaveNames(walk: Walk)
    requires forall i :: 0 <= i < |walk| ==> forall f :: f in walk[i].1 ==> '/' !in f
    ensures forall p :: p in BuildFiles(walk) ==> Name(p).Ok?
  {
    BuildFilesSound(walk);
  }

  lemma BasenameOfJoin(d: string, f: string)
    requires '/' !in f
    ensures Basename(JoinPath(d, f)) == f
  {
    if d == [] {
      assert JoinPath(d, f) == f;
    } else if d[|d| - 1] == '/' {
      assert d + f == d[..|d| - 1] + "/" + f;
      BasenameAfterSlash(d[..|d| - 1], f);
    } else {
      BasenameAfterSlash(d, f);
    }
  }

  // --------------------------------------------------------- COPY / ADD

  /** ASCII case-insensitive comparison; the Unicode case folds of `re.I` reach no letter of `COPY` or `ADD`. */
  predicate SameLetters(a: string, b: string)
  {
    Lower(a) == Lower(b)
  }

  /**
   * `sub_if(r'^\s*(KW)\s', '', cmd, re.I)`: the text after the keyword and
   * one whitespace character when the line starts (after whitespace) with
   * the keyword, and `None` when the substitution changes nothing.
   */
  function KeywordArgs(kw: string, cmd: string): (r: Option<string>)
    requires kw != [] && !IsSpace(kw[0])
    ensures r.Some? <==>
              var rest := LStrip(cmd);
              |rest| > |kw| && SameLetters(rest[..|kw|], kw) && IsSpace(rest[|kw|])
    ensures r.Some? ==> |r.value| < |cmd| && r.value == cmd[|cmd| - |r.value|..]
  {
    var rest := LStrip(cmd);
    if |rest| > |kw| && SameLetters(rest[..|kw|], kw) && IsSpace(rest[|kw|]) then
      var res := rest[|kw| + 1..];
      assert res == cmd[|cmd| - |res|..];
      if res != cmd then Some(res) else None
    else None
  }

  /** Python truthiness of an optional string: present and non-empty. */
  predicate Truthy(o: Option<string>)
  {
    o.Some? && o.value != ""
  }

  /** `re.match('(https?|ftp):', p, re.I)`, ignoring ASCII case only (Python's `re.I` also lets `ſ` match `s`). */
  predicate IsUrl(p: string)
  {
    var l := Lower(p);
    StartsWith(l, "http:") || StartsWith(l, "https:") || StartsWith(l, "ftp:")
  }

  /** The argument list of a `COPY`/`ADD` instruction: its JSON array, or its text split at single spaces. */
  function Arguments(args: string, decode: string -> Option<seq<string>>): seq<string>
  {
    match decode(args)
    case Some(items) => items
    case None => Split(args, ' ')
  }

  /** `result[:-1]`. */
  function AllButLast(s: seq<string>): (r: seq<string>)
    ensures |r| == if s == [] then 0 else |s| - 1
    ensures forall k :: 0 <= k < |r| ==> r[k] == s[k]
  {
    if s == [] then [] else s[..|s| - 1]
  }

  function DropUrls(ps: seq<string>): (r: seq<string>)
    ensures forall k :: 0 <= k < |r| ==> !IsUrl(r[k]) && r[k] in ps
    ensures forall p :: p in ps && !IsUrl(p) ==> p in r
  {
    if ps == [] then []
    else
      var rest := DropUrls(ps[1..]);
      if IsUrl(ps[0]) then rest else [ps[0]] + rest
  }

  /** `parse_copy`: the source paths of a `COPY` or `ADD` line; URLs are dropped from `ADD`. */
  function ParseCopy(cmd: string, decode: string -> Option<seq<string>>): seq<string>
  {
    var copy := KeywordArgs("COPY", cmd);
    var add := KeywordArgs("ADD", cmd);
    var copyCmd := if Truthy(copy) then copy else add;
    if !Truthy(copyCmd) then []
    else
      var paths := AllButLast(Arguments(copyCmd.value, decode));
      if Truthy(add) then DropUrls(paths) else paths
  }

  /**
   * A line that is neither `COPY` nor `ADD` has no sources; a `COPY` line's
   * sources are all its arguments but the last (the destination); an `ADD`
   * line's are the same with every URL removed.
   */
  lemma ParseCopyCases(cmd: string, decode: string -> Option<seq<string>>)
    ensures KeywordArgs("COPY", cmd).None? && KeywordArgs("ADD", cmd).None? ==> ParseCopy(cmd, decode) == []
    ensures Truthy(KeywordArgs("COPY", cmd)) ==>
              ParseCopy(cmd, decode) == AllButLast(Arguments(KeywordArgs("COPY", cmd).value, decode))
    ensures Truthy(KeywordArgs("ADD", cmd)) ==>
              var r := ParseCopy(cmd, decode);
              && (forall k :: 0 <= k < |r| ==> !IsUrl(r[k]))
              && (forall p :: p in AllButLast(Arguments(KeywordArgs("ADD", cmd).value, decode)) && !IsUrl(p) ==> p in r)
  {
    CopyOrAdd(cmd);
  }

  /** A line cannot start with both `COPY` and `ADD`. */
  lemma CopyOrAdd(cmd: string)
    ensures !(KeywordArgs("COPY", cmd).Some? && KeywordArgs("ADD", cmd).Some?)
  {
  }

  /** The sources of every `COPY`/`ADD` line, in order. */
  function Sources(lines: seq<string>, decode: string -> Option<seq<string>>): seq<string>
  {
    if lines == [] then []
    else Sources(lines[..|lines| - 1], decode) + ParseCopy(lines[|lines| - 1], decode)
  }

  lemma SourcesSnoc(lines: seq<string>, i: nat, decode: string -> Option<seq<string>>)
    requires i < |lines|
    ensures Sources(lines[..i + 1], decode) == Sources(lines[..i], decode) + ParseCopy(lines[i], decode)
  {
    assert lines[..i + 1][..i] == lines[..i];
  }

  /** The paths `copy_paths_gen` yields: the build file, the `.dockerignore` beside it, then each source joined to the directory and normalised. */
  function CopyPathList(dockerPath: string, lines: seq<string>, decode: string -> Option<seq<string>>): seq<string>
  {
    var dir := Dirname(dockerPath);
    [dockerPath, JoinPath(dir, ".dockerignore")] + NormJoinAll(dir, Sources(lines, decode))
  }

  function NormJoinAll(dir: string, ps: seq<string>): (r: seq<string>)
    ensures |r| == |ps| && forall k :: 0 <= k < |ps| ==> r[k] == Normpath(JoinPath(dir, ps[k]))
  {
    if ps == [] then [] else [Normpath(JoinPath(dir, ps[0]))] + NormJoinAll(dir, ps[1..])
  }

  lemma NormJoinAllAppend(dir: string, a: seq<string>, b: seq<string>)
    ensures NormJoinAll(dir, a + b) == NormJoinAll(dir, a) + NormJoinAll(dir, b)
  {
  }

  /** Appends each source, joined to `dir` and normalised, one at a time. */
  method AppendNormalised(found: seq<string>, dir: string, ps: seq<string>) returns (r: seq<string>)
    ensures r == found + NormJoinAll(dir, ps)
  {
    r := found;
    var j := 0;
    while j < |ps|
      invariant 0 <= j <= |ps|
      invariant r == found + NormJoinAll(dir, ps[..j])
    {
      assert ps[..j + 1] == ps[..j] + [ps[j]];
      NormJoinAllAppend(dir, ps[..j], [ps[j]]);
      r := r + [Normpath(JoinPath(dir, ps[j]))];
      j := j + 1;
    }
    assert ps[..j] == ps;
  }

  /** The sources of every line, joined to `dir` and normalised, in order. */
  method SourcePaths(dir: string, lines: seq<string>, decode: string -> Option<seq<string>>) returns (found: seq<string>)
    ensures found == NormJoinAll(dir, Sources(lines, decode))
  {
    found := [];
    ghost var srcs: seq<string> := [];
    var i := 0;
    while i < |lines|
      invariant 0 <= i <= |lines|
      invariant srcs == Sources(lines[..i], decode)
      invariant found == NormJoinAll(dir, srcs)
    {
      var ps := ParseCopy(lines[i], decode);
      SourcesSnoc(lines, i, decode);
      NormJoinAllAppend(dir, srcs, ps);
      found := AppendNormalised(found, dir, ps);
      srcs := srcs + ps;
      i := i + 1;
    }
    assert lines[..i] == lines;
  }

  /** `copy_paths_gen`: the build file, its `.dockerignore`, then the normalised sources of each line. */
  method CopyPathsGen(dockerPath: string, lines: seq<string>, decode: string -> Option<seq<string>>) returns (found: seq<string>)
    ensures found == CopyPathList(dockerPath, lines, decode)
  {
    var dir := Dirname(dockerPath);
    var sources := SourcePaths(dir, lines, decode);
    found := [dockerPath, JoinPath(dir, ".dockerignore")] + sources;
  }

  /**
   * `copy_paths`: the set of files a build reads, kept as a list without
   * duplicates (the order is the order of first appearance; only its
   * elements are ever used).
   */
  method CopyPaths(dockerPath: string, lines: seq<string>, decode: string -> Option<seq<string>>) returns (r: seq<string>)
    ensures r == Ordering.Dedupe(CopyPathList(dockerPath, lines, decode))
    ensures Ordering.Elements(r) == Ordering.Elements(CopyPathList(dockerPath, lines, decode))
    ensures Ordering.NoDuplicates(r)
    ensures dockerPath in r && JoinPath(Dirname(dockerPath), ".dockerignore") in r
  {
    var found := CopyPathsGen(dockerPath, lines, decode);
    r := Ordering.Dedupe(found);
    assert found[0] in Ordering.Elements(found) && found[1] in Ordering.Elements(found);
  }

  /** The dependency files of an absolutely-named build file are absolute paths. */
  lemma CopyPathsAbsolute(dockerPath: string, lines: seq<string>, decode: string -> Option<seq<string>>)
    requires IsAbs(dockerPath)
    ensures forall p :: p in CopyPathList(dockerPath, lines, decode) ==> IsAbs(p)
  {
    var dir := Dirname(dockerPath);
    DirnameAbsolute(dockerPath);
  }

  lemma DirnameAbsolute(p: string)
    requires IsAbs(p)
    ensures IsAbs(Dirname(p))
  {
    var head := p[..SplitIndex(p)];
    assert p[0] == '/';
    assert head[0] == '/';
    if !AllSlashes(head) {
      RStripKeepsLead(head);
    }
  }

  lemma RStripKeepsLead(head: string)
    requires head != [] && head[0] == '/' && !AllSlashes(head)
    ensures IsAbs(RStripSlashes(head))
    decreases |head|
  {
    if head[|head| - 1] == '/' {
      var h := head[..|head| - 1];
      assert !AllSlashes(h) by {
        var k :| 0 <= k < |head| && head[k] != '/';
        assert k < |head| - 1;
        assert h[k] != '/';
      }
      RStripKeepsLead(h);
    }
  }

  // -------------------------------------------------------------- FROM

  /** A line that names the parent: stripped and lower-cased, it starts with `from`. */
  predicate IsFromLine(l: string)
  {
    StartsWith(Lower(Strip(l)), "from")
  }

  /** The index of the first `from` line. */
  function FirstFromLine(lines: seq<string>): Option<nat>
  {
    FirstWhere(lines, IsFromLine, 0)
  }

  /**
   * `parent` over a file's lines: the second whitespace-separated word of
   * the first `from` line, `None` without one, and `IndexError` when that
   * line has a single word.
   */
  function ParentOf(lines: seq<string>): Result<Option<string>>
  {
    match FirstFromLine(lines)
    case None => Ok(None)
    case Some(f) =>
      var words := SplitWhitespace(lines[f]);
      if |words| >= 2 then Ok(Some(words[1])) else Err(IndexError)
  }

  /** The parent is `None` exactly without a `from` line, and otherwise read off the first one. */
  lemma ParentOfFirstFromLine(lines: seq<string>)
    ensures ParentOf(lines) == Ok(None) <==> forall i :: 0 <= i < |lines| ==> !IsFromLine(lines[i])
    ensures forall i :: 0 <= i < |lines| && IsFromLine(lines[i]) && (forall j :: 0 <= j < i ==> !IsFromLine(lines[j])) ==>
              ParentOf(lines) == if |SplitWhitespace(lines[i])| >= 2 then Ok(Some(SplitWhitespace(lines[i])[1])) else Err(IndexError)
  {
    var first := FirstFromLine(lines);
    if first.Some? {
      assert forall i :: 0 <= i < |lines| && IsFromLine(lines[i]) && (forall j :: 0 <= j < i ==> !IsFromLine(lines[j])) ==> i == first.value;
    }
  }

  /** `parent`: reads the lines until the first `from` line. */
  method Parent(lines: seq<string>) returns (r: Result<Option<string>>)
    ensures r == ParentOf(lines)
  {
    var first := SearchFirst(lines, IsFromLine);
    if first.None? {
      return Ok(None);
    }
    var words := SplitWhitespace(lines[first.value]);
    if |words| >= 2 {
      return Ok(Some(words[1]));
    }
    return Err(IndexError);
  }

  // ------------------------------------------------------------ listing

  /** The image `list_images` records for one build file, or the exception that stops the listing. */
  function ImageOf(
    namespace: string, nameMap: map<string, string>, rootPath: string, path: string,
    read: string -> seq<string>, decode: string -> Option<seq<string>>): Result<Image>
  {
    match ImageName(namespace, nameMap, rootPath, path)
    case Err(e) => Err(e)
    case Ok(names) =>
      match ParentOf(read(path))
      case Err(e) => Err(e)
      case Ok(parent) =>
        Ok(Image(names.0, Dirname(path), path, parent, names.1, Ordering.Dedupe(CopyPathList(path, read(path), decode))))
  }

  /**
   * An image is recorded when its name and its parent can be read; it then
   * carries its path, its directory, both names, the parent and exactly
   * the files of `copy_paths_gen`, each once. A bad file name is reported
   * before a bad `from` line.
   */
  lemma ImageOfFields(
    namespace: string, nameMap: map<string, string>, rootPath: string, path: string,
    read: string -> seq<string>, decode: string -> Option<seq<string>>)
    ensures var r := ImageOf(namespace, nameMap, rootPath, path, read, decode);
            && (r.Ok? <==> ImageName(namespace, nameMap, rootPath, path).Ok? && ParentOf(read(path)).Ok?)
            && (r.Err? ==> r.error == if ImageName(namespace, nameMap, rootPath, path).Err? then ValueError else IndexError)
    ensures var r := ImageOf(namespace, nameMap, rootPath, path, read, decode);
            r.Ok? ==>
              && r.value.path == path && r.value.dirPath == Dirname(path)
              && (r.value.name, r.value.shortName) == ImageName(namespace, nameMap, rootPath, path).value
              && r.value.parent == ParentOf(read(path)).value
              && Ordering.Elements(r.value.copyPaths) == Ordering.Elements(CopyPathList(path, read(path), decode))
              && Ordering.NoDuplicates(r.value.copyPaths)
  {
  }

  /** The body of `list_images`' loop for one build file. */
  method ReadImage(
    namespace: string, nameMap: map<string, string>, rootPath: string, path: string,
    read: string -> seq<string>, decode: string -> Option<seq<string>>)
    returns (r: Result<Image>)
    ensures r == ImageOf(namespace, nameMap, rootPath, path, read, decode)
  {
    var names := ImageName(namespace, nameMap, rootPath, path);
    if names.Err? {
      return Err(names.error);
    }
    var lines := read(path);
    var copies := CopyPaths(path, lines, decode);
    var parent := Parent(lines);
    if parent.Err? {
      return Err(parent.error);
    }
    return Ok(Image(names.value.0, Dirname(path), path, parent.value, names.value.1, copies));
  }

  /** The `k`-th path is the first whose image cannot be read, and it fails with `e`. */
  predicate FailsFirstAt(
    namespace: string, nameMap: map<string, string>, rootPath: string, paths: seq<string>,
    read: string -> seq<string>, decode: string -> Option<seq<string>>, k: int, e: Error)
  {
    && 0 <= k < |paths|
    && ImageOf(namespace, nameMap, rootPath, paths[k], read, decode) == Err(e)
    && forall j :: 0 <= j < k ==> ImageOf(namespace, nameMap, rootPath, paths[j], read, decode).Ok?
  }

  /** `list_images`' loop: one image per path, in order, or the exception of the first path that fails. */
  method ImagesAt(
    namespace: string, nameMap: map<string, string>, rootPath: string, paths: seq<string>,
    read: string -> seq<string>, decode: string -> Option<seq<string>>)
    returns (r: Result<seq<Image>>)
    ensures r.Ok? ==> |r.value| == |paths|
                      && forall k :: 0 <= k < |paths| ==> ImageOf(namespace, nameMap, rootPath, paths[k], read, decode) == Ok(r.value[k])
    ensures r.Err? ==> exists k :: FailsFirstAt(namespace, nameMap, rootPath, paths, read, decode, k, r.error)
  {
    ghost var imageOf := (p: string) => ImageOf(namespace, nameMap, rootPath, p, read, decode);
    var images: seq<Image> := [];
    for i := 0 to |paths|
      invariant CollectAll(imageOf, paths[..i]) == Ok(images)
    {
      var image := ReadImage(namespace, nameMap, rootPath, paths[i], read, decode);
      assert paths[..i + 1][..i] == paths[..i];
      if image.Err? {
        CollectAllSticks(imageOf, paths, i + 1);
        CollectAllMeaning(imageOf, paths);
        ghost var k :| FirstFailure(imageOf, paths, k, image.error);
        assert FailsFirstAt(namespace, nameMap, rootPath, paths, read, decode, k, image.error);
        return Err(image.error);
      }
      images := images + [image.value];
    }
    assert paths[..|paths|] == paths;
    CollectAllMeaning(imageOf, paths);
    return Ok(images);
  }

  /** `list_images`: the images of every build file of the walk. */
  method ListImages(
    namespace: string, nameMap: map<string, string>, rootPath: string, walk: Walk,
    read: string -> seq<string>, decode: string -> Option<seq<string>>)
    returns (r: Result<seq<Image>>)
    ensures r.Ok? ==> |r.value| == |BuildFiles(walk)|
    ensures r.Ok? ==> forall k :: 0 <= k < |BuildFiles(walk)| ==>
                        ImageOf(namespace, nameMap, rootPath, BuildFiles(walk)[k], read, decode) == Ok(r.value[k])
    ensures r.Err? ==> exists k :: FailsFirstAt(namespace, nameMap, rootPath, BuildFiles(walk), read, decode, k, r.error)
  {
    r := ImagesAt(namespace, nameMap, rootPath, BuildFiles(walk), read, decode);
  }
}

=== FILE: lib_push.dfy ===
/**
 * Pushing images, from `shipwright/_lib/push.py`. Each `(image, tag)` pair
 * is pushed through `retry_gen`, which gives the daemon's push
 * `max_attempts` guarded attempts and then one last unguarded one.
 *
 * The daemon is an oracle: `attempt(n)` is what the `n`-th call of the
 * push yields (its records, already decoded from JSON) and the exception,
 * if any, that ended it.
 */
module LibPush {
  import opened Common
  import opened Text
  import opened Events

  /** The name `str(e)` is modelled by. */
  function ErrorName(e: Error): string
  {
    match e
    case IndexError => "IndexError"
    case KeyError => "KeyError"
    case TypeError => "TypeError"
    case ValueError => "ValueError"
    case AttributeError => "AttributeError"
    case StopIteration => "StopIteration"
    case UnboundLocalError => "UnboundLocalError"
    case NotFound => "NotFound"
    case RegistryException => "RegistryException"
    case HttpError => "HTTPError"
    case RuntimeError => "RuntimeError"
    case PullFailedException => "PullFailedException"
    case CacheMissException => "CacheMissException"
  }

  /** `'Exception: {}, Attempt: {}'.format(e, i)` */
  function WarnMessage(e: Error, i: nat): string
  {
    "Exception: " + ErrorName(e) + ", Attempt: " + NatToString(i)
  }

  /** The default `max_attempts`. */
  const MaxAttempts: nat := 3

  // ------------------------------------------------------ retry_gen

  /**
   * `retry_gen` as written: the handler of a failed attempt calls
   * `docker.warn`, which `shipwright/_lib/docker.py` does not define, so the
   * first failure ends the generator with AttributeError and nothing is
   * ever retried.
   */
  function RetryGenAsWritten(attempt: nat -> Stream<Record>, maxAttempts: nat): (r: Stream<Record>)
    ensures r.items == attempt(0).items
    ensures r.raised.None? <==> attempt(0).raised.None?
  {
    var first := attempt(0);
    if maxAttempts == 0 || first.raised.None? then first
    else Stream(first.items, Some(AttributeError))
  }

  /**
   * `retry_gen` from attempt `i` on, as evidently intended: a failed guarded
   * attempt keeps what it yielded, adds one `warn` record naming the
   * exception and the attempt, and the next attempt runs; attempt
   * `max_attempts` is unguarded.
   *
   * `push` decodes every value `retry_gen` yields with `compat.json_loads`,
   * which accepts only JSON text. The `warn` record is taken to reach the
   * caller as the record `WarnRecord` builds: either the missing helper
   * yields its JSON text, or the decoding leaves records alone. A helper
   * that yielded a dictionary to be decoded would end the push with
   * TypeError instead.
   */
  function Retry(attempt: nat -> Stream<Record>, maxAttempts: nat, i: nat): (r: Stream<Record>)
    ensures attempt(i).raised.None? || i >= maxAttempts ==> r == attempt(i)
    decreases maxAttempts - i
  {
    var a := attempt(i);
    if i >= maxAttempts || a.raised.None? then a
    else Then(Stream(a.items + [WarnRecord(WarnMessage(a.raised.value, i))], None), Retry(attempt, maxAttempts, i + 1))
  }

  /** How many times the push is called from attempt `i` on. */
  function Calls(attempt: nat -> Stream<Record>, maxAttempts: nat, i: nat): (n: nat)
    requires i <= maxAttempts
    ensures 1 <= n <= maxAttempts - i + 1
    decreases maxAttempts - i
  {
    if i == maxAttempts || attempt(i).raised.None? then 1
    else 1 + Calls(attempt, maxAttempts, i + 1)
  }

  /** The calls stop at the first attempt that finishes: every earlier call failed, and the last one is final. */
  lemma {:induction false} CallsStopAtFirstSuccess(attempt: nat -> Stream<Record>, maxAttempts: nat, i: nat)
    requires i <= maxAttempts
    ensures forall j :: i <= j < i + Calls(attempt, maxAttempts, i) - 1 ==> attempt(j).raised.Some?
    ensures var last := i + Calls(attempt, maxAttempts, i) - 1;
      last == maxAttempts || attempt(last).raised.None?
    decreases maxAttempts - i
  {
    if i < maxAttempts && attempt(i).raised.Some? {
      CallsStopAtFirstSuccess(attempt, maxAttempts, i + 1);
    }
  }

  /**
   * The retried push ends normally exactly when some attempt does, and
   * otherwise with the exception of the last, unguarded attempt.
   */
  lemma {:induction false} RetryOutcome(attempt: nat -> Stream<Record>, maxAttempts: nat, i: nat)
    requires i <= maxAttempts
    ensures Retry(attempt, maxAttempts, i).raised.None? <==>
      exists k :: i <= k <= maxAttempts && attempt(k).raised.None?
    ensures (forall k :: i <= k <= maxAttempts ==> attempt(k).raised.Some?) ==>
      Retry(attempt, maxAttempts, i).raised == attempt(maxAttempts).raised
    decreases maxAttempts - i
  {
    if i < maxAttempts && attempt(i).raised.Some? {
      RetryOutcome(attempt, maxAttempts, i + 1);
      RetryStep(attempt, maxAttempts, i);
      assert Retry(attempt, maxAttempts, i).raised == Retry(attempt, maxAttempts, i + 1).raised;
    } else if attempt(i).raised.None? {
      assert i <= i <= maxAttempts && attempt(i).raised.None?;
    }
  }

  /**
   * A push that fails once and then succeeds: the intended retry finishes
   * normally, while the code as written ends with AttributeError.
   */
  lemma RetryAsWrittenNeverRetries(attempt: nat -> Stream<Record>, maxAttempts: nat)
    requires maxAttempts > 0 && attempt(0).raised.Some? && attempt(1).raised.None?
    ensures RetryGenAsWritten(attempt, maxAttempts) == Stream(attempt(0).items, Some(AttributeError))
    ensures Retry(attempt, maxAttempts, 0).raised.None?
  {
    RetryOutcome(attempt, maxAttempts, 0);
    assert 0 <= 1 <= maxAttempts && attempt(1).raised.None?;
  }

  /** A guarded attempt that fails keeps its records and its `warn` record, then the next attempt runs. */
  lemma RetryStep(attempt: nat -> Stream<Record>, maxAttempts: nat, i: nat)
    requires i < maxAttempts && attempt(i).raised.Some?
    ensures Retry(attempt, maxAttempts, i) ==
      Then(Stream(attempt(i).items + [WarnRecord(WarnMessage(attempt(i).raised.value, i))], None), Retry(attempt, maxAttempts, i + 1))
  {
  }

  /** The records of `k` failed attempts, each followed by its `warn` record. */
  function FailedAttempts(attempt: nat -> Stream<Record>, k: nat): seq<Record>
    requires forall j :: 0 <= j < k ==> attempt(j).raised.Some?
  {
    if k == 0 then []
    else FailedAttempts(attempt, k - 1) + attempt(k - 1).items + [WarnRecord(WarnMessage(attempt(k - 1).raised.value, k - 1))]
  }

  /**
   * Nothing a failed attempt yielded is withdrawn: after `k` failed guarded
   * attempts the output holds all their records and exactly one `warn`
   * record per attempt, naming it, before whatever attempt `k` yields.
   */
  lemma {:induction false} RetryKeepsFailedAttempts(attempt: nat -> Stream<Record>, maxAttempts: nat, k: nat)
    requires k <= maxAttempts
    requires forall j :: 0 <= j < k ==> attempt(j).raised.Some?
    ensures Retry(attempt, maxAttempts, 0) == Then(Stream(FailedAttempts(attempt, k), None), Retry(attempt, maxAttempts, k))
  {
    if k == 0 {
      ThenEmpty(Retry(attempt, maxAttempts, 0));
    } else {
      RetryKeepsFailedAttempts(attempt, maxAttempts, k - 1);
      var a := attempt(k - 1);
      var prev := Stream(FailedAttempts(attempt, k - 1), None);
      var failed := Stream(a.items + [WarnRecord(WarnMessage(a.raised.value, k - 1))], None);
      var rest := Retry(attempt, maxAttempts, k);
      RetryStep(attempt, maxAttempts, k - 1);
      ThenAssociative(prev, failed, rest);
      assert Then(prev, failed) == Stream(FailedAttempts(attempt, k), None);
    }
  }

  /** `retry_gen(fn, max_attempts)` under the reading `rd`. */
  function Retried(rd: Reading, attempt: nat -> Stream<Record>, maxAttempts: nat): (r: Stream<Record>)
    ensures attempt(0).raised.None? ==> r == attempt(0)
    ensures maxAttempts == 0 ==> r == attempt(0)
    ensures rd.AsWritten? && maxAttempts > 0 && attempt(0).raised.Some? ==> r == Stream(attempt(0).items, Some(AttributeError))
  {
    match rd
    case AsWritten => RetryGenAsWritten(attempt, maxAttempts)
    case Intended => Retry(attempt, maxAttempts, 0)
  }

  /**
   * `retry_gen(fn, max_attempts)`: the counted loop with its early return
   * and the final attempt; as written, the handler of the first failure
   * raises.
   */
  method RetryGen(rd: Reading, attempt: nat -> Stream<Record>, maxAttempts: nat) returns (s: Stream<Record>)
    ensures s == Retried(rd, attempt, maxAttempts)
  {
    var out: seq<Record> := [];
    var i := 0;
    while i < maxAttempts
      invariant i <= maxAttempts
      invariant rd.AsWritten? ==> i == 0 && out == []
      invariant rd.Intended? ==> Retry(attempt, maxAttempts, 0) == Then(Stream(out, None), Retry(attempt, maxAttempts, i))
    {
      var a := attempt(i);
      if a.raised.None? {
        return Stream(out + a.items, None);
      }
      if rd.AsWritten? {
        // `docker.warn` is not defined: the handler raises AttributeError
        return Stream(out + a.items, Some(AttributeError));
      }
      var failed := Stream(a.items + [WarnRecord(WarnMessage(a.raised.value, i))], None);
      ThenAssociative(Stream(out, None), failed, Retry(attempt, maxAttempts, i + 1));
      out := out + failed.items;
      i := i + 1;
    }
    var last := attempt(maxAttempts);
    return Stream(out + last.items, last.raised);
  }

  // ----------------------------------------------------------- push

  /** `d.update(extra)`: the push's own keys win over the record's. */
  function PushRecord(image: string, evt: Record): (r: Record)
    ensures "event" in r && "image" in r && r["event"] == Str("push") && r["image"] == Str(image)
    ensures forall k :: k in evt && k != "event" && k != "image" ==> k in r && r[k] == evt[k]
  {
    Merge(evt, map["event" := Str("push"), "image" := Str(image)])
  }

  /** `push(client, (image, tag))`: the retried push of one pair, every record marked as a push of `image`. */
  function Push(rd: Reading, push: (string, string, nat) -> Stream<Record>, image: string, tag: string): (r: Stream<Record>)
    ensures forall i :: 0 <= i < |r.items| ==>
      "event" in r.items[i] && "image" in r.items[i] && r.items[i]["event"] == Str("push") && r.items[i]["image"] == Str(image)
    ensures r.raised == Retried(rd, (n: nat) => push(image, tag, n), MaxAttempts).raised
    ensures |r.items| == |Retried(rd, (n: nat) => push(image, tag, n), MaxAttempts).items|
  {
    MapItems(Retried(rd, (n: nat) => push(image, tag, n), MaxAttempts), (evt: Record) => PushRecord(image, evt))
  }

  /**
   * As written, a push whose first call fails ends with AttributeError
   * after that call's records; as intended it is called again.
   */
  lemma PushAsWrittenStopsAtFirstFailure(push: (string, string, nat) -> Stream<Record>, image: string, tag: string)
    requires push(image, tag, 0).raised.Some?
    ensures Push(AsWritten, push, image, tag).raised == Some(AttributeError)
    ensures |Push(AsWritten, push, image, tag).items| == |push(image, tag, 0).items|
    ensures push(image, tag, 1).raised.None? ==> Push(Intended, push, image, tag).raised.None?
  {
    var attempt := (n: nat) => push(image, tag, n);
    assert attempt(0) == push(image, tag, 0);
    if push(image, tag, 1).raised.None? {
      RetryAsWrittenNeverRetries(attempt, MaxAttempts);
    }
  }

  /**
   * The pushes of `pairs`, one after the other: they end normally exactly
   * when every pair's push does.
   */
  function PushAll(rd: Reading, push: (string, string, nat) -> Stream<Record>, pairs: seq<(string, string)>): (r: Stream<Record>)
    ensures r.raised.None? <==> forall i :: 0 <= i < |pairs| ==> Pushed(rd, push, pairs[i])
  {
    if pairs == [] then Empty()
    else
      var init, last := pairs[..|pairs| - 1], pairs[|pairs| - 1];
      PushedSnoc(rd, push, pairs, init);
      Then(PushAll(rd, push, init), Push(rd, push, last.0, last.1))
  }

  lemma PushedSnoc(rd: Reading, push: (string, string, nat) -> Stream<Record>, pairs: seq<(string, string)>, init: seq<(string, string)>)
    requires pairs != [] && init == pairs[..|pairs| - 1]
    ensures (forall i :: 0 <= i < |pairs| ==> Pushed(rd, push, pairs[i])) <==>
      (forall i :: 0 <= i < |init| ==> Pushed(rd, push, init[i])) && Pushed(rd, push, pairs[|pairs| - 1])
  {
    assert forall i :: 0 <= i < |init| ==> init[i] == pairs[i];
  }

  /** The push of one pair ends normally. */
  predicate Pushed(rd: Reading, push: (string, string, nat) -> Stream<Record>, pair: (string, string))
  {
    Push(rd, push, pair.0, pair.1).raised.None?
  }

  /** Pushing two runs of pairs is pushing the first, then the second. */
  lemma {:induction false} PushAllAppend(rd: Reading, push: (string, string, nat) -> Stream<Record>, a: seq<(string, string)>, b: seq<(string, string)>)
    ensures PushAll(rd, push, a + b) == Then(PushAll(rd, push, a), PushAll(rd, push, b))
    decreases |b|
  {
    if b == [] {
      assert a + b == a;
      ThenEmpty(PushAll(rd, push, a));
    } else {
      var init := b[..|b| - 1];
      assert (a + b)[..|a + b| - 1] == a + init;
      PushAllAppend(rd, push, a, init);
      ThenAssociative(PushAll(rd, push, a), PushAll(rd, push, init), Push(rd, push, b[|b| - 1].0, b[|b| - 1].1));
    }
  }

  /** Every record of a push names the pushed image and the `push` event. */
  lemma {:induction false} PushAllMarked(rd: Reading, push: (string, string, nat) -> Stream<Record>, pairs: seq<(string, string)>)
    ensures forall i :: 0 <= i < |PushAll(rd, push, pairs).items| ==>
      "event" in PushAll(rd, push, pairs).items[i] && PushAll(rd, push, pairs).items[i]["event"] == Str("push")
  {
    if pairs != [] {
      PushAllMarked(rd, push, pairs[..|pairs| - 1]);
    }
  }

  /** `do_push(client, images)`: the per-pair pushes chained in the given order. */
  method DoPush(rd: Reading, push: (string, string, nat) -> Stream<Record>, pairs: seq<(string, string)>) returns (s: Stream<Record>)
    ensures s == PushAll(rd, push, pairs)
  {
    s := Empty();
    for i := 0 to |pairs|
      invariant s == PushAll(rd, push, pairs[..i])
    {
      assert pairs[..i + 1][..i] == pairs[..i];
      s := Then(s, Push(rd, push, pairs[i].0, pairs[i].1));
    }
    assert pairs[..|pairs|] == pairs;
  }
}

=== FILE: lib_registry.dfy ===
/**
 * The registry front of `shipwright/_lib/registry.py`: an image name
 * `registry/repository` selects the registry client by its prefix, and the
 * manifest calls are forwarded to that client with the repository.
 *
 * The clients are oracles: what a manifest lookup or store answers.
 */
module LibRegistry {
  import opened Common
  import opened LibImage

  /** A manifest, as the registry hands it out; the model never looks inside. */
  type Manifest = string

  datatype Client = Client(
    get: (string, string) -> Result<Manifest>,          // `client.get_manifest(repository, tag)`
    put: (string, string, Manifest) -> Result<()>)      // `client.put_manifest(repository, tag, manifest)`

  datatype Registry = Registry(registries: map<string, Client>)

  /** `name.partition('/')` finds the first `/` of a name whose prefix has none. */
  lemma PartitionAtSlash(host: string, rest: string)
    requires '/' !in host
    ensures Partition(host + "/" + rest, "/") == (host, "/", rest)
  {
    var s := host + "/" + rest;
    assert OccursAt(s, "/", |host|) by { assert s[|host|..|host| + 1] == "/"; }
    var i := FindFirst(s, "/");
    forall k | 0 <= k < |host| ensures !OccursAt(s, "/", k) {
      assert s[k..k + 1] == [host[k]];
    }
    assert i == Some(|host|);
    assert s[..|host|] == host && s[|host| + 1..] == rest;
  }

  /**
   * `_get_registry_and_repo` as written: the guard `not (registry_name or
   * success or repository)` only rejects the empty name, so a name without
   * `/` is looked up as a registry of its own with an empty repository.
   */
  function RegistryAndRepoAsWritten(registry: Registry, name: string): (r: Result<(Client, string)>)
    ensures r.Err? ==> r.error == RegistryException || r.error == KeyError
    ensures name == "" ==> r == Err(RegistryException)
  {
    var (registryName, success, repository) := Partition(name, "/");
    if !(registryName != "" || success != "" || repository != "") then Err(RegistryException)
    else if registryName in registry.registries then Ok((registry.registries[registryName], repository))
    else Err(KeyError)
  }

  /** As written, RegistryException is raised for the empty name and for no other. */
  lemma AsWrittenRejectsOnlyEmpty(registry: Registry, name: string)
    ensures RegistryAndRepoAsWritten(registry, name) == Err(RegistryException) <==> name == ""
  {
    var parts := Partition(name, "/");
    assert parts.0 + parts.1 + parts.2 == name;
  }

  /**
   * A name of the wrong form, such as `ubuntu`, gets past the guard as
   * written: the whole name is looked up as a registry of its own, with the
   * empty repository, and KeyError is raised when there is no such
   * registry. The intended check rejects it with RegistryException.
   */
  lemma BareNameSlipsThrough(registry: Registry, name: string)
    requires name != "" && '/' !in name
    ensures RegistryAndRepoAsWritten(registry, name) ==
      if name in registry.registries then Ok((registry.registries[name], "")) else Err(KeyError)
    ensures GetRegistryAndRepo(registry, name) == Err(RegistryException)
  {
    var parts := Partition(name, "/");
    assert parts.0 + parts.1 + parts.2 == name;
    assert parts.1 == "";
    assert parts.0 == name && parts.2 == "";
  }

  /**
   * `_get_registry_and_repo` as evidently intended (the error message asks
   * for `registry/name`): a registry prefix, a `/` and a repository are all
   * required; the prefix then selects the client.
   */
  function GetRegistryAndRepo(registry: Registry, name: string): (r: Result<(Client, string)>)
    ensures r.Ok? ==> exists host :: (host in registry.registries && r.value.0 == registry.registries[host]
      && name == host + "/" + r.value.1 && host != "" && r.value.1 != "")
  {
    var (registryName, success, repository) := Partition(name, "/");
    if !(registryName != "" && success != "" && repository != "") then Err(RegistryException)
    else if registryName in registry.registries then Ok((registry.registries[registryName], repository))
    else Err(KeyError)
  }

  /**
   * A name `host/repository` (the host without `/`) selects the client of
   * `host` and the repository after the first `/`; an unknown host raises
   * KeyError.
   */
  lemma RegistryNameSplits(registry: Registry, host: string, repository: string)
    requires host != "" && '/' !in host && repository != ""
    ensures host in registry.registries ==>
      GetRegistryAndRepo(registry, host + "/" + repository) == Ok((registry.registries[host], repository))
    ensures host !in registry.registries ==>
      GetRegistryAndRepo(registry, host + "/" + repository) == Err(KeyError)
  {
    PartitionAtSlash(host, repository);
  }

  /** `_get_registry_and_repo` as written or as intended. */
  function RegistryAndRepo(rd: Reading, registry: Registry, name: string): (r: Result<(Client, string)>)
    ensures name == "" ==> r == Err(RegistryException)
    ensures rd.Intended? && r.Ok? ==> exists host :: (host in registry.registries && r.value.0 == registry.registries[host]
      && name == host + "/" + r.value.1 && host != "" && r.value.1 != "")
  {
    match rd
    case AsWritten => AsWrittenRejectsOnlyEmpty(registry, name); RegistryAndRepoAsWritten(registry, name)
    case Intended => GetRegistryAndRepo(registry, name)
  }

  /**
   * `get_manifest(name, tag)`: the selected client's lookup of
   * `(repository, tag)`, or the exception of the selection.
   */
  function GetManifest(rd: Reading, registry: Registry, name: string, tag: string): (r: Result<Manifest>)
    ensures RegistryAndRepo(rd, registry, name).Err? ==> r == Err(RegistryAndRepo(rd, registry, name).error)
    ensures RegistryAndRepo(rd, registry, name).Ok? ==>
      r == RegistryAndRepo(rd, registry, name).value.0.get(RegistryAndRepo(rd, registry, name).value.1, tag)
  {
    match RegistryAndRepo(rd, registry, name)
    case Err(e) => Err(e)
    case Ok((client, repository)) => client.get(repository, tag)
  }

  /**
   * `put_manifest(name, tag, manifest)`: the selected client's store of
   * `(repository, tag, manifest)`, or the exception of the selection.
   */
  function PutManifest(rd: Reading, registry: Registry, name: string, tag: string, manifest: Manifest): (r: Result<()>)
    ensures RegistryAndRepo(rd, registry, name).Err? ==> r == Err(RegistryAndRepo(rd, registry, name).error)
    ensures RegistryAndRepo(rd, registry, name).Ok? ==>
      r == RegistryAndRepo(rd, registry, name).value.0.put(RegistryAndRepo(rd, registry, name).value.1, tag, manifest)
  {
    match RegistryAndRepo(rd, registry, name)
    case Err(e) => Err(e)
    case Ok((client, repository)) => client.put(repository, tag, manifest)
  }

  /**
   * Under either reading, the manifest calls for `host/repository` reach
   * the client of `host` with the repository alone.
   */
  lemma ManifestCallsForward(rd: Reading, registry: Registry, host: string, repository: string, tag: string, manifest: Manifest)
    requires host != "" && '/' !in host && repository != "" && host in registry.registries
    ensures GetManifest(rd, registry, host + "/" + repository, tag) == registry.registries[host].get(repository, tag)
    ensures PutManifest(rd, registry, host + "/" + repository, tag, manifest) ==
      registry.registries[host].put(repository, tag, manifest)
  {
    RegistryNameSplits(registry, host, repository);
    PartitionAtSlash(host, repository);
  }

  /**
   * For a bare name the readings differ: as written the name's own client
   * is asked with the empty repository (KeyError when there is none), as
   * intended nothing is asked and RegistryException is raised.
   */
  lemma BareNameLookups(registry: Registry, name: string, tag: string)
    requires name != "" && '/' !in name
    ensures GetManifest(AsWritten, registry, name, tag) ==
      if name in registry.registries then registry.registries[name].get("", tag) else Err(KeyError)
    ensures GetManifest(Intended, registry, name, tag) == Err(RegistryException)
  {
    BareNameSlipsThrough(registry, name);
  }
}

=== FILE: lib_source_control.dfy ===
/**
 * The git adapter of `shipwright/_lib/source_control.py`.
 *
 * An image's ref is the short hash of the newest commit touching the copy
 * paths of the image and of every ancestor, followed by a `-dirty-` digest
 * of the uncommitted changes inside those paths. The repository is a value:
 * its working directory, `HEAD`, the uncommitted changes git reports and
 * the git and hash functions the code calls.
 */
module LibSourceControl {
  import opened Common
  import opened Text
  import opened Ordering
  import opened PosixPath
  import opened Fnmatch
  import opened LibImage
  import opened Lineage

  // ------------------------------------------------------------ repository

  /** A file of a diff side: its path and git object id (all zeros when the working tree holds it). */
  datatype Blob = Blob(path: string, hexsha: string)

  /** One entry of `head.commit.diff(None)`: the committed side and the working-tree side. */
  datatype Change = Change(aBlob: Option<Blob>, bBlob: Option<Blob>)

  predicate IsHexDigit(c: char) { '0' <= c <= '9' || 'a' <= c <= 'f' }

  function Repeat(c: char, n: nat): (r: string)
    ensures |r| == n && forall k :: 0 <= k < n ==> r[k] == c
  {
    if n == 0 then [] else [c] + Repeat(c, n - 1)
  }

  /** `hexlify(sha256(...).digest())`: 64 lower-case hex digits. */
  type HexDigest = s: string | |s| == 64 && forall k :: 0 <= k < |s| ==> IsHexDigit(s[k])
    witness Repeat('0', 64)

  datatype Repo = Repo(
    workingDir: string,
    head: string,                              // `repo.commit().hexsha`
    history: seq<string>,                      // `repo.iter_commits(None)`: commit ids, newest first
    detached: bool,                            // `repo.head.is_detached`
    activeBranch: string,                      // `repo.active_branch.name`
    diff: seq<Change>,                         // `repo.head.commit.diff(None)`
    untracked: seq<string>,                    // `repo.untracked_files`
    hashObject: string -> string,              // `git hash-object <path>`
    lastCommit: seq<string> -> Option<string>, // newest commit touching the paths, in topological order
    sha256: string -> HexDigest)               // the digest of the bytes fed to it

  const NullHexSha: string := Repeat('0', 40)

  // ------------------------------------------------------------ short hashes

  /** `_hexsha`: the first twelve digits of a commit id, or twelve `g`s (not a hex digit) when there is no commit. */
  function Hexsha(ref: Option<string>): (r: string)
    ensures ref.None? ==> r == Repeat('g', 12)
    ensures ref.Some? ==> |r| == (if |ref.value| < 12 then |ref.value| else 12)
    ensures ref.Some? ==> StartsWith(ref.value, r)
  {
    match ref
    case None => Repeat('g', 12)
    case Some(sha) => if |sha| < 12 then sha else sha[..12]
  }

  // ------------------------------------------------------------ ancestry

  function NameOf(image: Image): string { image.name }

  function ParentNameOf(image: Image): Option<string> { image.parent }

  /** `c_index`: the listed images by name, a later one replacing an earlier one of the same name. */
  function ImageIndex(images: seq<Image>): map<string, Image>
  {
    IndexBy(images, NameOf)
  }

  /** `_image_parents(index, image)` collected: the image and its ancestors, nearest first; `None` for a cycle. */
  function ImageAncestry(index: map<string, Image>, image: Image): Option<seq<Image>>
  {
    Ancestry(index, ParentNameOf, image)
  }

  // ------------------------------------------------------------ scope

  function CopyPathsOf(chain: seq<Image>): seq<string>
  {
    if chain == [] then [] else chain[0].copyPaths + CopyPathsOf(chain[1..])
  }

  lemma {:induction false} CopyPathsOfElements(chain: seq<Image>, path: string)
    ensures path in CopyPathsOf(chain) <==> exists k :: 0 <= k < |chain| && path in chain[k].copyPaths
  {
    if chain != [] {
      CopyPathsOfElements(chain[1..], path);
      if k :| 1 <= k < |chain| && path in chain[k].copyPaths {
        assert chain[1..][k - 1] == chain[k];
      }
    }
  }

  /** `sorted(frozenset.union(*(p.copy_paths for p in chain)))`. */
  function ScopeOf(chain: seq<Image>): seq<string>
  {
    SortedSet(CopyPathsOf(chain))
  }

  /** The scope is sorted, without repeats, and holds exactly the copy paths of the images of the chain. */
  lemma ScopeMeaning(chain: seq<Image>)
    ensures Sorted(ScopeOf(chain), StrLe) && NoDuplicates(ScopeOf(chain))
    ensures forall path :: path in ScopeOf(chain) <==> exists k :: 0 <= k < |chain| && path in chain[k].copyPaths
  {
    SortedSetIsSorted(CopyPathsOf(chain));
    forall path ensures path in ScopeOf(chain) <==> exists k :: 0 <= k < |chain| && path in chain[k].copyPaths {
      CopyPathsOfElements(chain, path);
      assert path in ScopeOf(chain) <==> path in Ordering.Elements(ScopeOf(chain));
      assert path in CopyPathsOf(chain) <==> path in Ordering.Elements(CopyPathsOf(chain));
    }
  }

  /** A parent's scope lies within its child's: a commit that changes the parent's ref changes the child's. */
  lemma ParentScopeWithinChild(index: map<string, Image>, image: Image)
    requires NamedBy(index, NameOf) && ImageAncestry(index, image).Some? && |ImageAncestry(index, image).value| >= 2
    ensures var ch := ImageAncestry(index, image).value;
            && ImageAncestry(index, ch[1]).Some?
            && Ordering.Elements(ScopeOf(ImageAncestry(index, ch[1]).value)) <= Ordering.Elements(ScopeOf(ch))
            && Ordering.Elements(image.copyPaths) <= Ordering.Elements(ScopeOf(ch))
  {
    var ch := ImageAncestry(index, image).value;
    ParentAncestry(index, NameOf, ParentNameOf, image);
    ScopeMeaning(ch);
    ScopeMeaning(ch[1..]);
    forall path | path in ScopeOf(ch[1..]) ensures path in ScopeOf(ch) {
      var k :| 0 <= k < |ch[1..]| && path in ch[1..][k].copyPaths;
      assert ch[k + 1] == ch[1..][k];
    }
  }

  // ------------------------------------------------------------ base paths

  /** `_abspath`. */
  function AbsPathIn(cwd: AbsPath, repoWd: string, path: string): string
  {
    Abspath(cwd, JoinPath(repoWd, path))
  }

  /** `re.match('[*?]', pattern)`, which only looks at the first character. */
  predicate StartsWithWildcard(pattern: string) { |pattern| > 0 && IsWildcard(pattern[0]) }

  /** `re.search('[*?]', pattern)`: a wildcard anywhere. */
  predicate HasWildcard(pattern: string) { !Literal(pattern) }

  /** The pattern for everything under a directory: a star after a trailing separator, a separator and a star otherwise. */
  function UnderPattern(pattern: string): string
  {
    if EndsWith(pattern, "/") then pattern + "*" else pattern + "/*"
  }

  /** One pass of `_in_paths`' loop: a glob is matched as it is, a plain path as itself or anything below it. */
  predicate MatchesBase(p: string, pattern: string, isGlob: bool)
  {
    if isGlob then Matches(p, pattern)
    else p == pattern || Matches(p, UnderPattern(pattern))
  }

  /** `_in_paths` as written: a base path counts as a glob only when its absolute form starts with a wildcard. */
  predicate InPathsAsWritten(cwd: AbsPath, repoWd: string, basePaths: seq<string>, path: string)
  {
    exists k :: 0 <= k < |basePaths| &&
      (var pattern := AbsPathIn(cwd, repoWd, basePaths[k]);
       MatchesBase(AbsPathIn(cwd, repoWd, path), pattern, StartsWithWildcard(pattern)))
  }

  /** `_in_paths` as evidently intended: the wildcard is searched for anywhere in the pattern. */
  predicate InPathsIntended(cwd: AbsPath, repoWd: string, basePaths: seq<string>, path: string)
  {
    exists k :: 0 <= k < |basePaths| &&
      (var pattern := AbsPathIn(cwd, repoWd, basePaths[k]);
       MatchesBase(AbsPathIn(cwd, repoWd, path), pattern, HasWildcard(pattern)))
  }

  /** `_in_paths` under a reading. */
  predicate InPaths(rd: Reading, cwd: AbsPath, repoWd: string, basePaths: seq<string>, path: string)
  {
    if rd.AsWritten? then InPathsAsWritten(cwd, repoWd, basePaths, path) else InPathsIntended(cwd, repoWd, basePaths, path)
  }

  /**
   * The two readings differ only on base paths with a wildcard: where no
   * base path's absolute form has one, they hold the same paths.
   */
  lemma ReadingsAgreeOnPlainPaths(cwd: AbsPath, repoWd: string, basePaths: seq<string>, path: string)
    requires forall k :: 0 <= k < |basePaths| ==> Literal(AbsPathIn(cwd, repoWd, basePaths[k]))
    ensures InPaths(AsWritten, cwd, repoWd, basePaths, path) <==> InPaths(Intended, cwd, repoWd, basePaths, path)
  {
    forall k | 0 <= k < |basePaths|
      ensures !StartsWithWildcard(AbsPathIn(cwd, repoWd, basePaths[k])) && !HasWildcard(AbsPathIn(cwd, repoWd, basePaths[k]))
    {
      var pattern := AbsPathIn(cwd, repoWd, basePaths[k]);
      if |pattern| > 0 {
        assert pattern[0] in pattern;
      }
    }
  }

  /** As written, the glob branch is dead: an absolute pattern starts with `/`. */
  lemma AsWrittenNeverGlobs(cwd: AbsPath, repoWd: string, basePaths: seq<string>, path: string)
    ensures InPathsAsWritten(cwd, repoWd, basePaths, path) <==>
              exists k :: 0 <= k < |basePaths| &&
                MatchesBase(AbsPathIn(cwd, repoWd, path), AbsPathIn(cwd, repoWd, basePaths[k]), false)
  {
  }

  /** `/r/a.py` is in the base path `*.py` of a repository at `/r` only when wildcards are looked for anywhere. */
  lemma GlobBaseMissed(p: string, pattern: string)
    requires p == "/r/a.py" && pattern == "/r/*.py"
    ensures !MatchesBase(p, pattern, StartsWithWildcard(pattern))
    ensures MatchesBase(p, pattern, HasWildcard(pattern))
  {
    assert pattern[3] == '*';
    var under := UnderPattern(pattern);
    assert under == "/r/*.py/*";
    assert SeparatorCount(p, 7) == 0 && SeparatorCount(p, 6) == 0 && SeparatorCount(p, 5) == 0;
    assert SeparatorCount(p, 4) == 0 && SeparatorCount(p, 3) == 0 && SeparatorCount(p, 2) == 1;
    assert SeparatorCount(p, 1) == 1 && SeparatorCount(p, 0) == 2;
    assert SeparatorCount(under, 9) == 0 && SeparatorCount(under, 8) == 0 && SeparatorCount(under, 7) == 1;
    assert SeparatorCount(under, 6) == 1 && SeparatorCount(under, 5) == 1 && SeparatorCount(under, 4) == 1;
    assert SeparatorCount(under, 3) == 1 && SeparatorCount(under, 2) == 2;
    assert SeparatorCount(under, 1) == 2 && SeparatorCount(under, 0) == 3;
    if MatchFrom(p, 0, under, 0) {
      SlashesNeeded(p, 0, under, 0);
    }
    assert MatchFrom(p, 7, pattern, 7);
    assert MatchFrom(p, 6, pattern, 6);
    assert MatchFrom(p, 5, pattern, 5);
    assert MatchFrom(p, 4, pattern, 4);
    assert MatchFrom(p, 4, pattern, 3);
    assert MatchFrom(p, 3, pattern, 3);
    assert MatchFrom(p, 2, pattern, 2);
    assert MatchFrom(p, 1, pattern, 1);
  }

  /** A base path without wildcards holds itself and everything below it, and nothing else. */
  lemma PlainBaseIsPrefix(p: string, pattern: string)
    requires Literal(pattern)
    ensures MatchesBase(p, pattern, HasWildcard(pattern)) <==>
              p == pattern || StartsWith(p, if EndsWith(pattern, "/") then pattern else pattern + "/")
  {
    var dir := if EndsWith(pattern, "/") then pattern else pattern + "/";
    assert UnderPattern(pattern) == dir + "*";
    assert Literal(dir);
    LiteralStar(p, dir);
  }

  /** A glob base path holds the paths that match it. */
  lemma GlobBaseMatches(p: string, pattern: string)
    requires HasWildcard(pattern)
    ensures MatchesBase(p, pattern, HasWildcard(pattern)) <==> Matches(p, pattern)
  {
  }

  // ------------------------------------------------------------ dirty suffix

  /** `_hash_blob`: the object id git recorded, or the working-tree file hashed afresh. */
  function HashBlob(repo: Repo, b: Blob): string
  {
    if b.hexsha != NullHexSha then b.hexsha else repo.hashObject(JoinPath(repo.workingDir, b.path))
  }

  /** The sides `if b` keeps: the present blobs, in order. */
  function Present(blobs: seq<Option<Blob>>): (r: seq<Blob>)
    ensures |r| <= |blobs|
    ensures (forall k :: 0 <= k < |blobs| ==> blobs[k].Some?) ==>
              |r| == |blobs| && forall k :: 0 <= k < |blobs| ==> r[k] == blobs[k].value
  {
    if blobs == [] then []
    else (if blobs[0].Some? then [blobs[0].value] else []) + Present(blobs[1..])
  }

  /** A blob is kept exactly when it is one of the present sides. */
  lemma {:induction false} PresentMembers(blobs: seq<Option<Blob>>, b: Blob)
    ensures b in Present(blobs) <==> Some(b) in blobs
  {
    if blobs != [] {
      PresentMembers(blobs[1..], b);
      assert Some(b) in blobs <==> blobs[0] == Some(b) || Some(b) in blobs[1..];
    }
  }

  /** Filtering a concatenation filters each part: with the single-side cases above, this fixes the order. */
  lemma {:induction false} PresentAppend(s: seq<Option<Blob>>, t: seq<Option<Blob>>)
    ensures Present(s + t) == Present(s) + Present(t)
  {
    if s != [] {
      assert (s + t)[0] == s[0] && (s + t)[1..] == s[1..] + t;
      PresentAppend(s[1..], t);
    } else {
      assert s + t == t;
    }
  }

  /** `_hash_blobs`: `(path, hash)` for each side that is present, in order, and nothing for a missing side. */
  function HashBlobs(repo: Repo, blobs: seq<Option<Blob>>): (r: seq<(string, string)>)
    ensures |r| == |Present(blobs)| <= |blobs|
    ensures forall k :: 0 <= k < |r| ==> r[k] == (Present(blobs)[k].path, HashBlob(repo, Present(blobs)[k]))
  {
    if blobs == [] then []
    else
      var rest := HashBlobs(repo, blobs[1..]);
      match blobs[0]
      case None => rest
      case Some(b) => [(b.path, HashBlob(repo, b))] + rest
  }

  function ASides(diff: seq<Change>): (r: seq<Option<Blob>>)
    ensures |r| == |diff| && forall k :: 0 <= k < |diff| ==> r[k] == diff[k].aBlob
  {
    seq(|diff|, k requires 0 <= k < |diff| => diff[k].aBlob)
  }

  function BSides(diff: seq<Change>): (r: seq<Option<Blob>>)
    ensures |r| == |diff| && forall k :: 0 <= k < |diff| ==> r[k] == diff[k].bBlob
  {
    seq(|diff|, k requires 0 <= k < |diff| => diff[k].bBlob)
  }

  /** `untracked_hashes`: each untracked file with `git hash-object` of its path, in listing order. */
  function UntrackedHashes(repo: Repo): (r: seq<(string, string)>)
    ensures |r| == |repo.untracked|
    ensures forall k :: 0 <= k < |r| ==> r[k] == (repo.untracked[k], repo.hashObject(repo.untracked[k]))
  {
    seq(|repo.untracked|, k requires 0 <= k < |repo.untracked| => (repo.untracked[k], repo.hashObject(repo.untracked[k])))
  }

  /** `sorted(a_hashes) + sorted(b_hashes + untracked_hashes)`. */
  function Hashes(repo: Repo): seq<(string, string)>
  {
    SortBy(HashBlobs(repo, ASides(repo.diff)), PairLe) +
    SortBy(HashBlobs(repo, BSides(repo.diff)) + UntrackedHashes(repo), PairLe)
  }

  /** The hashes whose path is in the base paths, in order. */
  function InScope(rd: Reading, cwd: AbsPath, repoWd: string, basePaths: seq<string>, hashes: seq<(string, string)>): (r: seq<(string, string)>)
    ensures |r| <= |hashes|
    ensures basePaths == [] ==> r == []
  {
    if hashes == [] then []
    else
      var rest := InScope(rd, cwd, repoWd, basePaths, hashes[1..]);
      if InPaths(rd, cwd, repoWd, basePaths, hashes[0].0) then [hashes[0]] + rest else rest
  }

  /** The filter keeps the hashes whose path is in the base paths, and only those. */
  lemma {:induction false} InScopeMembers(rd: Reading, cwd: AbsPath, repoWd: string, basePaths: seq<string>, hashes: seq<(string, string)>, h: (string, string))
    ensures h in InScope(rd, cwd, repoWd, basePaths, hashes) <==> h in hashes && InPaths(rd, cwd, repoWd, basePaths, h.0)
  {
    if hashes != [] {
      InScopeMembers(rd, cwd, repoWd, basePaths, hashes[1..], h);
      assert h in hashes <==> h == hashes[0] || h in hashes[1..];
    }
  }

  /** The filter is `Filter` with the test of `_in_paths`. */
  lemma {:induction false} InScopeIsFilter(rd: Reading, cwd: AbsPath, repoWd: string, basePaths: seq<string>, keep: ((string, string)) -> bool, hashes: seq<(string, string)>)
    requires forall h :: keep(h) == InPaths(rd, cwd, repoWd, basePaths, h.0)
    ensures InScope(rd, cwd, repoWd, basePaths, hashes) == Filter(keep, hashes)
  {
    if hashes != [] {
      InScopeIsFilter(rd, cwd, repoWd, basePaths, keep, hashes[1..]);
    }
  }

  /**
   * Filtering a concatenation filters each part; with the one-pair cases
   * this fixes the result, so the kept pairs keep the order and repeats of
   * `hashes`.
   */
  lemma InScopeAppend(rd: Reading, cwd: AbsPath, repoWd: string, basePaths: seq<string>, s: seq<(string, string)>, t: seq<(string, string)>)
    ensures InScope(rd, cwd, repoWd, basePaths, s + t) == InScope(rd, cwd, repoWd, basePaths, s) + InScope(rd, cwd, repoWd, basePaths, t)
  {
    var keep := (h: (string, string)) => InPaths(rd, cwd, repoWd, basePaths, h.0);
    InScopeIsFilter(rd, cwd, repoWd, basePaths, keep, s + t);
    InScopeIsFilter(rd, cwd, repoWd, basePaths, keep, s);
    InScopeIsFilter(rd, cwd, repoWd, basePaths, keep, t);
    FilterAppend(keep, s, t);
  }

  /** A single pair is kept exactly when its path is in the base paths. */
  lemma InScopeOne(rd: Reading, cwd: AbsPath, repoWd: string, basePaths: seq<string>, h: (string, string))
    ensures InScope(rd, cwd, repoWd, basePaths, [h]) == if InPaths(rd, cwd, repoWd, basePaths, h.0) then [h] else []
  {
    assert [h][1..] == [];
  }

  /** What the digest is fed: each path, a NUL and its hash, in order. */
  function Stream(hashes: seq<(string, string)>): string
  {
    if hashes == [] then ""
    else Stream(hashes[..|hashes| - 1]) + hashes[|hashes| - 1].0 + "\0" + hashes[|hashes| - 1].1
  }

  /** `_dirty_suffix(repo, base_paths)`. */
  function DirtySuffixOf(rd: Reading, repo: Repo, cwd: AbsPath, basePaths: seq<string>): (r: string)
    ensures r == "" || (|r| == 19 && r[..7] == "-dirty-")
    ensures basePaths == [] ==> r == ""
  {
    var changed := InScope(rd, cwd, repo.workingDir, basePaths, Hashes(repo));
    if changed == [] then "" else "-dirty-" + repo.sha256(Stream(changed))[..12]
  }

  /** `_dirty_suffix`: filters the changed files, then feeds each to the digest in turn. */
  method DirtySuffix(rd: Reading, repo: Repo, cwd: AbsPath, basePaths: seq<string>) returns (suffix: string)
    ensures suffix == DirtySuffixOf(rd, repo, cwd, basePaths)
  {
    var changed := InScope(rd, cwd, repo.workingDir, basePaths, Hashes(repo));
    if changed == [] {
      return "";
    }
    var fed := Feed(changed);
    suffix := "-dirty-" + repo.sha256(fed)[..12];
  }

  /** The loop of `_dirty_suffix` that feeds the digest: each path, a NUL and its hash, in turn. */
  method Feed(hashes: seq<(string, string)>) returns (fed: string)
    ensures fed == Stream(hashes)
  {
    fed := "";
    for i := 0 to |hashes|
      invariant fed == Stream(hashes[..i])
    {
      assert hashes[..i + 1][..i] == hashes[..i];
      fed := fed + hashes[i].0 + "\0" + hashes[i].1;
    }
    assert hashes[..|hashes|] == hashes;
  }

  /**
   * The suffix is empty exactly when no changed or untracked file lies in
   * the base paths, and otherwise `-dirty-` and twelve hex digits.
   */
  lemma DirtySuffixShape(rd: Reading, repo: Repo, cwd: AbsPath, basePaths: seq<string>)
    ensures var s := DirtySuffixOf(rd, repo, cwd, basePaths);
            && (s == "" <==> forall h :: h in Hashes(repo) ==> !InPaths(rd, cwd, repo.workingDir, basePaths, h.0))
            && (s != "" ==> |s| == 19 && StartsWith(s, "-dirty-") && forall k :: 7 <= k < 19 ==> IsHexDigit(s[k]))
  {
    InScopeEmpty(rd, cwd, repo.workingDir, basePaths, Hashes(repo));
  }

  /** Nothing is kept exactly when no hash's path lies in the base paths. */
  lemma InScopeEmpty(rd: Reading, cwd: AbsPath, repoWd: string, basePaths: seq<string>, hashes: seq<(string, string)>)
    ensures InScope(rd, cwd, repoWd, basePaths, hashes) == [] <==> forall h :: h in hashes ==> !InPaths(rd, cwd, repoWd, basePaths, h.0)
  {
    var changed := InScope(rd, cwd, repoWd, basePaths, hashes);
    if changed != [] {
      InScopeMembers(rd, cwd, repoWd, basePaths, hashes, changed[0]);
    }
    forall h | h in hashes && InPaths(rd, cwd, repoWd, basePaths, h.0) ensures changed != [] {
      InScopeMembers(rd, cwd, repoWd, basePaths, hashes, h);
    }
  }

  /** The order git lists changes and untracked files in does not change the suffix. */
  lemma DirtySuffixIgnoresListingOrder(rd: Reading, r1: Repo, r2: Repo, cwd: AbsPath, basePaths: seq<string>)
    requires r1.workingDir == r2.workingDir && r1.sha256 == r2.sha256
    requires multiset(HashBlobs(r1, ASides(r1.diff))) == multiset(HashBlobs(r2, ASides(r2.diff)))
    requires multiset(HashBlobs(r1, BSides(r1.diff)) + UntrackedHashes(r1)) ==
             multiset(HashBlobs(r2, BSides(r2.diff)) + UntrackedHashes(r2))
    ensures DirtySuffixOf(rd, r1, cwd, basePaths) == DirtySuffixOf(rd, r2, cwd, basePaths)
  {
    PairLeIsTotalOrder();
    SortByDependsOnMultiset(HashBlobs(r1, ASides(r1.diff)), HashBlobs(r2, ASides(r2.diff)), PairLe);
    SortByDependsOnMultiset(HashBlobs(r1, BSides(r1.diff)) + UntrackedHashes(r1),
                            HashBlobs(r2, BSides(r2.diff)) + UntrackedHashes(r2), PairLe);
  }

  // ------------------------------------------------------------ repository queries

  /** `is_dirty`: there are untracked files or uncommitted changes. */
  predicate IsDirty(repo: Repo)
  {
    |repo.untracked| > 0 || |repo.diff| > 0
  }

  /** A dirty suffix only appears in a dirty repository. */
  lemma SuffixOnlyWhenDirty(rd: Reading, repo: Repo, cwd: AbsPath, basePaths: seq<string>)
    ensures DirtySuffixOf(rd, repo, cwd, basePaths) != "" ==> IsDirty(repo)
  {
    if !IsDirty(repo) {
      assert ASides(repo.diff) == [] && BSides(repo.diff) == [];
      assert UntrackedHashes(repo) == [];
      assert Hashes(repo) == [];
    }
  }

  /** `default_tags`: the checked-out branch, or nothing on a detached head. */
  function DefaultTags(repo: Repo): (tags: seq<string>)
    ensures repo.detached <==> tags == []
    ensures !repo.detached ==> tags == [repo.activeBranch]
  {
    if repo.detached then [] else [repo.activeBranch]
  }

  /** `this_ref_str`: `HEAD`'s short hash and the dirty suffix of the whole working tree. */
  method ThisRefStr(rd: Reading, repo: Repo, cwd: AbsPath) returns (ref: string)
    ensures |repo.head| >= 12 ==> |ref| >= 12 && ref[..12] == repo.head[..12]
    ensures ref == Hexsha(Some(repo.head)) + DirtySuffixOf(rd, repo, cwd, ["."])
  {
    var suffix := DirtySuffix(rd, repo, cwd, ["."]);
    ref := Hexsha(Some(repo.head)) + suffix;
  }

  /** `get_mode`: git when the directory holds `.git`, otherwise `SourceControlNotFound`. */
  function GetMode(path: string, isDir: string -> bool): (r: Result<()>)
    ensures r.Ok? <==> isDir(JoinPath(path, ".git"))
    ensures r.Err? ==> r.error == NotFound
  {
    if isDir(JoinPath(path, ".git")) then Ok(()) else Err(NotFound)
  }

  // ------------------------------------------------------------ targets

  /** The `Target` of `targets`; its `children` field is always `None` and is left out. */
  datatype Target = Target(image: Image, ref: string)

  /** The paths whose history makes an image's ref: those of the image and of all its ancestors; `None` for a cycle. */
  function ScopeFor(index: map<string, Image>, image: Image): Option<seq<string>>
  {
    match ImageAncestry(index, image)
    case None => None
    case Some(chain) => Some(ScopeOf(chain))
  }

  /** The scopes of a run of images, in order; `None` when some image's ancestry is a cycle. */
  function ScopesOf(index: map<string, Image>, images: seq<Image>): (r: Option<seq<seq<string>>>)
    ensures r.Some? ==> |r.value| == |images|
  {
    if images == [] then Some([])
    else
      match ScopesOf(index, images[..|images| - 1])
      case None => None
      case Some(init) =>
        match ScopeFor(index, images[|images| - 1])
        case None => None
        case Some(scope) => Some(init + [scope])
  }

  /** `ScopeFor` with the index fixed, as a function value. */
  function ScopeFinder(index: map<string, Image>): (f: Image -> Option<seq<string>>)
    ensures forall image :: f(image) == ScopeFor(index, image)
  {
    image => ScopeFor(index, image)
  }

  /** The scopes are `ScopeFor` applied image by image. */
  lemma {:induction false} ScopesOfMapSome(index: map<string, Image>, images: seq<Image>)
    ensures ScopesOf(index, images) == MapSome(ScopeFinder(index), images)
  {
    if images != [] {
      ScopesOfMapSome(index, images[..|images| - 1]);
    }
  }

  /** There are scopes exactly when no image's ancestry is a cycle. */
  lemma ScopesOfSome(index: map<string, Image>, images: seq<Image>)
    ensures ScopesOf(index, images).Some? <==> forall k :: 0 <= k < |images| ==> ScopeFor(index, images[k]).Some?
  {
    ScopesOfMapSome(index, images);
    MapSomeAllSome(ScopeFinder(index), images);
  }

  /** The `k`-th scope is the `k`-th image's. */
  lemma {:induction false} ScopesOfAt(index: map<string, Image>, images: seq<Image>, k: nat)
    requires k < |images| && ScopesOf(index, images).Some?
    ensures Some(ScopesOf(index, images).value[k]) == ScopeFor(index, images[k])
  {
    var init := images[..|images| - 1];
    if k < |images| - 1 {
      ScopesOfAt(index, init, k);
      assert init[k] == images[k];
    }
  }

  /** Once a prefix has a cycle, so has every longer one. */
  lemma {:induction false} NoScopesAfterCycle(index: map<string, Image>, images: seq<Image>, i: nat)
    requires i <= |images| && ScopesOf(index, images[..i]).None?
    ensures ScopesOf(index, images).None?
    decreases |images| - i
  {
    if i < |images| {
      assert images[..i + 1][..i] == images[..i];
      NoScopesAfterCycle(index, images, i + 1);
    } else {
      assert images[..i] == images;
    }
  }

  /** The ref of an image whose chain has the given scope. */
  function RefOf(rd: Reading, repo: Repo, cwd: AbsPath, scope: seq<string>): (r: string)
    ensures |r| == |Hexsha(repo.lastCommit(scope))| || |r| == |Hexsha(repo.lastCommit(scope))| + 19
  {
    Hexsha(repo.lastCommit(scope)) + DirtySuffixOf(rd, repo, cwd, scope)
  }

  /**
   * A ref is the short hash of the newest commit in its scope, with a
   * suffix exactly when a changed or untracked file lies in the scope.
   */
  lemma RefShape(rd: Reading, repo: Repo, cwd: AbsPath, scope: seq<string>)
    ensures StartsWith(RefOf(rd, repo, cwd, scope), Hexsha(repo.lastCommit(scope)))
    ensures RefOf(rd, repo, cwd, scope) == Hexsha(repo.lastCommit(scope)) <==>
              forall h :: h in Hashes(repo) ==> !InPaths(rd, cwd, repo.workingDir, scope, h.0)
  {
    DirtySuffixShape(rd, repo, cwd, scope);
    var h := Hexsha(repo.lastCommit(scope));
    assert RefOf(rd, repo, cwd, scope)[..|h|] == h;
  }

  /** The body of `targets`' loop for one image. */
  method TargetFor(rd: Reading, repo: Repo, cwd: AbsPath, index: map<string, Image>, image: Image) returns (t: Option<Target>)
    ensures t.None? <==> ScopeFor(index, image).None?
    ensures t.Some? ==> t.value == Target(image, RefOf(rd, repo, cwd, ScopeFor(index, image).value))
  {
    var chain := Parents(index, ParentNameOf, image);
    if chain.None? {
      return None;
    }
    var scope := ScopeOf(chain.value);
    var suffix := DirtySuffix(rd, repo, cwd, scope);
    return Some(Target(image, Hexsha(repo.lastCommit(scope)) + suffix));
  }

  /** The targets of a run of images with the given scopes. */
  function TargetsWith(rd: Reading, repo: Repo, cwd: AbsPath, images: seq<Image>, scopes: seq<seq<string>>): (r: seq<Target>)
    requires |scopes| == |images|
    ensures |r| == |images|
  {
    if images == [] then []
    else
      TargetsWith(rd, repo, cwd, images[..|images| - 1], scopes[..|scopes| - 1]) +
      [Target(images[|images| - 1], RefOf(rd, repo, cwd, scopes[|scopes| - 1]))]
  }

  /** The `k`-th target is the `k`-th image with the ref of the `k`-th scope. */
  lemma {:induction false} TargetsWithAt(rd: Reading, repo: Repo, cwd: AbsPath, images: seq<Image>, scopes: seq<seq<string>>, k: nat)
    requires |scopes| == |images| && k < |images|
    ensures TargetsWith(rd, repo, cwd, images, scopes)[k] == Target(images[k], RefOf(rd, repo, cwd, scopes[k]))
  {
    if k < |images| - 1 {
      TargetsWithAt(rd, repo, cwd, images[..|images| - 1], scopes[..|scopes| - 1], k);
    }
  }

  /** An image with a scope extends the scopes of the images before it. */
  lemma ScopesOfSnoc(index: map<string, Image>, images: seq<Image>, i: nat, scopes: seq<seq<string>>)
    requires i < |images| && ScopeFor(index, images[i]).Some?
    requires ScopesOf(index, images[..i]) == Some(scopes)
    ensures ScopesOf(index, images[..i + 1]) == Some(scopes + [ScopeFor(index, images[i]).value])
  {
    assert images[..i + 1][..i] == images[..i];
  }

  /** One more image and scope add that image's target. */
  lemma TargetsWithSnoc(rd: Reading, repo: Repo, cwd: AbsPath, images: seq<Image>, i: nat, scopes: seq<seq<string>>, scope: seq<string>)
    requires i < |images| && |scopes| == i
    ensures TargetsWith(rd, repo, cwd, images[..i + 1], scopes + [scope]) ==
              TargetsWith(rd, repo, cwd, images[..i], scopes) + [Target(images[i], RefOf(rd, repo, cwd, scope))]
  {
    assert images[..i + 1][..i] == images[..i];
    assert (scopes + [scope])[..i] == scopes;
  }

  /** Where `targets`' loop gives up: an image without a scope leaves the whole run without scopes. */
  lemma TargetsInStop(index: map<string, Image>, images: seq<Image>, i: nat, scopes: seq<seq<string>>)
    requires i < |images| && ScopeFor(index, images[i]).None?
    requires ScopesOf(index, images[..i]) == Some(scopes)
    ensures ScopesOf(index, images).None?
  {
    var prefix := images[..i + 1];
    assert prefix[..|prefix| - 1] == images[..i] && prefix[|prefix| - 1] == images[i];
    assert ScopesOf(index, prefix).None?;
    NoScopesAfterCycle(index, images, i + 1);
  }

  /** `targets`' loop: one target per image, in order, or `None` at the first image whose ancestry is a cycle. */
  method TargetsIn(rd: Reading, repo: Repo, cwd: AbsPath, index: map<string, Image>, images: seq<Image>) returns (r: Option<seq<Target>>)
    ensures r.Some? <==> ScopesOf(index, images).Some?
    ensures r.Some? ==> r.value == TargetsWith(rd, repo, cwd, images, ScopesOf(index, images).value)
  {
    var targets: seq<Target> := [];
    ghost var scopes: seq<seq<string>> := [];
    for i := 0 to |images|
      invariant ScopesOf(index, images[..i]) == Some(scopes)
      invariant targets == TargetsWith(rd, repo, cwd, images[..i], scopes)
    {
      var t := TargetFor(rd, repo, cwd, index, images[i]);
      if t.None? {
        TargetsInStop(index, images, i, scopes);
        return None;
      }
      ScopesOfSnoc(index, images, i, scopes);
      TargetsWithSnoc(rd, repo, cwd, images, i, scopes, ScopeFor(index, images[i]).value);
      targets := targets + [t.value];
      scopes := scopes + [ScopeFor(index, images[i]).value];
    }
    assert images[..|images|] == images;
    return Some(targets);
  }

  /**
   * `targets`: the listed images indexed by name, then one target per
   * image, in order; `None` when some image's ancestry is a cycle, where
   * the loop never ends.
   */
  method Targets(rd: Reading, repo: Repo, cwd: AbsPath, images: seq<Image>) returns (r: Option<seq<Target>>)
    ensures r.Some? <==> forall k :: 0 <= k < |images| ==> ImageAncestry(ImageIndex(images), images[k]).Some?
    ensures r.Some? ==> |r.value| == |images|
    ensures r.Some? ==> forall k :: 0 <= k < |images| ==>
                          r.value[k] == Target(images[k], RefOf(rd, repo, cwd, ScopeFor(ImageIndex(images), images[k]).value))
  {
    var index := ImageIndex(images);
    ScopesOfSome(index, images);
    r := TargetsIn(rd, repo, cwd, index, images);
    if r.Some? {
      forall k | 0 <= k < |images|
        ensures r.value[k] == Target(images[k], RefOf(rd, repo, cwd, ScopeFor(index, images[k]).value))
      {
        ScopesOfAt(index, images, k);
        TargetsWithAt(rd, repo, cwd, images, ScopesOf(index, images).value, k);
      }
    }
  }
}

=== FILE: lib_targets.dfy ===
/**
 * `shipwright/_lib/targets.py`: the listing of every `name:tag` string a
 * run would produce, for the images up to the given names. The
 * configuration file and the environment only choose the namespace and
 * the name map of the source control, whose answers are given here.
 */
module LibTargets {
  import opened Common
  import LibDocker
  import LibSourceControl
  import LibDependencies
  import LibBase
  import LibCache
  import Fn

  type Target = LibSourceControl.Target

  /** The selection `targets` hands to `dependencies.eval`: only `upto`, a missing one read as empty. */
  function UptoSelection(upto: Option<seq<string>>): (r: LibDependencies.Selection)
    ensures r.exact == [] && r.dependents == [] && r.exclude == []
    ensures upto.None? ==> r.upto == []
    ensures upto.Some? ==> r.upto == upto.value
  {
    LibDependencies.Selection(OptionOr(upto, []), [], [], [])
  }

  /** `all_tags`: the extra tags (none when missing), the default tags, then the current ref. */
  function AllTags(tags: Option<seq<string>>, scm: LibBase.SourceControl): seq<string>
  {
    OptionOr(tags, []) + scm.defaultTags + [scm.thisRefStr]
  }

  /**
   * The listing puts the extra tags before the default ones, where a run
   * of `Shipwright` puts them after: the two lists hold the same tags, end
   * with the current ref, and agree whenever either group is empty.
   */
  lemma AllTagsVersusTagList(tags: Option<seq<string>>, scm: LibBase.SourceControl)
    ensures var listed := AllTags(tags, scm);
      var run := LibBase.TagList(scm.defaultTags, OptionOr(tags, []), scm.thisRefStr);
      && multiset(listed) == multiset(run)
      && |listed| == |run| && listed[|listed| - 1] == run[|run| - 1] == scm.thisRefStr
      && (OptionOr(tags, []) == [] || scm.defaultTags == [] ==> listed == run)
  {
    var extra := OptionOr(tags, []);
    assert AllTags(tags, scm) == extra + scm.defaultTags + [scm.thisRefStr];
    if extra == [] {
      assert extra + scm.defaultTags == scm.defaultTags + extra;
    } else if scm.defaultTags == [] {
      assert extra + scm.defaultTags == scm.defaultTags + extra;
    }
  }

  /** One image's lines: `name:ref`, then a line for each tag. */
  function Entries(image: Target, allTags: seq<string>): (r: seq<string>)
    ensures |r| == 1 + |allTags|
  {
    [image.image.name + ":" + image.ref] +
      seq(|allTags|, j requires 0 <= j < |allTags| => image.image.name + ":" + LibDocker.EncodeTag(allTags[j]))
  }

  /**
   * The first line names the image at its ref as it is; each later line
   * names it at one tag, in order, with every `/` of the tag made a `-`.
   */
  lemma EntriesAt(image: Target, allTags: seq<string>)
    ensures var r := Entries(image, allTags);
      var prefix := image.image.name + ":";
      && r[0] == prefix + image.ref
      && forall j :: 0 <= j < |allTags| ==>
           && r[1 + j] == prefix + LibDocker.EncodeTag(allTags[j])
           && |r[1 + j]| == |prefix| + |allTags[j]|
           && '/' !in r[1 + j][|prefix|..]
  {
    var prefix := image.image.name + ":";
    forall j | 0 <= j < |allTags|
      ensures (prefix + LibDocker.EncodeTag(allTags[j]))[|prefix|..] == LibDocker.EncodeTag(allTags[j])
    {
    }
  }

  /** `list(_targets())`: every image's lines, image by image. */
  function Listing(targets: seq<Target>, allTags: seq<string>): seq<string>
  {
    if targets == [] then []
    else Listing(targets[..|targets| - 1], allTags) + Entries(targets[|targets| - 1], allTags)
  }

  /**
   * The listing is the images' groups of lines laid end to end, image by
   * image, each its ref line and then one line per tag (`Entries`).
   */
  lemma {:induction false} ListingGroups(targets: seq<Target>, allTags: seq<string>)
    ensures Listing(targets, allTags) ==
      Fn.Flatten(seq(|targets|, i requires 0 <= i < |targets| => Entries(targets[i], allTags)))
  {
    if targets != [] {
      var init := targets[..|targets| - 1];
      ListingGroups(init, allTags);
      var groups := seq(|targets|, i requires 0 <= i < |targets| => Entries(targets[i], allTags));
      assert groups[..|targets| - 1] == seq(|init|, i requires 0 <= i < |init| => Entries(init[i], allTags));
    }
  }

  /** One line per image for its ref and one per image and tag. */
  lemma {:induction false} ListingLength(targets: seq<Target>, allTags: seq<string>)
    ensures |Listing(targets, allTags)| == |targets| * (1 + |allTags|)
  {
    if targets != [] {
      var init := targets[..|targets| - 1];
      ListingLength(init, allTags);
      MulSucc(|init|, (1 + |allTags|));
    }
  }

  /** `targets(path, upto, tags)`: the lines of the images up to `upto`, under the extra tags. */
  method Targets(scm: LibBase.SourceControl, eval: LibDependencies.Eval, upto: Option<seq<string>>, tags: Option<seq<string>>)
    returns (r: seq<string>)
    ensures r == Listing(eval(UptoSelection(upto), scm.targets), AllTags(tags, scm))
  {
    var targets := eval(UptoSelection(upto), scm.targets);
    var allTags := AllTags(tags, scm);
    r := [];
    for i := 0 to |targets|
      invariant r == Listing(targets[..i], allTags)
    {
      var image := targets[i];
      var group := Entries(image, allTags);
      r := r + [image.image.name + ":" + image.ref];
      for j := 0 to |allTags|
        invariant r == Listing(targets[..i], allTags) + group[..j + 1]
      {
        assert group[..j + 2] == group[..j + 1] + [group[j + 1]];
        r := r + [image.image.name + ":" + LibDocker.EncodeTag(allTags[j])];
      }
      assert group[..|allTags| + 1] == group;
      assert targets[..i + 1][..i] == targets[..i];
    }
    assert targets[..|targets|] == targets;
  }
}

=== FILE: lib_zipper.dfy ===
/**
 * The functional zipper of `shipwright/_lib/zipper.py`: a location in a
 * tree made of the focused node and the path back to the root.
 *
 * The Python zipper is generic over a node type and three callbacks
 * (`is_branch`, `children`, `make_node`). Nodes are modelled as a rose
 * tree whose nodes own their children: `is_branch` is `Branch?`,
 * `children` is `kids`, and `make_node(n, cs)` rebuilds `n` with children
 * `cs`. The repository's one client, `make_tree` in
 * `shipwright/dependencies.py`, differs: it looks children up in a graph
 * and its `make_node` returns the node unchanged, dropping `cs`. It only
 * navigates, where the two agree; an edit under that client would lose
 * its new children, which this model does not capture.
 *
 * A Python `Path(l, r, pnodes, ppath, changed)` is a `Frame`; its `pnodes`
 * tuple always ends in the parent of the focus, which `Frame` keeps as
 * `pnode`. A path of `None` is `Nil`, and the empty tuple `()` that
 * `preorder_next` installs to mark the end of a walk is `Ended`.
 */
module LibZipper {
  import opened Common

  datatype Tree<T> = Leaf(value: T) | Branch(value: T, kids: seq<Tree<T>>)

  datatype Path<T> =
    | Nil
    | Ended
    | Frame(l: seq<Tree<T>>, r: seq<Tree<T>>, pnode: Tree<T>, ppath: Path<T>, changed: bool)

  datatype Loc<T> = Loc(current: Tree<T>, path: Path<T>)

  // ---------------------------------------------------------------- sizes

  function Size<T>(t: Tree<T>): (n: nat)
    ensures n >= 1
  {
    match t
    case Leaf(_) => 1
    case Branch(_, kids) => 1 + SizeForest(kids)
  }

  function SizeForest<T>(ts: seq<Tree<T>>): nat
  {
    if ts == [] then 0 else Size(ts[0]) + SizeForest(ts[1..])
  }

  function Depth<T>(p: Path<T>): nat
  {
    if p.Frame? then 1 + Depth(p.ppath) else 0
  }

  /** The nodes a post-order walk has still to visit above the focus (a termination measure). */
  function Remaining<T>(p: Path<T>): nat
  {
    if p.Frame? then SizeForest(p.r) + 1 + Remaining(p.ppath) else 0
  }

  // ------------------------------------------------------------- context

  function Zipper<T>(root: Tree<T>): (loc: Loc<T>)
    ensures loc.current == root && AtEnd(loc)
  {
    Loc(root, Nil)
  }

  predicate IsBranch<T>(loc: Loc<T>) { loc.current.Branch? }

  function Children<T>(loc: Loc<T>): (cs: Option<seq<Tree<T>>>)
    ensures cs.Some? <==> IsBranch(loc)
  {
    if loc.current.Branch? then Some(loc.current.kids) else None
  }

  /** `at_end`: the path is falsy, that is `None` or `()`. */
  predicate AtEnd<T>(loc: Loc<T>) { !loc.path.Frame? }

  function MakeNode<T>(n: Tree<T>, kids: seq<Tree<T>>): Tree<T>
  {
    Branch(n.value, kids)
  }

  /** `ppath and ppath._replace(changed=True)`. */
  function MarkChanged<T>(p: Path<T>): (q: Path<T>)
    ensures Depth(q) == Depth(p) && Remaining(q) == Remaining(p)
  {
    if p.Frame? then p.(changed := true) else p
  }

  /** The focus and its siblings, in order, when the focus has a parent. */
  function Siblings<T>(loc: Loc<T>): seq<Tree<T>>
    requires loc.path.Frame?
  {
    loc.path.l + [loc.current] + loc.path.r
  }

  // ---------------------------------------------------------- navigation

  function Down<T>(loc: Loc<T>): (d: Option<Loc<T>>)
    ensures d.Some? <==> IsBranch(loc) && loc.current.kids != []
    ensures d.Some? ==>
              && d.value.path.Frame? && d.value.path.l == []
              && Siblings(d.value) == loc.current.kids && d.value.path.pnode == loc.current
              && d.value.path.ppath == loc.path && !d.value.path.changed
  {
    match loc.current
    case Leaf(_) => None
    case Branch(_, kids) =>
      if kids == [] then None
      else Some(Loc(kids[0], Frame([], kids[1..], loc.current, loc.path, false)))
  }

  function Up<T>(loc: Loc<T>): (u: Option<Loc<T>>)
    ensures u.Some? <==> loc.path.Frame?
    ensures u.Some? ==> Depth(u.value.path) + 1 == Depth(loc.path)
    ensures u.Some? && loc.path.changed ==>
      u.value.current == Branch(loc.path.pnode.value, Siblings(loc))
    ensures u.Some? && !loc.path.changed ==> u.value == Loc(loc.path.pnode, loc.path.ppath)
  {
    match loc.path
    case Frame(l, r, pnode, ppath, changed) =>
      if changed then Some(Loc(MakeNode(pnode, l + [loc.current] + r), MarkChanged(ppath)))
      else Some(Loc(pnode, ppath))
    case _ => None
  }

  function TopOf<T>(loc: Loc<T>): (t: Loc<T>)
    ensures AtEnd(t)
    decreases Depth(loc.path)
  {
    if loc.path.Frame? then TopOf(Up(loc).value) else loc
  }

  /** `top`: climbs until the path is falsy. */
  method Top<T>(loc: Loc<T>) returns (t: Loc<T>)
    ensures t == TopOf(loc)
  {
    t := loc;
    while t.path.Frame?
      invariant TopOf(t) == TopOf(loc)
      decreases Depth(t.path)
    {
      t := Up(t).value;
    }
  }

  function Right<T>(loc: Loc<T>): (x: Option<Loc<T>>)
    ensures x.Some? <==> loc.path.Frame? && loc.path.r != []
    ensures x.Some? ==>
              && x.value.path.Frame? && Siblings(x.value) == Siblings(loc)
              && |x.value.path.l| == |loc.path.l| + 1
              && x.value.path.pnode == loc.path.pnode && x.value.path.ppath == loc.path.ppath
              && x.value.path.changed == loc.path.changed
  {
    match loc.path
    case Frame(l, r, pnode, ppath, changed) =>
      if r == [] then None
      else Some(Loc(r[0], Frame(l + [loc.current], r[1..], pnode, ppath, changed)))
    case _ => None
  }

  /** `_rightmost` (`rightmost` in the older zipper): the last sibling, or the location itself at the top. */
  function Rightmost<T>(loc: Loc<T>): (x: Loc<T>)
    ensures !loc.path.Frame? ==> x == loc
    ensures loc.path.Frame? ==>
              && x.path.Frame? && x.path.r == [] && Siblings(x) == Siblings(loc)
              && x.path.pnode == loc.path.pnode && x.path.ppath == loc.path.ppath
              && x.path.changed == loc.path.changed
  {
    match loc.path
    case Frame(l, r, pnode, ppath, changed) =>
      var t := l + [loc.current] + r;
      assert t == t[..|t| - 1] + [t[|t| - 1]];
      Loc(t[|t| - 1], Frame(t[..|t| - 1], [], pnode, ppath, changed))
    case _ => loc
  }

  function LeftmostDescendantOf<T>(loc: Loc<T>): (x: Loc<T>)
    ensures !(x.current.Branch? && x.current.kids != [])
    decreases loc.current
  {
    if loc.current.Branch? && loc.current.kids != [] then LeftmostDescendantOf(Down(loc).value) else loc
  }

  method LeftmostDescendant<T>(loc: Loc<T>) returns (x: Loc<T>)
    ensures x == LeftmostDescendantOf(loc)
  {
    x := loc;
    while IsBranch(x)
      invariant LeftmostDescendantOf(x) == LeftmostDescendantOf(loc)
      decreases x.current
    {
      var d := Down(x);
      if d.Some? {
        x := d.value;
      } else {
        break;
      }
    }
  }

  function RightmostDescendantOf<T>(loc: Loc<T>): (x: Loc<T>)
    ensures !(x.current.Branch? && x.current.kids != [])
    decreases loc.current
  {
    if loc.current.Branch? && loc.current.kids != [] then
      var kids := loc.current.kids;
      assert Rightmost(Down(loc).value).current == kids[|kids| - 1];
      RightmostDescendantOf(Rightmost(Down(loc).value))
    else loc
  }

  /** `_rightmost_descendant`. */
  method RightmostDescendant<T>(loc: Loc<T>) returns (x: Loc<T>)
    ensures x == RightmostDescendantOf(loc)
  {
    x := loc;
    while IsBranch(x)
      invariant RightmostDescendantOf(x) == RightmostDescendantOf(loc)
      decreases x.current
    {
      var d := Down(x);
      if d.Some? {
        var kids := x.current.kids;
        assert Rightmost(d.value).current == kids[|kids| - 1];
        x := Rightmost(d.value);
      } else {
        break;
      }
    }
  }

  lemma {:induction false} LeftmostDescendantRemaining<T>(loc: Loc<T>)
    ensures Remaining(LeftmostDescendantOf(loc).path) + Size(LeftmostDescendantOf(loc).current)
      == Remaining(loc.path) + Size(loc.current)
    decreases loc.current
  {
    if loc.current.Branch? && loc.current.kids != [] {
      LeftmostDescendantRemaining(Down(loc).value);
    }
  }

  /** One step of a post-order walk; it fails only at the top. */
  function PostorderNext<T>(loc: Loc<T>): (n: Option<Loc<T>>)
    ensures n.Some? <==> loc.path.Frame?
    ensures n.Some? ==> Remaining(n.value.path) < Remaining(loc.path)
  {
    match Right(loc)
    case Some(x) =>
      LeftmostDescendantRemaining(x);
      Some(LeftmostDescendantOf(x))
    case None => Up(loc)
  }

  // ------------------------------------------------------------- editing

  function Replace<T>(loc: Loc<T>, value: Tree<T>): (x: Loc<T>)
    ensures x.current == value
    ensures x.path.Frame? <==> loc.path.Frame?
    ensures loc.path.Frame? ==> x.path == loc.path.(changed := true)
    ensures !loc.path.Frame? ==> x.path == loc.path
  {
    if loc.path.Frame? then Loc(value, loc.path.(changed := true)) else Loc(value, loc.path)
  }

  /** `edit(f, *args)`, with the extra arguments folded into `f`. */
  function Edit<T>(loc: Loc<T>, f: Tree<T> -> Tree<T>): (x: Loc<T>)
    ensures x.current == f(loc.current)
    ensures x.path == if loc.path.Frame? then loc.path.(changed := true) else loc.path
  {
    Replace(loc, f(loc.current))
  }

  /** `insert`: a new leftmost child; a leaf has no children tuple to extend, so Python raises `TypeError`. */
  function Insert<T>(loc: Loc<T>, item: Tree<T>): (x: Result<Loc<T>>)
    ensures x.Ok? <==> IsBranch(loc)
    ensures x.Ok? ==> x.value.current == Branch(loc.current.value, [item] + loc.current.kids)
    ensures x.Ok? ==> x.value.path == if loc.path.Frame? then loc.path.(changed := true) else loc.path
  {
    match Children(loc)
    case None => Err(TypeError)
    case Some(kids) => Ok(Replace(loc, MakeNode(loc.current, [item] + kids)))
  }

  /** `remove`: drops the focus and moves to the node before it in a depth-first walk. */
  function Remove<T>(loc: Loc<T>): (x: Result<Loc<T>>)
    ensures x.Err? <==> !loc.path.Frame?
    ensures x.Err? ==> x.error == IndexError
  {
    match loc.path
    case Frame(l, r, pnode, ppath, changed) =>
      if l != [] then
        Ok(RightmostDescendantOf(Loc(l[|l| - 1], Frame(l[..|l| - 1], r, pnode, ppath, true))))
      else
        Ok(Loc(MakeNode(pnode, r), MarkChanged(ppath)))
    case _ => Err(IndexError)
  }

  // ---------------------------------------------------------- traversal

  function PostForest<T>(ts: seq<Tree<T>>): seq<Tree<T>>
    decreases ts
  {
    if ts == [] then [] else Postorder(ts[0]) + PostForest(ts[1..])
  }

  /** The subtrees of `t` in depth-first post-order: children left to right, then the node. */
  function Postorder<T>(t: Tree<T>): seq<Tree<T>>
    decreases t
  {
    match t
    case Leaf(_) => [t]
    case Branch(_, kids) => PostForest(kids) + [t]
  }

  /** What a post-order walk visits after the focus's subtree: right siblings, parent, and so on up. */
  function After<T>(p: Path<T>): seq<Tree<T>>
  {
    if p.Frame? then PostForest(p.r) + [p.pnode] + After(p.ppath) else []
  }

  /** The locations `postorder_next` steps through from `loc`, `loc` first, until it returns `None`. */
  function PostorderFrom<T>(loc: Loc<T>): (w: seq<Loc<T>>)
    ensures w != [] && w[0] == loc
    decreases Remaining(loc.path)
  {
    if loc.path.Frame? then [loc] + PostorderFrom(PostorderNext(loc).value) else [loc]
  }

  function Currents<T>(w: seq<Loc<T>>): (ts: seq<Tree<T>>)
    ensures |ts| == |w| && forall i :: 0 <= i < |w| ==> ts[i] == w[i].current
  {
    if w == [] then [] else [w[0].current] + Currents(w[1..])
  }

  function FirstMatch<T>(w: seq<Loc<T>>, f: Loc<T> -> bool): (r: Option<Loc<T>>)
    ensures r.Some? ==> f(r.value) && r.value in w
    ensures r.None? ==> forall i :: 0 <= i < |w| ==> !f(w[i])
  {
    if w == [] then None else if f(w[0]) then Some(w[0]) else FirstMatch(w[1..], f)
  }

  /** `find`: the first location, in post-order from the leftmost descendant, that `func` accepts. */
  method Find<T>(loc: Loc<T>, func: Loc<T> -> bool) returns (r: Option<Loc<T>>)
    ensures r == FirstMatch(PostorderFrom(LeftmostDescendantOf(loc)), func)
  {
    var cur := LeftmostDescendant(loc);
    while true
      invariant FirstMatch(PostorderFrom(cur), func) == FirstMatch(PostorderFrom(LeftmostDescendantOf(loc)), func)
      decreases Remaining(cur.path)
    {
      if func(cur) {
        return Some(cur);
      } else if AtEnd(cur) {
        return None;
      } else {
        cur := PostorderNext(cur).value;
      }
    }
  }

  // -------------------------------------------- locations in an unedited tree

  /** Every frame on the path is unchanged and agrees with its parent's children; the path ends at `Nil`. */
  ghost predicate Unedited<T>(loc: Loc<T>)
    decreases Depth(loc.path)
  {
    match loc.path
    case Nil => true
    case Ended => false
    case Frame(l, r, pnode, ppath, changed) =>
      !changed && pnode.Branch? && pnode.kids == l + [loc.current] + r && Unedited(Loc(pnode, ppath))
  }

  /** The tree a location sits in, read off its path. */
  function RootOf<T>(loc: Loc<T>): Tree<T>
    decreases Depth(loc.path)
  {
    if loc.path.Frame? then RootOf(Loc(loc.path.pnode, loc.path.ppath)) else loc.current
  }

  lemma UneditedZipper<T>(root: Tree<T>)
    ensures Unedited(Zipper(root)) && RootOf(Zipper(root)) == root
  {
  }

  /** Moving down, right or up keeps a location in the same unedited tree. */
  lemma NavigationKeepsTree<T>(loc: Loc<T>)
    requires Unedited(loc)
    ensures Down(loc).Some? ==> Unedited(Down(loc).value) && RootOf(Down(loc).value) == RootOf(loc)
    ensures Right(loc).Some? ==> Unedited(Right(loc).value) && RootOf(Right(loc).value) == RootOf(loc)
    ensures Up(loc).Some? ==> Unedited(Up(loc).value) && RootOf(Up(loc).value) == RootOf(loc)
  {
    if Down(loc).Some? {
      var kids := loc.current.kids;
      assert kids == [] + [kids[0]] + kids[1..];
    }
    if Right(loc).Some? {
      var p := loc.path;
      assert p.l + [loc.current] + p.r == (p.l + [loc.current]) + [p.r[0]] + p.r[1..];
    }
  }

  /** In an unedited tree `top` returns the root, whatever the location. */
  lemma {:induction false} TopOfUnedited<T>(loc: Loc<T>)
    requires Unedited(loc)
    ensures TopOf(loc) == Zipper(RootOf(loc))
    decreases Depth(loc.path)
  {
    if loc.path.Frame? {
      TopOfUnedited(Up(loc).value);
    }
  }

  /** `down` is undone by `up`. */
  lemma UpDown<T>(loc: Loc<T>)
    requires Down(loc).Some?
    ensures Up(Down(loc).value) == Some(loc)
  {
  }

  /** Moving up after `replace` writes the new node into the parent's children. */
  lemma UpAfterReplace<T>(loc: Loc<T>, value: Tree<T>)
    requires loc.path.Frame?
    ensures Up(Replace(loc, value)) ==
      Some(Loc(Branch(loc.path.pnode.value, loc.path.l + [value] + loc.path.r), MarkChanged(loc.path.ppath)))
  {
  }

  /** After `insert`, the first child is the item and the rest are the old children. */
  lemma InsertThenDown<T>(loc: Loc<T>, item: Tree<T>)
    requires IsBranch(loc)
    ensures Down(Insert(loc, item).value).Some?
    ensures Down(Insert(loc, item).value).value.current == item
    ensures Down(Insert(loc, item).value).value.path.r == loc.current.kids
  {
    assert ([item] + loc.current.kids)[1..] == loc.current.kids;
  }

  /** Descending to the rightmost descendant is undone by `top`, in any tree. */
  lemma {:induction false} TopOfRightmostDescendant<T>(loc: Loc<T>)
    ensures TopOf(RightmostDescendantOf(loc)) == TopOf(loc)
    decreases loc.current
  {
    if loc.current.Branch? && loc.current.kids != [] {
      var step := Rightmost(Down(loc).value);
      var kids := loc.current.kids;
      assert step.current == kids[|kids| - 1];
      TopOfRightmostDescendant(step);
      assert Up(step) == Some(loc);
    }
  }

  /**
   * `remove` deletes exactly the focus: climbing to the top from its result
   * gives the tree in which the parent has the other siblings, in order.
   */
  lemma RemoveDeletesFocus<T>(loc: Loc<T>)
    requires loc.path.Frame?
    ensures TopOf(Remove(loc).value) ==
      TopOf(Loc(Branch(loc.path.pnode.value, loc.path.l + loc.path.r), MarkChanged(loc.path.ppath)))
  {
    var p := loc.path;
    if p.l != [] {
      var y := Loc(p.l[|p.l| - 1], Frame(p.l[..|p.l| - 1], p.r, p.pnode, p.ppath, true));
      TopOfRightmostDescendant(y);
      assert p.l[..|p.l| - 1] + [p.l[|p.l| - 1]] + p.r == p.l + p.r;
      assert Up(y).value == Loc(Branch(p.pnode.value, p.l + p.r), MarkChanged(p.ppath));
      assert TopOf(y) == TopOf(Up(y).value);
    } else {
      assert p.l + p.r == p.r;
      assert Remove(loc).value == Loc(Branch(p.pnode.value, p.r), MarkChanged(p.ppath));
    }
  }

  function LastLeaf<T>(t: Tree<T>): Tree<T>
    decreases t
  {
    if t.Branch? && t.kids != [] then LastLeaf(t.kids[|t.kids| - 1]) else t
  }

  /**
   * The location `remove` returns holds the node that precedes the removed
   * one in a depth-first walk: the parent when the focus was the first
   * child, otherwise the last node under the left sibling.
   */
  lemma RemoveReturnsPredecessor<T>(loc: Loc<T>)
    requires loc.path.Frame?
    ensures loc.path.l == [] ==> Remove(loc).value.current == Branch(loc.path.pnode.value, loc.path.r)
    ensures loc.path.l != [] ==> Remove(loc).value.current == LastLeaf(loc.path.l[|loc.path.l| - 1])
  {
    var p := loc.path;
    if p.l != [] {
      RightmostDescendantIsLastLeaf(Loc(p.l[|p.l| - 1], Frame(p.l[..|p.l| - 1], p.r, p.pnode, p.ppath, true)));
    }
  }

  lemma {:induction false} RightmostDescendantIsLastLeaf<T>(loc: Loc<T>)
    ensures RightmostDescendantOf(loc).current == LastLeaf(loc.current)
    decreases loc.current
  {
    if loc.current.Branch? && loc.current.kids != [] {
      var kids := loc.current.kids;
      assert Rightmost(Down(loc).value).current == kids[|kids| - 1];
      RightmostDescendantIsLastLeaf(Rightmost(Down(loc).value));
    }
  }

  /** Moving down focuses the first child, with the other children to its right and the old location above. */
  lemma DownFrame<T>(loc: Loc<T>)
    requires loc.current.Branch? && loc.current.kids != []
    ensures Down(loc).Some?
    ensures var d := Down(loc).value;
      && d.path.Frame? && d.current == loc.current.kids[0] && d.path.r == loc.current.kids[1..]
      && d.path.pnode == loc.current && d.path.ppath == loc.path
  {
    var d := Down(loc).value;
    assert Siblings(d) == [d.current] + d.path.r;
  }

  /** Descending to the leftmost descendant visits nothing: the walk still owes the same nodes. */
  lemma {:induction false} LeftmostDescendantAfter<T>(loc: Loc<T>)
    requires Unedited(loc)
    ensures Unedited(LeftmostDescendantOf(loc)) && RootOf(LeftmostDescendantOf(loc)) == RootOf(loc)
    ensures [LeftmostDescendantOf(loc).current] + After(LeftmostDescendantOf(loc).path)
      == Postorder(loc.current) + After(loc.path)
    decreases loc.current
  {
    var t := loc.current;
    if t.Branch? && t.kids != [] {
      var d := Down(loc).value;
      NavigationKeepsTree(loc);
      DownFrame(loc);
      LeftmostDescendantAfter(d);
      var a, b := Postorder(t.kids[0]), PostForest(t.kids[1..]);
      assert PostForest(t.kids) == a + b;
      assert After(d.path) == (b + [t]) + After(loc.path);
      ConcatRegroup(a, b, [t], After(loc.path));
    } else {
      assert t.Branch? ==> PostForest(t.kids) == [];
    }
  }

  /** Moving right shifts the focus to the first right sibling. */
  lemma RightFrame<T>(loc: Loc<T>)
    requires loc.path.Frame? && loc.path.r != []
    ensures var p := loc.path;
      Right(loc) == Some(Loc(p.r[0], Frame(p.l + [loc.current], p.r[1..], p.pnode, p.ppath, p.changed)))
  {
  }

  /** A step to the right lands on the right sibling's leftmost descendant, the next node owed. */
  lemma PostorderNextRight<T>(loc: Loc<T>)
    requires Unedited(loc) && loc.path.Frame? && loc.path.r != []
    ensures Unedited(PostorderNext(loc).value) && RootOf(PostorderNext(loc).value) == RootOf(loc)
    ensures [PostorderNext(loc).value.current] + After(PostorderNext(loc).value.path) == After(loc.path)
  {
    NavigationKeepsTree(loc);
    var p := loc.path;
    var x := Right(loc).value;
    RightFrame(loc);
    LeftmostDescendantAfter(x);
    var a, b := Postorder(p.r[0]), PostForest(p.r[1..]);
    assert PostForest(p.r) == a + b;
    assert After(x.path) == (b + [p.pnode]) + After(p.ppath);
    ConcatRegroup(a, b, [p.pnode], After(p.ppath));
  }

  /** A step up from the last sibling lands on the parent, the next node owed. */
  lemma PostorderNextUp<T>(loc: Loc<T>)
    requires Unedited(loc) && loc.path.Frame? && loc.path.r == []
    ensures Unedited(PostorderNext(loc).value) && RootOf(PostorderNext(loc).value) == RootOf(loc)
    ensures [PostorderNext(loc).value.current] + After(PostorderNext(loc).value.path) == After(loc.path)
  {
    NavigationKeepsTree(loc);
    var p := loc.path;
    assert PostorderNext(loc) == Up(loc) == Some(Loc(p.pnode, p.ppath));
    assert After(p) == [p.pnode] + After(p.ppath);
  }

  /** One `postorder_next` step visits exactly the next node the walk owes. */
  lemma PostorderNextAfter<T>(loc: Loc<T>)
    requires Unedited(loc) && loc.path.Frame?
    ensures Unedited(PostorderNext(loc).value) && RootOf(PostorderNext(loc).value) == RootOf(loc)
    ensures [PostorderNext(loc).value.current] + After(PostorderNext(loc).value.path) == After(loc.path)
  {
    if loc.path.r != [] {
      PostorderNextRight(loc);
    } else {
      PostorderNextUp(loc);
    }
  }

  /** The post-order walk from an unedited location visits its node and then everything `After` it. */
  lemma {:induction false} PostorderFromVisits<T>(loc: Loc<T>)
    requires Unedited(loc)
    ensures Currents(PostorderFrom(loc)) == [loc.current] + After(loc.path)
    decreases Remaining(loc.path)
  {
    if loc.path.Frame? {
      var n := PostorderNext(loc).value;
      PostorderNextAfter(loc);
      PostorderFromVisits(n);
      assert Currents(PostorderFrom(loc)) == [loc.current] + Currents(PostorderFrom(n));
    }
  }

  /**
   * Starting from the leftmost descendant of the root, the walk visits every
   * subtree of the root in depth-first post-order and ends at the root
   * (for the tree a(b(c, d), e(f, g)) the order is c, d, b, f, g, e, a).
   */
  lemma PostorderWalkFromRoot<T>(root: Tree<T>)
    ensures Currents(PostorderFrom(LeftmostDescendantOf(Zipper(root)))) == Postorder(root)
  {
    UneditedZipper(root);
    LeftmostDescendantAfter(Zipper(root));
    PostorderFromVisits(LeftmostDescendantOf(Zipper(root)));
  }
}

=== FILE: lineage.dfy ===
/**
 * The parent walk both source-control adapters share: `_image_parents`
 * in `shipwright/_lib/source_control.py` and `_container_parents` in
 * `shipwright/source_control.py` yield an entry, look its parent's name up
 * in a name index and go on until the name is missing. Entries are any
 * type with a `name` and a `parent` accessor; a parent name that comes
 * round again makes the Python loop run forever, which the model reports
 * as `None`.
 */
module Lineage {
  import opened Common

  /** `{c.name: c for c in xs}`: a later entry replaces an earlier one of the same name. */
  function IndexBy<T(==)>(xs: seq<T>, name: T -> string): (index: map<string, T>)
    ensures NamedBy(index, name)
    ensures forall n :: n in index ==> index[n] in xs
    ensures forall k :: 0 <= k < |xs| ==> name(xs[k]) in index
  {
    if xs == [] then map[]
    else
      var last := xs[|xs| - 1];
      var index := IndexBy(xs[..|xs| - 1], name);
      assert forall k :: 0 <= k < |xs| - 1 ==> xs[..|xs| - 1][k] == xs[k];
      index[name(last) := last]
  }

  /** Every entry of the index is filed under its own name. */
  predicate NamedBy<T>(index: map<string, T>, name: T -> string)
  {
    forall n :: n in index ==> name(index[n]) == n
  }

  /**
   * The entries the walk yields after following `key`, having already
   * followed the names in `seen`; `None` when a name comes round again.
   */
  function Chain<T>(index: map<string, T>, parent: T -> Option<string>, key: Option<string>, seen: set<string>): Option<seq<T>>
    decreases index.Keys - seen
  {
    if key.None? || key.value !in index then Some([])
    else if key.value in seen then None
    else Prepend([index[key.value]], Chain(index, parent, parent(index[key.value]), seen + {key.value}))
  }

  /** The entry, its parent, its grandparent, ...; `None` for a cycle of parents. */
  function Ancestry<T>(index: map<string, T>, parent: T -> Option<string>, x: T): Option<seq<T>>
  {
    Prepend([x], Chain(index, parent, parent(x), {}))
  }

  /** A walk's prefix in front of the rest of it. */
  function Prepend<T>(prefix: seq<T>, rest: Option<seq<T>>): (r: Option<seq<T>>)
    ensures r.Some? <==> rest.Some?
  {
    match rest
    case None => None
    case Some(s) => Some(prefix + s)
  }

  /** Names already followed only make the walk give up sooner: a chain that ends is the same with fewer of them. */
  lemma {:induction false} ChainSeenMonotone<T>(
    index: map<string, T>, parent: T -> Option<string>, key: Option<string>, fewer: set<string>, more: set<string>)
    requires fewer <= more && Chain(index, parent, key, more).Some?
    ensures Chain(index, parent, key, fewer) == Chain(index, parent, key, more)
    decreases index.Keys - more
  {
    if key.Some? && key.value in index {
      ChainSeenMonotone(index, parent, parent(index[key.value]), fewer + {key.value}, more + {key.value});
    }
  }

  /**
   * Each entry of a chain names the next as its parent, every entry is the
   * index's under its own name, and the last one's parent is unknown.
   */
  lemma {:induction false} ChainLinks<T>(
    index: map<string, T>, name: T -> string, parent: T -> Option<string>, key: Option<string>, seen: set<string>)
    requires NamedBy(index, name) && Chain(index, parent, key, seen).Some?
    ensures var ch := Chain(index, parent, key, seen).value;
            && (ch == [] <==> key.None? || key.value !in index)
            && (ch != [] ==> key == Some(name(ch[0])))
            && (forall k :: 0 <= k < |ch| ==> name(ch[k]) in index && index[name(ch[k])] == ch[k])
            && (forall k :: 0 <= k < |ch| - 1 ==> parent(ch[k]) == Some(name(ch[k + 1])))
            && (ch != [] ==> parent(ch[|ch| - 1]).None? || parent(ch[|ch| - 1]).value !in index)
    decreases index.Keys - seen
  {
    if key.Some? && key.value in index {
      var next := parent(index[key.value]);
      ChainLinks(index, name, parent, next, seen + {key.value});
      var rest := Chain(index, parent, next, seen + {key.value}).value;
      var ch := Chain(index, parent, key, seen).value;
      assert ch == [index[key.value]] + rest;
      assert forall k :: 1 <= k < |ch| ==> ch[k] == rest[k - 1];
    }
  }

  /** An ancestry that ends: the entry first, each entry naming the next as its parent, and the last parent unknown. */
  lemma AncestryLinks<T>(index: map<string, T>, name: T -> string, parent: T -> Option<string>, x: T)
    requires NamedBy(index, name) && Ancestry(index, parent, x).Some?
    ensures var ch := Ancestry(index, parent, x).value;
            && |ch| >= 1 && ch[0] == x
            && (forall k :: 1 <= k < |ch| ==> name(ch[k]) in index && index[name(ch[k])] == ch[k])
            && (forall k :: 0 <= k < |ch| - 1 ==> parent(ch[k]) == Some(name(ch[k + 1])))
            && (parent(ch[|ch| - 1]).None? || parent(ch[|ch| - 1]).value !in index)
  {
    ChainLinks(index, name, parent, parent(x), {});
    var rest := Chain(index, parent, parent(x), {}).value;
    var ch := Ancestry(index, parent, x).value;
    assert ch == [x] + rest;
    assert forall k :: 1 <= k < |ch| ==> ch[k] == rest[k - 1];
  }

  /** The ancestry of an entry is the entry followed by the ancestry of its parent. */
  lemma ParentAncestry<T>(index: map<string, T>, name: T -> string, parent: T -> Option<string>, x: T)
    requires NamedBy(index, name) && Ancestry(index, parent, x).Some? && |Ancestry(index, parent, x).value| >= 2
    ensures var ch := Ancestry(index, parent, x).value;
            Ancestry(index, parent, ch[1]) == Some(ch[1..])
  {
    var rest := Chain(index, parent, parent(x), {}).value;
    ChainLinks(index, name, parent, parent(x), {});
    var p := rest[0];
    assert parent(x) == Some(name(p)) && index[name(p)] == p;
    var none: set<string> := {};
    assert none + {name(p)} == {name(p)};
    assert Chain(index, parent, parent(p), {name(p)}).Some?;
    ChainSeenMonotone(index, parent, parent(p), {}, {name(p)});
    assert Ancestry(index, parent, x).value[1..] == rest;
  }

  /** The generator's loop, collecting what it yields; `None` where the loop would run forever. */
  method Parents<T>(index: map<string, T>, parent: T -> Option<string>, x: T) returns (chain: Option<seq<T>>)
    ensures chain == Ancestry(index, parent, x)
  {
    var yielded := [x];
    var key := parent(x);
    var seen: set<string> := {};
    while key.Some? && key.value in index
      invariant Ancestry(index, parent, x) == Prepend(yielded, Chain(index, parent, key, seen))
      decreases index.Keys - seen
    {
      if key.value in seen {
        return None;
      }
      var next := index[key.value];
      match Chain(index, parent, parent(next), seen + {key.value}) {
        case None =>
        case Some(rest) => assert yielded + [next] + rest == yielded + ([next] + rest);
      }
      yielded := yielded + [next];
      seen := seen + {key.value};
      key := parent(next);
    }
    assert yielded + [] == yielded;
    return Some(yielded);
  }
}

=== FILE: ordering.dfy ===
/**
 * Python's `sorted` and `set` as the modelled code uses them: a stable
 * insertion sort under a caller-given "less than or equal", the
 * code-point order on strings, and duplicate removal.
 */
module Ordering {

  ghost predicate Total<T(!new)>(le: (T, T) -> bool)
  {
    forall a, b :: le(a, b) || le(b, a)
  }

  ghost predicate Transitive<T(!new)>(le: (T, T) -> bool)
  {
    forall a, b, c :: le(a, b) && le(b, c) ==> le(a, c)
  }

  ghost predicate Antisymmetric<T(!new)>(le: (T, T) -> bool)
  {
    forall a, b :: le(a, b) && le(b, a) ==> a == b
  }

  ghost predicate TotalPreorder<T(!new)>(le: (T, T) -> bool)
  {
    Total(le) && Transitive(le)
  }

  ghost predicate TotalOrder<T(!new)>(le: (T, T) -> bool)
  {
    TotalPreorder(le) && Antisymmetric(le)
  }

  predicate Sorted<T>(s: seq<T>, le: (T, T) -> bool)
  {
    forall i, j :: 0 <= i < j < |s| ==> le(s[i], s[j])
  }

  predicate NoDuplicates<T(==)>(s: seq<T>)
  {
    forall i, j :: 0 <= i < j < |s| ==> s[i] != s[j]
  }

  /** A list without repeats, drawn from `b`, is no longer than `b`. */
  lemma {:induction false} NoDuplicatesWithin<T>(a: seq<T>, b: seq<T>)
    requires NoDuplicates(a) && forall x :: x in a ==> x in b
    ensures |a| <= |b|
    decreases |a|
  {
    if a != [] {
      var x := a[|a| - 1];
      var init := a[..|a| - 1];
      assert a[|a| - 1] in a;
      var p :| 0 <= p < |b| && b[p] == x;
      var rest := b[..p] + b[p + 1..];
      forall y | y in init ensures y in rest {
        var k :| 0 <= k < |init| && init[k] == y;
        assert a[k] == y && y != x && a[k] in a;
        var q :| 0 <= q < |b| && b[q] == y;
        if q < p { assert rest[q] == y; } else { assert rest[q - 1] == y; }
      }
      NoDuplicatesWithin(init, rest);
    }
  }

  function Elements<T>(s: seq<T>): set<T>
  {
    set x | x in s
  }

  /** Python's comparison of two `str` values: code point by code point, a prefix first. */
  predicate StrLe(a: string, b: string)
  {
    a == [] || (b != [] && (a[0] < b[0] || (a[0] == b[0] && StrLe(a[1..], b[1..]))))
  }

  lemma {:induction false} StrLeTotalAt(a: string, b: string)
    ensures StrLe(a, b) || StrLe(b, a)
  {
    if a != [] && b != [] && a[0] == b[0] {
      StrLeTotalAt(a[1..], b[1..]);
    }
  }

  lemma {:induction false} StrLeTransitiveAt(a: string, b: string, c: string)
    requires StrLe(a, b) && StrLe(b, c)
    ensures StrLe(a, c)
  {
    if a != [] && b != [] && c != [] && a[0] == b[0] && b[0] == c[0] {
      StrLeTransitiveAt(a[1..], b[1..], c[1..]);
    }
  }

  lemma {:induction false} StrLeAntisymmetricAt(a: string, b: string)
    requires StrLe(a, b) && StrLe(b, a)
    ensures a == b
  {
    if a != [] && b != [] {
      StrLeAntisymmetricAt(a[1..], b[1..]);
      assert a == [a[0]] + a[1..];
      assert b == [b[0]] + b[1..];
    }
  }

  lemma StrLeIsTotalOrder()
    ensures TotalOrder(StrLe)
  {
    forall a, b ensures StrLe(a, b) || StrLe(b, a) { StrLeTotalAt(a, b); }
    forall a, b, c | StrLe(a, b) && StrLe(b, c) ensures StrLe(a, c) { StrLeTransitiveAt(a, b, c); }
    forall a, b | StrLe(a, b) && StrLe(b, a) ensures a == b { StrLeAntisymmetricAt(a, b); }
  }

  /** Python's comparison of `(str, str)` tuples: the first component, then the second. */
  predicate PairLe(a: (string, string), b: (string, string))
  {
    (StrLe(a.0, b.0) && a.0 != b.0) || (a.0 == b.0 && StrLe(a.1, b.1))
  }

  lemma PairLeIsTotalOrder()
    ensures TotalOrder(PairLe)
  {
    forall a: (string, string), b: (string, string) ensures PairLe(a, b) || PairLe(b, a) {
      StrLeTotalAt(a.0, b.0);
      StrLeTotalAt(a.1, b.1);
    }
    forall a: (string, string), b: (string, string), c: (string, string) | PairLe(a, b) && PairLe(b, c)
      ensures PairLe(a, c)
    {
      if a.0 == b.0 && b.0 == c.0 {
        StrLeTransitiveAt(a.1, b.1, c.1);
      } else if a.0 != b.0 && b.0 != c.0 {
        StrLeTransitiveAt(a.0, b.0, c.0);
        if a.0 == c.0 {
          StrLeAntisymmetricAt(b.0, c.0);
        }
      }
    }
    forall a: (string, string), b: (string, string) | PairLe(a, b) && PairLe(b, a) ensures a == b {
      if a.0 == b.0 { StrLeAntisymmetricAt(a.1, b.1); } else { StrLeAntisymmetricAt(a.0, b.0); }
    }
  }

  /** Places `x` before the first element it is less than or equal to. */
  function Insert<T>(x: T, s: seq<T>, le: (T, T) -> bool): (r: seq<T>)
    ensures multiset(r) == multiset(s) + multiset{x}
  {
    if s == [] then [x]
    else if le(x, s[0]) then [x] + s
    else
      assert s == [s[0]] + s[1..];
      [s[0]] + Insert(x, s[1..], le)
  }

  /** `sorted(s)` where `le` is the order Python's comparison induces (a stable sort). */
  function SortBy<T>(s: seq<T>, le: (T, T) -> bool): (r: seq<T>)
    ensures multiset(r) == multiset(s)
  {
    if s == [] then []
    else
      assert s == [s[0]] + s[1..];
      Insert(s[0], SortBy(s[1..], le), le)
  }

  lemma {:induction false} InsertSorted<T(!new)>(x: T, s: seq<T>, le: (T, T) -> bool)
    requires TotalPreorder(le) && Sorted(s, le)
    ensures Sorted(Insert(x, s, le), le)
  {
    if s != [] && !le(x, s[0]) {
      InsertSorted(x, s[1..], le);
      var t := Insert(x, s[1..], le);
      assert le(s[0], x);
      forall k | 0 <= k < |t| ensures le(s[0], t[k]) {
        assert t[k] in multiset(t);
        if t[k] != x {
          assert t[k] in multiset(s[1..]);
          var j :| 0 <= j < |s[1..]| && s[1..][j] == t[k];
          assert s[j + 1] == t[k];
        }
      }
    }
  }

  lemma {:induction false} SortBySorted<T(!new)>(s: seq<T>, le: (T, T) -> bool)
    requires TotalPreorder(le)
    ensures Sorted(SortBy(s, le), le)
  {
    if s != [] {
      SortBySorted(s[1..], le);
      InsertSorted(s[0], SortBy(s[1..], le), le);
    }
  }

  /** Under a total order there is one sorted arrangement of a multiset. */
  lemma {:induction false} SortedUnique<T(!new)>(a: seq<T>, b: seq<T>, le: (T, T) -> bool)
    requires Antisymmetric(le)
    requires Sorted(a, le) && Sorted(b, le) && multiset(a) == multiset(b)
    ensures a == b
  {
    if a != [] {
      assert a[0] in multiset(b);
      assert b != [];
      assert b[0] in multiset(a);
      var i :| 0 <= i < |a| && a[i] == b[0];
      var j :| 0 <= j < |b| && b[j] == a[0];
      assert a[0] == b[0];
      assert a == [a[0]] + a[1..];
      assert b == [b[0]] + b[1..];
      assert multiset(a) == multiset{a[0]} + multiset(a[1..]) by {
        assert multiset([a[0]] + a[1..]) == multiset([a[0]]) + multiset(a[1..]);
      }
      assert multiset(b) == multiset{b[0]} + multiset(b[1..]) by {
        assert multiset([b[0]] + b[1..]) == multiset([b[0]]) + multiset(b[1..]);
      }
      assert multiset(a[1..]) == multiset(a) - multiset{a[0]};
      assert multiset(b[1..]) == multiset(b) - multiset{b[0]};
      assert Sorted(a[1..], le) by {
        forall i, j | 0 <= i < j < |a[1..]| ensures le(a[1..][i], a[1..][j]) {
          assert a[1..][i] == a[i + 1] && a[1..][j] == a[j + 1];
        }
      }
      assert Sorted(b[1..], le) by {
        forall i, j | 0 <= i < j < |b[1..]| ensures le(b[1..][i], b[1..][j]) {
          assert b[1..][i] == b[i + 1] && b[1..][j] == b[j + 1];
        }
      }
      SortedUnique(a[1..], b[1..], le);
    }
  }

  /** Sorting under a total order depends only on the multiset sorted. */
  lemma SortByDependsOnMultiset<T(!new)>(a: seq<T>, b: seq<T>, le: (T, T) -> bool)
    requires TotalOrder(le) && multiset(a) == multiset(b)
    ensures SortBy(a, le) == SortBy(b, le)
  {
    SortBySorted(a, le);
    SortBySorted(b, le);
    SortedUnique(SortBy(a, le), SortBy(b, le), le);
  }

  /** `list(set(s))` with a deterministic order: the first occurrence of each element, in order. */
  function Dedupe<T(==)>(s: seq<T>): (r: seq<T>)
    ensures Elements(r) == Elements(s)
    ensures NoDuplicates(r)
  {
    if s == [] then []
    else
      var r := Dedupe(s[..|s| - 1]);
      assert s == s[..|s| - 1] + [s[|s| - 1]];
      assert Elements(s) == Elements(s[..|s| - 1]) + {s[|s| - 1]};
      if s[|s| - 1] in r then r
      else
        var r' := r + [s[|s| - 1]];
        assert forall i :: 0 <= i < |r| ==> r'[i] == r[i] && r[i] != s[|s| - 1];
        assert Elements(r') == Elements(r) + {s[|s| - 1]};
        r'
  }

  lemma {:induction false} NoDuplicatesCount<T>(s: seq<T>, x: T)
    requires NoDuplicates(s)
    ensures multiset(s)[x] == if x in s then 1 else 0
  {
    if s != [] {
      assert s == [s[0]] + s[1..];
      NoDuplicatesCount(s[1..], x);
      assert s[0] !in s[1..];
    }
  }

  lemma NoDuplicatesMultiset<T>(a: seq<T>, b: seq<T>)
    requires NoDuplicates(a) && NoDuplicates(b) && Elements(a) == Elements(b)
    ensures multiset(a) == multiset(b)
  {
    forall x ensures multiset(a)[x] == multiset(b)[x] {
      NoDuplicatesCount(a, x);
      NoDuplicatesCount(b, x);
      assert x in a <==> x in Elements(a);
      assert x in b <==> x in Elements(b);
    }
  }

  /** An element found at two positions is counted at least twice. */
  lemma TwiceCounted<T>(r: seq<T>, i: nat, j: nat)
    requires i < j < |r| && r[i] == r[j]
    ensures multiset(r)[r[i]] >= 2
  {
    assert r == r[..j] + [r[j]] + r[j + 1..];
    assert r[..j][i] == r[i];
    assert multiset(r) == multiset(r[..j]) + multiset{r[j]} + multiset(r[j + 1..]);
  }

  /** A rearrangement of a run without repeats has the same elements and no repeats either. */
  lemma RearrangedKeepsSet<T>(d: seq<T>, r: seq<T>)
    requires NoDuplicates(d) && multiset(r) == multiset(d)
    ensures Elements(r) == Elements(d) && NoDuplicates(r)
  {
    assert forall x :: x in r <==> x in multiset(r);
    assert forall x :: x in d <==> x in multiset(d);
    forall i, j | 0 <= i < j < |r| ensures r[i] != r[j] {
      NoDuplicatesCount(d, r[i]);
      if r[i] == r[j] {
        TwiceCounted(r, i, j);
      }
    }
  }

  /** `sorted(set(s))`: strictly increasing under `le`, the same elements, and fixed by them alone. */
  function SortedSetBy<T(==,!new)>(s: seq<T>, le: (T, T) -> bool): (r: seq<T>)
    ensures Elements(r) == Elements(s)
    ensures NoDuplicates(r)
  {
    var d := Dedupe(s);
    var r := SortBy(d, le);
    RearrangedKeepsSet(d, r);
    r
  }

  lemma SortedSetByIsSorted<T(!new)>(s: seq<T>, le: (T, T) -> bool)
    requires TotalOrder(le)
    ensures Sorted(SortedSetBy(s, le), le)
  {
    SortBySorted(Dedupe(s), le);
  }

  lemma SortedSetByDependsOnElements<T(!new)>(a: seq<T>, b: seq<T>, le: (T, T) -> bool)
    requires TotalOrder(le)
    requires Elements(a) == Elements(b)
    ensures SortedSetBy(a, le) == SortedSetBy(b, le)
  {
    NoDuplicatesMultiset(Dedupe(a), Dedupe(b));
    SortByDependsOnMultiset(Dedupe(a), Dedupe(b), le);
  }

  /** `sorted(set(s))` for strings. */
  function SortedSet(s: seq<string>): (r: seq<string>)
    ensures Elements(r) == Elements(s)
    ensures NoDuplicates(r)
  {
    SortedSetBy(s, StrLe)
  }

  lemma SortedSetIsSorted(s: seq<string>)
    ensures Sorted(SortedSet(s), StrLe)
  {
    StrLeIsTotalOrder();
    SortedSetByIsSorted(s, StrLe);
  }

  lemma SortedSetDependsOnElements(a: seq<string>, b: seq<string>)
    requires Elements(a) == Elements(b)
    ensures SortedSet(a) == SortedSet(b)
  {
    StrLeIsTotalOrder();
    SortedSetByDependsOnElements(a, b, StrLe);
  }
}

=== FILE: posix_path.dfy ===
/**
 * The `posixpath` functions the modelled code calls: `join` (two
 * arguments), `dirname`, `basename`, `normpath` and `abspath`, with the
 * current working directory given as a parameter.
 */
module PosixPath {
  import opened Text

  type AbsPath = s: string | |s| > 0 && s[0] == '/' witness "/"

  predicate IsAbs(p: string) { |p| > 0 && p[0] == '/' }

  /** `p.rfind('/') + 1`: the index just past the last separator, or 0. */
  function SplitIndex(p: string): (i: nat)
    ensures i <= |p|
    ensures i > 0 ==> p[i - 1] == '/'
    ensures forall k :: i <= k < |p| ==> p[k] != '/'
  {
    if p == [] then 0
    else if p[|p| - 1] == '/' then |p|
    else SplitIndex(p[..|p| - 1])
  }

  function Basename(p: string): (b: string)
    ensures '/' !in b
  {
    p[SplitIndex(p)..]
  }

  predicate AllSlashes(s: string) { forall k :: 0 <= k < |s| ==> s[k] == '/' }

  function RStripSlashes(s: string): (r: string)
    ensures |r| <= |s| && r == s[..|r|]
  {
    if s != [] && s[|s| - 1] == '/' then RStripSlashes(s[..|s| - 1]) else s
  }

  function Dirname(p: string): string
  {
    var head := p[..SplitIndex(p)];
    if head != [] && !AllSlashes(head) then RStripSlashes(head) else head
  }

  /** `os.path.join(a, b)`. */
  function JoinPath(a: string, b: string): (r: string)
    ensures IsAbs(b) ==> r == b
    ensures IsAbs(a) ==> IsAbs(r)
  {
    if IsAbs(b) then b
    else if a == [] || a[|a| - 1] == '/' then a + b
    else a + "/" + b
  }

  /** One step of `normpath`'s loop over the components. */
  function NormStep(acc: seq<string>, comp: string, absolute: bool): seq<string>
  {
    if comp == "" || comp == "." then acc
    else if comp != ".." || (!absolute && acc == []) || (acc != [] && acc[|acc| - 1] == "..") then acc + [comp]
    else if acc != [] then acc[..|acc| - 1]
    else acc
  }

  function NormComps(comps: seq<string>, absolute: bool): (r: seq<string>)
    ensures forall k :: 0 <= k < |r| ==> r[k] in comps
  {
    if comps == [] then []
    else
      var acc := NormComps(comps[..|comps| - 1], absolute);
      NormStep(acc, comps[|comps| - 1], absolute)
  }

  function InitialSlashes(p: string): nat
  {
    if StartsWith(p, "//") && !StartsWith(p, "///") then 2
    else if StartsWith(p, "/") then 1
    else 0
  }

  function Slashes(n: nat): string
  {
    if n == 0 then "" else "/" + Slashes(n - 1)
  }

  function Normpath(p: string): (r: string)
    ensures IsAbs(p) ==> IsAbs(r)
  {
    if p == [] then "."
    else
      var initial := InitialSlashes(p);
      var body := Text.Join(NormComps(Split(p, '/'), initial > 0), '/');
      var r := Slashes(initial) + body;
      if r == [] then "." else r
  }

  /** `os.path.abspath(p)` when the current directory is `cwd`. */
  function Abspath(cwd: AbsPath, p: string): (r: string)
    ensures IsAbs(r)
  {
    Normpath(if IsAbs(p) then p else JoinPath(cwd, p))
  }

  lemma {:induction false} JoinedPiecesFrom(parts: seq<string>, sep: char, chars: set<char>)
    requires forall k :: 0 <= k < |parts| ==> forall i :: 0 <= i < |parts[k]| ==> parts[k][i] in chars
    ensures forall i :: 0 <= i < |Text.Join(parts, sep)| ==> Text.Join(parts, sep)[i] in chars + {sep}
  {
    if |parts| > 1 {
      JoinedPiecesFrom(parts[1..], sep, chars);
    }
  }

  lemma {:induction false} SplitPiecesFrom(s: string, sep: char)
    ensures forall k :: 0 <= k < |Split(s, sep)| ==> forall i :: 0 <= i < |Split(s, sep)[k]| ==> Split(s, sep)[k][i] in s
  {
    if s != [] {
      SplitPiecesFrom(s[1..], sep);
    }
  }

  /** `normpath` only removes characters: every character of the result is a separator, a dot, or one of the input's. */
  lemma NormpathChars(p: string)
    ensures forall i :: 0 <= i < |Normpath(p)| ==> Normpath(p)[i] in Elements(p) + {'/', '.'}
  {
    if p != [] {
      var comps := Split(p, '/');
      SplitPiecesFrom(p, '/');
      var kept := NormComps(comps, InitialSlashes(p) > 0);
      forall k | 0 <= k < |kept| ensures forall i :: 0 <= i < |kept[k]| ==> kept[k][i] in Elements(p) + {'/', '.'} {
        assert kept[k] in comps;
      }
      JoinedPiecesFrom(kept, '/', Elements(p) + {'/', '.'});
      SlashesChars(InitialSlashes(p));
    }
  }

  function Elements(s: string): set<char> { set c | c in s }

  lemma {:induction false} SlashesChars(n: nat)
    ensures forall i :: 0 <= i < |Slashes(n)| ==> Slashes(n)[i] == '/'
  {
    if n > 0 { SlashesChars(n - 1); }
  }

  lemma BasenameAfterSlash(dir: string, name: string)
    requires '/' !in name
    ensures Basename(dir + "/" + name) == name
  {
    var p := dir + "/" + name;
    var i := SplitIndex(p);
    assert p[|dir|] == '/';
    assert i == |dir| + 1;
  }
}

=== FILE: source_control.dfy ===
/**
 * The older git adapter of `shipwright/source_control.py`: a container's
 * ref is the short hash of the newest commit touching its directory or
 * the directory of any ancestor, with no dirty suffix, and no ref at all
 * when no commit touches them.
 */
module SourceControl {
  import opened Common
  import opened Lineage
  import opened Container
  import LibSourceControl

  /** `_hexsha`: the first twelve digits of a commit id; `None` when there is no commit. */
  function Hexsha(ref: Option<string>): (r: Option<string>)
    ensures r.None? <==> ref.None?
    ensures r.Some? ==> |r.value| <= 12 && |r.value| <= |ref.value| && r.value == ref.value[..|r.value|]
    ensures r.Some? && |ref.value| >= 12 ==> |r.value| == 12
  {
    match ref
    case None => None
    case Some(sha) => Some(if |sha| < 12 then sha else sha[..12])
  }

  /** The two generations abbreviate a commit alike; only the missing commit differs (`None` against twelve `g`s). */
  lemma HexshaGenerations(ref: Option<string>)
    ensures ref.Some? ==> Hexsha(ref) == Some(LibSourceControl.Hexsha(ref))
    ensures ref.None? ==> Hexsha(ref).None? && |LibSourceControl.Hexsha(ref)| == 12
  {
  }

  /** `default_tags`: the active branch; gitpython raises `TypeError` for the active branch of a detached head. */
  function DefaultTags(repo: LibSourceControl.Repo): (r: Result<seq<string>>)
    ensures r.Err? <==> repo.detached
    ensures r.Err? ==> r.error == TypeError
    ensures r.Ok? ==> r.value == [repo.activeBranch]
  {
    if repo.detached then Err(TypeError) else Ok([repo.activeBranch])
  }

  /** `this_ref_str`: `HEAD`'s short hash, whatever the working tree holds. */
  function ThisRefStr(repo: LibSourceControl.Repo): (r: Option<string>)
    ensures r.Some? && (|repo.head| >= 12 ==> r.value == repo.head[..12])
  {
    Hexsha(Some(repo.head))
  }

  // ------------------------------------------------------------ targets

  function NameOf(c: Container): string { c.name }

  function ParentNameOf(c: Container): Option<string> { c.parent }

  /** `c_index`: the listed containers by name, a later one replacing an earlier one of the same name. */
  function ContainerIndex(containers: seq<Container>): map<string, Container>
  {
    IndexBy(containers, NameOf)
  }

  /** `[p.dir_path for p in chain]`. */
  function DirsOf(chain: seq<Container>): (dirs: seq<string>)
    ensures |dirs| == |chain| && forall k :: 0 <= k < |chain| ==> dirs[k] == chain[k].dirPath
  {
    if chain == [] then [] else [chain[0].dirPath] + DirsOf(chain[1..])
  }

  /** The `Target` of this generation; `children` is always `None` and is left out. */
  datatype Target = Target(container: Container, ref: Option<string>)

  /** The target `targets` makes for one container; `None` when its ancestry is a cycle. */
  function TargetOf(repo: LibSourceControl.Repo, index: map<string, Container>, c: Container): Option<Target>
  {
    match Ancestry(index, ParentNameOf, c)
    case None => None
    case Some(chain) => Some(Target(c, Hexsha(repo.lastCommit(DirsOf(chain)))))
  }

  /**
   * A container's directories are its own followed by its parent's, so a
   * commit that changes the parent's ref changes the child's.
   */
  lemma ParentDirsFollow(index: map<string, Container>, c: Container)
    requires NamedBy(index, NameOf)
    requires Ancestry(index, ParentNameOf, c).Some? && |Ancestry(index, ParentNameOf, c).value| >= 2
    ensures var ch := Ancestry(index, ParentNameOf, c).value;
            && Ancestry(index, ParentNameOf, ch[1]).Some?
            && DirsOf(ch) == [c.dirPath] + DirsOf(Ancestry(index, ParentNameOf, ch[1]).value)
  {
    ParentAncestry(index, NameOf, ParentNameOf, c);
    AncestryLinks(index, NameOf, ParentNameOf, c);
  }

  /** `targets`' loop: one target per container, in order; `None` where an ancestry cycle makes it run forever. */
  method Targets(repo: LibSourceControl.Repo, containers: seq<Container>) returns (r: Option<seq<Target>>)
    ensures r.Some? <==> forall k :: 0 <= k < |containers| ==> Ancestry(ContainerIndex(containers), ParentNameOf, containers[k]).Some?
    ensures r.Some? ==> |r.value| == |containers|
    ensures r.Some? ==> forall k :: 0 <= k < |containers| ==> TargetOf(repo, ContainerIndex(containers), containers[k]) == Some(r.value[k])
  {
    var index := ContainerIndex(containers);
    var targets: seq<Target> := [];
    for i := 0 to |containers|
      invariant |targets| == i
      invariant forall k :: 0 <= k < i ==> TargetOf(repo, index, containers[k]) == Some(targets[k])
    {
      var chain := Parents(index, ParentNameOf, containers[i]);
      if chain.None? {
        assert TargetOf(repo, index, containers[i]).None?;
        return None;
      }
      targets := targets + [Target(containers[i], Hexsha(repo.lastCommit(DirsOf(chain.value))))];
    }
    return Some(targets);
  }
}

=== FILE: tar.dfy ===
/**
 * The build-file rewrite of `shipwright/tar.py`: `tag_parent` pins every
 * `FROM ns/name` or `FROM host[:port]/ns/name` line to `:tag` with one
 * multi-line, case-insensitive regular-expression substitution.
 *
 * The substitution is modelled line by line (lines are the pieces between
 * `\n` characters). A line matches when it is: whitespace, the keyword
 * `from` in any case, at least one whitespace character, an image
 * reference, and whitespace to the end of the line. The rewrite inserts
 * `:` and the tag right after the image reference.
 */
module Tar {
  import opened Common
  import opened Text

  // ---------------------------------------------------- image references

  /** `[\w.-]` with the ASCII `\w`. */
  predicate IsRefChar(c: char)
  {
    IsWordChar(c) || c == '.' || c == '-'
  }

  /** `[\w.-]+` */
  predicate Run(s: string)
  {
    s != [] && forall i :: 0 <= i < |s| ==> IsRefChar(s[i])
  }

  /** `\d+` */
  predicate Digits(s: string)
  {
    s != [] && forall i :: 0 <= i < |s| ==> IsDigit(s[i])
  }

  /** `[\w.-]+(\:\d+)?`: a registry host with an optional port. */
  predicate Host(s: string)
  {
    Run(s) || exists k :: 0 < k < |s| && s[k] == ':' && Run(s[..k]) && Digits(s[k + 1..])
  }

  /** `[\w.-]+/[\w.-]+`: a namespaced repository name. */
  predicate Repo(s: string)
  {
    exists k :: 0 < k < |s| && s[k] == '/' && Run(s[..k]) && Run(s[k + 1..])
  }

  /** `([\w.-]+(\:\d+)?\/)?[\w.-]+/[\w.-]+`, the image the pattern pins. */
  predicate ImageRef(t: string)
  {
    Repo(t) || exists k :: 0 < k < |t| && t[k] == '/' && Host(t[..k]) && Repo(t[k + 1..])
  }

  /** The characters an image reference can hold. */
  predicate RefText(t: string)
  {
    forall i :: 0 <= i < |t| ==> IsRefChar(t[i]) || t[i] == '/' || t[i] == ':'
  }

  /** In an image reference every `:` comes before every `/` (a port, never a tag). */
  predicate ColonsFirst(t: string)
  {
    forall i, j :: 0 <= i < |t| && 0 <= j < |t| && t[i] == ':' && t[j] == '/' ==> i < j
  }

  lemma RunShape(s: string)
    requires Run(s)
    ensures RefText(s) && ColonsFirst(s) && '/' !in s && ':' !in s
  {
    assert forall i :: 0 <= i < |s| ==> s[i] != '/' && s[i] != ':';
  }

  lemma HostShape(s: string)
    requires Host(s)
    ensures RefText(s) && '/' !in s
  {
    if Run(s) {
      RunShape(s);
    } else {
      var k :| 0 < k < |s| && s[k] == ':' && Run(s[..k]) && Digits(s[k + 1..]);
      forall i | 0 <= i < |s| ensures (IsRefChar(s[i]) || s[i] == ':') && s[i] != '/' {
        if i < k {
          assert s[i] == s[..k][i];
        } else if i > k {
          assert s[i] == s[k + 1..][i - k - 1];
        }
      }
    }
  }

  lemma RepoShape(s: string)
    requires Repo(s)
    ensures RefText(s) && ':' !in s && '/' in s
  {
    var k :| 0 < k < |s| && s[k] == '/' && Run(s[..k]) && Run(s[k + 1..]);
    forall i | 0 <= i < |s| ensures (IsRefChar(s[i]) || s[i] == '/') && s[i] != ':' {
      if i < k {
        assert s[i] == s[..k][i];
      } else if i > k {
        assert s[i] == s[k + 1..][i - k - 1];
      }
    }
  }

  /** An image reference holds a `/`, holds only `[\w.-/:]`, and a `:` in it is a port. */
  lemma ImageRefShape(t: string)
    requires ImageRef(t)
    ensures RefText(t) && ColonsFirst(t) && '/' in t
  {
    if Repo(t) {
      RepoShape(t);
    } else {
      var k :| 0 < k < |t| && t[k] == '/' && Host(t[..k]) && Repo(t[k + 1..]);
      HostedShape(t, k);
    }
  }

  /** A host, a `/` at `k`, then a repository: the port's `:` can only be in the host. */
  lemma HostedShape(t: string, k: int)
    requires 0 < k < |t| && t[k] == '/' && Host(t[..k]) && Repo(t[k + 1..])
    ensures RefText(t) && ColonsFirst(t)
  {
    HostShape(t[..k]);
    RepoShape(t[k + 1..]);
    forall i | 0 <= i < |t| ensures IsRefChar(t[i]) || t[i] == '/' || t[i] == ':' {
      if i < k {
        assert t[i] == t[..k][i];
      } else if i > k {
        assert t[i] == t[k + 1..][i - k - 1];
      }
    }
    forall p | k < p < |t| ensures t[p] != ':' {
      assert t[p] == t[k + 1..][p - k - 1];
    }
    forall p | 0 <= p < k ensures t[p] != '/' {
      assert t[p] == t[..k][p];
    }
  }

  /** So a single-segment image such as `ubuntu` is never pinned. */
  lemma NoSlashNoImageRef(t: string)
    requires '/' !in t
    ensures !ImageRef(t)
  {
    if ImageRef(t) {
      ImageRefShape(t);
    }
  }

  /** Nor is one that already carries a tag (a `:` after a `/`) or a digest (an `@`). */
  lemma TaggedNoImageRef(t: string, i: nat, j: nat)
    requires j < i < |t| && t[j] == '/' && (t[i] == ':' || t[i] == '@')
    ensures !ImageRef(t)
  {
    if ImageRef(t) {
      ImageRefShape(t);
    }
  }

  // ------------------------------------------------------------- lines

  /** A matching line, cut at the image: what precedes it, the image, and the whitespace after it. */
  datatype FromLine = FromLine(head: string, image: string, trailing: string)

  /**
   * The pattern's meaning for one line, stated without a search: the line
   * is whitespace up to `a`, a keyword spelling `from` up to `b`, at least
   * one whitespace character up to `c`, an image reference up to `d`, and
   * whitespace to the end.
   */
  predicate FromShape(line: string, a: int, b: int, c: int, d: int)
  {
    && 0 <= a <= b < c <= d <= |line|
    && (forall j :: 0 <= j < a ==> IsSpace(line[j]))
    && Lower(line[a..b]) == "from"
    && (forall j :: b <= j < c ==> IsSpace(line[j]))
    && ImageRef(line[c..d])
    && (forall j :: d <= j < |line| ==> IsSpace(line[j]))
  }

  ghost predicate MatchesFrom(line: string)
  {
    exists a, b, c, d :: FromShape(line, a, b, c, d)
  }

  /**
   * The line's part of `^(\s*from\s+)(image)(\s*)$`, or `None` when the
   * line does not match. Every quantifier of the pattern is forced: the
   * whitespace runs end at the first non-whitespace character and the
   * image, which has no whitespace, must reach the trailing whitespace.
   */
  function ParseFrom(line: string): (r: Option<FromLine>)
    ensures r.Some? ==> line == r.value.head + r.value.image + r.value.trailing
    ensures r.Some? ==> ImageRef(r.value.image) && AllSpace(r.value.trailing)
  {
    var a := SpaceEnd(line, 0);
    if a + 4 < |line| && Lower(line[a..a + 4]) == "from" && IsSpace(line[a + 4]) then
      var c := SpaceEnd(line, a + 4);
      var d := WordEnd(line, c);
      if ImageRef(line[c..d]) && AllSpace(line[d..]) then
        assert line == line[..c] + line[c..d] + line[d..];
        Some(FromLine(line[..c], line[c..d], line[d..]))
      else None
    else None
  }

  /** No character of an image reference is whitespace. */
  lemma ImageRefNoSpace(t: string)
    requires ImageRef(t)
    ensures t != [] && forall i :: 0 <= i < |t| ==> !IsSpace(t[i])
  {
    ImageRefShape(t);
  }

  lemma FromNotSpace(k: string)
    requires Lower(k) == "from"
    ensures |k| == 4 && !IsSpace(k[0])
  {
    assert LowerChar(k[0]) == 'f';
  }

  /** The cut of a matching line is unique, and `ParseFrom` returns it. */
  lemma ParseFromAt(line: string, a: int, b: int, c: int, d: int)
    requires FromShape(line, a, b, c, d)
    ensures ParseFrom(line) == Some(FromLine(line[..c], line[c..d], line[d..]))
  {
    FromNotSpace(line[a..b]);
    assert line[a] == line[a..b][0];
    SpaceEndAt(line, 0, a);
    assert b == a + 4 && IsSpace(line[a + 4]);
    ImageRefNoSpace(line[c..d]);
    assert !IsSpace(line[c]) by {
      assert line[c] == line[c..d][0];
    }
    SpaceEndAt(line, a + 4, c);
    forall j | c <= j < d ensures !IsSpace(line[j]) {
      assert line[j] == line[c..d][j - c];
    }
    WordEndAt(line, c, d);
  }

  /** `ParseFrom` finds a line exactly when the line has the pattern's shape. */
  lemma ParseFromMatches(line: string)
    ensures ParseFrom(line).Some? <==> MatchesFrom(line)
  {
    if ParseFrom(line).Some? {
      var a := SpaceEnd(line, 0);
      var c := SpaceEnd(line, a + 4);
      var d := WordEnd(line, c);
      assert FromShape(line, a, a + 4, c, d);
    }
    if MatchesFrom(line) {
      var a, b, c, d :| FromShape(line, a, b, c, d);
      ParseFromAt(line, a, b, c, d);
    }
  }

  /** `re.sub`'s effect on one line: `:tag` inserted after the image of a matching line, nothing else. */
  function RewriteLine(tag: string, line: string): (r: string)
    ensures ParseFrom(line).None? ==> r == line
    ensures ParseFrom(line).Some? ==>
              var p := |ParseFrom(line).value.head| + |ParseFrom(line).value.image|;
              p <= |line| && r == line[..p] + ":" + tag + line[p..]
  {
    match ParseFrom(line)
    case None => line
    case Some(f) =>
      assert line[..|f.head| + |f.image|] == f.head + f.image;
      f.head + f.image + ":" + tag + f.trailing
  }

  /** Pinning is idempotent: a pinned line no longer matches, because its image now carries a tag. */
  lemma RewriteLineIdempotent(tag: string, line: string)
    ensures RewriteLine(tag, RewriteLine(tag, line)) == RewriteLine(tag, line)
  {
    if ParseFrom(line).Some? {
      PinnedLineNoMatch(tag, line);
    }
  }

  /** Where a matching line is pinned: the tag goes right after its image, so the text up to the image is kept. */
  lemma PinnedParts(tag: string, line: string, a: int, c: int, d: int)
    requires ParseFrom(line).Some?
    requires a == SpaceEnd(line, 0) && c == SpaceEnd(line, a + 4) && d == WordEnd(line, c)
    ensures a + 4 < |line| && Lower(line[a..a + 4]) == "from" && IsSpace(line[a + 4])
    ensures 0 <= c < d <= |line| < |RewriteLine(tag, line)| && ImageRef(line[c..d])
    ensures RewriteLine(tag, line)[..d] == line[..d] && RewriteLine(tag, line)[c..d] == line[c..d]
    ensures RewriteLine(tag, line)[d] == ':'
  {
    var once := RewriteLine(tag, line);
    assert once == line[..d] + ":" + tag + line[d..];
    ImageRefNoSpace(line[c..d]);
  }

  lemma PinnedLineNoMatch(tag: string, line: string)
    requires ParseFrom(line).Some?
    ensures ParseFrom(RewriteLine(tag, line)).None?
  {
    var once := RewriteLine(tag, line);
    var a := SpaceEnd(line, 0);
    var c := SpaceEnd(line, a + 4);
    var d := WordEnd(line, c);
    PinnedParts(tag, line, a, c, d);
    SamePrefixSameKeyword(line, once, a, c, d);
    TaggedImageNoMatch(line[c..d], once, c, d);
  }

  /** Text that agrees with a matching line up to its image keeps the same whitespace and keyword. */
  lemma SamePrefixSameKeyword(line: string, once: string, a: int, c: int, d: int)
    requires a == SpaceEnd(line, 0) && a + 4 < |line| && Lower(line[a..a + 4]) == "from" && IsSpace(line[a + 4])
    requires c == SpaceEnd(line, a + 4) && c < d <= |line| < |once|
    requires once[..d] == line[..d]
    ensures SpaceEnd(once, 0) == a && Lower(once[a..a + 4]) == "from" && IsSpace(once[a + 4])
    ensures SpaceEnd(once, a + 4) == c
  {
    assert forall j :: 0 <= j < d ==> once[j] == once[..d][j] == line[j];
    assert a < d by {
      FromNotSpace(line[a..a + 4]);
      assert line[a] == line[a..a + 4][0];
    }
    SpaceEndAt(once, 0, a);
    assert once[a..a + 4] == line[a..a + 4];
    SpaceEndAt(once, a + 4, c);
  }

  /** An image followed directly by `:` makes the longer word, which is no image reference. */
  lemma TaggedImageNoMatch(image: string, once: string, c: int, d: int)
    requires ImageRef(image) && 0 <= c < d < |once| && once[c..d] == image && once[d] == ':'
    ensures !ImageRef(once[c..WordEnd(once, c)])
  {
    ImageRefShape(image);
    ImageRefNoSpace(image);
    forall j | c <= j < d ensures !IsSpace(once[j]) {
      assert once[j] == image[j - c];
    }
    var d' := WordEnd(once, c);
    assert d' > d;
    var image' := once[c..d'];
    assert image'[d - c] == ':';
    var j :| 0 <= j < d - c && image[j] == '/';
    assert image'[j] == '/';
    if ImageRef(image') {
      ImageRefShape(image');
    }
  }

  // ----------------------------------------------------------- the file

  /** The build file cut into lines at `\n`, each rewritten, and joined again. */
  function RewriteAll(tag: string, content: string): string
  {
    var lines := Split(content, '\n');
    Join(seq(|lines|, i requires 0 <= i < |lines| => RewriteLine(tag, lines[i])), '\n')
  }

  /**
   * `tag_parent(tag, docker_content)`. The replacement template is built by
   * string concatenation, so a missing tag (`None`) raises `TypeError`
   * before any matching is done. A present tag is inserted verbatim: the
   * backslash escapes `re.sub` would process in the template are not modelled.
   */
  function TagParent(tag: Option<string>, content: string): (r: Result<string>)
    ensures tag.None? <==> r == Err(TypeError)
  {
    match tag
    case None => Err(TypeError)
    case Some(t) => Ok(RewriteAll(t, content))
  }

  /**
   * The rewrite a build evidently intends: pin the parent when it is built
   * in the same run, and otherwise hand the build file over untouched.
   */
  function TagParentOrKeep(tag: Option<string>, content: string): (r: string)
    ensures tag.None? ==> r == content
    ensures tag.Some? ==> TagParent(tag, content) == Ok(r)
  {
    match tag
    case None => content
    case Some(t) => RewriteAll(t, content)
  }

  /** `mkcontext(tag, path)`'s effect on the build file: `tag_parent` with the tag bound first. */
  function MkContext(tag: Option<string>, content: string): (r: Result<string>)
    ensures r.Err? <==> tag.None?
    ensures r.Ok? ==> r.value == TagParentOrKeep(tag, content)
  {
    TagParent(tag, content)
  }

  /** With no line to pin, the file comes back unchanged. */
  lemma NothingToPin(tag: string, content: string)
    requires forall i :: 0 <= i < |Split(content, '\n')| ==> ParseFrom(Split(content, '\n')[i]).None?
    ensures TagParent(Some(tag), content) == Ok(content)
  {
    var lines := Split(content, '\n');
    assert seq(|lines|, i requires 0 <= i < |lines| => RewriteLine(tag, lines[i])) == lines;
    JoinSplit(content, '\n');
  }

  /**
   * Every line is rewritten on its own, not only the first `FROM`: the
   * output's lines are the input's, each pinned if it matches. (A tag
   * holding a line break would add lines.)
   */
  lemma PinsEveryLine(tag: string, content: string)
    requires '\n' !in tag
    ensures var lines := Split(content, '\n');
            var out := Split(RewriteAll(tag, content), '\n');
            && |out| == |lines|
            && forall i :: 0 <= i < |lines| ==> out[i] == RewriteLine(tag, lines[i])
  {
    var lines := Split(content, '\n');
    var pinned := seq(|lines|, i requires 0 <= i < |lines| => RewriteLine(tag, lines[i]));
    forall k | 0 <= k < |pinned| ensures '\n' !in pinned[k] {
      assert '\n' !in lines[k];
      if ParseFrom(lines[k]).Some? {
        var p := |ParseFrom(lines[k]).value.head| + |ParseFrom(lines[k]).value.image|;
        assert pinned[k] == lines[k][..p] + ":" + tag + lines[k][p..];
        assert '\n' !in lines[k][..p] && '\n' !in lines[k][p..];
      }
    }
    SplitJoin(pinned, '\n');
  }

  /** Pinning a file twice pins it once. */
  lemma TagParentIdempotent(tag: string, content: string)
    requires '\n' !in tag
    ensures TagParent(Some(tag), RewriteAll(tag, content)) == TagParent(Some(tag), content)
  {
    var lines := Split(content, '\n');
    var pinned := seq(|lines|, i requires 0 <= i < |lines| => RewriteLine(tag, lines[i]));
    PinsEveryLine(tag, content);
    var out := Split(RewriteAll(tag, content), '\n');
    assert out == pinned;
    forall i | 0 <= i < |out| ensures RewriteLine(tag, out[i]) == out[i] {
      RewriteLineIdempotent(tag, lines[i]);
    }
    assert seq(|out|, i requires 0 <= i < |out| => RewriteLine(tag, out[i])) == out;
  }

  lemma RepoOf(ns: string, name: string)
    requires Run(ns) && Run(name)
    ensures Repo(ns + "/" + name)
  {
    var t := ns + "/" + name;
    assert t[..|ns|] == ns && t[|ns| + 1..] == name;
  }

  lemma HostOf(host: string, port: string)
    requires Run(host) && Digits(port)
    ensures Host(host + ":" + port)
  {
    var t := host + ":" + port;
    assert t[..|host|] == host && t[|host| + 1..] == port;
  }

  lemma RegistryRefOf(host: string, repo: string)
    requires Host(host) && Repo(repo)
    ensures ImageRef(host + "/" + repo)
  {
    var t := host + "/" + repo;
    assert t[..|host|] == host && t[|host| + 1..] == repo;
  }

  /** A line made of a `from` keyword, one space and an image reference is pinned right after the image. */
  lemma PinsPlainLine(tag: string, line: string)
    requires |line| > 5 && line[4] == ' ' && Lower(line[..4]) == "from" && ImageRef(line[5..])
    ensures RewriteLine(tag, line) == line + ":" + tag
  {
    FromNotSpace(line[..4]);
    assert line[0..4] == line[..4] && line[5..|line|] == line[5..];
    assert FromShape(line, 0, 4, 5, |line|);
    ParseFromAt(line, 0, 4, 5, |line|);
  }

  lemma MixedCaseKeyword(line: string)
    requires |line| >= 4 && line[0] == 'F' && line[1] == 'r' && line[2] == 'o' && line[3] == 'M'
    ensures Lower(line[..4]) == "from"
  {
  }

  lemma SomerepoImage(repo: string)
    requires repo == "somerepo/image"
    ensures Repo(repo)
  {
    var ns, name := repo[..8], repo[9..];
    assert ns == "somerepo" && name == "image";
    RepoOf(ns, name);
    assert ns + "/" + name == repo;
  }

  lemma NamespacedImageRef(image: string)
    requires image == "somerepo/image"
    ensures ImageRef(image)
  {
    SomerepoImage(image);
  }

  lemma LocalhostHost(host: string)
    requires host == "localhost:5000"
    ensures Host(host)
  {
    var name, port := host[..9], host[10..];
    assert name == "localhost" && port == "5000";
    HostOf(name, port);
    assert name + ":" + port == host;
  }

  lemma RegistryImageRef(image: string)
    requires image == "localhost:5000/somerepo/image"
    ensures ImageRef(image)
  {
    var host, repo := image[..14], image[15..];
    assert host == "localhost:5000" && repo == "somerepo/image";
    LocalhostHost(host);
    SomerepoImage(repo);
    RegistryRefOf(host, repo);
    assert host + "/" + repo == image;
  }

  /** The first doctest: a namespaced image gains the tag, and the keyword keeps its case. */
  lemma PinsNamespacedImage(tag: string, image: string, line: string)
    requires image == "somerepo/image" && line == "FroM " + image
    ensures RewriteLine(tag, line) == line + ":" + tag
  {
    MixedCaseKeyword(line);
    NamespacedImageRef(image);
    assert line[5..] == image;
    PinsPlainLine(tag, line);
  }

  /** The second doctest: an image under a registry with a port gains the tag. */
  lemma PinsRegistryImage(tag: string, image: string, line: string)
    requires image == "localhost:5000/somerepo/image" && line == "FroM " + image
    ensures RewriteLine(tag, line) == line + ":" + tag
  {
    MixedCaseKeyword(line);
    RegistryImageRef(image);
    assert line[5..] == image;
    PinsPlainLine(tag, line);
  }

  lemma DottedHost(host: string)
    requires host == "docker.example.com:5000"
    ensures Host(host)
  {
    var name, port := host[..18], host[19..];
    assert name == "docker.example.com" && port == "5000";
    HostOf(name, port);
    assert name + ":" + port == host;
  }

  lemma DottedRegistryImageRef(image: string)
    requires image == "docker.example.com:5000/somerepo/image"
    ensures ImageRef(image)
  {
    var host, repo := image[..23], image[24..];
    assert host == "docker.example.com:5000" && repo == "somerepo/image";
    DottedHost(host);
    SomerepoImage(repo);
    RegistryRefOf(host, repo);
    assert host + "/" + repo == image;
  }

  /** The third doctest: a dotted registry host with a port. */
  lemma PinsDottedRegistryImage(tag: string, image: string, line: string)
    requires image == "docker.example.com:5000/somerepo/image" && line == "FroM " + image
    ensures RewriteLine(tag, line) == line + ":" + tag
  {
    MixedCaseKeyword(line);
    DottedRegistryImageRef(image);
    assert line[5..] == image;
    PinsPlainLine(tag, line);
  }

  /** Every line the pattern parses has a `/`: the image it names has one. */
  lemma ParsedHasSlash(line: string)
    ensures ParseFrom(line).Some? ==> '/' in line
  {
    if ParseFrom(line).Some? {
      var r := ParseFrom(line).value;
      var k: int;
      if Repo(r.image) {
        k :| 0 < k < |r.image| && r.image[k] == '/' && Run(r.image[..k]) && Run(r.image[k + 1..]);
      } else {
        k :| 0 < k < |r.image| && r.image[k] == '/' && Host(r.image[..k]) && Repo(r.image[k + 1..]);
      }
      assert line[|r.head| + k] == r.image[k];
    }
  }

  /** A line without a `/`, such as `FROM ubuntu`, names no pinnable image and is left alone. */
  lemma KeepsOfficialImage(tag: string, line: string)
    requires '/' !in line
    ensures RewriteLine(tag, line) == line
  {
    ParsedHasSlash(line);
  }
}

=== FILE: text.dfy ===
/**
 * The parts of Python's `str` that the modelled code relies on: whitespace
 * (as `str.isspace` and the `\s` regular-expression class see it),
 * `strip`, `split()` / `split(sep)`, `startswith`, ASCII `lower`, and the
 * decimal rendering of integers used by `str.format`.
 */
module Text {

  /** Python's `str.isspace()` for one character; `\s` in a `str` pattern matches the same set. */
  predicate IsSpace(c: char)
  {
    c == ' ' || ('\t' <= c <= '\r') || ('\U{1C}' <= c <= '\U{1F}') || c == '\U{85}' || c == '\U{A0}'
    || c == '\U{1680}' || ('\U{2000}' <= c <= '\U{200A}') || c == '\U{2028}' || c == '\U{2029}'
    || c == '\U{202F}' || c == '\U{205F}' || c == '\U{3000}'
  }

  predicate IsDigit(c: char) { '0' <= c <= '9' }

  /** The ASCII part of the `\w` class: letters, digits and underscore. */
  predicate IsWordChar(c: char)
  {
    ('a' <= c <= 'z') || ('A' <= c <= 'Z') || IsDigit(c) || c == '_'
  }

  predicate AllSpace(s: string) { forall i :: 0 <= i < |s| ==> IsSpace(s[i]) }

  predicate StartsWith(s: string, prefix: string)
  {
    |prefix| <= |s| && s[..|prefix|] == prefix
  }

  predicate EndsWith(s: string, suffix: string)
  {
    |suffix| <= |s| && s[|s| - |suffix|..] == suffix
  }

  /** The index of the first non-whitespace character at or after `i`, or `|s|`. */
  function SpaceEnd(s: string, i: nat): (k: nat)
    requires i <= |s|
    ensures i <= k <= |s| && (k == |s| || !IsSpace(s[k]))
    ensures forall j :: i <= j < k ==> IsSpace(s[j])
    decreases |s| - i
  {
    if i < |s| && IsSpace(s[i]) then SpaceEnd(s, i + 1) else i
  }

  /** `SpaceEnd` is the one index that ends the run of whitespace from `i`. */
  lemma SpaceEndAt(s: string, i: nat, n: nat)
    requires i <= n <= |s| && (forall j :: i <= j < n ==> IsSpace(s[j])) && (n == |s| || !IsSpace(s[n]))
    ensures SpaceEnd(s, i) == n
  {
  }

  /** The index just past the last non-whitespace character before `n`, or 0. */
  function SpaceStart(s: string, n: nat): (k: nat)
    requires n <= |s|
    ensures k <= n && (k == 0 || !IsSpace(s[k - 1]))
    ensures forall j :: k <= j < n ==> IsSpace(s[j])
  {
    if n > 0 && IsSpace(s[n - 1]) then SpaceStart(s, n - 1) else n
  }

  /** `str.lstrip()`: drops leading whitespace. */
  function LStrip(s: string): (r: string)
    ensures |r| <= |s| && r == s[|s| - |r|..]
    ensures r == [] || !IsSpace(r[0])
    ensures AllSpace(s[..|s| - |r|])
  {
    s[SpaceEnd(s, 0)..]
  }

  /** `str.rstrip()`: drops trailing whitespace. */
  function RStrip(s: string): (r: string)
    ensures |r| <= |s| && r == s[..|r|]
    ensures r == [] || !IsSpace(r[|r| - 1])
    ensures AllSpace(s[|r|..])
  {
    s[..SpaceStart(s, |s|)]
  }

  /** `str.strip()`. */
  function Strip(s: string): string
  {
    RStrip(LStrip(s))
  }

  /** `str.strip(c)` for a single character `c`. */
  function StripChar(s: string, c: char): (r: string)
    ensures r == [] || (r[0] != c && r[|r| - 1] != c)
    ensures forall i :: 0 <= i < |r| ==> r[i] in s
  {
    if s != [] && s[0] == c then StripChar(s[1..], c)
    else if s != [] && s[|s| - 1] == c then StripChar(s[..|s| - 1], c)
    else s
  }

  /** The index of the first whitespace character at or after `i`, or `|s|`. */
  function WordEnd(s: string, i: nat): (k: nat)
    requires i <= |s|
    ensures i <= k <= |s| && (k == |s| || IsSpace(s[k]))
    ensures forall j :: i <= j < k ==> !IsSpace(s[j])
    decreases |s| - i
  {
    if i < |s| && !IsSpace(s[i]) then WordEnd(s, i + 1) else i
  }

  /** `WordEnd` is the one index that ends the run of non-whitespace from `i`. */
  lemma WordEndAt(s: string, i: nat, n: nat)
    requires i <= n <= |s| && (forall j :: i <= j < n ==> !IsSpace(s[j])) && (n == |s| || IsSpace(s[n]))
    ensures WordEnd(s, i) == n
  {
  }

  /** The longest prefix of `s` free of whitespace. */
  function Word(s: string): (w: string)
    ensures |w| <= |s| && w == s[..|w|]
    ensures forall i :: 0 <= i < |w| ==> !IsSpace(w[i])
    ensures |w| == |s| || IsSpace(s[|w|])
  {
    s[..WordEnd(s, 0)]
  }

  /** `str.split()` with no separator: the maximal runs of non-whitespace. */
  function SplitWhitespace(s: string): (parts: seq<string>)
    ensures forall k :: 0 <= k < |parts| ==> parts[k] != []
  {
    WordsFrom(s, 0)
  }

  /** The words of `s[i..]`. */
  function WordsFrom(s: string, i: nat): (parts: seq<string>)
    requires i <= |s|
    ensures forall k :: 0 <= k < |parts| ==> parts[k] != []
    decreases |s| - i
  {
    if i == |s| then []
    else if IsSpace(s[i]) then WordsFrom(s, i + 1)
    else
      var e := WordEnd(s, i);
      [s[i..e]] + WordsFrom(s, e)
  }

  /** `str.split(sep)` for a one-character separator: every piece, empty ones included. */
  function Split(s: string, sep: char): (parts: seq<string>)
    ensures |parts| >= 1
    ensures forall k :: 0 <= k < |parts| ==> sep !in parts[k]
  {
    if s == [] then [[]]
    else
      var rest := Split(s[1..], sep);
      if s[0] == sep then [[]] + rest else [[s[0]] + rest[0]] + rest[1..]
  }

  /** `sep.join(parts)` for a one-character separator. */
  function Join(parts: seq<string>, sep: char): string
  {
    if parts == [] then []
    else if |parts| == 1 then parts[0]
    else parts[0] + [sep] + Join(parts[1..], sep)
  }

  lemma {:induction false} JoinSplit(s: string, sep: char)
    ensures Join(Split(s, sep), sep) == s
  {
    if s != [] {
      JoinSplit(s[1..], sep);
      var rest := Split(s[1..], sep);
      if s[0] != sep {
        var parts := [[s[0]] + rest[0]] + rest[1..];
        assert parts[1..] == rest[1..];
        if |rest| > 1 {
          assert Join(rest, sep) == rest[0] + [sep] + Join(rest[1..], sep);
        }
      }
    }
  }

  /** Splitting text with no separator gives the text back whole. */
  lemma {:induction false} SplitNoSep(s: string, sep: char)
    requires sep !in s
    ensures Split(s, sep) == [s]
  {
    if s != [] {
      SplitNoSep(s[1..], sep);
      assert [s[0]] + s[1..] == s;
    }
  }

  lemma {:induction false} SplitAfterFirst(a: string, b: string, sep: char)
    requires sep !in a
    ensures Split(a + [sep] + b, sep) == [a] + Split(b, sep)
  {
    if a == [] {
      assert a + [sep] + b == [sep] + b;
      assert ([sep] + b)[1..] == b;
    } else {
      assert (a + [sep] + b)[1..] == a[1..] + [sep] + b;
      SplitAfterFirst(a[1..], b, sep);
      assert [a[0]] + a[1..] == a;
    }
  }

  /** `sep.join` is undone by `split(sep)` when no piece holds the separator. */
  lemma {:induction false} SplitJoin(parts: seq<string>, sep: char)
    requires |parts| >= 1
    requires forall k :: 0 <= k < |parts| ==> sep !in parts[k]
    ensures Split(Join(parts, sep), sep) == parts
  {
    if |parts| == 1 {
      SplitNoSep(parts[0], sep);
    } else {
      SplitJoin(parts[1..], sep);
      SplitAfterFirst(parts[0], Join(parts[1..], sep), sep);
      assert [parts[0]] + parts[1..] == parts;
    }
  }

  function LowerChar(c: char): char
  {
    if 'A' <= c <= 'Z' then (c as int + 32) as char else c
  }

  /** `str.lower()` restricted to ASCII letters. */
  function Lower(s: string): (r: string)
    ensures |r| == |s|
    ensures forall i :: 0 <= i < |s| ==> r[i] == LowerChar(s[i])
  {
    if s == [] then [] else [LowerChar(s[0])] + Lower(s[1..])
  }

  /** `s.replace(a, b)` for single characters. */
  function ReplaceChar(s: string, a: char, b: char): (r: string)
    ensures |r| == |s|
    ensures forall i :: 0 <= i < |s| ==> r[i] == if s[i] == a then b else s[i]
  {
    if s == [] then [] else [if s[0] == a then b else s[0]] + ReplaceChar(s[1..], a, b)
  }

  function DigitChar(d: nat): char
    requires d < 10
  {
    ('0' as int + d) as char
  }

  /** The decimal text of a natural number. */
  function NatToString(n: nat): (r: string)
    ensures r != []
    ensures forall i :: 0 <= i < |r| ==> IsDigit(r[i])
  {
    if n < 10 then [DigitChar(n)] else NatToString(n / 10) + [DigitChar(n % 10)]
  }

  /** `str(i)` for an integer. */
  function IntToString(i: int): string
  {
    if i < 0 then "-" + NatToString(-i) else NatToString(i)
  }
}

=== FILE: zipper.dfy ===
/**
 * The older zipper, `shipwright/zipper.py`. Its context, `down`, `up`,
 * `top`, `right`, `rightmost`, `leftmost_descendant`,
 * `rightmost_descendant`, `postorder_next`, `edit`, `insert`, `replace`,
 * `find` and `remove` are the same code as in `_lib/zipper.py` and are
 * taken from `LibZipper`; this module adds what only the older one has.
 */
module Zipper {
  import opened Common
  import opened LibZipper

  // ---------------------------------------------------------- navigation

  /** `root`: the node at the top. */
  method Root<T>(loc: Loc<T>) returns (t: Tree<T>)
    ensures Unedited(loc) ==> t == RootOf(loc)
  {
    var top := Top(loc);
    TopOfUnedited'(loc);
    t := top.current;
  }

  lemma TopOfUnedited'<T>(loc: Loc<T>)
    ensures Unedited(loc) ==> TopOf(loc).current == RootOf(loc)
  {
    if Unedited(loc) { TopOfUnedited(loc); }
  }

  function Left<T>(loc: Loc<T>): (x: Option<Loc<T>>)
    ensures x.Some? <==> loc.path.Frame? && loc.path.l != []
    ensures x.Some? ==>
              && x.value.path.Frame? && Siblings(x.value) == Siblings(loc)
              && |x.value.path.l| + 1 == |loc.path.l|
              && x.value.path.pnode == loc.path.pnode && x.value.path.ppath == loc.path.ppath
              && x.value.path.changed == loc.path.changed
  {
    match loc.path
    case Frame(ls, r, pnode, ppath, changed) =>
      if ls == [] then None
      else
        assert ls == ls[..|ls| - 1] + [ls[|ls| - 1]];
        Some(Loc(ls[|ls| - 1], Frame(ls[..|ls| - 1], [loc.current] + r, pnode, ppath, changed)))
    case _ => None
  }

  /** `left` and `right` undo each other. */
  lemma LeftRight<T>(loc: Loc<T>)
    ensures Right(loc).Some? ==> Left(Right(loc).value) == Some(loc)
    ensures Left(loc).Some? ==> Right(Left(loc).value) == Some(loc)
  {
    if Right(loc).Some? {
      var p := loc.path;
      assert (p.l + [loc.current])[..|p.l|] == p.l;
      assert [p.r[0]] + p.r[1..] == p.r;
    }
    if Left(loc).Some? {
      var p := loc.path;
      assert p.l[..|p.l| - 1] + [p.l[|p.l| - 1]] == p.l;
    }
  }

  /** `leftmost`: the first sibling, or the location itself at the top. */
  function Leftmost<T>(loc: Loc<T>): (x: Loc<T>)
    ensures !loc.path.Frame? ==> x == loc
    ensures loc.path.Frame? ==>
              && x.path.Frame? && x.path.l == [] && Siblings(x) == Siblings(loc)
              && x.path.pnode == loc.path.pnode && x.path.ppath == loc.path.ppath
              && x.path.changed == loc.path.changed
  {
    match loc.path
    case Frame(l, r, pnode, ppath, changed) =>
      var t := l + [loc.current] + r;
      assert t == [t[0]] + t[1..];
      Loc(t[0], Frame([], t[1..], pnode, ppath, changed))
    case _ => loc
  }

  /** The locations `up` reaches from `loc`, nearest first. */
  function Ancestors<T>(loc: Loc<T>): (us: seq<Loc<T>>)
    ensures |us| == Depth(loc.path)
    decreases Depth(loc.path)
  {
    match Up(loc)
    case None => []
    case Some(u) => [u] + Ancestors(u)
  }

  /** In an unedited tree the ancestors hold the parents on the path, the root last. */
  lemma {:induction false} AncestorsOfUnedited<T>(loc: Loc<T>)
    requires Unedited(loc)
    ensures forall i :: 0 <= i < |Ancestors(loc)| ==> Unedited(Ancestors(loc)[i]) && RootOf(Ancestors(loc)[i]) == RootOf(loc)
    ensures loc.path.Frame? ==> Ancestors(loc)[|Ancestors(loc)| - 1] == Zipper(RootOf(loc))
    decreases Depth(loc.path)
  {
    if loc.path.Frame? {
      var u := Up(loc).value;
      AncestorsOfUnedited(u);
      if !u.path.Frame? {
        assert u.path == Nil;
      }
    }
  }

  /** `ancestor(filter)`: the nearest ancestor that `filter` accepts, or `None` past the top. */
  method Ancestor<T>(loc: Loc<T>, filter: Loc<T> -> bool) returns (a: Option<Loc<T>>)
    ensures a == FirstMatch(Ancestors(loc), filter)
  {
    var u := Up(loc);
    while u.Some?
      invariant u.Some? ==> FirstMatch([u.value] + Ancestors(u.value), filter) == FirstMatch(Ancestors(loc), filter)
      invariant u.None? ==> FirstMatch(Ancestors(loc), filter) == None
      decreases if u.Some? then Depth(u.value.path) + 1 else 0
    {
      if filter(u.value) {
        return u;
      } else {
        assert ([u.value] + Ancestors(u.value))[1..] == Ancestors(u.value);
        u := Up(u.value);
      }
    }
    return None;
  }

  // -------------------------------------------------------------- move_to

  /** `len(path.l) * ['r']`. */
  function Rights(n: nat): (ms: seq<char>)
    ensures |ms| == n && forall i :: 0 <= i < n ==> ms[i] == 'r'
  {
    if n == 0 then [] else ['r'] + Rights(n - 1)
  }

  /** The list `move_to` builds before reversing it: innermost frame first. */
  function Recorded<T>(p: Path<T>): seq<char>
    decreases Depth(p)
  {
    if p.Frame? then Rights(|p.l|) + ['d'] + Recorded(p.ppath) else []
  }

  lemma ReverseConcat<X>(a: seq<X>, b: seq<X>)
    ensures Reverse(a + b) == Reverse(b) + Reverse(a)
  {
  }

  lemma ReverseRights(n: nat)
    ensures Reverse(Rights(n)) == Rights(n)
  {
  }

  /** The moves `move_to` replays from the top to reach the position of a location with path `p`. */
  function MovesTo<T>(p: Path<T>): seq<char>
  {
    Reverse(Recorded(p))
  }

  lemma MovesToFrame<T>(p: Path<T>)
    requires p.Frame?
    ensures MovesTo(p) == MovesTo(p.ppath) + ['d'] + Rights(|p.l|)
  {
    ReverseConcat(Rights(|p.l|) + ['d'], Recorded(p.ppath));
    ReverseConcat(Rights(|p.l|), ['d']);
    ReverseRights(|p.l|);
  }

  function Step<T>(loc: Loc<T>, m: char): Option<Loc<T>>
  {
    if m == 'd' then Down(loc) else Right(loc)
  }

  /** Replays moves; a move made from `None` is Python's `AttributeError`. */
  function Replay<T>(loc: Option<Loc<T>>, moves: seq<char>): Result<Option<Loc<T>>>
    decreases |moves|
  {
    if moves == [] then Ok(loc)
    else if loc.None? then Err(AttributeError)
    else Replay(Step(loc.value, moves[0]), moves[1..])
  }

  /** The first loop of `move_to`: the moves recorded while climbing from a path to the top. */
  method RecordMoves<T>(p: Path<T>) returns (moves: seq<char>)
    ensures moves == Recorded(p)
  {
    moves := [];
    var path := p;
    while path.Frame?
      invariant moves + Recorded(path) == Recorded(p)
      decreases Depth(path)
    {
      var step := Rights(|path.l|) + ['d'];
      assert Recorded(path) == step + Recorded(path.ppath);
      assert moves + (step + Recorded(path.ppath)) == (moves + step) + Recorded(path.ppath);
      moves := moves + step;
      path := path.ppath;
    }
    assert moves + [] == moves;
  }

  /** The second loop of `move_to`: the moves replayed one by one, stopping at `None`. */
  method ReplayMoves<T>(start: Loc<T>, moves: seq<char>) returns (r: Result<Option<Loc<T>>>)
    ensures r == Replay(Some(start), moves)
  {
    var cur: Option<Loc<T>> := Some(start);
    var i := 0;
    while i < |moves|
      invariant 0 <= i <= |moves|
      invariant Replay(cur, moves[i..]) == Replay(Some(start), moves)
    {
      if cur.None? {
        assert moves[i..] != [];
        return Err(AttributeError);
      }
      assert moves[i..][0] == moves[i] && moves[i..][1..] == moves[i + 1..];
      cur := Step(cur.value, moves[i]);
      i := i + 1;
    }
    r := Ok(cur);
  }

  /** `move_to(dest)`: records the moves that lead from the top to `dest`, then replays them from this tree's top. */
  method MoveTo<T>(loc: Loc<T>, dest: Loc<T>) returns (r: Result<Option<Loc<T>>>)
    ensures r == Replay(Some(TopOf(loc)), MovesTo(dest.path))
  {
    var moves := RecordMoves(dest.path);
    moves := Reverse(moves);
    var top := Top(loc);
    r := ReplayMoves(top, moves);
  }

  lemma {:induction false} ReplayConcat<T>(loc: Option<Loc<T>>, a: seq<char>, b: seq<char>)
    ensures Replay(loc, a + b) == if Replay(loc, a).Ok? then Replay(Replay(loc, a).value, b) else Replay(loc, a)
    decreases |a|
  {
    if a != [] && loc.Some? {
      assert (a + b)[1..] == a[1..] + b;
      ReplayConcat(Step(loc.value, a[0]), a[1..], b);
    } else if a != [] {
      assert (a + b) != [];
    } else {
      assert a + b == b;
    }
  }

  /** The first of `k` moves right is a move right. */
  lemma ReplayRightsStep<T>(x: Loc<T>, k: nat)
    requires k > 0
    ensures Replay(Some(x), Rights(k)) == Replay(Right(x), Rights(k - 1))
  {
    assert Rights(k) == ['r'] + Rights(k - 1);
    assert Rights(k)[1..] == Rights(k - 1);
  }

  /** `k` moves right from the `i`-th sibling reach the `(i + k)`-th, with the frame kept. */
  lemma {:induction false} ReplayRights<T>(x: Loc<T>, k: nat)
    requires x.path.Frame? && k <= |x.path.r|
    ensures
      var sib := Siblings(x);
      var j := |x.path.l| + k;
      Replay(Some(x), Rights(k))
        == Ok(Some(Loc(sib[j], Frame(sib[..j], sib[j + 1..], x.path.pnode, x.path.ppath, x.path.changed))))
    decreases k
  {
    var sib := Siblings(x);
    if k == 0 {
      assert sib[..|x.path.l|] == x.path.l;
      assert sib[|x.path.l|] == x.current;
      assert sib[|x.path.l| + 1..] == x.path.r;
    } else {
      var y := Right(x).value;
      ReplayRightsStep(x, k);
      ReplayRights(y, k - 1);
      assert Siblings(y) == sib && |y.path.l| + (k - 1) == |x.path.l| + k;
    }
  }

  /** From the parent, one move down and `|l|` moves right reach the child whose left siblings are `l`. */
  lemma DownThenRights<T>(dest: Loc<T>)
    requires dest.path.Frame? && Unedited(dest)
    ensures Replay(Some(Loc(dest.path.pnode, dest.path.ppath)), ['d'] + Rights(|dest.path.l|)) == Ok(Some(dest))
  {
    var p := dest.path;
    var parent := Loc(p.pnode, p.ppath);
    ReplayConcat(Some(parent), ['d'], Rights(|p.l|));
    var d := Down(parent).value;
    assert Replay(Some(parent), ['d']) == Ok(Some(d));
    var sib := p.l + [dest.current] + p.r;
    assert Siblings(d) == sib;
    assert d.path.pnode == p.pnode && d.path.ppath == p.ppath && !d.path.changed && d.path.l == [];
    ReplayRights(d, |p.l|);
    assert sib[..|p.l|] == p.l && sib[|p.l|] == dest.current && sib[|p.l| + 1..] == p.r;
  }

  /** Replaying `dest`'s moves from the root of its unedited tree leads back to `dest`. */
  lemma {:induction false} ReplayReachesDest<T>(dest: Loc<T>)
    requires Unedited(dest)
    ensures Replay(Some(Zipper(RootOf(dest))), MovesTo(dest.path)) == Ok(Some(dest))
    decreases Depth(dest.path)
  {
    if dest.path.Frame? {
      var p := dest.path;
      var parent := Loc(p.pnode, p.ppath);
      ReplayReachesDest(parent);
      MovesToFrame(p);
      assert MovesTo(p) == MovesTo(p.ppath) + (['d'] + Rights(|p.l|));
      assert RootOf(parent) == RootOf(dest);
      ReplayConcat(Some(Zipper(RootOf(dest))), MovesTo(p.ppath), ['d'] + Rights(|p.l|));
      DownThenRights(dest);
    }
  }

  /** Between two locations of the same unedited tree, `move_to` returns the destination itself. */
  lemma MoveToSameTree<T>(loc: Loc<T>, dest: Loc<T>)
    requires Unedited(loc) && Unedited(dest) && RootOf(loc) == RootOf(dest)
    ensures Replay(Some(TopOf(loc)), MovesTo(dest.path)) == Ok(Some(dest))
  {
    TopOfUnedited(loc);
    ReplayReachesDest(dest);
  }

  // ------------------------------------------------------------ preorder

  /** What `preorder_next` still owes to the right of and above a path, in pre-order. */
  function RightsPre<T>(p: Path<T>): seq<Tree<T>>
    decreases Depth(p)
  {
    if p.Frame? then PreForest(p.r) + RightsPre(p.ppath) else []
  }

  function PreForest<T>(ts: seq<Tree<T>>): seq<Tree<T>>
    decreases ts
  {
    if ts == [] then [] else Preorder(ts[0]) + PreForest(ts[1..])
  }

  /** The subtrees of `t` in depth-first pre-order: the node, then its children left to right. */
  function Preorder<T>(t: Tree<T>): seq<Tree<T>>
    decreases t
  {
    match t
    case Leaf(_) => [t]
    case Branch(_, kids) => [t] + PreForest(kids)
  }

  function KidsOf<T>(t: Tree<T>): seq<Tree<T>>
  {
    if t.Branch? then t.kids else []
  }

  function RightSizes<T>(p: Path<T>): nat
    decreases Depth(p)
  {
    if p.Frame? then SizeForest(p.r) + RightSizes(p.ppath) else 0
  }

  /** The number of steps `preorder_next` can still take (a termination measure). */
  function PreMeasure<T>(loc: Loc<T>): nat
  {
    if loc.path.Ended? then 0 else Size(loc.current) + RightSizes(loc.path)
  }

  /** The inner loop of `preorder_next`: climb until a right sibling exists; at the top, mark the end. */
  function Climb<T>(u: Loc<T>): (n: Loc<T>)
    ensures PreMeasure(n) <= RightSizes(u.path)
    decreases Depth(u.path)
  {
    match Right(u)
    case Some(r) =>
      assert u.path.r == [u.path.r[0]] + u.path.r[1..];
      r
    case None =>
      if u.path.Frame? then Climb(Up(u).value) else u.(path := Ended)
  }

  function PreorderNextOf<T>(loc: Loc<T>): (n: Option<Loc<T>>)
    ensures n.Some? ==> PreMeasure(n.value) < PreMeasure(loc)
  {
    if loc.path.Ended? then None
    else
      match Down(loc)
      case Some(d) =>
        var kids := loc.current.kids;
        assert d.current == kids[0] && d.path.r == kids[1..];
        assert SizeForest(kids) == Size(kids[0]) + SizeForest(kids[1..]);
        Some(d)
      case None =>
        match Right(loc)
        case Some(r) =>
          assert loc.path.r == [loc.path.r[0]] + loc.path.r[1..];
          Some(r)
        case None =>
          match Up(loc)
          case None => None
          case Some(u) =>
            assert RightSizes(u.path) == RightSizes(loc.path);
            Some(Climb(u))
  }

  /** `preorder_next`. */
  method PreorderNext<T>(loc: Loc<T>) returns (n: Option<Loc<T>>)
    ensures n == PreorderNextOf(loc)
  {
    if loc.path == Ended {
      return None;
    }
    n := Down(loc);
    if n.None? {
      n := Right(loc);
    }
    if n.Some? {
      return n;
    }
    var u := Up(loc);
    while u.Some?
      invariant Up(loc).Some? ==> u.Some? && Climb(u.value) == Climb(Up(loc).value)
      invariant Up(loc).None? ==> u.None?
      decreases if u.Some? then Depth(u.value.path) else 0
    {
      var r := Right(u.value);
      if r.Some? {
        return r;
      } else if u.value.path.Frame? {
        u := Up(u.value);
      } else {
        return Some(u.value.(path := Ended));
      }
    }
    return None;
  }

  /** The locations `preorder_iter` yields from `loc`. */
  function PreorderFrom<T>(loc: Loc<T>): seq<Loc<T>>
    decreases PreMeasure(loc)
  {
    match PreorderNextOf(loc)
    case None => []
    case Some(n) => [n] + PreorderFrom(n)
  }

  /** `preorder_iter`, with the generator's yields collected. */
  method PreorderIter<T>(loc: Loc<T>) returns (ys: seq<Loc<T>>)
    ensures ys == PreorderFrom(loc)
  {
    ys := [];
    var cur: Option<Loc<T>> := Some(loc);
    while cur.Some?
      invariant cur.Some? ==> ys + PreorderFrom(cur.value) == PreorderFrom(loc)
      invariant cur.None? ==> ys == PreorderFrom(loc)
      decreases if cur.Some? then PreMeasure(cur.value) + 1 else 0
    {
      cur := PreorderNext(cur.value);
      if cur.Some? {
        ys := ys + [cur.value];
      }
    }
  }

  /** What the pre-order walk owes from an unedited location: the focus's descendants, the rest, then the root again. */
  function Owed<T>(loc: Loc<T>): seq<Tree<T>>
  {
    if loc.path.Ended? || (loc.path.Nil? && KidsOf(loc.current) == []) then []
    else PreForest(KidsOf(loc.current)) + RightsPre(loc.path) + [RootOf(loc)]
  }

  lemma PreorderHead<T>(t: Tree<T>)
    ensures Preorder(t) == [t] + PreForest(KidsOf(t))
  {
  }

  /** Laying out a node's pre-order in front of what follows it. */
  lemma Regroup<T>(x: T, a: seq<T>, b: seq<T>, c: seq<T>, e: seq<T>)
    ensures [x] + (a + (b + c) + e) == ([x] + a) + b + c + e
  {
  }

  /** Moving right yields the right sibling, which heads what the path still owes. */
  lemma RightOwes<T>(u: Loc<T>)
    requires Unedited(u) && Right(u).Some?
    ensures
      var r := Right(u).value;
      && r.path.Frame? && Unedited(r) && RootOf(r) == RootOf(u)
      && [r.current] + Owed(r) == RightsPre(u.path) + [RootOf(u)]
  {
    NavigationKeepsTree(u);
    var r := Right(u).value;
    var p := u.path;
    assert r.current == p.r[0] && r.path.r == p.r[1..] && r.path.ppath == p.ppath;
    assert PreForest(p.r) == Preorder(p.r[0]) + PreForest(p.r[1..]);
    PreorderHead(r.current);
    var a, b, c := PreForest(KidsOf(r.current)), PreForest(p.r[1..]), RightsPre(p.ppath);
    assert RightsPre(r.path) == b + c;
    assert Owed(r) == a + (b + c) + [RootOf(u)];
    assert RightsPre(u.path) == ([r.current] + a) + b + c;
    Regroup(r.current, a, b, c, [RootOf(u)]);
  }

  /** Moving down focuses the first child, with the other children to its right and the old path above. */
  lemma DownShape<T>(loc: Loc<T>)
    requires Unedited(loc) && KidsOf(loc.current) != []
    ensures Down(loc).Some?
    ensures
      var d := Down(loc).value;
      && d.path.Frame? && Unedited(d) && RootOf(d) == RootOf(loc)
      && d.current == KidsOf(loc.current)[0] && d.path.r == KidsOf(loc.current)[1..] && d.path.ppath == loc.path
  {
    NavigationKeepsTree(loc);
    var kids := KidsOf(loc.current);
    var d := Down(loc).value;
    assert Siblings(d) == [d.current] + d.path.r;
  }

  /** Moving down yields the first child, which heads what the focus still owes. */
  lemma DownOwes<T>(loc: Loc<T>)
    requires Unedited(loc) && KidsOf(loc.current) != []
    ensures Down(loc).Some?
    ensures
      var d := Down(loc).value;
      && d.path.Frame? && Unedited(d) && RootOf(d) == RootOf(loc)
      && [d.current] + Owed(d) == Owed(loc)
  {
    DownShape(loc);
    var kids := KidsOf(loc.current);
    var d := Down(loc).value;
    PreorderHead(d.current);
    var a, b, c := PreForest(KidsOf(d.current)), PreForest(kids[1..]), RightsPre(loc.path);
    assert PreForest(kids) == ([d.current] + a) + b;
    assert Owed(d) == a + (b + c) + [RootOf(loc)];
    Regroup(d.current, a, b, c, [RootOf(loc)]);
  }

  lemma {:induction false} ClimbOwes<T>(u: Loc<T>)
    requires Unedited(u)
    ensures Climb(u).path.Ended? ==> Climb(u).current == RootOf(u) && RightsPre(u.path) == []
    ensures !Climb(u).path.Ended? ==>
              && Climb(u).path.Frame? && Unedited(Climb(u)) && RootOf(Climb(u)) == RootOf(u)
              && [Climb(u).current] + Owed(Climb(u)) == RightsPre(u.path) + [RootOf(u)]
    decreases Depth(u.path)
  {
    if Right(u).Some? {
      RightOwes(u);
    } else if u.path.Frame? {
      var parent := Loc(u.path.pnode, u.path.ppath);
      assert Up(u).value == parent;
      assert Climb(u) == Climb(parent);
      assert RightsPre(u.path) == RightsPre(parent.path);
      ClimbOwes(parent);
    } else {
      assert u.path.Nil?;
    }
  }

  /** One `preorder_next` step yields exactly the next node owed. */
  lemma PreorderNextOwes<T>(loc: Loc<T>)
    requires Unedited(loc) && Owed(loc) != []
    ensures PreorderNextOf(loc).Some?
    ensures
      var n := PreorderNextOf(loc).value;
      [n.current] + Owed(n) == Owed(loc)
      && (n.path.Ended? || (n.path.Frame? && Unedited(n) && RootOf(n) == RootOf(loc)))
  {
    if KidsOf(loc.current) != [] {
      DownOwes(loc);
      assert PreorderNextOf(loc) == Down(loc);
    } else if Right(loc).Some? {
      RightOwes(loc);
      assert PreorderNextOf(loc) == Right(loc);
    } else {
      var parent := Loc(loc.path.pnode, loc.path.ppath);
      assert Up(loc).value == parent;
      assert PreorderNextOf(loc) == Some(Climb(parent));
      assert Owed(loc) == RightsPre(parent.path) + [RootOf(parent)];
      ClimbOwes(parent);
    }
  }

  lemma {:induction false} PreorderFromOwed<T>(loc: Loc<T>)
    requires Unedited(loc) || loc.path.Ended?
    ensures Currents(PreorderFrom(loc)) == Owed(loc)
    decreases PreMeasure(loc)
  {
    if Owed(loc) != [] {
      PreorderNextOwes(loc);
      var n := PreorderNextOf(loc).value;
      PreorderFromOwed(n);
      assert Currents(PreorderFrom(loc)) == [n.current] + Currents(PreorderFrom(n));
    } else if loc.path.Ended? {
    } else {
      assert Down(loc).None? && Right(loc).None? && Up(loc).None?;
    }
  }

  /**
   * From the root, `preorder_iter` yields every other node in pre-order and
   * then the root once more, with the path marked as ended (for the tree
   * a(b(c, d), e(f, g)): b, c, d, e, f, g, a); a root without children
   * yields nothing.
   */
  lemma PreorderIterFromRoot<T>(root: Tree<T>)
    ensures KidsOf(root) != [] ==> Currents(PreorderFrom(Zipper(root))) == Preorder(root)[1..] + [root]
    ensures KidsOf(root) == [] ==> PreorderFrom(Zipper(root)) == []
  {
    PreorderFromOwed(Zipper(root));
    if KidsOf(root) == [] {
      assert Currents(PreorderFrom(Zipper(root))) == [];
    }
  }

  // ----------------------------------------------------------- postorder

  /** `postorder_iter`, with the generator's yields collected. */
  method PostorderIter<T>(loc: Loc<T>) returns (ys: seq<Loc<T>>)
    ensures ys == PostorderFrom(LeftmostDescendantOf(loc))
  {
    var start := LeftmostDescendant(loc);
    ys := [];
    var cur: Option<Loc<T>> := Some(start);
    while cur.Some?
      invariant cur.Some? ==> ys + PostorderFrom(cur.value) == PostorderFrom(start)
      invariant cur.None? ==> ys == PostorderFrom(start)
      decreases if cur.Some? then Remaining(cur.value.path) + 1 else 0
    {
      ys := ys + [cur.value];
      cur := PostorderNext(cur.value);
    }
  }

  // ------------------------------------------------------------- editing

  /** `append`: a new rightmost child; a leaf has no children tuple, so Python raises `TypeError`. */
  function Append<T>(loc: Loc<T>, item: Tree<T>): (x: Result<Loc<T>>)
    ensures x.Ok? <==> IsBranch(loc)
    ensures x.Ok? ==> x.value.current == Branch(loc.current.value, loc.current.kids + [item])
    ensures x.Ok? ==> x.value.path == if loc.path.Frame? then loc.path.(changed := true) else loc.path
  {
    match Children(loc)
    case None => Err(TypeError)
    case Some(kids) => Ok(Replace(loc, MakeNode(loc.current, kids + [item])))
  }

  /** `insert_left`: the item becomes the left neighbour of the focus, which stays put. */
  function InsertLeft<T>(loc: Loc<T>, item: Tree<T>): (x: Result<Loc<T>>)
    ensures x.Err? <==> !loc.path.Frame?
    ensures x.Err? ==> x.error == IndexError
    ensures x.Ok? ==>
              && x.value.current == loc.current && x.value.path.Frame? && x.value.path.changed
              && Siblings(x.value) == loc.path.l + [item, loc.current] + loc.path.r
  {
    match loc.path
    case Frame(l, r, pnode, ppath, _) => Ok(Loc(loc.current, Frame(l + [item], r, pnode, ppath, true)))
    case _ => Err(IndexError)
  }

  /** `insert_right`: the item becomes the right neighbour of the focus, which stays put. */
  function InsertRight<T>(loc: Loc<T>, item: Tree<T>): (x: Result<Loc<T>>)
    ensures x.Err? <==> !loc.path.Frame?
    ensures x.Err? ==> x.error == IndexError
    ensures x.Ok? ==>
              && x.value.current == loc.current && x.value.path.Frame? && x.value.path.changed
              && Siblings(x.value) == loc.path.l + [loc.current, item] + loc.path.r
  {
    match loc.path
    case Frame(l, r, pnode, ppath, _) => Ok(Loc(loc.current, Frame(l, [item] + r, pnode, ppath, true)))
    case _ => Err(IndexError)
  }

  /** After `insert_right`, moving right reaches the item and moving back left returns to the focus. */
  lemma InsertRightThenRight<T>(loc: Loc<T>, item: Tree<T>)
    requires loc.path.Frame?
    ensures Right(InsertRight(loc, item).value).Some?
    ensures Right(InsertRight(loc, item).value).value.current == item
    ensures Left(Right(InsertRight(loc, item).value).value) == Some(InsertRight(loc, item).value)
  {
    LeftRight(InsertRight(loc, item).value);
  }

  // ---------------------------------------------------------- list helper

  /** A Python value as the `list` zipper sees it: a `list` (a branch) or anything else (a leaf). */
  datatype Nested<X> = Atom(x: X) | Items(items: seq<Nested<X>>)

  /** The tree `zipper.list(root)` walks: lists are branches, other values leaves. */
  function ToTree<X>(n: Nested<X>): (t: Tree<Option<X>>)
    ensures n.Items? <==> t.Branch?
    ensures n.Items? ==> |t.kids| == |n.items|
    decreases n
  {
    match n
    case Atom(x) => Leaf(Some(x))
    case Items(items) => Branch(None, seq(|items|, i requires 0 <= i < |items| => ToTree(items[i])))
  }

  /** Reads a tree back as a Python value; trees no list zipper builds read as `None`. */
  function FromTree<X>(t: Tree<Option<X>>): Option<Nested<X>>
    decreases t
  {
    match t
    case Leaf(v) => if v.Some? then Some(Atom(v.value)) else None
    case Branch(v, kids) =>
      if v.Some? then None
      else
        var items := seq(|kids|, i requires 0 <= i < |kids| => FromTree(kids[i]));
        if forall i :: 0 <= i < |items| ==> items[i].Some? then
          Some(Items(seq(|items|, i requires 0 <= i < |items| && items[i].Some? => items[i].value)))
        else None
  }

  /** `zipper.list(root)`. */
  function ListZipper<X>(root: Nested<X>): Loc<Option<X>>
  {
    Zipper(ToTree(root))
  }

  lemma {:induction false} FromToTree<X>(n: Nested<X>)
    ensures FromTree(ToTree(n)) == Some(n)
    decreases n
  {
    match n
    case Atom(_) =>
    case Items(items) =>
      var kids := ToTree(n).kids;
      forall i | 0 <= i < |items| ensures FromTree(kids[i]) == Some(items[i]) {
        FromToTree(items[i]);
      }
      var back := seq(|kids|, i requires 0 <= i < |kids| => FromTree(kids[i]));
      assert seq(|back|, i requires 0 <= i < |back| && back[i].Some? => back[i].value) == items;
  }

  /** Editing a list through the zipper with list-shaped nodes yields a list again. */
  lemma {:induction false} ToTreeFromTree<X>(t: Tree<Option<X>>)
    requires FromTree(t).Some?
    ensures ToTree(FromTree(t).value) == t
    decreases t
  {
    match t
    case Leaf(_) =>
    case Branch(_, kids) =>
      var items := seq(|kids|, i requires 0 <= i < |kids| => FromTree(kids[i]));
      forall i | 0 <= i < |kids| ensures FromTree(kids[i]).Some? && ToTree(FromTree(kids[i]).value) == kids[i] {
        assert items[i] == FromTree(kids[i]);
        ToTreeFromTree(kids[i]);
      }
      var xs := FromTree(t).value.items;
      assert |xs| == |kids|;
      assert forall i :: 0 <= i < |kids| ==> xs[i] == FromTree(kids[i]).value;
      assert ToTree(FromTree(t).value).kids == kids;
  }
}
